=== FILE: README.md ===
# QA Studio in Dafny

A model of QA Studio: a single-page web application for QA work, together
with the serverless handlers and the development server behind it. The
pages generate test cases, test scripts and test plans, audit a page's
accessibility, send API requests and keep a library of user stories, bugs
and test cases. The heavy lifting is done by an external language-model
service and a hosted database. In the model their answers are parameters,
so what is proved is what the application does with whatever comes back.

The model covers these parts:

- **The request and stream client.** This is `request`, with retries and
  exponential back-off. It is also `streamRequest` and `stopStream`, which
  read a `data: …` event stream under an abortable request id
  (`ApiClient`). The event-stream framing written by the script handler and
  read by the client is in `EventStream`.
- **The serverless handlers** under `api/` (`Handlers`). Also the
  development server `server/index.js` (`DevServer`), and the model-output
  clean-up both of them share (`Cleanup`).
- **The client-side store.** This is the reducer, the storage round trip and
  the toasts (`AppState`), plus the database row mappings of the hosted
  database service (`Records`).
- **The pages**:
  - the test-case generator (`TestCaseGenerator`);
  - the script generator (`ScriptGenerator`);
  - the accessibility auditor (`AdaAuditor`);
  - API testing (`ApiTesting`);
  - the test-plan maker (`TestPlanMaker`);
  - the STLC backlog (`StlcBacklog`);
  - the library (`Library`);
  - settings (`Settings`);
  - login and password reset (`Login`, `ResetPassword`, with the auth
    context in `Auth`).
- **The export formats**: CSV, JSON envelopes and Postman collections
  (`Export`, with the RFC 4180 writer and a reader in `Csv`).
- **Navigation**: the hash router (`Router`), the top-level screen choice
  (`AppShell`) and the keyboard shortcuts (`Shortcuts`).

JavaScript values are modelled by `Json.Json`. This covers `null`,
booleans, integers, strings, arrays, and objects as ordered key/value
sequences. A possibly-`undefined` value is an `Option<Json>`.

The JavaScript operators the code leans on are modelled explicitly. They
are:

- truthiness and `||`;
- property reads that throw on `null` and `undefined`;
- object spread;
- template-string interpolation;
- `String.prototype.split`, `trim`, `includes`, `slice` and `toLowerCase`
  (ASCII case mapping only);
- `JSON.stringify`.

`JSON.parse`, the clock, identifiers and every network answer are
parameters.

The code behaves as follows in places where a reader might expect
otherwise:

- `request` retries a 429 response as well. The `throw` for rate limiting
  sits inside the `try`, so the `catch` sees it like any other failure.
- The `finally` of `streamRequest` deletes whatever controller is
  registered under the request id. That may be a newer stream's controller
  (`ApiClient.SharedIdLosesController`).
- The serverless accessibility handler never puts the submitted `html` into
  its prompt.
- The development server's proxy keeps a request body on `HEAD`. Only `GET`
  drops it.
- The CSV writer joins rows with LF, not CRLF.
- Saving a test plan is modelled as the insert the service performs.
- An `undefined` id, title or name is dropped from the insert body, so
  its column holds `NULL` and the next load gives `null`, not `undefined`.
- The reset-password page reads its tokens from the text between the first
  and the second `#access_token=` (`split(...)[1]`), not from the last one.

## Model

| member | source | states |
|---|---|---|
| ApiClient.ErrorMessage | qa-studio/src/services/api.js:23-26 | the message of a failed response is the body's `message`, else `HTTP <status>`; a body that is not JSON uses the status text; a JSON `null` body throws the TypeError of reading `.message` |
| ApiClient.Classify | qa-studio/src/services/api.js:12-31 | one attempt: a network failure, a 429 (with its `Retry-After` message) and any other error status are retried; an ok response resolves exactly when its body parses, and is never retried |
| ApiClient.Request | qa-studio/src/services/api.js:8-34 | at most `retries + 1` attempts, none when `retries` is negative; every attempt before the last was retryable; the k-th wait is `backoff * 2^k`; the outcome is the last attempt's value or error, and a retryable error ends the call only on the last attempt |
| ApiClient.TotalWait | qa-studio/src/services/api.js:29-31 | a call whose attempts all fail waits `backoff * (2^retries - 1)` milliseconds in total |
| ApiClient.Waits | qa-studio/src/services/api.js:31 | the n waits of a failing call are `backoff * 2^k` for k below n |
| ApiClient.Register | qa-studio/src/services/api.js:37-38 | the id maps to the new controller, no other id is added or dropped, and every other id keeps its controller |
| ApiClient.Unregister | qa-studio/src/services/api.js:73-75 | the id is gone and every other registration is kept as it was |
| ApiClient.Stop | qa-studio/src/services/api.js:78-84 | a registered id has its controller aborted and removed; an unknown id changes nothing; other ids are untouched |
| ApiClient.StopIdempotent | qa-studio/src/services/api.js:78-84 | stopping the same id twice aborts only once |
| ApiClient.SharedIdLosesController | qa-studio/src/services/api.js:36-84 | when two streams share an id, the first one's `finally` removes the second one's controller, so `stopStream` can no longer abort it |
| ApiClient.StreamRequest | qa-studio/src/services/api.js:36-76 | the registry afterwards never holds the id; a rejected fetch or error status yields nothing and does not return normally; otherwise the fragments are the parsed payloads before the first `[DONE]`, and without `[DONE]` the end follows how the body ended |
| EventStream.Chunks | qa-studio/api/ai/generate-script.js:96-100 | every piece is non-empty and at most `size` long, and all pieces but the last are exactly `size` long |
| EventStream.ChunksConcat | qa-studio/api/ai/generate-script.js:96-100 | the pieces put back together are the script |
| EventStream.ChunksCount | qa-studio/api/ai/generate-script.js:96-100 | there are ceil(length / size) pieces |
| EventStream.TextPayloads | qa-studio/api/ai/generate-script.js:99 | one `{"text": piece}` payload per piece, in order |
| EventStream.AllPayloadsAppend | qa-studio/src/services/api.js:56-72 | reading more chunks appends their payloads after the earlier ones |
| EventStream.Fragments | qa-studio/src/services/api.js:66-70 | one fragment per payload: the parsed payload, or `{text: payload}` when it does not parse |
| EventStream.UntilDone | qa-studio/src/services/api.js:65 | the payloads kept are a prefix that holds no `[DONE]`; it is all of them when none is `[DONE]`, otherwise the next payload is `[DONE]` |
| EventStream.ReadStream | qa-studio/src/services/api.js:56-72 | the reading loop stops at `[DONE]` exactly when some chunk carries it, and yields the fragments of the payloads before it |
| EventStream.DoneStops | qa-studio/src/services/api.js:65 | payloads that arrive after `[DONE]` never reach the caller |
| EventStream.FramesRoundTrip | qa-studio/api/ai/generate-script.js:99-102 | framing payloads without line breaks as `data: …` events and reading them back in one chunk gives the payloads in order |
| EventStream.FramePerReadRoundTrip | qa-studio/src/services/api.js:56-72 | receiving one frame per read gives the same payloads as one read of all frames |
| EventStream.TextPayloadsOneLine | qa-studio/api/ai/generate-script.js:99 | a stringified text payload has no line break and is never `[DONE]` |
| EventStream.ScriptStreamRoundTrip | qa-studio/api/ai/generate-script.js:96-103 | when the JSON reader inverts `JSON.stringify`, a client receiving a script stream yields one `{text}` fragment per 50-character piece of the script, in order, and stops at `[DONE]` |
| EventStream.ErrorBodyRoundTrip | qa-studio/api/ai/generate-script.js:104-107 | a failed stream carries exactly one `{error}` payload and no `[DONE]`, and the client yields that error object |
| EventStream.OneLineChunk | qa-studio/src/services/api.js:61-64 | a chunk without a line break yields its text after `data: `, or nothing |
| EventStream.SplitFrameLost | qa-studio/src/services/api.js:60-64 | a frame cut inside its payload between two reads is not reassembled: the first part comes through as a payload of its own and the rest is dropped |
| Cleanup.CleanScriptPlain | qa-studio/api/ai/generate-script.js:91 | a script without backticks is only trimmed |
| Cleanup.CleanScriptFenced | qa-studio/api/ai/generate-script.js:91 | a script wrapped in a fence with a language tag comes out as its code, trimmed |
| Cleanup.CleanJsonPlain | qa-studio/api/ai/generate-testcases.js:111 | a JSON reply without backticks is only trimmed |
| Cleanup.CleanJsonFenced | qa-studio/api/ai/generate-testcases.js:111 | a reply wrapped in a json fence comes out as its body, trimmed |
| Cleanup.GreedySpan | qa-studio/server/index.js:142 | the match runs from the first opening bracket to the last closing one, begins and ends with them, and exists exactly when that opening bracket comes before that closing one |
| Cleanup.GreedySpanMatches | qa-studio/server/index.js:226 | the greedy pattern matches exactly when some opening bracket precedes some closing bracket |
| Handlers.MethodGuard | qa-studio/api/ai/generate-testcases.js:8-15 | only POST goes on; OPTIONS gets an empty 200 and every other method a 405 `Method not allowed` |
| Handlers.Caught | qa-studio/api/ai/generate-testcases.js:116-122 | a thrown error becomes a 500 whose `error` is the message, or the handler's fallback when the message is empty |
| Handlers.GeminiResultText | qa-studio/api/ai/generate-testcases.js:103 | the optional chain reads the text of the first part of the first candidate |
| Handlers.ReplyText | qa-studio/api/ai/generate-testcases.js:100-106 | the reply text is found exactly when the body parses and the first candidate's text is a non-empty string, and it is that text |
| Handlers.GeminiJson | qa-studio/api/ai/generate-testcases.js:85-115 | a fetch failure is rethrown; an error status throws an `Error`; a result is returned only for an ok response whose cleaned text parses, and it is that parse |
| Handlers.GeminiJsonFenced | qa-studio/api/ai/generate-testcases.js:100-115 | a reply holding a fenced JSON document gives back the document |
| Handlers.GenerateTestCases | qa-studio/api/ai/generate-testcases.js:1-124 | the prompt is sent exactly for a POST whose body destructures, whose `userStory` is a non-empty string, and with a key; a story that is neither missing, `null` nor a string throws at `substring` and gets the caught 500; a falsy story is a 400 and a missing key a 500; the reply is the 429 rate-limit answer exactly when the upstream error is a rate limit, and otherwise the reply to the parsed data |
| Handlers.TestCasesData | qa-studio/api/ai/generate-testcases.js:113-115 | parsed data other than `null` is the 200 reply; `null` throws at `data.testCases` and gets the caught 500; a thrown error is caught |
| Handlers.TestCasesStatus | qa-studio/api/ai/generate-testcases.js:17-122 | a POST always gets a JSON reply with status 200, 400, 429 or 500; 200 exactly when the prompt was sent and the parsed data is not `null`; 400 exactly when the story is missing, `null` or empty |
| Handlers.TestCasesFencedReply | qa-studio/api/ai/generate-testcases.js:100-115 | a fenced JSON document from Gemini reaches the client unchanged, unless it is `null` |
| Handlers.TestCasesUpstreamFailure | qa-studio/api/ai/generate-testcases.js:85-98 | an upstream error status gives 429 exactly when it is rate limiting (status 429 or the text mentions quota or rate limit), and 500 otherwise |
| Handlers.GenerateFromNotes | qa-studio/api/ai/generate-from-notes.js:16-98 | the prompt is sent exactly for truthy notes, a key and type `story` or `bug`; it uses the story template exactly for `story`; missing notes are a 400 and another type a 400 `Type must be "story" or "bug"` |
| Handlers.AuditAccessibility | qa-studio/api/ai/audit-accessibility.js:16-92 | the prompt is sent exactly when a URL or HTML is given and there is a key; without both it is a 400; the WCAG level defaults to `2.1 AA` |
| Handlers.ResponseBodyExcerpt | qa-studio/api/ai/generate-assertions.js:33 | a present body gives at most 2000 characters, a prefix of the string or of its pretty JSON; an absent body throws |
| Handlers.GenerateAssertions | qa-studio/api/ai/generate-assertions.js:16-86 | the prompt is sent exactly for a truthy `response` with a body and a key; the request method defaults to GET and the URL to empty; the body excerpt is at most 2000 characters |
| Handlers.Summarize | qa-studio/api/ai/summarize.js:16-74 | the prompt is sent exactly when `content` or `text` is truthy and there is a key; it uses the audit template exactly for type `accessibility-audit`; a 200 carries the trimmed reply text as `summary` |
| Handlers.ProxyBody | qa-studio/api/proxy/execute.js:30-32 | a body is sent exactly when it is truthy and the method is neither GET nor HEAD; a string goes as is, anything else as its JSON |
| Handlers.HeaderObject | qa-studio/api/proxy/execute.js:37-40 | every response header has a key, keys are unique, and a repeated header keeps its last value |
| Handlers.ProxyExecute | qa-studio/api/proxy/execute.js:16-64 | the request is made exactly when the URL is truthy; the method defaults to GET and the headers to `{}`; a fetch failure is the caught 500; a non-JSON response is relayed with its status, status text, headers, text and time; a JSON response gives 200 exactly when it parses |
| Handlers.ProxyJsonBody | qa-studio/api/proxy/execute.js:45-57 | a JSON response body is relayed as its pretty-printed JSON text |
| Handlers.StepsText | qa-studio/api/ai/generate-script.js:25 | missing steps print as `undefined`; an array without null steps prints; a null step or a non-array throws |
| Handlers.InputScenario | qa-studio/api/ai/generate-script.js:25 | a truthy scenario wins; with neither a scenario nor a test case there is none; a test case that prints gives a scenario |
| Handlers.GenerateScript | qa-studio/api/ai/generate-script.js:1-109 | OPTIONS is the only preflight and other non-POST methods stream the method error; framework, language and browser default to Playwright, typescript and chromium; headless and fixtures are on unless `false`; a missing scenario or key and an upstream error status stream their error events; a reply streams the cleaned script |
| Handlers.ScriptHandlerRoundTrip | qa-studio/api/ai/generate-script.js:81-103 | for a fenced script reply, a client reading the stream yields the trimmed code in 50-character `{text}` fragments, in order, and sees `[DONE]` |
| DevServer.ModelName | qa-studio/server/index.js:36 | the configured model name, or `gemini-2.5-flash` when none is set |
| DevServer.Health | qa-studio/server/index.js:58-66 | the health answer says `ok`, whether the model is connected, and the model name only when it is |
| DevServer.ModelGuard | qa-studio/server/index.js:122-125 | an AI endpoint answers 503 `AI service unavailable` exactly when the model is not initialised |
| DevServer.ExtractJson | qa-studio/server/index.js:142-147 | without a bracketed span the endpoint fails with its own message; otherwise the result is the parse of the greedy span |
| DevServer.ExtractAmidProse | qa-studio/server/index.js:142-147 | a JSON array or object written amid prose that holds no stray brackets on the outside is read back exactly |
| DevServer.GenerateTestCases | qa-studio/server/index.js:122-153 | 503 without a model; an exception from the model is a 500 with its message; a reply without a bracketed array fails with `Failed to parse test cases from AI response`; otherwise the parsed cases are returned with the model name, or the parse error is a 500 |
| DevServer.AuditAccessibility | qa-studio/server/index.js:206-237 | 503 without a model; an exception from the model is a 500 with its message; no braced object fails with `Failed to parse audit results`; otherwise the parsed object is the answer |
| DevServer.GenerateFromNotes | qa-studio/server/index.js:318-347 | 503 without a model; an exception from the model is a 500 with its message; no braced object fails with `Failed to parse generated content`; otherwise the parse is returned under `generated` |
| DevServer.GenerateAssertions | qa-studio/server/index.js:263-290 | 503 without a model; a missing request throws into a 500; a reply without an array gives no assertions instead of an error |
| DevServer.TextEndpoint | qa-studio/server/index.js:240-260 | 503 without a model; the model's text under the endpoint's key; a model failure is a 500 with its message |
| DevServer.NonEmpty | qa-studio/server/index.js:189-194 | the texts kept are the chunks filtered by non-emptiness, so (by `Text.FilterKeepsOrder`) a subsequence of them in their order, each as often as it came, and none is empty |
| DevServer.NonEmptyKeepsText | qa-studio/server/index.js:189-194 | skipping the empty chunks loses no text: the events carry the whole answer |
| DevServer.GenerateScript | qa-studio/server/index.js:156-203 | JSON 503 without a model; otherwise an event stream of one `{text}` event per non-empty model chunk, ending in `[DONE]` or, when the model stream fails, in one error event |
| DevServer.ScriptStreamRoundTrip | qa-studio/server/index.js:183-202 | the client sees `[DONE]` exactly when the model stream did not fail, and yields the non-empty chunks as `{text}` fragments followed by the error object when it did |
| DevServer.ProxyBody | qa-studio/server/index.js:360-362 | a body is sent exactly when it is truthy and the method is not GET (a HEAD keeps it); a string goes as is, anything else as JSON |
| DevServer.ProxyExecute | qa-studio/server/index.js:350-382 | a fetch failure answers 500 with status 0, `Error`, the message as body and time 0; a response is relayed as 200 with its status, status text, headers (last value per name), text body and the elapsed time, under unique keys |
| DevServer.PostData | qa-studio/server/index.js:384-413 | the posted list replaces the stored one, or `[]` when the field is falsy; the other lists are unchanged; the answer is `{success: true}` |
| DevServer.PostLastWriteWins | qa-studio/server/index.js:386-389 | of two posts to the same list the second wins, whatever the first was |
| Csv.DoubleQuotes | qa-studio/src/services/export.js:42 | text without quotes is unchanged; nothing is lost and no other character is added or removed |
| Csv.EscapeField | qa-studio/src/services/export.js:39-45 | a field is quoted exactly when it holds a comma, a quote or a line feed, and is otherwise written as is |
| Csv.EscapeAll | qa-studio/src/services/export.js:39-45 | every field of a record is escaped the same way |
| Csv.UnescapeEscape | qa-studio/src/services/export.js:39-45 | reading an escaped field back gives the field |
| Csv.RecordRoundTrip | qa-studio/src/services/export.js:28-45 | a quote-aware reader splits a written record back into its fields, commas and quotes included |
| Csv.DocumentRoundTrip | qa-studio/src/services/export.js:48 | a written file reads back as its records, line feeds inside fields included |
| Export.OwnEntries | qa-studio/src/services/export.js:216 | an object's entries are its properties in order; an array's are its elements under their index names |
| Export.FlattenMembers | qa-studio/src/services/export.js:216-228 | the flattened record has unique names and only leaf values |
| Export.FlattenObject | qa-studio/src/services/export.js:213-231 | flattening throws exactly for `null`; otherwise the result has unique names and only leaves |
| Export.FlattenFlatRecord | qa-studio/src/services/export.js:213-231 | a record that is already flat flattens to itself |
| Export.FlattenNestedRecord | qa-studio/src/services/export.js:223-224 | a nested flat record is lifted under dotted names, in order |
| Export.ListCell | qa-studio/src/services/export.js:25-26 | a list cell throws exactly when the value is present, not null and not an array |
| Export.StepsCell | qa-studio/src/services/export.js:24 | missing steps give an empty cell; the cell throws exactly for a non-array or an array with a null step |
| Export.TestCaseFields | qa-studio/src/services/export.js:23-38 | a test case has the ten columns of the header; a null test case throws |
| Export.TestCaseRows | qa-studio/src/services/export.js:23 | one row per test case, in order; the export throws exactly when some test case does |
| Export.GenericRow | qa-studio/src/services/export.js:54-62 | (corrected read) one cell per column; a column the record has no own property for is empty, even when its name is a member of `Object.prototype` |
| Export.InheritedText | qa-studio/src/services/export.js:57-62 | a member of `Object.prototype` read as a cell value is written as `String` prints it: `[object Object]` for `__proto__`, `function Object() { [native code] }` for `constructor`, and `function <name>() { [native code] }` for every other member |
| Export.GenericRowAsWritten | qa-studio/src/services/export.js:54-62 | as written, a cell holds the own value's written text; a column the record lacks is empty exactly when its name is not a member of `Object.prototype` |
| Export.FlattenToStringItems | qa-studio/src/services/export.js:213-229 | the items `[{ toString: "a" }, {}]` flatten to themselves |
| Export.InheritedCellRead | qa-studio/src/services/export.js:57-62 | as written, an item without a `toString` property gets the inherited method's text `function toString() { [native code] }` in a `toString` column; corrected, the cell is empty |
| Export.InheritedConstructorRead | qa-studio/src/services/export.js:57-62 | as written, an item without a `constructor` property gets `function Object() { [native code] }` in a `constructor` column; corrected, the cell is empty |
| Export.InheritedColumnRead | qa-studio/src/services/export.js:51-65 | as written, the file for `[{ toString: "a" }, {}]` has the inherited method's text as the second item's cell |
| Export.FlattenAll | qa-studio/src/services/export.js:54-55 | every item is flattened in order, and flattening throws exactly when some item is null |
| Export.ExportCsv | qa-studio/src/services/export.js:15-69 | (corrected header) no file for anything but a non-empty array; it throws exactly when a test-case row throws (test-case layout) or an item is null (generic layout) |
| Export.TestCaseCsvIsDocument | qa-studio/src/services/export.js:48 | the test-case layout is the header record then one escaped record per test case, joined by line feeds |
| Export.HeadersNeedNoQuoting | qa-studio/src/services/export.js:22 | the test-case headers are written bare because none needs quoting |
| Export.ExportCsvTestCaseText | qa-studio/src/services/export.js:19-50 | when the first item looks like a test case the file is the test-case layout of all items |
| Export.TestCaseCsvRoundTrip | qa-studio/src/services/export.js:22-48 | a test-case file reads back as the headers and the rows |
| Export.TestCaseCsvShape | qa-studio/src/services/export.js:19-50 | the test-case layout written from the converted items reads back as the ten headers and each test case's ten fields, one record per test case |
| Export.GenericCsvShape | qa-studio/src/services/export.js:51-68 | (corrected header) a generic file reads back as the first item's flattened names and each item's cells under them |
| Export.GenericCsvRoundTrip | qa-studio/src/services/export.js:51-68 | the corrected generic file reads back as its header and rows |
| Export.CellAsWrittenIsEscaped | qa-studio/src/services/export.js:56-62 | for leaf values the written generic cell is the escaped cell text |
| Export.GenericCsvAgrees | qa-studio/src/services/export.js:51-68 | when no column name needs quoting and no item lacks a column named after a member of `Object.prototype`, the file as written equals the corrected one |
| Export.GenericHeaderCommaSplits | qa-studio/src/services/export.js:53-65 | as written, a column name holding a comma reads back as two columns |
| Export.GenericHeaderCommaKept | qa-studio/src/services/export.js:53-65 | with the names escaped, that column name reads back whole |
| Export.Envelope | qa-studio/src/services/export.js:4-10 | the envelope holds the export time and the data, with an item count for an array and none for an object |
| Export.ExportJson | qa-studio/src/services/export.js:4-13 | the JSON export throws exactly for `null` data (reading its `length`) and is otherwise a pretty-printed object |
| Export.PostmanHeadersAsWritten | qa-studio/src/services/export.js:195 | as written, the headers are one item per own property of the stored value |
| Export.RowHeaders | qa-studio/src/services/export.js:195 | the complete rows of the header editor become headers with their own key and value, in order, and nothing else does |
| Export.PostmanHeaderRows | qa-studio/src/services/export.js:195 | as written, a header row list exports the row index as key and the whole row as value; corrected, it exports the row's key and value |
| Export.UrlSplit | qa-studio/src/services/export.js:196-200 | splitting `scheme//host/p1/…` on `/` gives the scheme, an empty segment, the host and the path |
| Export.UrlObjectParts | qa-studio/src/services/export.js:196-200 | the Postman URL of such a URL has that host and those path segments |
| Export.PostmanRequest | qa-studio/src/services/export.js:192-206 | (corrected headers) the request carries the URL object, and a raw body exactly when the stored body is truthy |
| Export.PostmanItem | qa-studio/src/services/export.js:191-207 | (corrected headers) an item is built exactly when the request is not null and has a string URL |
| Export.PostmanItems | qa-studio/src/services/export.js:191 | (corrected headers) one item per request, in order; the export throws exactly when some request does |
| Export.PostmanCollection | qa-studio/src/services/export.js:185-208 | (corrected headers) a collection exports only when it is an object with a request array, and then has one item per request |
| Export.ExportPostman | qa-studio/src/services/export.js:185-211 | (corrected headers) the file is the pretty-printed envelope of the collection, without an item count |
| Export.EnvelopeOfObject | qa-studio/src/services/export.js:4-10 | an object's envelope has no item count |
| AppState.PatchStatus | qa-studio/src/context/AppContext.jsx:30-31 | a status patch overwrites exactly the fields it carries and never touches the error list |
| AppState.PushCapped | qa-studio/src/context/AppContext.jsx:37 | pushing onto a capped list puts the new entry first, keeps a prefix of the old list behind it, and never exceeds the cap |
| AppState.UpdateById | qa-studio/src/context/AppContext.jsx:46-52 | an update keeps the list's length, merges the patch into every item whose id is strictly equal to the patch's and leaves every other item as it was |
| AppState.Reduce | qa-studio/src/context/AppContext.jsx:28-135 | every action changes only its own slice of the state, and an unknown action returns the state unchanged |
| AppState.AddApiErrorNewestFirst | qa-studio/src/context/AppContext.jsx:32-39 | a recorded API error is the newest entry, followed by a prefix of the older ones, and at most five are kept |
| AppState.AddApiErrorState | qa-studio/src/context/AppContext.jsx:37 | the error list after a report is the first five of the new error followed by the old list |
| AppState.ErrorsKeepNewest | qa-studio/src/context/AppContext.jsx:32-39 | after any run of error reports the list holds the five most recent errors, newest first |
| AppState.PopAfterPush | qa-studio/src/context/AppContext.jsx:128-131 | undo after a push restores the stack, except that a full stack loses its oldest entry |
| AppState.ToggleTwice | qa-studio/src/context/AppContext.jsx:124-125 | toggling the mobile menu twice gives back the same state |
| AppState.UpdateTwice | qa-studio/src/context/AppContext.jsx:46-52 | applying the same update twice is the same as applying it once |
| AppState.UpdateGet | qa-studio/src/context/AppContext.jsx:50 | after an update an addressed item reads the patch's value for the patch's keys and its own value for every other key; other items read as before |
| AppState.DeleteTestCasesExact | qa-studio/src/context/AppContext.jsx:53-57 | after a delete a test case remains exactly when it was there before and its id is not among the ids deleted |
| AppState.OpenThenClose | qa-studio/src/context/AppContext.jsx:120-123 | opening and then closing a modal leaves it closed and every other modal as it was |
| AppState.AddToastAt | qa-studio/src/context/AppContext.jsx:285-292 | a toast's id is the decimal text of the clock reading, the toast is appended, and removal is scheduled exactly for a positive duration |
| AppState.RemoveAppended | qa-studio/src/context/AppContext.jsx:118-119 | removing an id that only appended toasts carry gives back the earlier list |
| AppState.AddedThenRemoved | qa-studio/src/context/AppContext.jsx:116-119 | toasts added under a fresh id and then removed by that id leave the toast list as it was |
| AppState.AddToastState | qa-studio/src/context/AppContext.jsx:116-117 | adding a toast appends it and changes nothing else |
| AppState.ToastExpires | qa-studio/src/context/AppContext.jsx:285-292 | when a toast's timer fires the toast list is what it was before the toast was added |
| AppState.SameMillisecondToasts | qa-studio/src/context/AppContext.jsx:286-289 | two toasts added in the same millisecond share an id, so the first one's timer removes both |
| AppState.HealthActions | qa-studio/src/context/AppContext.jsx:142-163 | a health check dispatches one action when it succeeds and two when it fails |
| AppState.CheckApiStatus | qa-studio/src/context/AppContext.jsx:142-163 | a health check changes only the API status: connected or degraded with the reported model on success, failed with the error recorded first on failure, and the check time in both cases |
| AppState.RestoreSettings | qa-studio/src/context/AppContext.jsx:272-279 | a missing, empty or unparsable saved text leaves the state alone; otherwise the saved object is spread over the settings and nothing else changes |
| AppState.RestoreStoredSettings | qa-studio/src/context/AppContext.jsx:272-283 | settings written out and read back at the next start win over the settings present then, which fill in the rest |
| AppState.RestoreOwnSettings | qa-studio/src/context/AppContext.jsx:272-283 | reading back what the current settings wrote changes nothing |
| AppState.SaveToDatabase | qa-studio/src/context/AppContext.jsx:295-308 | a save succeeds exactly when a user is signed in, there are test cases and the write does not throw; each failure carries its own error |
| Records.TestCaseToRow | qa-studio/src/services/supabaseService.js:24-38 | a saved test-case row keeps the owner, stores an `undefined` id or title as `NULL`, and fills each missing field with its own default |
| Records.StoryToRow | qa-studio/src/services/supabaseService.js:215-225 | a saved story row keeps the owner, stores an `undefined` id or title as `NULL`, and fills each missing field with its own default |
| Records.BugToRow | qa-studio/src/services/supabaseService.js:271-282 | a saved bug row keeps the owner, stores an `undefined` id or title as `NULL`, and fills each missing field with its own default |
| Records.PlanToRow | qa-studio/src/services/supabaseService.js:323-331 | a saved plan row keeps the owner, stores an `undefined` id or name as `NULL`, and fills each missing field with its own default |
| Records.CollectionToRow | qa-studio/src/services/supabaseService.js:81-86 | a saved collection row keeps the owner, stores an `undefined` id or name as `NULL`, and an empty request list replaces a missing one |
| Records.LoadTestCase | qa-studio/src/context/AppContext.jsx:194-207 | a loaded test case takes its fields from the row's columns, with a default group title |
| Records.LoadStory | qa-studio/src/context/AppContext.jsx:209-218 | a loaded story takes its fields from the row's columns |
| Records.LoadBug | qa-studio/src/context/AppContext.jsx:220-230 | a loaded bug takes its fields from the row's columns |
| Records.LoadPlan | qa-studio/src/context/AppContext.jsx:232-239 | a loaded plan takes its fields from the row's columns and always has metadata |
| Records.LoadCollection | qa-studio/src/context/AppContext.jsx:241-245 | a loaded collection takes its fields from the row's columns |
| Records.TestCaseRoundTrip | qa-studio/src/context/AppContext.jsx:194-207 | a test case whose fields are all set comes back unchanged after a save and a reload |
| Records.TestCaseReloaded | qa-studio/src/services/supabaseService.js:24-38 | after a save and a reload a test case keeps an id and title that were set, an `undefined` one comes back `null`, and each unset field comes back as its default |
| Records.StoryRoundTrip | qa-studio/src/context/AppContext.jsx:209-218 | a story whose optional fields are set comes back after a save and a reload unchanged, except that an `undefined` id or title comes back `null` |
| Records.BugRoundTrip | qa-studio/src/context/AppContext.jsx:220-230 | a bug whose optional fields are set comes back after a save and a reload unchanged, except that an `undefined` id or title comes back `null` |
| Records.PlanRoundTrip | qa-studio/src/context/AppContext.jsx:232-239 | a plan comes back unchanged after a save and a reload, except that missing metadata comes back as an empty object and an `undefined` id or name as `null` |
| Records.CollectionRoundTrip | qa-studio/src/context/AppContext.jsx:241-245 | a collection with requests comes back unchanged after a save and a reload, except that an `undefined` id or name comes back `null` |
| Records.UpsertOne | qa-studio/src/services/supabaseService.js:230-236 | an upsert of one row contains that row, adds at most one row, keeps every row with another key and adds nothing else |
| Records.UpsertSingle | qa-studio/src/services/supabaseService.js:230-236 | upserting a one-row batch is upserting that row |
| Records.UpsertOneUnique | qa-studio/src/services/supabaseService.js:229-235 | an upsert keeps the table's keys unique and the row under the written key is the written row |
| Records.Write | qa-studio/src/services/supabaseService.js:16-21 | a write without a user throws "Not authenticated" and changes nothing, an empty write does not reach the database, and a failing write leaves the table as it was |
| Records.TestCaseRows | qa-studio/src/services/supabaseService.js:24-38 | one row per test case, in order |
| Records.SaveTestCases | qa-studio/src/services/supabaseService.js:15-46 | saving test cases appends their rows whatever is already stored, and changes nothing when it fails |
| Records.StoryRows | qa-studio/src/services/supabaseService.js:215-225 | one row per story, in order |
| Records.BugRows | qa-studio/src/services/supabaseService.js:271-282 | one row per bug, in order |
| Records.SaveUserStories | qa-studio/src/services/supabaseService.js:202-245 | saving stories upserts their rows on the owner and story id, and changes nothing when it fails |
| Records.SaveBugs | qa-studio/src/services/supabaseService.js:258-302 | saving bugs upserts their rows on the owner and bug id, and changes nothing when it fails |
| Records.PlanRows | qa-studio/src/services/supabaseService.js:323-331 | one row per plan, in order |
| Records.SaveTestPlans | qa-studio/src/services/supabaseService.js:315-338 | saving plans adds their rows, since the upsert names no conflict columns, and changes nothing when it fails |
| Records.SaveApiCollection | qa-studio/src/services/supabaseService.js:77-94 | saving a collection adds one row even for an empty collection, and changes nothing when it fails |
| Records.UpdateCollections | qa-studio/src/services/supabaseService.js:100-107 | an update renames (unless the name is `undefined`) and replaces the requests of exactly the owner's rows with the collection's id; other rows stay as they were |
| Records.UpdateApiCollection | qa-studio/src/services/supabaseService.js:96-111 | updating a collection rewrites the addressed rows and changes nothing when it fails |
| Records.DeleteTestCases | qa-studio/src/services/supabaseService.js:48-64 | deleting test cases removes exactly the owner's rows whose id is listed, touches no other table, and does nothing for a missing or empty list |
| Records.DeleteUserStories | qa-studio/src/services/supabaseService.js:113-141 | deleting stories removes exactly the owner's rows whose id is listed, touches no other table, and does nothing for a missing or empty list |
| Records.DeleteBugs | qa-studio/src/services/supabaseService.js:143-171 | deleting bugs removes exactly the owner's rows whose id is listed, touches no other table, and does nothing for a missing or empty list |
| Records.DeleteTestPlans | qa-studio/src/services/supabaseService.js:173-189 | deleting plans removes exactly the owner's rows whose id is listed, touches no other table, and does nothing for a missing or empty list |
| Records.DeleteSparesOthers | qa-studio/src/services/supabaseService.js:56-60 | a delete never removes another user's row |
| Records.SaveStoryTwice | qa-studio/src/services/supabaseService.js:229-236 | saving a story twice under the same id leaves one row for it, the later one |
| Records.SaveTestCaseTwice | qa-studio/src/services/supabaseService.js:23-42 | saving the same test case twice stores it twice |
| Records.LoadActions | qa-studio/src/context/AppContext.jsx:176-252 | when any of the five reads fails nothing is dispatched; otherwise the five list actions in order, each carrying one record per row read, in the order read, each record the row's mapping |
| Records.ReloadedTestCases | qa-studio/src/context/AppContext.jsx:195-208 | test cases saved with every property set are loaded back as the very records saved, in the order read |
| Records.ReloadedStories | qa-studio/src/context/AppContext.jsx:210-219 | stories saved with every optional property set are loaded back in the order read, unchanged except that an `undefined` id or title comes back `null` |
| Library.ActiveData | qa-studio/src/pages/Library.jsx:55-73 | each tab shows its own list from the store and an unknown tab shows nothing |
| Library.ItemHit | qa-studio/src/pages/Library.jsx:76-82 | a falsy item never matches, and an item matches only when its title, name or description contains the lower-cased query |
| Library.SearchLower | qa-studio/src/pages/Library.jsx:75-83 | the search succeeds exactly when no field's lower-casing throws, and then is the filter of the items by the item test (`Library.Matches`), so with `Text.FilterKeepsOrder` it keeps exactly the matching items, in order, each as often as it occurs |
| Library.SearchAppend | qa-studio/src/pages/Library.jsx:75-83 | searching two lists and joining the results equals searching the joined list |
| Library.SearchDropsFieldless | qa-studio/src/pages/Library.jsx:76-82 | null and an object without the three fields are dropped even by the empty query |
| Library.EmptyQueryKeepsTitled | qa-studio/src/pages/Library.jsx:77-79 | the empty query keeps every item with a string title |
| Library.Without | qa-studio/src/pages/Library.jsx:88 | deleting an id from the selection removes exactly that id |
| Library.With | qa-studio/src/pages/Library.jsx:89 | adding an id to the selection adds exactly that id and never a duplicate |
| Library.Toggle | qa-studio/src/pages/Library.jsx:85-92 | toggling an id flips whether it is selected and leaves every other id alone |
| Library.ToggleTwice | qa-studio/src/pages/Library.jsx:85-92 | toggling the same id twice gives back the same selection |
| Library.Dedup | qa-studio/src/pages/Library.jsx:98 | a selection built from a list of ids holds each of them once and nothing else |
| Library.SelectAll | qa-studio/src/pages/Library.jsx:94-100 | select-all clears the selection when its size equals the number of visible items and otherwise selects exactly the visible ids |
| Library.SelectAllComparesSizes | qa-studio/src/pages/Library.jsx:95 | one selected id that is not visible still counts as all selected when one item is visible, so select-all clears it |
| Library.Place | qa-studio/src/pages/Library.jsx:313-318 | one step of the grouping appends the test case to its group, opening the group at the end when it is new |
| Library.Group | qa-studio/src/pages/Library.jsx:312-319 | the groups' keys are distinct |
| Library.GroupExact | qa-studio/src/pages/Library.jsx:312-319 | every test case lands in a group, and each group holds exactly the test cases with its key, in order |
| Library.GroupAsWritten | qa-studio/src/pages/Library.jsx:312-319 | the grouping as written succeeds exactly when no key names an inherited member of a plain object, and then agrees with the intended grouping |
| Library.InheritedEpicThrows | qa-studio/src/pages/Library.jsx:313-317 | a test case whose epic is "toString" makes the grouping as written throw, where the intended grouping gives it its own group |
| Library.AddAll | qa-studio/src/pages/Library.jsx:345-351 | adding a scenario's ids selects exactly the old selection and those ids |
| Library.RemoveAll | qa-studio/src/pages/Library.jsx:345-351 | removing a scenario's ids keeps exactly the old selection without those ids |
| Library.SelectScenario | qa-studio/src/pages/Library.jsx:339-354 | the scenario checkbox deselects every case of a fully selected scenario and otherwise selects them all, leaving other ids alone |
| Library.SelectScenarioTwice | qa-studio/src/pages/Library.jsx:339-354 | clicking a fully selected or wholly unselected scenario twice gives back the selection |
| Library.ItemType | qa-studio/src/pages/Library.jsx:108 | the item type shown is the tab name with every hyphen made a space |
| Library.LocalDeletes | qa-studio/src/pages/Library.jsx:118-142 | test cases are removed with one action for all ids, other records with one action per id |
| Library.HandleDelete | qa-studio/src/pages/Library.jsx:102-154 | nothing is deleted without a selection and confirmation; the remote delete comes first, and the store is changed and the selection cleared only when it succeeds |
| Library.CollectionsNeverDeleted | qa-studio/src/pages/Library.jsx:143-145 | the collections tab never deletes anything |
| Library.StoryDeletesExact | qa-studio/src/pages/Library.jsx:125-130 | after a story delete a story remains exactly when it was there and its id was not selected |
| Library.Chosen | qa-studio/src/pages/Library.jsx:163 | the items exported are exactly the visible items whose id is selected |
| Library.HandleExport | qa-studio/src/pages/Library.jsx:156-186 | an export happens only with a selection that hits visible items and a known format; its file is named after the tab and the clock, and success is reported only when the exporter does not throw |
| Library.SwitchTab | qa-studio/src/pages/Library.jsx:203-207 | switching tab clears the query and the selection |
| TestCaseGenerator.CategoryText | qa-studio/src/pages/TestCaseGenerator.jsx:137 | a category reads as its lower-cased text, a missing one as empty, and any other non-string value throws |
| TestCaseGenerator.Classify | qa-studio/src/pages/TestCaseGenerator.jsx:136-148 | fails exactly when some category cannot be lower-cased; otherwise a section is the cases filtered by its category test, so (by `Text.FilterKeepsOrder`) the accepted cases in order, each as often as it occurs |
| TestCaseGenerator.Partition | qa-studio/src/pages/TestCaseGenerator.jsx:136-148 | every case appears in the positive section, the negative section or both, and in both exactly when its category is negative and also names a functional or positive test |
| TestCaseGenerator.FunctionalEdgeInBoth | qa-studio/src/pages/TestCaseGenerator.jsx:138-147 | a "functional edge" case is listed under both sections |
| TestCaseGenerator.CellEdit | qa-studio/src/pages/TestCaseGenerator.jsx:60-65 | a cell edit sets the named field of the addressed cases and changes nothing else |
| TestCaseGenerator.Nulls | qa-studio/src/pages/TestCaseGenerator.jsx:72 | the holes a write past the end of an array leaves read as null here |
| TestCaseGenerator.SetAction | qa-studio/src/pages/TestCaseGenerator.jsx:70-72 | a step edit sets the action of one step on top of the own properties the spread copies from the old step (none for `null`, a number or a boolean), keeps every other step, and extends the list when the index is past its end |
| TestCaseGenerator.StepEditOne | qa-studio/src/pages/TestCaseGenerator.jsx:69-76 | a step edit rewrites only the steps of an addressed case, and throws when those steps cannot be spread |
| TestCaseGenerator.StepEdit | qa-studio/src/pages/TestCaseGenerator.jsx:67-78 | a step edit applies to every case and fails exactly when one addressed case has steps that cannot be spread |
| TestCaseGenerator.StepEditChangesOneAction | qa-studio/src/pages/TestCaseGenerator.jsx:67-78 | after a step edit unaddressed cases are unchanged and addressed cases differ only in the one step's action |
| TestCaseGenerator.RowLabel | qa-studio/src/pages/TestCaseGenerator.jsx:346 | a row label is the first three letters of the title upper-cased and the row number padded to at least three digits |
| TestCaseGenerator.RowNumber | qa-studio/src/pages/TestCaseGenerator.jsx:346 | the padded row number is all digits and reads as the row's position counted from one |
| TestCaseGenerator.RowLabelsDistinct | qa-studio/src/pages/TestCaseGenerator.jsx:346 | two rows of the same table never share a label |
| TestCaseGenerator.StripAsA | qa-studio/src/pages/TestCaseGenerator.jsx:94 | the prefix removal drops a prefix only from a line starting with "as a" in any case and leaves a suffix of the line |
| TestCaseGenerator.DefaultScenarioName | qa-studio/src/pages/TestCaseGenerator.jsx:94-95 | the proposed scenario name is never empty, at most fifty characters, and otherwise the trimmed first line without its "As a" prefix |
| TestCaseGenerator.LazyMatchKeepsRest | qa-studio/src/pages/TestCaseGenerator.jsx:94 | the lazy prefix match removes only "As a" from "As an admin", leaving "n admin" |
| TestCaseGenerator.SavedIdsDistinct | qa-studio/src/pages/TestCaseGenerator.jsx:105-108 | the ids given to one batch of saved cases are pairwise distinct |
| TestCaseGenerator.WithMeta | qa-studio/src/pages/TestCaseGenerator.jsx:106-111 | a saved case gets its id, scenario and time and keeps every other field |
| TestCaseGenerator.Stamped | qa-studio/src/pages/TestCaseGenerator.jsx:106-111 | one saved case per generated case, in order |
| TestCaseGenerator.SaveConfirm | qa-studio/src/pages/TestCaseGenerator.jsx:99-126 | a blank scenario name saves nothing; otherwise the stamped cases go into the store first, and the page is reset only when the database save succeeds |
| TestCaseGenerator.CellKey | qa-studio/src/pages/TestCaseGenerator.jsx:401-404 | Enter on a single-line cell saves the edited value, Escape restores the original, and other keys do nothing |
| TestPlanMaker.ToggleType | qa-studio/src/pages/TestPlanMaker.jsx:37-39 | toggling a test type flips whether it is listed, appends it at the end when it was missing, and leaves every other type alone |
| TestPlanMaker.ToggleTypeTwice | qa-studio/src/pages/TestPlanMaker.jsx:34-41 | toggling the same test type twice lists the same types |
| TestPlanMaker.ToggleTestType | qa-studio/src/pages/TestPlanMaker.jsx:34-41 | an array of test types is toggled; a string of them, when the type is not a substring, becomes its characters followed by the type, and throws (no `filter`) when it is; `undefined`, `null` and any other value throw, with the message naming what failed |
| TestPlanMaker.StringTypesToggledTwice | qa-studio/src/pages/TestPlanMaker.jsx:34-41 | a plan whose test types were stored as a string (restored by line 130) comes back, after toggling one type twice, as the list of the string's characters |
| TestPlanMaker.FindCase | qa-studio/src/pages/TestPlanMaker.jsx:66 | the case found is the first one with the id looked up, and no case has it when none is found |
| TestPlanMaker.CaseTitle | qa-studio/src/pages/TestPlanMaker.jsx:69 | a linked case shows its title, and a missing case or title shows the empty text |
| TestPlanMaker.TraceEntry | qa-studio/src/pages/TestPlanMaker.jsx:67-71 | a matrix entry records the case id, its title and the selected stories |
| TestPlanMaker.Traceability | qa-studio/src/pages/TestPlanMaker.jsx:65-72 | the matrix has one entry per selected test case, in order |
| TestPlanMaker.Metadata | qa-studio/src/pages/TestPlanMaker.jsx:56-73 | the stored metadata holds each form field and the matrix |
| TestPlanMaker.RecordOf | qa-studio/src/pages/TestPlanMaker.jsx:49-74 | the stored plan holds its id, name, description, test cases, draft status and metadata |
| TestPlanMaker.PlanRecord | qa-studio/src/pages/TestPlanMaker.jsx:49-74 | a new plan's id is the clock reading, its name the title, its description the scope or else the objectives, and its status draft |
| TestPlanMaker.Save | qa-studio/src/pages/TestPlanMaker.jsx:43-86 | a blank title saves nothing; a plan with an id is updated and one without is added, and the form is reset; a title that is not a string throws |
| TestPlanMaker.First | qa-studio/src/pages/TestPlanMaker.jsx:139 | the first matrix entry of a non-empty array is its first element |
| TestPlanMaker.LoadPlan | qa-studio/src/pages/TestPlanMaker.jsx:121-140 | every truthy stored field comes back unchanged and every falsy one as `""`, `[]` or the empty schedule; the selected stories are the linked stories of the first matrix entry only, and none without one |
| TestPlanMaker.LoadRecord | qa-studio/src/pages/TestPlanMaker.jsx:121-140 | loading a stored record reads the record's own fields and its metadata's |
| TestPlanMaker.SaveLoadRoundTrip | qa-studio/src/pages/TestPlanMaker.jsx:43-140 | saving a well-formed plan and loading it back gives the same form fields, the id it was saved under, the matrix stored and the selected test cases; the selected stories come back exactly when a test case was linked |
| TestPlanMaker.StoriesBack | qa-studio/src/pages/TestPlanMaker.jsx:139 | the stories read back from the matrix are the linked ones when it has an entry and none otherwise |
| TestPlanMaker.LoadedFields | qa-studio/src/pages/TestPlanMaker.jsx:124-135 | metadata holding a well-formed form's fields reads back as that form |
| StlcBacklog.CreateRequest | qa-studio/src/pages/StlcBacklog.jsx:24-44 | a dialog opens exactly for a non-empty `create` parameter after a question mark; it is the bug form exactly for `bug` and the story form for any other value |
| StlcBacklog.QueryPart | qa-studio/src/pages/StlcBacklog.jsx:30-31 | the text after the only question mark of a hash is its query |
| StlcBacklog.CreateFromQuery | qa-studio/src/pages/StlcBacklog.jsx:29-39 | a hash whose query names a story or a bug opens that form |
| StlcBacklog.CreateParam | qa-studio/src/pages/StlcBacklog.jsx:32-33 | the create parameter of a one-parameter query is read back as written |
| StlcBacklog.QuickCreateOpens | qa-studio/src/pages/StlcBacklog.jsx:24-44 | the hash written for a quick-create of a story or a bug opens the matching form |
| StlcBacklog.Column | qa-studio/src/pages/StlcBacklog.jsx:219 | a column is the subsequence of the items with its status, in list order, each as often as it occurs |
| Text.FilterKeepsOrder | qa-studio/src/pages/StlcBacklog.jsx:219 | `filter` leaves the rejected items out and keeps the others in their order, each as often as it occurs (a subsequence with the same count for every kept value) |
| Json.FindById | qa-studio/src/pages/StlcBacklog.jsx:227 | `items.find(i => i.id === id)` gives the first item whose id is the string, and nothing exactly when no item has it |
| StlcBacklog.ColumnsPartition | qa-studio/src/pages/StlcBacklog.jsx:219 | every item shows in the column of its status and in no other, and an item with an unknown status shows nowhere |
| StlcBacklog.TitleSearch | qa-studio/src/pages/StlcBacklog.jsx:151-152 | fails exactly when some title is neither missing, `null` nor a string; otherwise the result is the items filtered by "the string title contains the query in lower case", so (by `Text.FilterKeepsOrder`) those items in list order |
| StlcBacklog.TitleSearchAppend | qa-studio/src/pages/StlcBacklog.jsx:151-152 | searching two lists joined gives the two searches' results one after the other |
| StlcBacklog.TitleSearchEmptyQuery | qa-studio/src/pages/StlcBacklog.jsx:151-152 | an empty query keeps exactly the items with a string title |
| StlcBacklog.Drop | qa-studio/src/pages/StlcBacklog.jsx:221-235 | a dropped card moves exactly when it is found and not already in the target column |
| StlcBacklog.Outcome | qa-studio/src/pages/StlcBacklog.jsx:88-91 | the final toast reports success exactly when the remote write did not throw, and otherwise names its error |
| StlcBacklog.StatusChange | qa-studio/src/pages/StlcBacklog.jsx:67-93 | the new status goes into the store first and stays whatever the remote save answers; the updated item is what is saved |
| StlcBacklog.StatusUpdateGet | qa-studio/src/pages/StlcBacklog.jsx:73-74 | items with the card's id get the new status and keep the properties the card does not carry; the others are untouched |
| StlcBacklog.StatusChangeMovesCard | qa-studio/src/pages/StlcBacklog.jsx:67-93 | after a status change every story sharing the card's id sits in the new column, and other stories and all bugs are untouched |
| StlcBacklog.DeleteItem | qa-studio/src/pages/StlcBacklog.jsx:95-124 | an item leaves the store at once and is added back when the remote delete fails |
| StlcBacklog.DeleteRestores | qa-studio/src/pages/StlcBacklog.jsx:95-124 | a successful delete removes exactly the stories sharing the item's id; a failed one leaves those stories gone and the item itself last |
| StlcBacklog.ItemWithId | qa-studio/src/pages/StlcBacklog.jsx:127 | a saved item keeps its truthy id or gets the clock reading as its id, and keeps every other property |
| StlcBacklog.SaveItem | qa-studio/src/pages/StlcBacklog.jsx:126-149 | a dialog opened on an item with an id updates, otherwise adds, and the remote save's answer only changes the toast |
| StlcBacklog.CreatedStoryAppended | qa-studio/src/pages/StlcBacklog.jsx:126-133 | a story created from an empty dialog is appended with a truthy id and the form's other properties |
| StlcBacklog.Submit | qa-studio/src/pages/StlcBacklog.jsx:279 | the form submits exactly when its title is a non-blank string, with the dialog item's id; a non-string title throws |
| StlcBacklog.AddStep | qa-studio/src/pages/StlcBacklog.jsx:277 | a new step numbered one past the count with an empty description goes last, and nothing else changes |
| StlcBacklog.AddStepKeepsNumbering | qa-studio/src/pages/StlcBacklog.jsx:277 | adding a step to a consecutively numbered list keeps it consecutively numbered |
| StlcBacklog.UpdateStep | qa-studio/src/pages/StlcBacklog.jsx:278 | only the chosen step changes: it becomes the own properties its spread copies (an object's members, a string step's characters under index keys) with the new description; a missing or `null` step list cannot be read (`reading 'map'`), and any other non-array has no `map` |
| ApiTesting.AddHeader | qa-studio/src/pages/ApiTesting.jsx:158-163 | adding a header appends one empty row and keeps the others |
| ApiTesting.UpdateHeader | qa-studio/src/pages/ApiTesting.jsx:165-170 | editing a header changes only the named field of the row at that index |
| ApiTesting.RemoveHeader | qa-studio/src/pages/ApiTesting.jsx:172-177 | removing a header drops exactly the row at that index, and an index outside the list changes nothing |
| ApiTesting.RemoveAdded | qa-studio/src/pages/ApiTesting.jsx:158-177 | removing the row just added gives back the rows |
| ApiTesting.HeaderMap | qa-studio/src/pages/ApiTesting.jsx:71-74 | the headers sent name only keys of rows whose key and value are both non-empty |
| ApiTesting.LastValue | qa-studio/src/pages/ApiTesting.jsx:72-73 | a key has a value exactly when some counted row carries it |
| ApiTesting.HeaderMapGet | qa-studio/src/pages/ApiTesting.jsx:71-74 | each header sent has the value of the last counted row with its key |
| ApiTesting.SentHeaders | qa-studio/src/pages/ApiTesting.jsx:71-80 | a non-empty bearer or basic credential sets the authorization header, and a basic credential outside Latin-1 makes the send fail |
| ApiTesting.SentBody | qa-studio/src/pages/ApiTesting.jsx:86 | a GraphQL request sends an object holding the query, any other request its body text |
| ApiTesting.Send | qa-studio/src/pages/ApiTesting.jsx:61-97 | a blank URL sends nothing; otherwise the request goes out with its headers and body, and a failure is shown as an error response |
| ApiTesting.RowObjects | qa-studio/src/pages/ApiTesting.jsx:198-202 | one stored object per header row, in order |
| ApiTesting.RequestPairs | qa-studio/src/pages/ApiTesting.jsx:198-202 | the saved request has twelve distinct properties |
| ApiTesting.RowsOf | qa-studio/src/pages/ApiTesting.jsx:572 | header objects read back as rows one for one, or not at all |
| ApiTesting.RowBack | qa-studio/src/pages/ApiTesting.jsx:572 | a stored header row reads back as the same row |
| ApiTesting.RowsBack | qa-studio/src/pages/ApiTesting.jsx:572 | stored header rows read back as the same rows |
| ApiTesting.RequestFieldsFront | qa-studio/src/pages/ApiTesting.jsx:198-202 | the saved request carries the editor's name, method, URL and headers |
| ApiTesting.RequestFieldsBack | qa-studio/src/pages/ApiTesting.jsx:198-202 | the saved request carries the editor's credential, body type, body, GraphQL flag and query |
| ApiTesting.SavedRequestLoads | qa-studio/src/pages/ApiTesting.jsx:198-202 | a request saved to a collection and clicked in the sidebar loads back as the same request |
| ApiTesting.LoadRequest | qa-studio/src/pages/ApiTesting.jsx:571-572 | a stored request loads only when its ten editor fields are present and typed, and the loaded request holds exactly those field values and header rows; one without a name or URL loads as nothing |
| ApiTesting.LoadFields | qa-studio/src/pages/ApiTesting.jsx:571-572 | a stored object whose ten editor fields hold a request's values loads as that request, whatever else it carries |
| ApiTesting.SomeSame | qa-studio/src/pages/ApiTesting.jsx:230-232 | the duplicate test is true only when a stored request has the same name, URL and method, false only when none does, and throws only on a null entry |
| ApiTesting.IsDuplicate | qa-studio/src/pages/ApiTesting.jsx:229-232 | a missing collection has no duplicates |
| ApiTesting.SpreadError | qa-studio/src/pages/ApiTesting.jsx:240-244 | the append fails exactly when a matching collection's request list cannot be spread |
| ApiTesting.AppendTo | qa-studio/src/pages/ApiTesting.jsx:240-244 | appending succeeds exactly when every matching collection's requests can be spread, and then adds the request last to each matching collection and leaves the others alone |
| ApiTesting.SaveToCollection | qa-studio/src/pages/ApiTesting.jsx:179-261 | a save without a user goes to the login page; without a request name it only warns "Please enter a request name first" and writes nothing; without a chosen or named collection it only opens the dialog; it dispatches at most one store action, only after a successful write |
| ApiTesting.CreateCollection | qa-studio/src/pages/ApiTesting.jsx:205-226 | a new collection holds just the saved request under the trimmed name, and the page lists it and selects it only when the write succeeds |
| ApiTesting.NewCollectionHolds | qa-studio/src/pages/ApiTesting.jsx:207-211 | the new collection's id, name and request list are the ones given |
| ApiTesting.AddToCollection | qa-studio/src/pages/ApiTesting.jsx:227-256 | a duplicate request is refused; otherwise the request is appended and the collection written, and the store is updated only when the write succeeds |
| ApiTesting.AddedRequestIsLast | qa-studio/src/pages/ApiTesting.jsx:240-244 | a request saved to an existing collection ends its request list, and other collections are untouched |
| ScriptGenerator.FindFramework | qa-studio/src/pages/TestScriptGenerator.jsx:17-22 | a framework found has the id looked up, and none is found only when no framework has it |
| ScriptGenerator.ChooseFramework | qa-studio/src/pages/TestScriptGenerator.jsx:140-149 | choosing a framework sets it and switches the language to its first one, or to TypeScript for an unknown id, and changes nothing else |
| ScriptGenerator.ChosenLanguageOffered | qa-studio/src/pages/TestScriptGenerator.jsx:142-148 | after choosing a known framework the language is one it offers |
| ScriptGenerator.Extension | qa-studio/src/pages/TestScriptGenerator.jsx:113-114 | every language gets a non-empty file extension |
| ScriptGenerator.OfferedLanguagesHaveExtensions | qa-studio/src/pages/TestScriptGenerator.jsx:17-22 | a language has its own extension exactly when some framework offers it; any other falls back to txt |
| ScriptGenerator.StreamInput | qa-studio/src/pages/TestScriptGenerator.jsx:68-76 | the request carries the scenario, and test data exactly when it is switched on |
| ScriptGenerator.Collect | qa-studio/src/pages/TestScriptGenerator.jsx:78-82 | collecting fragments only appends to the code, and fails exactly when a fragment is null |
| ScriptGenerator.UntextedAddNothing | qa-studio/src/pages/TestScriptGenerator.jsx:79 | fragments without text add nothing to the code |
| ScriptGenerator.CollectTexts | qa-studio/src/pages/TestScriptGenerator.jsx:78-82 | text fragments are appended in the order they arrive |
| ScriptGenerator.Generate | qa-studio/src/pages/TestScriptGenerator.jsx:56-92 | a blank scenario streams nothing; otherwise the request is streamed, its controller forgotten afterwards, and at most one toast shown |
| ScriptGenerator.Finish | qa-studio/src/pages/TestScriptGenerator.jsx:83-87 | nothing is reported for a stopped stream and success exactly for a stream that ended normally |
| ScriptGenerator.StreamedScriptShown | qa-studio/src/pages/TestScriptGenerator.jsx:56-92 | a script the server streams reaches the page unchanged, with the success toast |
| ScriptGenerator.ErrorFrameReportsSuccess | qa-studio/src/pages/TestScriptGenerator.jsx:78-83 | a stream holding only an error frame leaves the code empty and still reports success |
| ScriptGenerator.StopGeneration | qa-studio/src/pages/TestScriptGenerator.jsx:94-100 | stopping with a request in flight aborts and forgets its controller and says so, and otherwise does nothing |
| ScriptGenerator.StopTwice | qa-studio/src/pages/TestScriptGenerator.jsx:94-100 | a second stop for the same request finds no controller to abort |
| AdaAuditor.HasSeverity | qa-studio/src/pages/AdaAuditor.jsx:122-123 | the severity test throws exactly on a null finding |
| AdaAuditor.FilterSeverity | qa-studio/src/pages/AdaAuditor.jsx:122-123 | throws exactly when a finding is null; otherwise the findings filtered by severity, so (by `Text.FilterKeepsOrder`) the findings of that severity in order |
| AdaAuditor.BySeverity | qa-studio/src/pages/AdaAuditor.jsx:122-123 | without findings a severity list is empty, and with an array of findings it is that array filtered |
| AdaAuditor.SeveritiesPartition | qa-studio/src/pages/AdaAuditor.jsx:122-123 | no finding is listed both as an error and as a warning, and a finding of any other severity is listed under neither |
| AdaAuditor.Toggle | qa-studio/src/pages/AdaAuditor.jsx:108-115 | toggling a finding flips whether it is expanded and leaves the others alone |
| AdaAuditor.ToggleTwice | qa-studio/src/pages/AdaAuditor.jsx:108-115 | toggling a finding twice gives back the same expanded set |
| AdaAuditor.Ids | qa-studio/src/pages/AdaAuditor.jsx:31 | the ids of a list of findings, one per finding, throwing on a null finding |
| AdaAuditor.InitialExpanded | qa-studio/src/pages/AdaAuditor.jsx:31 | after an audit exactly the first three findings are expanded; a missing result throws |
| AdaAuditor.Audit | qa-studio/src/pages/AdaAuditor.jsx:18-38 | a blank URL audits nothing; an audit clears the key points; a failed audit clears the results and shows its message; a successful one shows the result with its first findings expanded |
| AdaAuditor.NewAuditDropsKeyPoints | qa-studio/src/pages/AdaAuditor.jsx:24-26 | after a completed audit the Markdown report has no key-points block from an earlier audit |
| AdaAuditor.FirstThreeExpanded | qa-studio/src/pages/AdaAuditor.jsx:31 | of five findings exactly the first three start expanded |
| AdaAuditor.ScoreColor | qa-studio/src/pages/AdaAuditor.jsx:277 | the gauge shows one of the four colours |
| AdaAuditor.ScoreColorMonotone | qa-studio/src/pages/AdaAuditor.jsx:277 | a higher score never shows a worse colour, and each band starts at 90, 70 and 50 |
| AdaAuditor.FindingMarkdown | qa-studio/src/pages/AdaAuditor.jsx:97-101 | a finding's Markdown section starts with a level-three heading, and a null finding throws |
| AdaAuditor.FindingSections | qa-studio/src/pages/AdaAuditor.jsx:96-102 | one Markdown section per finding, in order, throwing when a finding is null |
| AdaAuditor.ReportHead | qa-studio/src/pages/AdaAuditor.jsx:86-95 | the report starts with the title, URL and score, then the summary, then the key points only when there are any, then the findings heading |
| AdaAuditor.MarkdownBlocks | qa-studio/src/pages/AdaAuditor.jsx:86-102 | the report is its head followed by the findings' sections, and fails exactly when the findings are not an array or one is null |
| AdaAuditor.ExportMarkdown | qa-studio/src/pages/AdaAuditor.jsx:83-106 | without results nothing is exported; otherwise the Markdown is the report's blocks joined |
| AdaAuditor.FindingPdf | qa-studio/src/pages/AdaAuditor.jsx:64-67 | a finding's PDF section throws exactly on a null finding |
| AdaAuditor.FindingPdfs | qa-studio/src/pages/AdaAuditor.jsx:64-67 | one PDF section per finding, in order, throwing when a finding is null |
| AdaAuditor.PdfSections | qa-studio/src/pages/AdaAuditor.jsx:58-75 | without results nothing is exported; the PDF is titled with the score out of 100 and holds the summary, the key points when there are any, and one section per finding |
| AdaAuditor.PdfMatchesMarkdown | qa-studio/src/pages/AdaAuditor.jsx:58-100 | for results with a findings array the PDF and the Markdown report both export, with the same summary, the same number of findings and the same finding headings, in order |
| AdaAuditor.ExportJson | qa-studio/src/pages/AdaAuditor.jsx:77-81 | the JSON export is the results themselves, and nothing without results |
| Settings.DefaultsComplete | qa-studio/src/pages/Settings.jsx:5-60 | every prompt name has a non-empty default prompt, and no other name has one |
| Settings.UpdatePrompt | qa-studio/src/pages/Settings.jsx:80-88 | editing a prompt sets that prompt, keeps the other prompts and leaves every other setting alone |
| Settings.Reset | qa-studio/src/pages/Settings.jsx:72-78 | a reset puts back the default prompts, keeps every other setting and says so |
| Settings.EditField | qa-studio/src/pages/Settings.jsx:105-106 | editing a field sets it and leaves every other setting alone |
| Settings.FlagChecked | qa-studio/src/pages/Settings.jsx:201-222 | an export switch is off exactly when the setting is `false`, so a missing setting is on |
| Settings.ShownPrompt | qa-studio/src/pages/Settings.jsx:186 | the editor shows the stored prompt when it is non-empty and the default otherwise |
| Settings.ShownAfterUpdate | qa-studio/src/pages/Settings.jsx:80-88 | after an edit the editor shows the text typed, or the default when the text is empty |
| Settings.ShownAfterReset | qa-studio/src/pages/Settings.jsx:72-78 | after a reset every prompt shows its non-empty default |
| Settings.MissingPromptShowsDefault | qa-studio/src/pages/Settings.jsx:186 | a missing or empty prompt shows its default |
| Settings.Save | qa-studio/src/pages/Settings.jsx:67-70 | saving changes only the store's settings and says so |
| Settings.SaveThenCancel | qa-studio/src/pages/Settings.jsx:67-70 | after a save, cancelling (which puts back the store's settings, line 259) shows every saved field as saved and every other field as the store had it |
| Auth.TokenSegment | qa-studio/src/context/AuthContext.jsx:29 | the segment read holds no `#` and is the whole hash when it has none |
| Auth.ExtractTokens | qa-studio/src/context/AuthContext.jsx:21-37 | the `type` is the query value of the hash's last `#` segment |
| Auth.RecoveryLinkSegment | qa-studio/src/context/AuthContext.jsx:27-29 | in a `#/reset-password#q` link the tokens come from `q` |
| Auth.RecoveryLinkDetected | qa-studio/src/context/AuthContext.jsx:39-45 | a reset link ending in `type=v` starts in recovery exactly when `v` is `recovery` |
| Auth.Initial | qa-studio/src/context/AuthContext.jsx:15-17 | on mount there is no user, loading is on, and recovery is on iff the link carries a recovery type |
| Auth.UserOf | qa-studio/src/context/AuthContext.jsx:55 | a missing or null session gives a null user |
| Auth.OnEvent | qa-studio/src/context/AuthContext.jsx:48-73 | every event sets the user from the session; PASSWORD_RECOVERY enters recovery and ends loading, USER_UPDATED leaves recovery, SIGNED_IN ends loading and enters recovery for a recovery link, others change nothing else |
| Auth.Initialize | qa-studio/src/context/AuthContext.jsx:76-114 | loading always ends; a session set from the link's tokens enters recovery with its user; otherwise the existing session's user is taken, recovery only added for a session with a recovery link; a thrown call changes nothing but loading |
| Auth.UpdatePassword | qa-studio/src/context/AuthContext.jsx:156-168 | the update is sent iff there is a session; without one the error is the missing-session message; it succeeds iff the service reports no error, and then only recovery ends |
| Auth.SignOut | qa-studio/src/context/AuthContext.jsx:139-143 | recovery ends iff the sign-out succeeds; a failure is passed on unchanged |
| Auth.ClearPasswordRecovery | qa-studio/src/context/AuthContext.jsx:170-172 | recovery ends; user and loading are kept |
| Auth.UpdateEndsRecovery | qa-studio/src/context/AuthContext.jsx:156-172 | a successful update leaves the same state as clearing recovery |
| Auth.PasswordProblem | qa-studio/src/pages/Login.jsx:26-35 | a new password is accepted iff it equals its confirmation and has at least six characters; a mismatch is reported before the length |
| Login.ErrorMessage | qa-studio/src/pages/Login.jsx:85-92 | the unconfirmed-email and bad-credential errors are reworded in that order; any other error shows its own text or a generic one |
| Login.ErrorMessageShown | qa-studio/src/pages/Login.jsx:85-92 | some message always shows, and only the two known errors are reworded |
| Login.SignedUp | qa-studio/src/pages/Login.jsx:75-80 | a user without a session is told to check the email and stays on sign-up; otherwise the page says sign in now and leaves sign-up |
| Login.SignedUpAsWritten | qa-studio/src/pages/Login.jsx:73-80 | when the returned value has no `data` property the page always says sign in now and leaves sign-up |
| Login.SignUpWithoutSessionMessage | qa-studio/src/pages/Login.jsx:73-80 | for a user created without a session the intended step says check the email, the written one says sign in now |
| Login.Submit | qa-studio/src/pages/Login.jsx:52-96 | (corrected sign-up message) forgot mode sends a reset, sign-up sends only after the password checks pass, sign-in otherwise; the hash goes home iff sign-in succeeds; an error shows iff nothing was sent or the call failed; loading always ends |
| Login.View | qa-studio/src/pages/Login.jsx:99-196 | recovery always shows the new-password form; otherwise the password field shows outside forgot mode and the confirmation only when signing up |
| Login.TitleMatchesSubmit | qa-studio/src/pages/Login.jsx:154-156 | the form's title names the call that submitting it makes |
| Login.ForgotLink | qa-studio/src/pages/Login.jsx:168 | the forgot link exists only on the sign-in form and enters forgot mode |
| Login.SwitchLink | qa-studio/src/pages/Login.jsx:189-196 | in forgot mode it goes back; otherwise it toggles sign-up |
| Login.ForgotAndBack | qa-studio/src/pages/Login.jsx:168-191 | entering forgot mode and going back restores the sign-in page |
| Login.UpdatePassword | qa-studio/src/pages/Login.jsx:19-50 | the update is sent only after the password checks pass; the redirect home is scheduled iff the checks pass, there is a session and the update succeeds, and then recovery ends; otherwise the auth state is kept |
| Login.UpdateWithoutSession | qa-studio/src/pages/Login.jsx:37 | without a session nothing is sent and the missing-session message shows |
| Login.CancelRecovery | qa-studio/src/pages/Login.jsx:133 | cancelling ends recovery and goes to the login route, which then shows the sign-in form |
| ResetPassword.TokenPart | qa-studio/src/pages/ResetPassword.jsx:25-32 | the token text is empty iff neither the hash nor the URL has the marker, and otherwise starts with `access_token=` |
| ResetPassword.SplitOnce | qa-studio/src/pages/ResetPassword.jsx:27 | the text splits at the marker into the part before it and the part after it when the marker occurs once and no occurrence starts inside the first part |
| ResetPassword.RouteHasNoMarker | qa-studio/src/pages/ResetPassword.jsx:24-27 | no marker starts inside the `#/reset-password` route |
| ResetPassword.NoMarker | qa-studio/src/pages/ResetPassword.jsx:27 | text without `#` has no marker |
| ResetPassword.SameTokensAsContext | qa-studio/src/pages/ResetPassword.jsx:25-37 | for a reset link this page and the auth context read their tokens from the same text |
| ResetPassword.Tokens | qa-studio/src/pages/ResetPassword.jsx:25-37 | the three tokens are the query values of the token text, and all are absent when neither the hash nor the URL carries the marker |
| ResetPassword.Initialize | qa-studio/src/pages/ResetPassword.jsx:14-79 | a session is set iff both tokens are present with a recovery type; the form is ready iff that session or an existing one is truthy; the URL is cleaned only after a set session; a ready page has no error and a page that neither set nor found a session has one |
| ResetPassword.View | qa-studio/src/pages/ResetPassword.jsx:118-156 | the form shows iff initialisation ended with a session; a problem always has text |
| ResetPassword.FormIffSession | qa-studio/src/pages/ResetPassword.jsx:45-69 | after initialisation the page never shows the spinner, and shows the form iff a session was set from the link or already existed |
| ResetPassword.Submit | qa-studio/src/pages/ResetPassword.jsx:81-116 | nothing is sent iff the password checks fail, with their message; sign-out and the login route are scheduled iff the update succeeds; a failed update shows an error |
| ResetPassword.MismatchFirst | qa-studio/src/pages/ResetPassword.jsx:86-94 | a short mismatched password reports the mismatch |
| Router.Lookup | qa-studio/src/router/Router.jsx:14-26 | a path has an own route iff the table names it, and then it is that entry's page |
| Router.LookupIn | qa-studio/src/router/Router.jsx:14-26 | the same for any table |
| Router.RouteTableExact | qa-studio/src/router/Router.jsx:14-26 | eleven routes, no name or page twice, every page routed |
| Router.ComponentAsWritten | qa-studio/src/router/Router.jsx:37 | an own route renders its page, an inherited object member renders that member, anything else renders home |
| Router.InheritedMemberRendered | qa-studio/src/router/Router.jsx:37 | `#/toString` renders the inherited `toString` instead of home |
| Router.Component | qa-studio/src/router/Router.jsx:37 | an own route renders its page and anything else renders home |
| Router.HomeFallback | qa-studio/src/router/Router.jsx:37 | (corrected lookup) home renders exactly for the empty path and the unrouted ones |
| Router.NoInheritedRoute | qa-studio/src/router/Router.jsx:37 | an inherited member's name renders home |
| Router.HashPath | qa-studio/src/router/Router.jsx:41-44 | the path is the hash after `#/`, or after `#` when no slash follows |
| Router.Navigate | qa-studio/src/router/Router.jsx:46-48 | the hash written always starts with `/` and is the path itself when it already does |
| Router.NavigateSlashOptional | qa-studio/src/router/Router.jsx:46-48 | navigating to `/x` and to `x` write the same hash |
| Router.NavigateRoundTrip | qa-studio/src/router/Router.jsx:41-48 | reading back a navigation gives the path without its leading slash |
| Router.NavigateRenders | qa-studio/src/router/Router.jsx:14-48 | navigating to a route's name renders its page |
| AppShell.Decide | qa-studio/src/App.jsx:19-75 | (corrected route lookup) loading shows the spinner; then a reset link shows the reset page; then recovery shows the login page; without a user the app redirects to the login route unless already there; the layout with the routed page shows iff a user is signed in outside recovery |
| AppShell.ShellNeedsUser | qa-studio/src/App.jsx:53-75 | the application's layout is shown only to a signed-in user outside recovery |
| AppShell.RedirectSettles | qa-studio/src/App.jsx:51-60 | after the redirect the login page shows |
| AppShell.ResetLinkBeforeRecovery | qa-studio/src/App.jsx:38-48 | a reset link opens the reset page once loading ends, whatever the user or recovery flag |
| Shortcuts.ShiftTarget | qa-studio/src/hooks/useKeyboardShortcuts.js:19-38 | exactly T, S and A have a page |
| Shortcuts.HandleKey | qa-studio/src/hooks/useKeyboardShortcuts.js:6-45 | keys typed in a text field do nothing; a navigation dispatches nothing; at most two actions; the default is prevented iff Ctrl or Cmd comes with `k` or with Shift and T, S or A |
| Shortcuts.QuickCreateOnly | qa-studio/src/hooks/useKeyboardShortcuts.js:13-17 | Ctrl/Cmd+K only opens quick create |
| Shortcuts.SlashRouteRenders | qa-studio/src/hooks/useKeyboardShortcuts.js:22 | navigating to `/name` renders the route's page |
| Shortcuts.ShortcutPages | qa-studio/src/hooks/useKeyboardShortcuts.js:19-38 | Shift+T, S and A render the test-case, script and API pages |
| Shortcuts.CloseModalState | qa-studio/src/hooks/useKeyboardShortcuts.js:42 | closing a modal changes only its flag |
| Shortcuts.EscapeClosesModals | qa-studio/src/hooks/useKeyboardShortcuts.js:40-44 | Escape outside a text field closes both modals and changes nothing else; inside one nothing changes |
| Shortcuts.OtherKeysIgnored | qa-studio/src/hooks/useKeyboardShortcuts.js:6-45 | keys without a shortcut have no effect |
| Base64.Encode | qa-studio/src/pages/ApiTesting.jsx:79 | the Base64 text has four characters for every started group of three bytes |
| Base64.Btoa | qa-studio/src/pages/ApiTesting.jsx:79 | `btoa` succeeds exactly for text whose characters are all below 256, and its result is a whole number of four-character groups |
| Base64.GroupRoundTrip | qa-studio/src/pages/ApiTesting.jsx:79 | decoding one encoded group of one to three bytes gives those bytes back |
| Base64.EncodeRoundTrip | qa-studio/src/pages/ApiTesting.jsx:79 | decoding the encoding of any bytes gives them back |
| Base64.BtoaRoundTrip | qa-studio/src/pages/ApiTesting.jsx:79 | `atob` undoes `btoa` on every text it accepts |
| Query.Lookup | qa-studio/src/context/AuthContext.jsx:30-32 | a name is found exactly when some pair carries it, and the value found is that of the first such pair |
| Query.LookupAppend | qa-studio/src/context/AuthContext.jsx:30-32 | a later pair under the same name never hides an earlier one |
| Query.Get | qa-studio/src/context/AuthContext.jsx:28-31 | a parameter has a value exactly when some parsed pair carries its name, and the value is that of such a pair |
| Query.ParseDropsOneMark | qa-studio/src/context/AuthContext.jsx:28 | only one leading `?` is dropped before the query is cut into pairs; a second `?` is part of the first name |
| Query.GetEmpty | qa-studio/src/context/AuthContext.jsx:30-32 | an empty query has no parameters |
| Query.GetSingle | qa-studio/src/context/AuthContext.jsx:29-32 | a one-pair query `name=value` gives back `value` |
| Cleanup.OpeningNoop | qa-studio/api/ai/generate-script.js:91 | text without backticks loses nothing to the opening-fence removal |
| Cleanup.ClosingNoop | qa-studio/api/ai/generate-script.js:91 | text without backticks loses nothing to the closing-fence removal |

## Left out

- Network and database I/O: `fetch`, the hosted database client and the language-model service. Their answers are parameters of the functions that use them.
- Timers: the back-off sleep, toast auto-dismiss and the redirect delays are recorded as values and never waited for.
- The 30-second health polling (qa-studio/src/context/AppContext.jsx:266-270) is a timer around `checkApiStatus`. Only one status check is modelled.
- Concurrency: the parallel load, optimistic dispatch racing a remote save, and reader pacing. Each operation is modelled as one sequential step.
- `JSON.parse` is a parameter of every member that parses. Only its round trip with `JSON.stringify` is assumed, as a `requires` where it is needed.
- Excel and PDF output (`exportToExcel`, `exportToPdf`), Blob downloads, the clipboard, `window.history` and syntax highlighting are browser or library encoders.
- The generic Markdown export (qa-studio/src/services/export.js:163-183) only wraps given text in a download.
- Floating point: scores and times are integers, and the score gauge's circle geometry is not modelled.
- Text: `URLSearchParams` percent-decoding, UTF-16 code-unit lengths and Unicode case mapping are left out. Case mapping is ASCII only.
- Prompt texts are opaque strings. Only the choice of template and the values put into it are modelled.
- Presentational components (home, sidebar, header, modals, toasts, badges, tabs and the like) hold no logic beyond rendering.
- `api/health.js` only probes the SDK's construction.
- The second `DELETE_TEST_CASES` case of the reducer (qa-studio/src/context/AppContext.jsx:58-62) can never be reached.
- Handlers that only forward to the service and show a toast are left out: key-point extraction in the auditor, copying a fix or a table, generating from notes, and generating assertions or a script from a response. Only their guards and the state they set are modelled.
- Library.Group lists its groups in order of first appearance. `Object.entries` would list keys that look like array indices first, in ascending order. `Library.GroupExact` proves which test cases each group holds, not the order of the groups.
- Json.Set compares object keys by value and treats `__proto__` as an ordinary key, so an object literal's prototype setter is not modelled.
- Library.Toggle and the other selection operations compare ids by value, as `Set` does for strings and numbers. Object ids, compared by identity, are not modelled.
- Export.PostmanHeadersAsWritten states the number of items only for an object, not for an array or a string value.
- Export.ExportCsv: writes the generic layout with the corrected writer (`Export.GenericCsv`), which quotes the key names and reads only own properties; the layout as written is `Export.GenericCsvAsWritten`, the first and sixth rows of Findings.
- Export.GenericRow: reads only the item's own properties; as written, a column named after a member of `Object.prototype` that the item lacks gets that member's text (`Export.GenericRowAsWritten`), the sixth row of Findings.
- Export.GenericCsvShape: states the read-back of the corrected writer; as written a comma in a key name splits a column (the first row of Findings) and a column named after a member of `Object.prototype` that an item lacks reads that member (the sixth row).
- Export.PostmanRequest: builds its headers with the corrected list (`Export.RowHeaders`), one header per complete editor row; the list as written is `Export.PostmanHeadersAsWritten`, the second row of Findings.
- Export.PostmanItem: built on `Export.PostmanRequest`, so its headers are the corrected ones.
- Export.PostmanItems: built on `Export.PostmanRequest`, so its headers are the corrected ones.
- Export.PostmanCollection: built on `Export.PostmanRequest`, so its headers are the corrected ones.
- Export.ExportPostman: built on `Export.PostmanRequest`, so the file carries the corrected headers.
- Router.HomeFallback: states the corrected route lookup (`Router.Component`), which never renders an inherited member; the lookup as written is `Router.ComponentAsWritten`, the third row of Findings.
- AppShell.Decide: routes through the corrected `Router.Component`, not `Router.ComponentAsWritten`.
- Login.Submit: reads a sign-up through the corrected `Login.SignedUp`; the reading as written is `Login.SignedUpAsWritten`, the fifth row of Findings.
- Json.Stringify: objects keep their keys in insertion order. `JSON.stringify` lists keys that look like array indices (`"2"`, `"10"`) first, in ascending order, and the model does not.
- Json.Pretty: keeps insertion order for keys that look like array indices, as `Json.Stringify` does.
- Export.OwnEntries: keeps insertion order where `Object.entries` lists keys that look like array indices first, so the generic CSV's column order can differ for such keys.
- Export.FlattenObject: keeps insertion order for keys that look like array indices, as `Export.OwnEntries` does.
- Handlers.HeaderObject: keeps insertion order for header names that look like array indices.
- ApiTesting.SentHeaders: keeps insertion order for header names that look like array indices.
- Records.LoadActions: the order the rows are read in (newest first) belongs to the database service and is the order given; the `isInitialLoad` flag the loader clears afterwards is not modelled.
- ApiTesting.LoadRequest: the editor state is a typed request, so a stored request with a missing field or a field of another kind loads as nothing; the page would put the stored object into its state as it is.

## Findings

| source | as written | input that shows it | evidently intended | confidence | as-written member | corrected member |
|---|---|---|---|---|---|---|
| qa-studio/src/services/export.js:53-65 | the generic CSV header joins the flattened key names with commas without escaping them | a first item with a key `a,b` | header names quoted like every other field, so the file reads back with one column per key | not executed | Export.GenericHeaderCommaSplits | Export.GenericHeaderCommaKept |
| qa-studio/src/services/export.js:195 | `Object.entries(req.headers)` over the request editor's list of `{ key, value }` rows | a saved request with headers `[{ key: "Accept", value: "x" }]` exports the header `0` whose value is the whole row | one Postman header per complete row, named by its key | not executed | Export.PostmanHeaderRows | Export.RowHeaders |
| qa-studio/src/router/Router.jsx:37 | the route lookup falls back to home only when `routes[currentPath]` is falsy, and that read also finds members inherited from `Object.prototype` | the hash `#/toString` renders `Object.prototype.toString` as a component | every path without its own route renders home | not executed | Router.InheritedMemberRendered | Router.NoInheritedRoute |
| qa-studio/src/pages/Library.jsx:312-319 | the grouping tests `!acc[scenarioKey]` on an object literal, and that read also finds members inherited from `Object.prototype` | a test case whose epic is `toString`: `acc.toString` is a function, so truthy, no group is created, and the push onto the function throws | every test case lands in the group under its own key | not executed | Library.InheritedEpicThrows | Library.GroupExact |
| qa-studio/src/pages/Login.jsx:73-80 | `const { data } = await signUp(...)`, though `signUp` already returns the `data` object (qa-studio/src/context/AuthContext.jsx:121-128) | a sign-up that creates a user without a session says "You can now sign in" | a user without a session is told to check the email | not executed | Login.SignUpWithoutSessionMessage | Login.SignedUp |
| qa-studio/src/services/export.js:56-62 | each cell reads `flat[h]` off the plain object `flattenObject` builds (export.js:213-214), and that read also finds members inherited from `Object.prototype` | the items `[{ toString: "a" }, {}]`: the second item's cell is `function toString() { [native code] }` | a column the item lacks is empty | not executed | Export.InheritedColumnRead | Export.GenericRow |

=== FILE: ada_auditor.dfy ===
/** The accessibility auditor page: running an audit, the findings split
    by severity, which findings are expanded, the score colour, and the
    Markdown and PDF reports. */
module AdaAuditor {
  import opened Wrappers
  import opened Text
  import opened Json
  import AppState

  // ---------------------------------------------------------------------
  // Severity lists
  // ---------------------------------------------------------------------

  /** `f.severity === severity`; reading a property of `null` throws. */
  function HasSeverity(f: Json, severity: string): (r: Result<bool, Exn>)
    ensures r.Err? <==> f == JNull
  {
    if f == JNull then Err(TypeError("Cannot read properties of null (reading 'severity')"))
    else Ok(Prop(Some(f), "severity") == Str(severity))
  }

  /** `findings.filter(f => f.severity === severity)`: the findings of
      that severity in order, or the error of the first `null` finding. */
  function FilterSeverity(findings: seq<Json>, severity: string): (r: Result<seq<Json>, Exn>)
    ensures r.Err? <==> JNull in findings
    ensures r.Ok? ==> r.value == Filter(findings, OfSeverity(severity))
  {
    if |findings| == 0 then Ok([])
    else
      assert findings == [findings[0]] + findings[1..];
      match HasSeverity(findings[0], severity)
      case Err(e) => Err(e)
      case Ok(keep) =>
        match FilterSeverity(findings[1..], severity)
        case Err(e) => Err(e)
        case Ok(rest) =>
          FilterStep(findings, OfSeverity(severity));
          Ok((if keep then [findings[0]] else []) + rest)
  }

  /** The filter's test as a value. */
  function OfSeverity(severity: string): Json -> bool {
    (f: Json) => Prop(Some(f), "severity") == Str(severity)
  }

  /** `results?.findings?.filter(f => f.severity === severity) || []`:
      empty without results or without findings; a findings value that is
      not an array has no `filter`. */
  function BySeverity(results: JsValue, severity: string): (r: Result<seq<Json>, Exn>)
    ensures var fs := Prop(results, "findings");
      (fs.None? || fs == Some(JNull)) ==> r == Ok([])
    ensures var fs := Prop(results, "findings");
      fs.Some? && fs.value.JArr? ==> r == FilterSeverity(fs.value.items, severity)
  {
    var fs := Prop(results, "findings");
    if fs.None? || fs == Some(JNull) then Ok([])
    else if fs.value.JArr? then FilterSeverity(fs.value.items, severity)
    else Err(TypeError("results?.findings?.filter is not a function"))
  }

  /** The error list and the warning list never share a finding, and a
      finding of any other severity is in neither. */
  lemma SeveritiesPartition(results: JsValue, f: Json)
    requires BySeverity(results, "Error").Ok? && BySeverity(results, "Warning").Ok?
    ensures !(f in BySeverity(results, "Error").value && f in BySeverity(results, "Warning").value)
    ensures Prop(Some(f), "severity") != Str("Error") && Prop(Some(f), "severity") != Str("Warning") ==>
      f !in BySeverity(results, "Error").value && f !in BySeverity(results, "Warning").value
  {
  }

  // ---------------------------------------------------------------------
  // Expanded findings
  // ---------------------------------------------------------------------

  /** Finding ids, compared by value. */
  type Expanded = set<JsValue>

  /** `toggleFinding(id)`. */
  function Toggle(expanded: Expanded, id: JsValue): (r: Expanded)
    ensures id in r <==> id !in expanded
    ensures forall other :: other != id ==> (other in r <==> other in expanded)
  {
    if id in expanded then expanded - {id} else expanded + {id}
  }

  lemma ToggleTwice(expanded: Expanded, id: JsValue)
    ensures Toggle(Toggle(expanded, id), id) == expanded
  {
  }

  /** The ids of some findings; reading `id` of `null` throws. */
  function Ids(findings: seq<Json>): (r: Result<seq<JsValue>, Exn>)
    ensures r.Err? <==> JNull in findings
    ensures r.Ok? ==> (|r.value| == |findings| &&
      forall k :: 0 <= k < |findings| ==> r.value[k] == Prop(Some(findings[k]), "id"))
  {
    if |findings| == 0 then Ok([])
    else if findings[0] == JNull then Err(TypeError("Cannot read properties of null (reading 'id')"))
    else
      var rest :- Ids(findings[1..]);
      assert findings == [findings[0]] + findings[1..];
      Ok([Prop(Some(findings[0]), "id")] + rest)
  }

  /** `new Set(result.findings?.slice(0, 3).map(f => f.id) || [])`: a
      `null` result has no `findings` to read, and a findings value that
      is not an array has no `slice` and `map` to call. */
  function InitialExpanded(result: JsValue): (r: Result<Expanded, Exn>)
    ensures result.None? || result == Some(JNull) ==> r.Err?
    ensures var fs := Prop(result, "findings");
      fs.Some? && fs.value.JArr? && Ids(Take(fs.value.items, 3)).Ok? ==>
        r.Ok? && forall id :: id in r.value <==>
          (exists k :: 0 <= k < |Take(fs.value.items, 3)| && Prop(Some(fs.value.items[k]), "id") == id)
    ensures var fs := Prop(result, "findings");
      result.Some? && result != Some(JNull) && (fs.None? || fs == Some(JNull)) ==> r == Ok({})
    ensures var fs := Prop(result, "findings");
      fs.Some? && fs.value != JNull && !fs.value.JArr? ==> r.Err?
  {
    var fs := Prop(result, "findings");
    if result.None? || result == Some(JNull) then Err(TypeError("Cannot read properties of null (reading 'findings')"))
    else if fs.None? || fs == Some(JNull) then Ok({})
    else if fs.value.JArr? then
      var ids :- Ids(Take(fs.value.items, 3));
      Ok(set id | id in ids)
    else Err(TypeError("result.findings?.slice(...).map is not a function"))
  }

  /** What an audit did: the results shown, the key points shown, the
      expanded ids, and the toast. */
  datatype Audited = Audited(results: JsValue, keyPoints: JsValue, expanded: Expanded, toast: AppState.Toast)

  /** `handleAudit()` against the service's answer `reply`. A new audit
      clears the earlier key points before it asks the service. The results
      are shown before the expanded ids are computed, so a failure there
      leaves the results on screen and the old expansion in place. */
  function Audit(url: string, shown: JsValue, keyPoints: JsValue, expanded: Expanded,
                 reply: Result<Json, Exn>): (r: Audited)
    ensures IsBlank(url) ==> r == Audited(shown, keyPoints, expanded, AppState.Toast("Please enter a URL to audit", "warning"))
    ensures !IsBlank(url) ==> r.keyPoints == Some(JNull)
    ensures !IsBlank(url) && reply.Err? ==> r == Audited(Some(JNull), Some(JNull), expanded, AppState.Toast(reply.error.message, "error"))
    ensures !IsBlank(url) && reply.Ok? ==> r.results == Some(reply.value)
    ensures !IsBlank(url) && reply.Ok? && InitialExpanded(Some(reply.value)).Ok? ==>
      r.expanded == InitialExpanded(Some(reply.value)).value && r.toast == AppState.Toast("Audit completed", "success")
    ensures !IsBlank(url) && reply.Ok? && InitialExpanded(Some(reply.value)).Err? ==>
      r.expanded == expanded && r.toast.kind == "error"
  {
    if IsBlank(url) then Audited(shown, keyPoints, expanded, AppState.Toast("Please enter a URL to audit", "warning"))
    else match reply
      case Err(e) => Audited(Some(JNull), Some(JNull), expanded, AppState.Toast(e.message, "error"))
      case Ok(result) =>
        match InitialExpanded(Some(result))
        case Ok(ids) => Audited(Some(result), Some(JNull), ids, AppState.Toast("Audit completed", "success"))
        case Err(e) => Audited(Some(result), Some(JNull), expanded, AppState.Toast(e.message, "error"))
  }

  /** After a completed audit no report carries key points from an earlier
      audit: the Markdown report has no key-points block. */
  lemma NewAuditDropsKeyPoints(url: string, shown: JsValue, keyPoints: JsValue, expanded: Expanded,
                               reply: Result<Json, Exn>)
    requires !IsBlank(url)
    ensures var r := Audit(url, shown, keyPoints, expanded, reply);
      r.results.Some? && r.results.value != JNull ==>
        |ReportHead(url, r.results.value, r.keyPoints)| == 3
  {
  }

  /** Of five findings with ids, exactly the first three start expanded. */
  lemma FirstThreeExpanded(a: Json, b: Json, c: Json, d: Json, e: Json)
    requires a != JNull && b != JNull && c != JNull
    ensures var result := Some(JObj([("findings", JArr([a, b, c, d, e]))]));
      InitialExpanded(result) == Ok({Prop(Some(a), "id"), Prop(Some(b), "id"), Prop(Some(c), "id")})
  {
    var items := [a, b, c, d, e];
    var result := Some(JObj([("findings", JArr(items))]));
    assert Prop(result, "findings") == Some(JArr(items));
    assert Take(items, 3) == [a, b, c];
    ThreeIds(a, b, c);
  }

  /** The ids of three findings, as the set `new Set(…)` builds. */
  lemma ThreeIds(a: Json, b: Json, c: Json)
    requires a != JNull && b != JNull && c != JNull
    ensures Ids([a, b, c]).Ok?
    ensures (set id | id in Ids([a, b, c]).value) == {Prop(Some(a), "id"), Prop(Some(b), "id"), Prop(Some(c), "id")}
  {
    var ids := Ids([a, b, c]).value;
    assert ids == [Prop(Some(a), "id"), Prop(Some(b), "id"), Prop(Some(c), "id")];
    assert (set id | id in ids) == {ids[0], ids[1], ids[2]};
  }

  // ---------------------------------------------------------------------
  // Score colour
  // ---------------------------------------------------------------------

  const GREEN := "#22c55e"
  const YELLOW := "#eab308"
  const ORANGE := "#f97316"
  const RED := "#ef4444"

  function ScoreColor(score: int): (c: string)
    ensures c in {GREEN, YELLOW, ORANGE, RED}
  {
    if score >= 90 then GREEN else if score >= 70 then YELLOW else if score >= 50 then ORANGE else RED
  }

  /** How good a colour says the score is: red 0 up to green 3. */
  function Grade(c: string): nat {
    if c == GREEN then 3 else if c == YELLOW then 2 else if c == ORANGE then 1 else 0
  }

  /** A higher score never shows a worse colour, and each band starts at
      its threshold. */
  lemma ScoreColorMonotone(a: int, b: int)
    requires a <= b
    ensures Grade(ScoreColor(a)) <= Grade(ScoreColor(b))
    ensures Grade(ScoreColor(a)) == (if a >= 90 then 3 else if a >= 70 then 2 else if a >= 50 then 1 else 0)
  {
  }

  // ---------------------------------------------------------------------
  // Reports
  // ---------------------------------------------------------------------

  /** `${v}` in a template literal. */
  function Interp(v: JsValue): string {
    ToJsString(v)
  }

  function Field(f: Json, k: string): string {
    Interp(Prop(Some(f), k))
  }

  /** One finding's Markdown section; `f.severity` of `null` throws. */
  function FindingMarkdown(f: Json): (r: Result<string, Exn>)
    ensures r.Err? <==> f == JNull
    ensures r.Ok? ==> "### " <= r.value
  {
    if f == JNull then Err(TypeError("Cannot read properties of null (reading 'severity')"))
    else Ok(FindingText(f))
  }

  /** The section's text: severity and title as its heading, then the
      guideline, selector, fix and snippet. */
  function FindingText(f: Json): (r: string)
    ensures "### " <= r
  {
    "### " + Field(f, "severity") + ": " + Field(f, "title") + "\n\n"
      + "- **WCAG Guideline:** " + Field(f, "wcagGuideline") + "\n"
      + "- **Selector:** `" + Field(f, "selector") + "`\n"
      + "- **Suggested Fix:** " + Field(f, "suggestedFix") + "\n\n"
      + "```html\n" + Field(f, "snippet") + "\n```\n\n"
  }

  function FindingSections(findings: seq<Json>): (r: Result<seq<string>, Exn>)
    ensures r.Err? <==> JNull in findings
    ensures r.Ok? ==> (|r.value| == |findings| &&
      forall k :: 0 <= k < |findings| ==> FindingMarkdown(findings[k]) == Ok(r.value[k]))
  {
    if JNull in findings then Err(TypeError("Cannot read properties of null (reading 'severity')"))
    else Ok(seq(|findings|, k requires 0 <= k < |findings| => FindingText(findings[k])))
  }

  /** The Markdown report up to its findings, in order: title, URL and
      score, summary, key points when there are any, and the findings
      heading. */
  function ReportHead(url: string, results: Json, keyPoints: JsValue): (h: seq<string>)
    ensures |h| == if Truthy(keyPoints) then 4 else 3
    ensures h[0] == "# Accessibility Audit Report\n\n" + "**URL:** " + url + "\n" +
      "**Score:** " + Interp(Prop(Some(results), "score")) + "/100\n\n"
    ensures h[1] == "## Summary\n\n" + Interp(Prop(Some(results), "summary")) + "\n\n"
    ensures Truthy(keyPoints) ==> h[2] == "## Key Points\n\n" + Interp(keyPoints) + "\n\n"
    ensures h[|h| - 1] == "## Findings\n\n"
  {
    var keys := if Truthy(keyPoints) then ["## Key Points\n\n" + Interp(keyPoints) + "\n\n"] else [];
    ["# Accessibility Audit Report\n\n" + "**URL:** " + url + "\n" +
      "**Score:** " + Interp(Prop(Some(results), "score")) + "/100\n\n",
      "## Summary\n\n" + Interp(Prop(Some(results), "summary")) + "\n\n"]
      + keys + ["## Findings\n\n"]
  }

  /** The Markdown report as its blocks: the head, then one section per
      finding in order. `results.findings.forEach` throws when there is no
      findings array. */
  function MarkdownBlocks(url: string, results: Json, keyPoints: JsValue): (r: Result<seq<string>, Exn>)
    ensures var fs := Prop(Some(results), "findings");
      r.Ok? <==> fs.Some? && fs.value.JArr? && JNull !in fs.value.items
    ensures r.Ok? ==> (
      var head := ReportHead(url, results, keyPoints);
      var findings := Prop(Some(results), "findings").value.items;
      head <= r.value && |r.value| == |head| + |findings| &&
      forall k :: 0 <= k < |findings| ==> FindingMarkdown(findings[k]) == Ok(r.value[|head| + k]))
  {
    var fs := Prop(Some(results), "findings");
    if fs.None? || !fs.value.JArr? then Err(TypeError("results.findings.forEach is not a function"))
    else
      var sections :- FindingSections(fs.value.items);
      var head := ReportHead(url, results, keyPoints);
      assert forall k :: 0 <= k < |sections| ==> (head + sections)[|head| + k] == sections[k];
      Ok(head + sections)
  }

  /** `handleExportMarkdown()`: nothing without results; otherwise the
      report text. */
  function ExportMarkdown(url: string, results: JsValue, keyPoints: JsValue): (r: Option<Result<string, Exn>>)
    ensures !Truthy(results) <==> r.None?
    ensures r.Some? ==> (r.value.Ok? <==> MarkdownBlocks(url, results.value, keyPoints).Ok?)
    ensures r.Some? && r.value.Ok? ==> r.value.value == Join(MarkdownBlocks(url, results.value, keyPoints).value, "")
  {
    if !Truthy(results) then None
    else match MarkdownBlocks(url, results.value, keyPoints)
      case Err(e) => Some(Err(e))
      case Ok(blocks) => Some(Ok(Join(blocks, "")))
  }

  /** One finding's PDF section. */
  function FindingPdf(f: Json): (r: Result<(string, string), Exn>)
    ensures r.Err? <==> f == JNull
  {
    if f == JNull then Err(TypeError("Cannot read properties of null (reading 'severity')"))
    else Ok(FindingPdfText(f))
  }

  /** The section's title and content. */
  function FindingPdfText(f: Json): (string, string) {
    (Field(f, "severity") + ": " + Field(f, "title"),
      "WCAG: " + Field(f, "wcagGuideline") + "\nSelector: " + Field(f, "selector") +
      "\nSuggested Fix: " + Field(f, "suggestedFix") + "\n\nCode Snippet:\n" + Field(f, "snippet"))
  }

  function FindingPdfs(findings: seq<Json>): (r: Result<seq<(string, string)>, Exn>)
    ensures r.Err? <==> JNull in findings
    ensures r.Ok? ==> (|r.value| == |findings| &&
      forall k :: 0 <= k < |findings| ==> FindingPdf(findings[k]) == Ok(r.value[k]))
  {
    if JNull in findings then Err(TypeError("Cannot read properties of null (reading 'severity')"))
    else Ok(seq(|findings|, k requires 0 <= k < |findings| => FindingPdfText(findings[k])))
  }

  /** The PDF report: its title and its sections as (title, content). */
  datatype PdfReport = PdfReport(title: string, sections: seq<(string, string)>)

  /** The PDF report, nothing without results: the title names the score
      out of 100, and the sections are Summary, Key Points when there are
      any, then one per finding. */
  function PdfSections(results: JsValue, keyPoints: JsValue): (r: Option<Result<PdfReport, Exn>>)
    ensures !Truthy(results) <==> r.None?
    ensures r.Some? && r.value.Ok? ==> Prop(results, "findings").Some? && Prop(results, "findings").value.JArr?
    ensures r.Some? && r.value.Ok? ==>
      r.value.value.title == "Accessibility Audit Report - Score: " + Interp(Prop(results, "score")) + "/100"
    ensures r.Some? && r.value.Ok? && Prop(results, "findings").Some? && Prop(results, "findings").value.JArr? ==>
      var findings := Prop(results, "findings").value.items;
      var sections := r.value.value.sections;
      var n := if Truthy(keyPoints) then 2 else 1;
      |sections| == n + |findings| &&
      sections[0] == ("Summary", Interp(Prop(results, "summary"))) &&
      (Truthy(keyPoints) ==> sections[1] == ("Key Points", Interp(keyPoints))) &&
      forall k :: 0 <= k < |findings| ==> FindingPdf(findings[k]) == Ok(sections[n + k])
  {
    if !Truthy(results) then None
    else
      var fs := Prop(results, "findings");
      if fs.None? || !fs.value.JArr? then Some(Err(TypeError("results.findings.map is not a function")))
      else match FindingPdfs(fs.value.items)
        case Err(e) => Some(Err(e))
        case Ok(sections) =>
          var keys := if Truthy(keyPoints) then [("Key Points", Interp(keyPoints))] else [];
          Some(Ok(PdfReport("Accessibility Audit Report - Score: " + Interp(Prop(results, "score")) + "/100",
                            [("Summary", Interp(Prop(results, "summary")))] + keys + sections)))
  }

  /** The PDF and the Markdown report show the same score, summary and key
      points, and the same findings in the same order. */
  lemma PdfMatchesMarkdown(url: string, results: Json, keyPoints: JsValue)
    requires Truthy(Some(results))
    requires var fs := Prop(Some(results), "findings"); fs.Some? && fs.value.JArr? && JNull !in fs.value.items
    ensures PdfSections(Some(results), keyPoints).value.Ok? && MarkdownBlocks(url, results, keyPoints).Ok?
    ensures var pdf := PdfSections(Some(results), keyPoints).value.value;
      var md := MarkdownBlocks(url, results, keyPoints).value;
      var findings := Prop(Some(results), "findings").value.items;
      var n := if Truthy(keyPoints) then 2 else 1;
      |pdf.sections| - n == |md| - (n + 2) == |findings| &&
      (forall k :: 0 <= k < |findings| ==>
        pdf.sections[n + k].0 == Field(findings[k], "severity") + ": " + Field(findings[k], "title") &&
        md[n + 2 + k] == FindingText(findings[k])) &&
      md[1] == "## Summary\n\n" + pdf.sections[0].1 + "\n\n"
  {
    var findings := Prop(Some(results), "findings").value.items;
    var pdf := PdfSections(Some(results), keyPoints).value.value;
    assert FindingPdfs(findings).Ok?;
    var md := MarkdownBlocks(url, results, keyPoints).value;
    var head := ReportHead(url, results, keyPoints);
    var n := if Truthy(keyPoints) then 2 else 1;
    assert |head| == n + 2;
    forall k | 0 <= k < |findings|
      ensures pdf.sections[n + k].0 == Field(findings[k], "severity") + ": " + Field(findings[k], "title")
      ensures md[n + 2 + k] == FindingText(findings[k])
    {
      assert FindingPdf(findings[k]) == Ok(pdf.sections[n + k]);
      assert FindingMarkdown(findings[k]) == Ok(md[|head| + k]);
    }
  }

  /** `handleExportJson()`: the results themselves, or nothing without
      results. */
  function ExportJson(results: JsValue): (r: Option<Json>)
    ensures r.Some? <==> Truthy(results)
    ensures r.Some? ==> Some(r.value) == results
  {
    if Truthy(results) then Some(results.value) else None
  }
}

=== FILE: api_client.dfy ===
/** The browser's API client: `request`, which retries a call with
    exponential back-off, and `streamRequest`/`stopStream`, which read an
    event stream under a request id that can be aborted. The network is a
    parameter: `transport(k)` is what the k-th attempt of a call gets back,
    and `parse` is `response.json()` on a body text. Waiting is not
    performed; the model records the waits. */
module ApiClient {
  import opened Wrappers
  import opened Text
  import opened Json
  import opened EventStream

  const BASE_URL := "/api"
  const DEFAULT_RETRIES := 3
  const DEFAULT_BACKOFF := 1000
  const DEFAULT_RETRY_AFTER := "5"
  /** The message of the TypeError V8 raises for `null.message`. */
  const NULL_MESSAGE_ERROR := "Cannot read properties of null (reading 'message')"

  /** An HTTP response: status, status text, the `Retry-After` header if
      present, and the body text. */
  datatype Response = Response(status: int, statusText: string, retryAfter: Option<string>, body: string)

  /** What one `fetch` gives: a response, or a rejection (network failure). */
  datatype Attempt = NetworkError(message: string) | Responded(response: Response)

  /** `response.ok`. */
  predicate IsOk(status: int) { 200 <= status <= 299 }

  function HttpStatusMessage(status: int): string {
    "HTTP " + IntToString(status)
  }

  /** The message of the error thrown for a response that is not ok: the
      body's `message`, or `HTTP <status>`; when the body is not JSON the
      status text stands in for the body's message. A body that is JSON
      `null` makes reading `.message` itself throw. */
  function ErrorMessage(r: Response, parse: string -> Result<Json, string>): (m: string)
    ensures parse(r.body).Err? && r.statusText != "" ==> m == r.statusText
    ensures parse(r.body).Err? && r.statusText == "" ==> m == HttpStatusMessage(r.status)
    ensures parse(r.body) == Ok(JNull) ==> m == NULL_MESSAGE_ERROR
    ensures parse(r.body).Ok? && parse(r.body).value != JNull && IsStr(Prop(Some(parse(r.body).value), "message"))
            && Prop(Some(parse(r.body).value), "message") != Str("")
            ==> m == Prop(Some(parse(r.body).value), "message").value.s
  {
    match parse(r.body)
    case Err(_) => ToJsString(Or(Str(r.statusText), Str(HttpStatusMessage(r.status))))
    case Ok(JNull) => NULL_MESSAGE_ERROR
    case Ok(v) => ToJsString(Or(Prop(Some(v), "message"), Str(HttpStatusMessage(r.status))))
  }

  function RateLimitMessage(retryAfter: Option<string>): string {
    var wait := if retryAfter.Some? && retryAfter.value != "" then retryAfter.value else DEFAULT_RETRY_AFTER;
    "Rate limited. Retry after " + wait + " seconds."
  }

  /** How the body of the `request` loop ends one attempt: with the parsed
      body, with an error that is not retried (the body of an ok response is
      not JSON: that rejection escapes the `try`), or with an error that is. */
  datatype Step = Resolve(value: Json) | Fail(message: string) | Retry(message: string)

  function Classify(a: Attempt, parse: string -> Result<Json, string>): (s: Step)
    ensures a.NetworkError? ==> s == Retry(a.message)
    ensures a.Responded? && a.response.status == 429 ==> s == Retry(RateLimitMessage(a.response.retryAfter))
    ensures a.Responded? && a.response.status != 429 && !IsOk(a.response.status)
            ==> s == Retry(ErrorMessage(a.response, parse))
    ensures a.Responded? && IsOk(a.response.status) ==>
            (s.Resolve? <==> parse(a.response.body).Ok?) && !s.Retry?
  {
    match a
    case NetworkError(m) => Retry(m)
    case Responded(r) =>
      if r.status == 429 then Retry(RateLimitMessage(r.retryAfter))
      else if !IsOk(r.status) then Retry(ErrorMessage(r, parse))
      else
        match parse(r.body)
        case Ok(v) => Resolve(v)
        case Err(e) => Fail(e)
  }

  /** What `request` settles to; `NoAttempt` is the `undefined` it resolves
      to when `retries` is negative and the loop never runs. */
  datatype Outcome = Resolved(value: Json) | Rejected(message: string) | NoAttempt

  function Pow2(n: nat): (r: nat)
    ensures r >= 1
  {
    if n == 0 then 1 else 2 * Pow2(n - 1)
  }

  /** `request(endpoint, { retries, backoff })`: up to `retries + 1`
      attempts; after a failed attempt `k` that is not the last it waits
      `backoff * 2^k` milliseconds. Rate limiting (429), network failures and
      error statuses are retried; an ok response ends the loop. */
  method Request(transport: nat -> Attempt, parse: string -> Result<Json, string>, retries: int, backoff: nat)
    returns (outcome: Outcome, attempts: nat, waits: seq<nat>)
    ensures retries < 0 ==> outcome == NoAttempt && attempts == 0 && waits == []
    ensures retries >= 0 ==> 1 <= attempts <= retries + 1 && !outcome.NoAttempt?
    ensures |waits| == if attempts == 0 then 0 else attempts - 1
    ensures forall k :: 0 <= k < |waits| ==> waits[k] == backoff * Pow2(k)
    ensures forall k :: 0 <= k < attempts - 1 ==> Classify(transport(k), parse).Retry?
    ensures outcome.Resolved? ==> Classify(transport(attempts - 1), parse) == Resolve(outcome.value)
    ensures outcome.Rejected? ==>
      Classify(transport(attempts - 1), parse) == Fail(outcome.message)
      || (attempts == retries + 1 && Classify(transport(attempts - 1), parse) == Retry(outcome.message))
    ensures attempts >= 1 && attempts < retries + 1 ==> !Classify(transport(attempts - 1), parse).Retry?
  {
    outcome := NoAttempt;
    attempts := 0;
    waits := [];
    var attempt: nat := 0;
    while attempt <= retries
      invariant attempts == attempt
      invariant |waits| == attempt
      invariant forall k :: 0 <= k < |waits| ==> waits[k] == backoff * Pow2(k)
      invariant forall k :: 0 <= k < attempt ==> Classify(transport(k), parse).Retry?
      invariant attempt > 0 ==> attempt <= retries
      invariant outcome == NoAttempt
      decreases retries - attempt
    {
      attempts := attempt + 1;
      match Classify(transport(attempt), parse)
      case Resolve(v) =>
        return Resolved(v), attempts, waits;
      case Fail(m) =>
        return Rejected(m), attempts, waits;
      case Retry(m) =>
        if attempt == retries {
          return Rejected(m), attempts, waits;
        }
        waits := waits + [backoff * Pow2(attempt)];
        attempt := attempt + 1;
    }
  }

  function SumWaits(waits: seq<nat>): nat {
    if |waits| == 0 then 0 else waits[0] + SumWaits(waits[1..])
  }

  /** The waits of a call whose attempts all fail add up to
      `backoff * (2^retries - 1)`. */
  lemma {:induction false} TotalWait(backoff: nat, n: nat)
    ensures SumWaits(Waits(backoff, n)) == backoff * (Pow2(n) - 1)
  {
    if n > 0 {
      TotalWait(backoff, n - 1);
      SumWaitsSnoc(Waits(backoff, n - 1), backoff * Pow2(n - 1));
      assert backoff * (Pow2(n) - 1) == backoff * (Pow2(n - 1) - 1) + backoff * Pow2(n - 1);
    }
  }

  function Waits(backoff: nat, n: nat): (r: seq<nat>)
    ensures |r| == n
    ensures forall k :: 0 <= k < n ==> r[k] == backoff * Pow2(k)
  {
    if n == 0 then [] else Waits(backoff, n - 1) + [backoff * Pow2(n - 1)]
  }

  lemma {:induction false} SumWaitsSnoc(waits: seq<nat>, w: nat)
    ensures SumWaits(waits + [w]) == SumWaits(waits) + w
  {
    if |waits| == 0 {
      assert waits + [w] == [w];
    } else {
      assert (waits + [w])[1..] == waits[1..] + [w];
      SumWaitsSnoc(waits[1..], w);
    }
  }

  // ---------------------------------------------------------------------
  // Streams and their abort controllers
  // ---------------------------------------------------------------------

  /** The abort controllers of the streams in flight, by request id; a
      controller is identified by a number. */
  type Registry = map<string, nat>

  function Register(reg: Registry, id: string, controller: nat): (r: Registry)
    ensures id in r && r[id] == controller
    ensures forall other :: other != id ==> (other in r <==> other in reg)
    ensures forall other :: other != id && other in reg ==> r[other] == reg[other]
  {
    reg[id := controller]
  }

  /** The `finally` of `streamRequest`: whatever controller is registered
      under the id is dropped. */
  function Unregister(reg: Registry, id: string): (r: Registry)
    ensures id !in r
    ensures forall other :: other != id && other in reg ==> other in r && r[other] == reg[other]
    ensures forall other :: other in r ==> other in reg
  {
    reg - {id}
  }

  /** `stopStream(id)`: aborts and forgets the controller registered under
      the id; nothing happens for an unknown id. */
  function Stop(reg: Registry, id: string): (r: (Option<nat>, Registry))
    ensures id in reg ==> r.0 == Some(reg[id])
    ensures id !in reg ==> r == (None, reg)
    ensures id !in r.1
    ensures forall other :: other != id ==> (other in r.1 <==> other in reg)
  {
    if id in reg then (Some(reg[id]), reg - {id}) else (None, reg)
  }

  /** Stopping twice aborts once. */
  lemma StopIdempotent(reg: Registry, id: string)
    ensures Stop(Stop(reg, id).1, id) == (None, Stop(reg, id).1)
  {
  }

  /** Two streams started under the same id: when the first one finishes,
      its `finally` removes the second one's controller, which `stopStream`
      can then no longer abort. */
  lemma SharedIdLosesController(reg: Registry, id: string, first: nat, second: nat)
    ensures Stop(Unregister(Register(Register(reg, id, first), id, second), id), id).0 == None
  {
  }

  /** How the body of a stream ended: completely, by an abort, or by a
      failed read. */
  datatype BodyEnd = Complete | AbortedRead | BrokenRead(message: string)

  /** What `fetch` gave the stream: a rejection (an abort before the
      response arrived, or a network failure) or a response with its body
      delivered in chunks. */
  datatype StreamFetch =
    | FetchAborted
    | FetchFailed(message: string)
    | Streamed(status: int, statusText: string, errorBody: string, chunks: seq<string>, end: BodyEnd)

  /** How the generator ended: it returned, or it threw (`AbortError`, or
      an `Error` with a message). */
  datatype StreamEnd = Returned | ThrewAbort | Threw(message: string)

  datatype StreamResult = StreamResult(fragments: seq<Json>, end: StreamEnd)

  /** `streamRequest(endpoint, body, id)` run to its end: the fragments it
      yields and how it ends, and the registry afterwards. */
  function StreamRequest(reg: Registry, id: string, controller: nat, f: StreamFetch,
                         parse: string -> Result<Json, string>): (r: (StreamResult, Registry))
    ensures r.1 == Unregister(reg, id)
    ensures !f.Streamed? || !IsOk(f.status) ==> r.0.fragments == [] && r.0.end != Returned
    ensures f.Streamed? && IsOk(f.status) && DONE in AllPayloads(f.chunks) ==>
            r.0 == StreamResult(Fragments(UntilDone(AllPayloads(f.chunks)), parse), Returned)
    ensures f.Streamed? && IsOk(f.status) && DONE !in AllPayloads(f.chunks) ==>
            r.0.fragments == Fragments(AllPayloads(f.chunks), parse)
            && (r.0.end == Returned <==> f.end == Complete)
            && (r.0.end == ThrewAbort <==> f.end == AbortedRead)
  {
    var running := Register(reg, id, controller);
    var result :=
      match f
      case FetchAborted => StreamResult([], ThrewAbort)
      case FetchFailed(m) => StreamResult([], Threw(m))
      case Streamed(status, statusText, errorBody, chunks, end) =>
        if !IsOk(status) then
          StreamResult([], Threw(ErrorMessage(Response(status, statusText, None, errorBody), parse)))
        else
          var payloads := AllPayloads(chunks);
          if DONE in payloads then StreamResult(Fragments(UntilDone(payloads), parse), Returned)
          else
            StreamResult(Fragments(payloads, parse),
              match end
              case Complete => Returned
              case AbortedRead => ThrewAbort
              case BrokenRead(m) => Threw(m));
    assert Unregister(running, id) == Unregister(reg, id);
    (result, Unregister(running, id))
  }
}

=== FILE: api_testing.dfy ===
/** The API testing page: the request editor's header rows, the headers
    and body actually sent, the response shown, and saving a request into
    a new or an existing collection. */
module ApiTesting {
  import opened Wrappers
  import opened Text
  import opened Json
  import Base64
  import AppState

  datatype HeaderRow = HeaderRow(key: string, value: string)

  /** The request being edited. */
  datatype Request = Request(
    name: string, verb: string, url: string, headers: seq<HeaderRow>,
    authType: string, authValue: string, bodyType: string, body: string,
    graphql: bool, query: string)

  const INITIAL_REQUEST: Request := Request("", "GET", "", [HeaderRow("Content-Type", "application/json")],
    "None", "", "json", "", false, "")

  // ---------------------------------------------------------------------
  // Header rows
  // ---------------------------------------------------------------------

  /** `addHeader()`: an empty row goes last. */
  function AddHeader(rows: seq<HeaderRow>): (r: seq<HeaderRow>)
    ensures |r| == |rows| + 1 && r[..|rows|] == rows && r[|rows|] == HeaderRow("", "")
  {
    rows + [HeaderRow("", "")]
  }

  datatype Field = KeyField | ValueField

  /** `updateHeader(index, field, value)`: one field of one row. */
  function UpdateHeader(rows: seq<HeaderRow>, index: int, field: Field, value: string): (r: seq<HeaderRow>)
    ensures |r| == |rows|
    ensures forall i :: 0 <= i < |rows| && i != index ==> r[i] == rows[i]
    ensures 0 <= index < |rows| ==>
      r[index] == if field == KeyField then rows[index].(key := value) else rows[index].(value := value)
  {
    seq(|rows|, i requires 0 <= i < |rows| =>
      if i == index then (if field == KeyField then rows[i].(key := value) else rows[i].(value := value))
      else rows[i])
  }

  /** `removeHeader(index)`: every row but the one at `index`, in order. */
  function RemoveHeader(rows: seq<HeaderRow>, index: int): (r: seq<HeaderRow>)
    ensures 0 <= index < |rows| ==> r == rows[..index] + rows[index + 1..]
    ensures !(0 <= index < |rows|) ==> r == rows
  {
    if 0 <= index < |rows| then rows[..index] + rows[index + 1..] else rows
  }

  /** Removing the row just added gives the rows back. */
  lemma RemoveAdded(rows: seq<HeaderRow>)
    ensures RemoveHeader(AddHeader(rows), |rows|) == rows
  {
  }

  // ---------------------------------------------------------------------
  // What is sent
  // ---------------------------------------------------------------------

  /** The rows that make it into the header map: key and value both
      non-empty. */
  predicate Counts(row: HeaderRow) {
    row.key != "" && row.value != ""
  }

  /** `headers[h.key] = h.value` for every counted row, in order. */
  function HeaderMap(rows: seq<HeaderRow>): (r: Obj)
    ensures forall k :: HasKey(r, k) ==> exists i :: 0 <= i < |rows| && Counts(rows[i]) && rows[i].key == k
    decreases |rows|
  {
    if |rows| == 0 then []
    else
      var before := HeaderMap(rows[..|rows| - 1]);
      var last := rows[|rows| - 1];
      assert forall i :: 0 <= i < |rows| - 1 ==> rows[..|rows| - 1][i] == rows[i];
      if Counts(last) then
        var r := Set(before, last.key, JStr(last.value));
        assert forall k :: HasKey(r, k) ==> exists i :: 0 <= i < |rows| && Counts(rows[i]) && rows[i].key == k by {
          forall k | HasKey(r, k) ensures exists i :: 0 <= i < |rows| && Counts(rows[i]) && rows[i].key == k {
            if k == last.key {
              assert Counts(rows[|rows| - 1]) && rows[|rows| - 1].key == k;
            } else {
              assert Get(r, k) == Get(before, k);
            }
          }
        }
        r
      else before
  }

  /** The value the last counted row with key `k` gives, read from the
      end. */
  function LastValue(rows: seq<HeaderRow>, k: string): (r: Option<string>)
    ensures r.None? <==> forall i :: 0 <= i < |rows| ==> !(Counts(rows[i]) && rows[i].key == k)
    decreases |rows|
  {
    if |rows| == 0 then None
    else if Counts(rows[|rows| - 1]) && rows[|rows| - 1].key == k then Some(rows[|rows| - 1].value)
    else
      var r := LastValue(rows[..|rows| - 1], k);
      assert forall i :: 0 <= i < |rows| - 1 ==> rows[..|rows| - 1][i] == rows[i];
      r
  }

  /** A header holds the value of the last counted row with its name, so a
      later duplicate overwrites an earlier one. */
  lemma {:induction false} HeaderMapGet(rows: seq<HeaderRow>, k: string)
    ensures Get(HeaderMap(rows), k) == if LastValue(rows, k).Some? then Str(LastValue(rows, k).value) else None
    decreases |rows|
  {
    if |rows| > 0 {
      HeaderMapGet(rows[..|rows| - 1], k);
    }
  }

  /** The error `btoa` raises on a character above U+00FF. */
  const LATIN1_ERROR: Exn := Exn("InvalidCharacterError",
    "The string to be encoded contains characters outside of the Latin1 range.")

  /** The header map with the Authorization the auth settings add: Bearer
      and Basic only with a non-empty value, either one replacing a row
      named `Authorization`. */
  function SentHeaders(req: Request): (r: Result<Obj, Exn>)
    ensures r.Err? <==> req.authType == "Basic" && req.authValue != "" && !Base64.IsLatin1(req.authValue)
    ensures r.Ok? && req.authType == "Bearer" && req.authValue != "" ==>
      Get(r.value, "Authorization") == Str("Bearer " + req.authValue)
    ensures r.Ok? && req.authType == "Basic" && req.authValue != "" ==>
      Get(r.value, "Authorization") == Str("Basic " + Base64.Btoa(req.authValue).value)
    ensures r.Ok? && !(req.authType in {"Bearer", "Basic"} && req.authValue != "") ==>
      r.value == HeaderMap(req.headers)
    ensures r.Ok? ==> forall k :: k != "Authorization" ==> Get(r.value, k) == Get(HeaderMap(req.headers), k)
  {
    var headers := HeaderMap(req.headers);
    if req.authType == "Bearer" && req.authValue != "" then
      Ok(Set(headers, "Authorization", JStr("Bearer " + req.authValue)))
    else if req.authType == "Basic" && req.authValue != "" then
      match Base64.Btoa(req.authValue)
      case None => Err(LATIN1_ERROR)
      case Some(encoded) => Ok(Set(headers, "Authorization", JStr("Basic " + encoded)))
    else Ok(headers)
  }

  /** `request.graphql ? { query } : request.body`. */
  function SentBody(req: Request): (r: Json)
    ensures req.graphql ==> r.JObj? && Get(r.members, "query") == Str(req.query)
    ensures !req.graphql ==> r == JStr(req.body)
  {
    if req.graphql then JObj([("query", JStr(req.query))]) else JStr(req.body)
  }

  /** What `executeApiRequest` is given. */
  datatype Outgoing = Outgoing(verb: string, url: string, headers: Obj, body: Json)

  datatype Response = Response(status: int, statusText: string, body: string, time: int)

  /** What pressing Send did: the request handed to the proxy (if one
      was), the response shown (if any) and the toast. */
  datatype Sent = Sent(outgoing: Option<Outgoing>, response: Option<Response>, toast: AppState.Toast)

  /** The response shown when sending throws. */
  function ErrorResponse(e: Exn): Response {
    Response(0, "Error", e.message, 0)
  }

  /** `handleSend()` against the proxy's answer `reply`. */
  function Send(req: Request, reply: Result<Response, Exn>): (r: Sent)
    ensures IsBlank(req.url) <==> r.response.None?
    ensures IsBlank(req.url) ==> r.outgoing.None? && r.toast == AppState.Toast("Please enter a URL", "warning")
    ensures r.outgoing.Some? <==> !IsBlank(req.url) && SentHeaders(req).Ok?
    ensures r.outgoing.Some? ==>
      r.outgoing.value == Outgoing(req.verb, req.url, SentHeaders(req).value, SentBody(req))
    ensures r.outgoing.Some? && reply.Ok? ==> (r.response == Some(reply.value) &&
      r.toast.kind == (if reply.value.status < 400 then "success" else "warning"))
    ensures !IsBlank(req.url) && (r.outgoing.None? || reply.Err?) ==>
      r.response.Some? && r.response.value.status == 0 && r.response.value.statusText == "Error" &&
      r.toast.kind == "error"
  {
    if IsBlank(req.url) then Sent(None, None, AppState.Toast("Please enter a URL", "warning"))
    else match SentHeaders(req)
      case Err(e) => Sent(None, Some(ErrorResponse(e)), AppState.Toast(e.message, "error"))
      case Ok(headers) =>
        var out := Outgoing(req.verb, req.url, headers, SentBody(req));
        match reply
        case Err(e) => Sent(Some(out), Some(ErrorResponse(e)), AppState.Toast(e.message, "error"))
        case Ok(resp) =>
          Sent(Some(out), Some(resp), AppState.Toast(IntToString(resp.status) + " " + resp.statusText,
            if resp.status < 400 then "success" else "warning"))
  }

  // ---------------------------------------------------------------------
  // Saved requests
  // ---------------------------------------------------------------------

  function RowObject(row: HeaderRow): Json {
    JObj([("key", JStr(row.key)), ("value", JStr(row.value))])
  }

  function RowObjects(rows: seq<HeaderRow>): (r: seq<Json>)
    ensures |r| == |rows|
    ensures forall i :: 0 <= i < |rows| ==> r[i] == RowObject(rows[i])
  {
    seq(|rows|, i requires 0 <= i < |rows| => RowObject(rows[i]))
  }

  /** The property list of `{ ...request, id, savedAt }`. */
  function RequestPairs(req: Request, id: string, savedAt: string): (r: seq<(string, JsValue)>)
    ensures DistinctNames(r) && |r| == 12
  {
    [("name", Str(req.name)), ("method", Str(req.verb)), ("url", Str(req.url)),
     ("headers", Some(JArr(RowObjects(req.headers)))), ("authType", Str(req.authType)),
     ("authValue", Str(req.authValue)), ("bodyType", Str(req.bodyType)), ("body", Str(req.body)),
     ("graphql", Some(JBool(req.graphql))), ("query", Str(req.query)),
     ("id", Str(id)), ("savedAt", Str(savedAt))]
  }

  /** The stored form of a saved request. */
  function RequestObject(req: Request, id: string, savedAt: string): Obj {
    Literal(RequestPairs(req, id, savedAt))
  }

  function RowOf(v: Json): Option<HeaderRow> {
    var key := Prop(Some(v), "key");
    var value := Prop(Some(v), "value");
    if IsStr(key) && IsStr(value) then Some(HeaderRow(key.value.s, value.value.s)) else None
  }

  function RowsOf(items: seq<Json>): (r: Option<seq<HeaderRow>>)
    ensures r.Some? ==> |r.value| == |items| && forall i :: 0 <= i < |items| ==> RowOf(items[i]) == Some(r.value[i])
  {
    if |items| == 0 then Some([])
    else match (RowOf(items[0]), RowsOf(items[1..]))
      case (Some(row), Some(rest)) => Some([row] + rest)
      case _ => None
  }

  /** Reading an editor request back from a stored one (clicking it in
      the sidebar): `None` when a field is missing or of the wrong kind. */
  function LoadRequest(o: Obj): (r: Option<Request>)
    ensures r.Some? ==>
      Get(o, "name") == Str(r.value.name) && Get(o, "method") == Str(r.value.verb) &&
      Get(o, "url") == Str(r.value.url) && Get(o, "authType") == Str(r.value.authType) &&
      Get(o, "authValue") == Str(r.value.authValue) && Get(o, "bodyType") == Str(r.value.bodyType) &&
      Get(o, "body") == Str(r.value.body) && Get(o, "graphql") == Some(JBool(r.value.graphql)) &&
      Get(o, "query") == Str(r.value.query)
    ensures r.Some? ==>
      Get(o, "headers").Some? && Get(o, "headers").value.JArr? &&
      RowsOf(Get(o, "headers").value.items) == Some(r.value.headers)
    ensures !HasKey(o, "name") || !HasKey(o, "url") ==> r.None?
  {
    var name := Get(o, "name");
    var verb := Get(o, "method");
    var url := Get(o, "url");
    var headers := Get(o, "headers");
    var authType := Get(o, "authType");
    var authValue := Get(o, "authValue");
    var bodyType := Get(o, "bodyType");
    var body := Get(o, "body");
    var graphql := Get(o, "graphql");
    var query := Get(o, "query");
    if IsStr(name) && IsStr(verb) && IsStr(url) && headers.Some? && headers.value.JArr? &&
       RowsOf(headers.value.items).Some? && IsStr(authType) && IsStr(authValue) && IsStr(bodyType) &&
       IsStr(body) && graphql.Some? && graphql.value.JBool? && IsStr(query)
    then Some(Request(name.value.s, verb.value.s, url.value.s, RowsOf(headers.value.items).value,
      authType.value.s, authValue.value.s, bodyType.value.s, body.value.s, graphql.value.b, query.value.s))
    else None
  }

  lemma RowBack(row: HeaderRow)
    ensures RowOf(RowObject(row)) == Some(row)
  {
    assert Get(RowObject(row).members, "key") == Str(row.key);
    assert Get(RowObject(row).members, "value") == Str(row.value);
  }

  lemma {:induction false} RowsBack(rows: seq<HeaderRow>)
    ensures RowsOf(RowObjects(rows)) == Some(rows)
    decreases |rows|
  {
    if |rows| > 0 {
      RowsBack(rows[1..]);
      assert RowObjects(rows)[1..] == RowObjects(rows[1..]);
      RowBack(rows[0]);
      assert RowObjects(rows)[0] == RowObject(rows[0]);
      assert [rows[0]] + rows[1..] == rows;
    }
  }

  lemma RequestFieldsFront(req: Request, id: string, savedAt: string)
    ensures Get(RequestObject(req, id, savedAt), "name") == Str(req.name)
    ensures Get(RequestObject(req, id, savedAt), "method") == Str(req.verb)
    ensures Get(RequestObject(req, id, savedAt), "url") == Str(req.url)
    ensures Get(RequestObject(req, id, savedAt), "headers") == Some(JArr(RowObjects(req.headers)))
    ensures Get(RequestObject(req, id, savedAt), "authType") == Str(req.authType)
  {
    var pairs := RequestPairs(req, id, savedAt);
    LiteralGet(pairs, 0);
    LiteralGet(pairs, 1);
    LiteralGet(pairs, 2);
    LiteralGet(pairs, 3);
    LiteralGet(pairs, 4);
  }

  lemma RequestFieldsBack(req: Request, id: string, savedAt: string)
    ensures Get(RequestObject(req, id, savedAt), "authValue") == Str(req.authValue)
    ensures Get(RequestObject(req, id, savedAt), "bodyType") == Str(req.bodyType)
    ensures Get(RequestObject(req, id, savedAt), "body") == Str(req.body)
    ensures Get(RequestObject(req, id, savedAt), "graphql") == Some(JBool(req.graphql))
    ensures Get(RequestObject(req, id, savedAt), "query") == Str(req.query)
  {
    var pairs := RequestPairs(req, id, savedAt);
    LiteralGet(pairs, 5);
    LiteralGet(pairs, 6);
    LiteralGet(pairs, 7);
    LiteralGet(pairs, 8);
    LiteralGet(pairs, 9);
  }

  /** A saved request loads back as the request that was saved. */
  lemma SavedRequestLoads(req: Request, id: string, savedAt: string)
    ensures LoadRequest(RequestObject(req, id, savedAt)) == Some(req)
  {
    RequestFieldsFront(req, id, savedAt);
    RequestFieldsBack(req, id, savedAt);
    LoadFields(RequestObject(req, id, savedAt), req);
  }

  /** An object carrying every editor field loads as that request. */
  lemma LoadFields(o: Obj, req: Request)
    ensures (Get(o, "name") == Str(req.name) && Get(o, "method") == Str(req.verb) &&
        Get(o, "url") == Str(req.url) && Get(o, "headers") == Some(JArr(RowObjects(req.headers))) &&
        Get(o, "authType") == Str(req.authType) && Get(o, "authValue") == Str(req.authValue) &&
        Get(o, "bodyType") == Str(req.bodyType) && Get(o, "body") == Str(req.body) &&
        Get(o, "graphql") == Some(JBool(req.graphql)) && Get(o, "query") == Str(req.query)) ==>
      LoadRequest(o) == Some(req)
  {
    RowsBack(req.headers);
  }

  // ---------------------------------------------------------------------
  // Saving into a collection
  // ---------------------------------------------------------------------

  /** The stored request matches the one being saved on name, url and
      method. */
  predicate SameRequest(r: Json, req: Request) {
    Prop(Some(r), "name") == Str(req.name) && Prop(Some(r), "url") == Str(req.url) &&
    Prop(Some(r), "method") == Str(req.verb)
  }

  /** `requests.some(r => same(r))`: reading a property of `null` throws,
      unless a match came first. */
  function SomeSame(items: seq<Json>, req: Request): (r: Result<bool, Exn>)
    ensures r == Ok(false) <==> forall i :: 0 <= i < |items| ==> items[i] != JNull && !SameRequest(items[i], req)
    ensures r == Ok(true) ==> exists i :: 0 <= i < |items| && SameRequest(items[i], req)
    ensures r.Err? ==> exists i :: 0 <= i < |items| && items[i] == JNull
  {
    if |items| == 0 then Ok(false)
    else if items[0] == JNull then Err(TypeError("Cannot read properties of null (reading 'name')"))
    else if SameRequest(items[0], req) then Ok(true)
    else
      var rest := SomeSame(items[1..], req);
      assert forall i :: 1 <= i < |items| ==> items[i] == items[1..][i - 1];
      rest
  }

  /** `collection?.requests?.some(...)`: no collection or no request list
      is no duplicate; a request list that is not an array has no `some`. */
  function IsDuplicate(collection: Option<Obj>, req: Request): (r: Result<bool, Exn>)
    ensures collection.None? ==> r == Ok(false)
  {
    if collection.None? then Ok(false)
    else
      var requests := Get(collection.value, "requests");
      if requests.None? || requests == Some(JNull) then Ok(false)
      else if requests.value.JArr? then SomeSame(requests.value.items, req)
      else Err(TypeError("collection?.requests?.some is not a function"))
  }

  predicate HasId(c: Obj, id: string) {
    Get(c, "id") == Str(id)
  }

  /** The error spreading the request list of the first collection with
      the given id raises, if one does. */
  function SpreadError(collections: seq<Obj>, id: string): (r: Option<Exn>)
    ensures r.None? <==> forall i :: 0 <= i < |collections| && HasId(collections[i], id) ==>
      Spread(Get(collections[i], "requests")).Ok?
  {
    if |collections| == 0 then None
    else if HasId(collections[0], id) && Spread(Get(collections[0], "requests")).Err? then
      Some(Spread(Get(collections[0], "requests")).error)
    else
      var r := SpreadError(collections[1..], id);
      assert forall i :: 1 <= i < |collections| ==> collections[i] == collections[1..][i - 1];
      r
  }

  /** `{ ...c, requests: [...(c.requests || []), saved] }`. */
  function WithRequest(c: Obj, saved: Obj): Obj {
    match Spread(Get(c, "requests"))
    case Ok(requests) => Set(c, "requests", JArr(requests + [JObj(saved)]))
    case Err(_) => c
  }

  /** `collections.map(c => c.id === id ? { ...c, requests: [...(c.requests || []), saved] } : c)`,
      which throws when a matching collection's request list is not
      iterable. */
  function AppendTo(collections: seq<Obj>, id: string, saved: Obj): (r: Result<seq<Obj>, Exn>)
    ensures r.Ok? <==> forall i :: 0 <= i < |collections| && HasId(collections[i], id) ==>
      Spread(Get(collections[i], "requests")).Ok?
    ensures r.Ok? ==> |r.value| == |collections|
    ensures r.Ok? ==> forall i :: 0 <= i < |collections| && !HasId(collections[i], id) ==>
      r.value[i] == collections[i]
    ensures r.Ok? ==> forall i :: 0 <= i < |collections| && HasId(collections[i], id) ==>
      r.value[i] == Set(collections[i], "requests",
        JArr(Spread(Get(collections[i], "requests")).value + [JObj(saved)]))
  {
    match SpreadError(collections, id)
    case Some(e) => Err(e)
    case None =>
      Ok(seq(|collections|, i requires 0 <= i < |collections| =>
        if HasId(collections[i], id) then WithRequest(collections[i], saved) else collections[i]))
  }

  /** The page's part in saving: the editor, the collections it lists,
      the selected collection's id (`""` for none), the new-collection
      name field and whether its dialog is open. */
  datatype Page = Page(request: Request, collections: seq<Obj>, selected: string, newName: string, modalOpen: bool)

  /** What `saveToCollection` did: the page afterwards, the collection
      handed to the database (if any), the store actions, the toasts and
      the hash it navigated to. */
  datatype Saved = Saved(page: Page, written: Option<Obj>, actions: seq<AppState.Action>,
    toasts: seq<AppState.Toast>, hash: Option<string>)

  function NewCollection(id: string, name: string, saved: Obj): Obj {
    Literal([("id", Str(id)), ("name", Str(name)), ("requests", Some(JArr([JObj(saved)])))])
  }

  function FailedSave(page: Page, written: Option<Obj>, e: Exn): Saved {
    Saved(page, written, [], [AppState.Toast("Failed to save: " + e.message, "error")], None)
  }

  /** `saveToCollection()` at clock reading `now` (`isoNow` in ISO form);
      `remote` is the database write's failure, if it failed. */
  function SaveToCollection(page: Page, signedIn: bool, now: nat, isoNow: string, remote: Option<Exn>): (r: Saved)
    ensures !signedIn ==> r == Saved(page, None, [], [AppState.Toast("Please log in to save collections", "error")], Some("#/login"))
    ensures signedIn && IsBlank(page.request.name) ==>
      r == Saved(page, None, [], [AppState.Toast("Please enter a request name first", "warning")], None)
    ensures r.written.None? ==> r.actions == [] && r.page.collections == page.collections
    ensures signedIn && !IsBlank(page.request.name) && page.selected == "" && IsBlank(page.newName) ==>
      r == Saved(page.(modalOpen := true), None, [], [], None)
    ensures r.actions != [] ==> remote.None? && r.written.Some? && |r.actions| == 1
  {
    if !signedIn then
      Saved(page, None, [], [AppState.Toast("Please log in to save collections", "error")], Some("#/login"))
    else if IsBlank(page.request.name) then
      Saved(page, None, [], [AppState.Toast("Please enter a request name first", "warning")], None)
    else if page.selected == "" && IsBlank(page.newName) then
      Saved(page.(modalOpen := true), None, [], [], None)
    else
      var stamp := NatToString(now);
      var saved := RequestObject(page.request, "req-" + stamp, isoNow);
      if page.selected == "" then CreateCollection(page, "col-" + stamp, saved, remote)
      else AddToCollection(page, saved, remote)
  }

  /** Saving into a new collection: it holds just the saved request, under
      the trimmed name, and is written before the page lists it. */
  function CreateCollection(page: Page, id: string, saved: Obj, remote: Option<Exn>): (r: Saved)
    ensures r.written == Some(NewCollection(id, Trim(page.newName), saved))
    ensures remote.Some? ==> r == FailedSave(page, r.written, remote.value)
    ensures remote.None? ==> (r.page.collections == page.collections + [r.written.value] &&
      r.actions == [AppState.AddApiCollection(r.written.value)] &&
      r.page.selected == id && r.page.newName == "" && !r.page.modalOpen)
    ensures r.actions != [] ==> remote.None? && |r.actions| == 1
  {
    var c := NewCollection(id, Trim(page.newName), saved);
    if remote.Some? then FailedSave(page, Some(c), remote.value)
    else
      Saved(page.(collections := page.collections + [c], selected := id, newName := "", modalOpen := false),
        Some(c), [AppState.AddApiCollection(c)],
        [AppState.Toast("Created collection \"" + page.newName + "\" and saved request", "success")], None)
  }

  /** The new collection holds exactly the saved request under the given
      name. */
  lemma NewCollectionHolds(id: string, name: string, saved: Obj)
    ensures Get(NewCollection(id, name, saved), "id") == Str(id)
    ensures Get(NewCollection(id, name, saved), "name") == Str(name)
    ensures Get(NewCollection(id, name, saved), "requests") == Some(JArr([JObj(saved)]))
  {
    var pairs := [("id", Str(id)), ("name", Str(name)), ("requests", Some(JArr([JObj(saved)])))];
    LiteralGet(pairs, 0);
    LiteralGet(pairs, 1);
    LiteralGet(pairs, 2);
  }

  /** Saving into the selected collection: a request with the same name,
      url and method already there is refused; otherwise it goes last in
      every collection with the selected id, the first of which is
      written. */
  function AddToCollection(page: Page, saved: Obj, remote: Option<Exn>): (r: Saved)
    ensures IsDuplicate(FindById(page.collections, page.selected), page.request) == Ok(true) ==>
      r == Saved(page, None, [], [AppState.Toast("This request already exists in the collection", "warning")], None)
    ensures r.actions != [] ==> (IsDuplicate(FindById(page.collections, page.selected), page.request) == Ok(false) &&
      AppendTo(page.collections, page.selected, saved).Ok? &&
      r.page.collections == AppendTo(page.collections, page.selected, saved).value &&
      r.written.Some? && r.written == FindById(r.page.collections, page.selected) &&
      r.actions == [AppState.UpdateApiCollection(r.written.value)])
    ensures r.written.None? ==> r.actions == [] && r.page.collections == page.collections
    ensures r.actions != [] ==> remote.None? && |r.actions| == 1
  {
    match IsDuplicate(FindById(page.collections, page.selected), page.request)
    case Err(e) => FailedSave(page, None, e)
    case Ok(true) =>
      Saved(page, None, [], [AppState.Toast("This request already exists in the collection", "warning")], None)
    case Ok(false) =>
      match AppendTo(page.collections, page.selected, saved)
      case Err(e) => FailedSave(page, None, e)
      case Ok(updated) =>
        match FindById(updated, page.selected)
        case None => FailedSave(page, None, TypeError("Cannot read properties of undefined (reading 'name')"))
        case Some(c) =>
          if remote.Some? then FailedSave(page, Some(c), remote.value)
          else Saved(page.(collections := updated), Some(c), [AppState.UpdateApiCollection(c)],
            [AppState.Toast("Request saved to collection", "success")], None)
  }

  /** A request saved into an existing collection ends that collection's
      request list; collections with another id are untouched. */
  lemma AddedRequestIsLast(page: Page, saved: Obj, remote: Option<Exn>, i: nat)
    ensures AddToCollection(page, saved, remote).actions != [] && i < |page.collections| ==>
      var after := AddToCollection(page, saved, remote).page.collections;
      |after| == |page.collections| &&
      (!HasId(page.collections[i], page.selected) ==> after[i] == page.collections[i]) &&
      (HasId(page.collections[i], page.selected) ==>
        exists before: seq<Json> :: Get(after[i], "requests") == Some(JArr(before + [JObj(saved)])))
  {
    var after := AddToCollection(page, saved, remote).page.collections;
    if AddToCollection(page, saved, remote).actions != [] && i < |page.collections| && HasId(page.collections[i], page.selected) {
      var before := Spread(Get(page.collections[i], "requests")).value;
      assert Get(after[i], "requests") == Some(JArr(before + [JObj(saved)]));
    }
  }
}

=== FILE: app_shell.dfy ===
/** The top-level route guard: which screen the application renders for
    the auth state and the URL's hash, and the redirect to the login
    route. */
module AppShell {
  import opened Wrappers
  import opened Text
  import opened Json
  import Auth
  import Router

  datatype Screen =
    | LoadingScreen
    | ResetPasswordPage
    | LoginPage
    /** Nothing rendered; the hash is set to `hash`. */
    | Redirect(hash: string)
    /** The signed-in layout with the router showing `page`. */
    | Shell(page: Router.Page)

  /** The hash opens the reset-password page. */
  predicate IsResetRoute(hash: string) {
    "#/reset-password" <= hash || Contains(hash, "type=recovery")
  }

  predicate IsLoginRoute(hash: string) {
    hash == "#/login" || hash == ""
  }

  /** `AppContent`'s decision, in the order it is written. */
  function Decide(auth: Auth.AuthState, hash: string): (r: Screen)
    ensures auth.loading <==> r == LoadingScreen
    ensures !auth.loading && IsResetRoute(hash) ==> r == ResetPasswordPage
    ensures !auth.loading && !IsResetRoute(hash) && auth.recovery ==> r == LoginPage
    ensures r.Redirect? <==> !auth.loading && !IsResetRoute(hash) && !auth.recovery && !Truthy(Some(auth.user)) && !IsLoginRoute(hash)
    ensures r.Redirect? ==> r.hash == "#/login"
    ensures r.Shell? <==> !auth.loading && !IsResetRoute(hash) && !auth.recovery && Truthy(Some(auth.user))
    ensures r.Shell? ==> r.page == Router.Component(Router.HashPath(hash))
  {
    if auth.loading then LoadingScreen
    else if IsResetRoute(hash) then ResetPasswordPage
    else if auth.recovery then LoginPage
    else if !Truthy(Some(auth.user)) && !IsLoginRoute(hash) then Redirect("#/login")
    else if !Truthy(Some(auth.user)) then LoginPage
    else Shell(Router.Component(Router.HashPath(hash)))
  }

  /** The application's content is only ever shown to a signed-in user
      outside recovery. */
  lemma ShellNeedsUser(auth: Auth.AuthState, hash: string)
    ensures Decide(auth, hash).Shell? ==> auth.user != JNull && !auth.recovery && !auth.loading
  {
  }

  /** A redirect settles: deciding again on the login route shows the
      login page. */
  lemma RedirectSettles(auth: Auth.AuthState, hash: string)
    requires Decide(auth, hash).Redirect?
    ensures Decide(auth, Decide(auth, hash).hash) == LoginPage
  {
    assert !("#/reset-password" <= "#/login");
    assert "#/login" == "#/lo" + "gin";
    ContainsNot("#/login", "type=recovery");
  }

  /** A string shorter than `sub` does not contain it. */
  lemma ContainsNot(s: string, sub: string)
    requires |s| < |sub|
    ensures !Contains(s, sub)
  {
  }

  /** A reset link opens the reset page whoever is signed in, even while
      the recovery flag is set. */
  lemma ResetLinkBeforeRecovery(auth: Auth.AuthState, rest: string)
    requires !auth.loading
    ensures Decide(auth, "#/reset-password" + rest) == ResetPasswordPage
  {
  }
}

=== FILE: app_state.dfy ===
/** The application-wide store: the state shape with its initial values,
    the reducer that every page dispatches to, the API health check that
    feeds the status slice, toasts, and the manual "save to database"
    entry point. */
module AppState {
  import opened Wrappers
  import opened Text
  import opened Json

  // ---------------------------------------------------------------------
  // State
  // ---------------------------------------------------------------------

  datatype ApiStatus = ApiStatus(status: string, lastModel: JsValue, lastCheck: JsValue, errors: seq<Json>)

  /** Every list the store keeps holds plain objects (records keyed by
      their `id` property). */
  datatype State = State(
    apiStatus: ApiStatus,
    settings: Obj,
    testCases: seq<Obj>,
    testScripts: seq<Obj>,
    userStories: seq<Obj>,
    bugs: seq<Obj>,
    testPlans: seq<Obj>,
    apiCollections: seq<Obj>,
    toasts: seq<Obj>,
    modals: map<string, bool>,
    mobileMenuOpen: bool,
    undoStack: seq<Json>)

  const DEFAULT_MODEL := "gemini-2.5-pro"
  const MAX_API_ERRORS: nat := 5
  const MAX_UNDO: nat := 20

  const INITIAL_SETTINGS: Obj := [
    ("backendUrl", JStr("/api")),
    ("defaultModel", JStr(DEFAULT_MODEL)),
    ("streamingEnabled", JBool(true)),
    ("systemPrompts", JObj([]))]

  const INITIAL: State := State(
    ApiStatus("checking", Some(JNull), Some(JNull), []),
    INITIAL_SETTINGS,
    [], [], [], [], [], [], [],
    map["quickCreate" := false, "apiStatus" := false],
    false,
    [])

  // ---------------------------------------------------------------------
  // Actions
  // ---------------------------------------------------------------------

  /** The fields a `SET_API_STATUS` payload may carry; `Some(None)` is a
      field present with the value `undefined`. */
  datatype StatusPatch = StatusPatch(status: Option<string>, lastModel: Option<JsValue>, lastCheck: Option<JsValue>)

  datatype Action =
    | SetApiStatus(statusPatch: StatusPatch)
    | AddApiError(error: Json)
    | SetSettings(settingsPatch: Obj)
    | SetTestCases(items: seq<Obj>)
    | AddTestCases(items: seq<Obj>)
    | UpdateTestCase(patch: Obj)
    | DeleteTestCases(ids: seq<JsValue>)
    | SetUserStories(items: seq<Obj>)
    | AddUserStory(item: Obj)
    | UpdateUserStory(patch: Obj)
    | DeleteUserStory(id: JsValue)
    | SetBugs(items: seq<Obj>)
    | AddBug(item: Obj)
    | UpdateBug(patch: Obj)
    | DeleteBug(id: JsValue)
    | SetTestPlans(items: seq<Obj>)
    | AddTestPlan(item: Obj)
    | UpdateTestPlan(patch: Obj)
    | DeleteTestPlan(id: JsValue)
    | SetApiCollections(items: seq<Obj>)
    | AddApiCollection(item: Obj)
    | UpdateApiCollection(patch: Obj)
    | AddToast(toast: Obj)
    | RemoveToast(id: JsValue)
    | OpenModal(name: string)
    | CloseModal(name: string)
    | ToggleMobileMenu
    | CloseMobileMenu
    | PushUndo(entry: Json)
    | PopUndo
    | Unknown(kind: string)

  /** The part of the state an action may write. */
  datatype Slice =
    | ApiStatusSlice | SettingsSlice | TestCasesSlice | UserStoriesSlice | BugsSlice
    | TestPlansSlice | ApiCollectionsSlice | ToastsSlice | ModalsSlice | MenuSlice
    | UndoSlice | NoSlice

  function Target(a: Action): Slice {
    match a
    case SetApiStatus(_) => ApiStatusSlice
    case AddApiError(_) => ApiStatusSlice
    case SetSettings(_) => SettingsSlice
    case SetTestCases(_) => TestCasesSlice
    case AddTestCases(_) => TestCasesSlice
    case UpdateTestCase(_) => TestCasesSlice
    case DeleteTestCases(_) => TestCasesSlice
    case SetUserStories(_) => UserStoriesSlice
    case AddUserStory(_) => UserStoriesSlice
    case UpdateUserStory(_) => UserStoriesSlice
    case DeleteUserStory(_) => UserStoriesSlice
    case SetBugs(_) => BugsSlice
    case AddBug(_) => BugsSlice
    case UpdateBug(_) => BugsSlice
    case DeleteBug(_) => BugsSlice
    case SetTestPlans(_) => TestPlansSlice
    case AddTestPlan(_) => TestPlansSlice
    case UpdateTestPlan(_) => TestPlansSlice
    case DeleteTestPlan(_) => TestPlansSlice
    case SetApiCollections(_) => ApiCollectionsSlice
    case AddApiCollection(_) => ApiCollectionsSlice
    case UpdateApiCollection(_) => ApiCollectionsSlice
    case AddToast(_) => ToastsSlice
    case RemoveToast(_) => ToastsSlice
    case OpenModal(_) => ModalsSlice
    case CloseModal(_) => ModalsSlice
    case ToggleMobileMenu => MenuSlice
    case CloseMobileMenu => MenuSlice
    case PushUndo(_) => UndoSlice
    case PopUndo => UndoSlice
    case Unknown(_) => NoSlice
  }

  /** `r` equals `s` everywhere outside `slice`. */
  predicate SameExcept(s: State, r: State, slice: Slice) {
    (slice != ApiStatusSlice ==> r.apiStatus == s.apiStatus) &&
    (slice != SettingsSlice ==> r.settings == s.settings) &&
    (slice != TestCasesSlice ==> r.testCases == s.testCases) &&
    r.testScripts == s.testScripts &&
    (slice != UserStoriesSlice ==> r.userStories == s.userStories) &&
    (slice != BugsSlice ==> r.bugs == s.bugs) &&
    (slice != TestPlansSlice ==> r.testPlans == s.testPlans) &&
    (slice != ApiCollectionsSlice ==> r.apiCollections == s.apiCollections) &&
    (slice != ToastsSlice ==> r.toasts == s.toasts) &&
    (slice != ModalsSlice ==> r.modals == s.modals) &&
    (slice != MenuSlice ==> r.mobileMenuOpen == s.mobileMenuOpen) &&
    (slice != UndoSlice ==> r.undoStack == s.undoStack)
  }

  // ---------------------------------------------------------------------
  // List helpers
  // ---------------------------------------------------------------------

  /** `a === b` on possibly-undefined values. Objects and arrays are
      compared by reference, and two values built separately are never the
      same reference, so they are never `===`. */
  predicate StrictEquals(a: JsValue, b: JsValue) {
    a == b && (a.None? || (!a.value.JArr? && !a.value.JObj?))
  }

  /** `ids.includes(v)`. */
  predicate Includes(ids: seq<JsValue>, v: JsValue) {
    exists i :: 0 <= i < |ids| && StrictEquals(ids[i], v)
  }

  /** The item is the one a patch addresses: `item.id === patch.id`. */
  predicate Matches(item: Obj, patch: Obj) {
    StrictEquals(Get(item, "id"), Get(patch, "id"))
  }

  /** `items.map(x => x.id === patch.id ? { ...x, ...patch } : x)`. */
  function UpdateById(items: seq<Obj>, patch: Obj): (r: seq<Obj>)
    ensures |r| == |items|
    ensures forall i :: 0 <= i < |items| && !Matches(items[i], patch) ==> r[i] == items[i]
    ensures forall i :: 0 <= i < |items| && Matches(items[i], patch) ==> r[i] == Merge(items[i], patch)
  {
    seq(|items|, i requires 0 <= i < |items| =>
      if Matches(items[i], patch) then Merge(items[i], patch) else items[i])
  }

  /** `items.filter(x => !ids.includes(x.id))`. */
  function DeleteIds(items: seq<Obj>, ids: seq<JsValue>): seq<Obj> {
    Filter(items, x => !Includes(ids, Get(x, "id")))
  }

  /** `items.filter(x => x.id !== id)`. */
  function DeleteId(items: seq<Obj>, id: JsValue): seq<Obj> {
    Filter(items, Unlike(id))
  }

  /** The filter test of `DeleteId`: the record's id is not `id`. */
  function Unlike(id: JsValue): Obj -> bool {
    x => !StrictEquals(Get(x, "id"), id)
  }

  // ---------------------------------------------------------------------
  // The reducer
  // ---------------------------------------------------------------------

  function PatchStatus(a: ApiStatus, p: StatusPatch): (r: ApiStatus)
    ensures r.errors == a.errors
    ensures r.status == (if p.status.Some? then p.status.value else a.status)
    ensures r.lastModel == (if p.lastModel.Some? then p.lastModel.value else a.lastModel)
    ensures r.lastCheck == (if p.lastCheck.Some? then p.lastCheck.value else a.lastCheck)
  {
    a.(status := p.status.GetOr(a.status),
       lastModel := p.lastModel.GetOr(a.lastModel),
       lastCheck := p.lastCheck.GetOr(a.lastCheck))
  }

  /** `[x, ...stack].slice(0, cap)`: the newest entry first, at most `cap`
      entries, the oldest dropped. */
  function PushCapped(stack: seq<Json>, x: Json, cap: nat): (r: seq<Json>)
    requires cap >= 1
    ensures |r| == if |stack| + 1 < cap then |stack| + 1 else cap
    ensures r[0] == x
    ensures r[1..] <= stack
  {
    Take([x] + stack, cap)
  }

  /** The status slice under `SET_API_STATUS` and `ADD_API_ERROR`. */
  function ReduceStatus(st: ApiStatus, a: Action): ApiStatus {
    match a
    case SetApiStatus(p) => PatchStatus(st, p)
    case AddApiError(e) => st.(errors := PushCapped(st.errors, e, MAX_API_ERRORS))
    case _ => st
  }

  /** A record list under the set, add, update and delete actions of its
      kind. */
  function ReduceRecords(items: seq<Obj>, a: Action): seq<Obj> {
    match a
    case SetTestCases(xs) => xs
    case AddTestCases(xs) => items + xs
    case DeleteTestCases(ids) => DeleteIds(items, ids)
    case SetUserStories(xs) => xs
    case SetBugs(xs) => xs
    case SetTestPlans(xs) => xs
    case SetApiCollections(xs) => xs
    case AddUserStory(x) => items + [x]
    case AddBug(x) => items + [x]
    case AddTestPlan(x) => items + [x]
    case AddApiCollection(x) => items + [x]
    case AddToast(x) => items + [x]
    case UpdateTestCase(p) => UpdateById(items, p)
    case UpdateUserStory(p) => UpdateById(items, p)
    case UpdateBug(p) => UpdateById(items, p)
    case UpdateTestPlan(p) => UpdateById(items, p)
    case UpdateApiCollection(p) => UpdateById(items, p)
    case DeleteUserStory(id) => DeleteId(items, id)
    case DeleteBug(id) => DeleteId(items, id)
    case DeleteTestPlan(id) => DeleteId(items, id)
    case RemoveToast(id) => DeleteId(items, id)
    case _ => items
  }

  function ReduceModals(modals: map<string, bool>, a: Action): map<string, bool> {
    match a
    case OpenModal(name) => modals[name := true]
    case CloseModal(name) => modals[name := false]
    case _ => modals
  }

  function ReduceMenu(open: bool, a: Action): bool {
    match a
    case ToggleMobileMenu => !open
    case CloseMobileMenu => false
    case _ => open
  }

  function ReduceUndo(stack: seq<Json>, a: Action): seq<Json> {
    match a
    case PushUndo(e) => PushCapped(stack, e, MAX_UNDO)
    case PopUndo => Drop(stack, 1)
    case _ => stack
  }

  /** `appReducer(state, action)`: every action writes its own slice and
      nothing else; an unknown action returns the state unchanged. */
  function Reduce(s: State, a: Action): (r: State)
    ensures SameExcept(s, r, Target(a))
    ensures a.Unknown? ==> r == s
  {
    match Target(a)
    case ApiStatusSlice => s.(apiStatus := ReduceStatus(s.apiStatus, a))
    case SettingsSlice => s.(settings := Merge(s.settings, a.settingsPatch))
    case TestCasesSlice => s.(testCases := ReduceRecords(s.testCases, a))
    case UserStoriesSlice => s.(userStories := ReduceRecords(s.userStories, a))
    case BugsSlice => s.(bugs := ReduceRecords(s.bugs, a))
    case TestPlansSlice => s.(testPlans := ReduceRecords(s.testPlans, a))
    case ApiCollectionsSlice => s.(apiCollections := ReduceRecords(s.apiCollections, a))
    case ToastsSlice => s.(toasts := ReduceRecords(s.toasts, a))
    case ModalsSlice => s.(modals := ReduceModals(s.modals, a))
    case MenuSlice => s.(mobileMenuOpen := ReduceMenu(s.mobileMenuOpen, a))
    case UndoSlice => s.(undoStack := ReduceUndo(s.undoStack, a))
    case NoSlice => s
  }

  /** Dispatching several actions in order. */
  function ReduceAll(s: State, actions: seq<Action>): State
    decreases |actions|
  {
    if |actions| == 0 then s
    else Reduce(ReduceAll(s, actions[..|actions| - 1]), actions[|actions| - 1])
  }

  // ---------------------------------------------------------------------
  // Properties of the reducer
  // ---------------------------------------------------------------------

  /** A recorded API error goes first and at most five are kept. */
  lemma AddApiErrorNewestFirst(s: State, e: Json)
    ensures var errs := Reduce(s, AddApiError(e)).apiStatus.errors;
      1 <= |errs| <= MAX_API_ERRORS && errs[0] == e && errs[1..] <= s.apiStatus.errors
  {
  }

  lemma AddApiErrorState(s: State, e: Json)
    ensures Reduce(s, AddApiError(e)).apiStatus.errors == Take([e] + s.apiStatus.errors, MAX_API_ERRORS)
  {
  }

  function Reversed<T>(s: seq<T>): (r: seq<T>)
    ensures |r| == |s|
    ensures forall i :: 0 <= i < |s| ==> r[i] == s[|s| - 1 - i]
  {
    if |s| == 0 then [] else [s[|s| - 1]] + Reversed(s[..|s| - 1])
  }

  function ErrorActions(es: seq<Json>): (r: seq<Action>)
    ensures |r| == |es|
    ensures forall i :: 0 <= i < |es| ==> r[i] == AddApiError(es[i])
  {
    seq(|es|, i requires 0 <= i < |es| => AddApiError(es[i]))
  }

  lemma TakeOfTake(x: Json, y: seq<Json>, n: nat)
    requires n >= 1
    ensures Take([x] + Take(y, n), n) == Take([x] + y, n)
  {
  }

  /** After any run of recorded errors the store holds the five most
      recent ones, newest first, older entries filling the remaining
      places. */
  lemma {:induction false} ErrorsKeepNewest(s: State, es: seq<Json>)
    requires |s.apiStatus.errors| <= MAX_API_ERRORS
    ensures ReduceAll(s, ErrorActions(es)).apiStatus.errors ==
      Take(Reversed(es) + s.apiStatus.errors, MAX_API_ERRORS)
    decreases |es|
  {
    if |es| == 0 {
      assert Reversed(es) + s.apiStatus.errors == s.apiStatus.errors;
    } else {
      var init := es[..|es| - 1];
      var e := es[|es| - 1];
      ErrorsKeepNewest(s, init);
      var before := ReduceAll(s, ErrorActions(init));
      assert ReduceAll(s, ErrorActions(es)).apiStatus.errors == Take([e] + before.apiStatus.errors, MAX_API_ERRORS) by {
        ErrorActionsLast(s, es);
        AddApiErrorState(before, e);
      }
      assert Reversed(es) + s.apiStatus.errors == [e] + (Reversed(init) + s.apiStatus.errors) by {
        ReversedLast(es);
        ConsAppend(e, Reversed(init), s.apiStatus.errors);
      }
      TakeOfTake(e, Reversed(init) + s.apiStatus.errors, MAX_API_ERRORS);
    }
  }

  lemma ErrorActionsLast(s: State, es: seq<Json>)
    requires |es| > 0
    ensures ReduceAll(s, ErrorActions(es)) ==
      Reduce(ReduceAll(s, ErrorActions(es[..|es| - 1])), AddApiError(es[|es| - 1]))
  {
    var acts := ErrorActions(es);
    assert acts[..|acts| - 1] == ErrorActions(es[..|es| - 1]);
  }

  lemma ConsAppend<T>(x: T, a: seq<T>, b: seq<T>)
    ensures ([x] + a) + b == [x] + (a + b)
  {
  }

  lemma ReversedLast<T>(es: seq<T>)
    requires |es| > 0
    ensures Reversed(es) == [es[|es| - 1]] + Reversed(es[..|es| - 1])
  {
  }

  /** Undoing right after recording gives the previous stack back, less
      the entry the cap of twenty pushed out. */
  lemma PopAfterPush(s: State, e: Json)
    ensures Reduce(Reduce(s, PushUndo(e)), PopUndo).undoStack == Take(s.undoStack, MAX_UNDO - 1)
    ensures |s.undoStack| < MAX_UNDO ==> Reduce(Reduce(s, PushUndo(e)), PopUndo) == s
  {
    var t := Reduce(s, PushUndo(e));
    assert t.undoStack[1..] <= s.undoStack;
  }

  /** Toggling the mobile menu twice restores the state. */
  lemma ToggleTwice(s: State)
    ensures Reduce(Reduce(s, ToggleMobileMenu), ToggleMobileMenu) == s
  {
  }

  /** Applying the same update twice is the same as applying it once. */
  lemma UpdateTwice(items: seq<Obj>, patch: Obj)
    requires UniqueKeys(patch)
    requires forall i :: 0 <= i < |items| ==> UniqueKeys(items[i])
    ensures UpdateById(UpdateById(items, patch), patch) == UpdateById(items, patch)
  {
    var once := UpdateById(items, patch);
    forall i | 0 <= i < |items|
      ensures UpdateById(once, patch)[i] == once[i]
    {
      if Matches(items[i], patch) {
        MergeGet(items[i], patch, "id");
        MergeIdempotent(items[i], patch);
        assert Matches(once[i], patch);
      }
    }
  }

  /** An update writes exactly the patch's properties onto the addressed
      items and leaves every other property and every other item alone. */
  lemma UpdateGet(items: seq<Obj>, patch: Obj, i: nat, k: string)
    requires UniqueKeys(patch) && i < |items|
    ensures Get(UpdateById(items, patch)[i], k) ==
      if Matches(items[i], patch) && HasKey(patch, k) then Get(patch, k) else Get(items[i], k)
  {
    if Matches(items[i], patch) {
      MergeGet(items[i], patch, k);
    }
  }

  /** Deleting test cases removes exactly those whose id is listed. */
  lemma DeleteTestCasesExact(s: State, ids: seq<JsValue>)
    ensures forall x :: x in Reduce(s, DeleteTestCases(ids)).testCases <==>
      x in s.testCases && !Includes(ids, Get(x, "id"))
  {
  }

  /** Opening and then closing a modal leaves it recorded as closed. */
  lemma OpenThenClose(s: State, name: string)
    ensures Reduce(Reduce(s, OpenModal(name)), CloseModal(name)).modals == s.modals[name := false]
  {
  }

  // ---------------------------------------------------------------------
  // Toasts
  // ---------------------------------------------------------------------

  /** A notification as a page asks for it: `addToast(message, type)`. */
  datatype Toast = Toast(message: string, kind: string)

  /** The outcome of `addToast`: the new state, the id it returned, and
      the delay after which a `REMOVE_TOAST` for that id is dispatched
      (none for a non-positive duration). */
  datatype ToastAdded = ToastAdded(state: State, id: string, removeAfter: Option<int>)

  function ToastOf(id: string, message: string, kind: string): Obj {
    [("id", JStr(id)), ("message", JStr(message)), ("type", JStr(kind))]
  }

  /** `addToast(message, type, duration)` at clock reading `now`
      milliseconds: the id is the clock reading in decimal. */
  function AddToastAt(s: State, now: nat, message: string, kind: string, duration: int): (r: ToastAdded)
    ensures forall k :: 0 <= k < |r.id| ==> IsDigit(r.id[k])
    ensures DigitsValue(r.id) == now
    ensures r.state == Reduce(s, AddToast(ToastOf(r.id, message, kind)))
    ensures r.removeAfter.Some? <==> duration > 0
  {
    DigitsRoundTrip(now);
    var id := NatToString(now);
    ToastAdded(Reduce(s, AddToast(ToastOf(id, message, kind))), id,
      if duration > 0 then Some(duration) else None)
  }

  lemma ToastId(id: string, message: string, kind: string)
    ensures Get(ToastOf(id, message, kind), "id") == Some(JStr(id))
  {
  }

  /** Removing an id that only the appended toasts carry gives back the
      list they were appended to. */
  lemma RemoveAppended(toasts: seq<Obj>, added: seq<Obj>, id: string)
    requires forall i :: 0 <= i < |toasts| ==> Get(toasts[i], "id") != Some(JStr(id))
    requires forall i :: 0 <= i < |added| ==> Get(added[i], "id") == Some(JStr(id))
    ensures DeleteId(toasts + added, Some(JStr(id))) == toasts
  {
    var keep := Unlike(Some(JStr(id)));
    FilterAppend(toasts, added, keep);
    FilterAll(toasts, keep);
    FilterNone(added, keep);
  }

  /** Removing the id of toasts just added, which no earlier toast
      carries, restores the earlier list. */
  lemma AddedThenRemoved(s: State, added: seq<Obj>, id: string)
    requires forall i :: 0 <= i < |s.toasts| ==> Get(s.toasts[i], "id") != Some(JStr(id))
    requires forall i :: 0 <= i < |added| ==> Get(added[i], "id") == Some(JStr(id))
    ensures Reduce(s.(toasts := s.toasts + added), RemoveToast(Some(JStr(id)))).toasts == s.toasts
  {
    RemoveToastState(s.(toasts := s.toasts + added), Some(JStr(id)));
    RemoveAppended(s.toasts, added, id);
  }

  lemma RemoveToastState(s: State, id: JsValue)
    ensures Reduce(s, RemoveToast(id)).toasts == DeleteId(s.toasts, id)
  {
    assert Target(RemoveToast(id)) == ToastsSlice;
    assert ReduceRecords(s.toasts, RemoveToast(id)) == DeleteId(s.toasts, id);
  }

  lemma AddToastState(s: State, t: Obj)
    ensures Reduce(s, AddToast(t)) == s.(toasts := s.toasts + [t])
  {
  }

  /** When the timer of a toast fires and no other toast carries the same
      id, the toast list is what it was before the toast was added. */
  lemma ToastExpires(s: State, now: nat, message: string, kind: string, duration: int)
    requires forall i :: 0 <= i < |s.toasts| ==> Get(s.toasts[i], "id") != Some(JStr(NatToString(now)))
    ensures var added := AddToastAt(s, now, message, kind, duration);
      Reduce(added.state, RemoveToast(Some(JStr(added.id)))).toasts == s.toasts
  {
    var id := NatToString(now);
    var t := ToastOf(id, message, kind);
    ToastId(id, message, kind);
    AddToastState(s, t);
    AddedThenRemoved(s, [t], id);
  }

  /** Two toasts added within the same millisecond share an id, so the
      first timer to fire removes both. */
  lemma SameMillisecondToasts(s: State, now: nat, m1: string, m2: string)
    requires forall i :: 0 <= i < |s.toasts| ==> Get(s.toasts[i], "id") != Some(JStr(NatToString(now)))
    ensures var first := AddToastAt(s, now, m1, "info", 5000);
      var second := AddToastAt(first.state, now, m2, "info", 5000);
      first.id == second.id &&
      Reduce(second.state, RemoveToast(Some(JStr(first.id)))).toasts == s.toasts
  {
    var id := NatToString(now);
    var t1 := ToastOf(id, m1, "info");
    var t2 := ToastOf(id, m2, "info");
    ToastId(id, m1, "info");
    ToastId(id, m2, "info");
    var first := AddToastAt(s, now, m1, "info", 5000);
    AddToastState(s, t1);
    AddToastState(first.state, t2);
    assert first.state.toasts + [t2] == s.toasts + [t1, t2];
    AddedThenRemoved(s, [t1, t2], id);
  }

  // ---------------------------------------------------------------------
  // API health
  // ---------------------------------------------------------------------

  /** What the health request produced: a parsed body, or a thrown error. */
  datatype Health = Answered(body: Json) | Threw(error: Exn)

  /** The error the check catches: the thrown one, or the `TypeError` of
      reading `geminiConnected` off a `null` body. */
  function HealthFailure(h: Health): Option<Exn> {
    match h
    case Threw(e) => Some(e)
    case Answered(b) =>
      if b == JNull then Some(TypeError("Cannot read properties of null (reading 'geminiConnected')"))
      else None
  }

  /** The entry `ADD_API_ERROR` records. */
  function ErrorEntry(message: string, now: string): Json {
    JObj([("message", JStr(message)), ("timestamp", JStr(now))])
  }

  /** The actions `checkApiStatus` dispatches, `now` being the ISO time. */
  function HealthActions(h: Health, now: string): (r: seq<Action>)
    ensures 1 <= |r| <= 2
  {
    match HealthFailure(h)
    case None =>
      var b := Some(h.body);
      [SetApiStatus(StatusPatch(
        Some(if Truthy(Prop(b, "geminiConnected")) then "connected" else "degraded"),
        Some(Prop(b, "model")),
        Some(Str(now))))]
    case Some(e) =>
      [SetApiStatus(StatusPatch(Some("failed"), None, Some(Str(now)))),
       AddApiError(ErrorEntry(e.message, now))]
  }

  /** `checkApiStatus()`: a usable answer sets the status from
      `geminiConnected` and records the model; any failure marks the API
      failed, keeps the last model and records the error in front. */
  function CheckApiStatus(s: State, h: Health, now: string): (r: State)
    ensures SameExcept(s, r, ApiStatusSlice)
    ensures r.apiStatus.lastCheck == Str(now)
    ensures HealthFailure(h).None? ==>
      r.apiStatus.status == (if Truthy(Prop(Some(h.body), "geminiConnected")) then "connected" else "degraded") &&
      r.apiStatus.lastModel == Prop(Some(h.body), "model") &&
      r.apiStatus.errors == s.apiStatus.errors
    ensures HealthFailure(h).Some? ==>
      r.apiStatus.status == "failed" &&
      r.apiStatus.lastModel == s.apiStatus.lastModel &&
      1 <= |r.apiStatus.errors| <= MAX_API_ERRORS &&
      r.apiStatus.errors[0] == ErrorEntry(HealthFailure(h).value.message, now)
  {
    var acts := HealthActions(h, now);
    ReduceAllShort(s, acts);
    ReduceAll(s, acts)
  }

  lemma ReduceAllShort(s: State, acts: seq<Action>)
    requires 1 <= |acts| <= 2
    ensures |acts| == 1 ==> ReduceAll(s, acts) == Reduce(s, acts[0])
    ensures |acts| == 2 ==> ReduceAll(s, acts) == Reduce(Reduce(s, acts[0]), acts[1])
  {
    if |acts| == 2 {
      ReduceAllOne(s, acts[..1]);
      assert ReduceAll(s, acts) == Reduce(ReduceAll(s, acts[..1]), acts[1]);
    } else {
      ReduceAllOne(s, acts);
    }
  }

  lemma ReduceAllOne(s: State, acts: seq<Action>)
    requires |acts| == 1
    ensures ReduceAll(s, acts) == Reduce(s, acts[0])
  {
    assert acts[..0] == [];
    assert ReduceAll(s, acts[..0]) == s;
  }

  // ---------------------------------------------------------------------
  // Settings in local storage
  // ---------------------------------------------------------------------

  /** The local-storage key the settings are kept under. */
  const SETTINGS_KEY := "qa-studio-settings"

  /** What the store writes under the key whenever the settings change. */
  function StoredSettings(settings: Obj): string {
    Stringify(JObj(settings))
  }

  /** The restore on mount; `saved` is what `getItem` returned (`None` for
      `null`). An empty or unparsable text is ignored; anything else is
      spread over the current settings. */
  function RestoreSettings(s: State, saved: Option<string>, parse: string -> Result<Json, string>): (r: State)
    ensures SameExcept(s, r, SettingsSlice)
    ensures saved.None? || saved == Some("") ==> r == s
    ensures saved.Some? && saved.value != "" && parse(saved.value).Err? ==> r == s
    ensures saved.Some? && saved.value != "" && parse(saved.value).Ok? ==>
      r.settings == Merge(s.settings, ObjectSpread(Some(parse(saved.value).value)))
  {
    if saved.None? || saved.value == "" then s
    else match parse(saved.value)
      case Err(_) => s
      case Ok(v) => Reduce(s, SetSettings(ObjectSpread(Some(v))))
  }

  /** Settings written out and read back at the next start win over the
      settings present then, which fill in the rest. */
  lemma RestoreStoredSettings(s: State, settings: Obj, parse: string -> Result<Json, string>, k: string)
    requires forall v :: parse(Stringify(v)) == Ok(v)
    requires UniqueKeys(settings)
    ensures Get(RestoreSettings(s, Some(StoredSettings(settings)), parse).settings, k) ==
      if HasKey(settings, k) then Get(settings, k) else Get(s.settings, k)
  {
    RestoreStoredMerges(s, settings, parse);
    MergeGet(s.settings, settings, k);
  }

  /** Restoring stored settings merges them over the current ones. */
  lemma RestoreStoredMerges(s: State, settings: Obj, parse: string -> Result<Json, string>)
    requires forall v :: parse(Stringify(v)) == Ok(v)
    ensures RestoreSettings(s, Some(StoredSettings(settings)), parse).settings == Merge(s.settings, settings)
  {
    var saved := StoredSettings(settings);
    assert parse(saved) == Ok(JObj(settings));
    assert saved[0] == '{';
    assert ObjectSpread(Some(JObj(settings))) == settings;
  }

  /** Restoring what the same settings stored changes nothing. */
  lemma RestoreOwnSettings(s: State, parse: string -> Result<Json, string>)
    requires forall v :: parse(Stringify(v)) == Ok(v)
    requires UniqueKeys(s.settings)
    ensures RestoreSettings(s, Some(StoredSettings(s.settings)), parse) == s
  {
    forall j | 0 <= j < |s.settings| ensures Get(s.settings, s.settings[j].0) == Some(s.settings[j].1) {
      GetAt(s.settings, j);
    }
    MergeNoop(s.settings, s.settings);
  }

  // ---------------------------------------------------------------------
  // Manual save
  // ---------------------------------------------------------------------

  datatype SaveError = Message(text: string) | Thrown(error: Exn)

  /** `{ success, error }` as `saveToDatabase` returns it. */
  datatype SaveReply = SaveReply(success: bool, error: Option<SaveError>)

  /** The save goes ahead: someone is signed in and the list is neither
      missing nor of length zero. */
  predicate SaveAttempted(signedIn: bool, cases: JsValue) {
    signedIn && Truthy(cases) && Length(cases.value) != Some(JNum(0))
  }

  /** An array is saved exactly when someone is signed in and it is not
      empty. */
  lemma ArraySaveAttempted(signedIn: bool, items: seq<Json>)
    ensures SaveAttempted(signedIn, Some(JArr(items))) <==> signedIn && |items| > 0
  {
    assert Length(JArr(items)) == Some(JNum(|items|));
  }

  /** `saveToDatabase(testCases)`; `remote` is what the database write
      threw, if anything. */
  function SaveToDatabase(signedIn: bool, cases: JsValue, remote: Option<Exn>): (r: SaveReply)
    ensures r.success <==> SaveAttempted(signedIn, cases) && remote.None?
    ensures r.success <==> r.error.None?
    ensures !signedIn ==> r.error == Some(Message("Not authenticated"))
    ensures signedIn && !SaveAttempted(signedIn, cases) ==> r.error == Some(Message("No test cases to save"))
    ensures SaveAttempted(signedIn, cases) && remote.Some? ==> r.error == Some(Thrown(remote.value))
  {
    if !signedIn then SaveReply(false, Some(Message("Not authenticated")))
    else if !Truthy(cases) || Length(cases.value) == Some(JNum(0)) then
      SaveReply(false, Some(Message("No test cases to save")))
    else if remote.Some? then SaveReply(false, Some(Thrown(remote.value)))
    else SaveReply(true, None)
  }
}

=== FILE: auth.dfy ===
/** The authentication context: the recovery token read from the URL,
    the user, loading and password-recovery state driven by auth events,
    and the sign-out and password-update actions. The auth service's
    answers are parameters. */
module Auth {
  import opened Wrappers
  import opened Text
  import opened Json
  import Query

  // ---------------------------------------------------------------------
  // Tokens in the URL
  // ---------------------------------------------------------------------

  /** `hash.split('#').pop()`: the text after the last `#`. */
  function TokenSegment(hash: string): (r: string)
    ensures '#' !in r
    ensures '#' !in hash ==> r == hash
  {
    var parts := Split(hash, "#");
    SplitPiecesFree(hash, "#");
    ContainsChar(parts[|parts| - 1], '#');
    if '#' !in hash then
      SplitJoin([hash], '#');
      parts[|parts| - 1]
    else parts[|parts| - 1]
  }

  /** The tokens of a recovery link. */
  datatype Tokens = Tokens(accessToken: Option<string>, refreshToken: Option<string>, kind: Option<string>)

  function ExtractTokens(hash: string): (r: Tokens)
    ensures r.kind == Query.Get(TokenSegment(hash), "type")
  {
    var segment := TokenSegment(hash);
    Tokens(Query.Get(segment, "access_token"), Query.Get(segment, "refresh_token"), Query.Get(segment, "type"))
  }

  /** `type === 'recovery'`. */
  predicate HasRecoveryToken(hash: string) {
    ExtractTokens(hash).kind == Some("recovery")
  }

  /** In a recovery link `#/reset-password#…` the tokens come from the
      text after the second `#`. */
  lemma RecoveryLinkSegment(q: string)
    requires '#' !in q
    ensures TokenSegment("#/reset-password#" + q) == q
  {
    var parts := ["", "/reset-password", q];
    JoinCons("/reset-password", [q], "#");
    JoinCons("", ["/reset-password", q], "#");
    assert Join(parts, "#") == "#/reset-password#" + q;
    SplitJoin(parts, '#');
  }

  /** A recovery link's `type` is read from its last segment, so a link
      ending in `type=<v>` starts in recovery exactly when `v` is
      `recovery`. */
  lemma RecoveryLinkDetected(v: string)
    requires '&' !in v && '+' !in v && '?' !in v && '#' !in v
    ensures HasRecoveryToken("#/reset-password#" + ("type" + "=" + v)) <==> v == "recovery"
  {
    var q := "type" + "=" + v;
    RecoveryLinkSegment(q);
    Query.GetSingle("type", v);
  }

  // ---------------------------------------------------------------------
  // Auth state
  // ---------------------------------------------------------------------

  /** The context's state; `user` is `null` without a user. */
  datatype AuthState = AuthState(user: Json, loading: bool, recovery: bool)

  /** The state on mount: no user, loading, and in recovery iff the URL
      carries a recovery token. */
  function Initial(hash: string): (r: AuthState)
    ensures r.user == JNull && r.loading
    ensures r.recovery <==> ExtractTokens(hash).kind == Some("recovery")
  {
    AuthState(JNull, true, HasRecoveryToken(hash))
  }

  /** `session?.user ?? null`. */
  function UserOf(session: JsValue): (r: Json)
    ensures (session.None? || session == Some(JNull)) ==> r == JNull
  {
    var u := Prop(session, "user");
    if u.None? then JNull else u.value
  }

  /** The `onAuthStateChange` listener. */
  function OnEvent(st: AuthState, event: string, session: JsValue, hasRecoveryToken: bool): (r: AuthState)
    ensures r.user == UserOf(session)
    ensures event == "PASSWORD_RECOVERY" ==> r.recovery && !r.loading
    ensures event == "USER_UPDATED" ==> !r.recovery && r.loading == st.loading
    ensures event == "SIGNED_IN" ==> r.recovery == (st.recovery || hasRecoveryToken) && !r.loading
    ensures event !in {"PASSWORD_RECOVERY", "USER_UPDATED", "SIGNED_IN"} ==> r == st.(user := UserOf(session))
  {
    if event == "PASSWORD_RECOVERY" then AuthState(UserOf(session), false, true)
    else if event == "USER_UPDATED" then st.(recovery := false, user := UserOf(session))
    else if event == "SIGNED_IN" then
      AuthState(UserOf(session), false, if hasRecoveryToken then true else st.recovery)
    else st.(user := UserOf(session))
  }

  /** What the auth service answers during initialisation: `setSession`
      with the recovery tokens, or `getSession` otherwise; `Err` when the
      call throws. */
  datatype Service = Service(setSession: Result<JsValue, Exn>, getSession: Result<JsValue, Exn>)

  /** Whether initialisation exchanges the URL's tokens for a session:
      only for a recovery token with both tokens present and non-empty. */
  predicate ExchangesTokens(hash: string) {
    var t := ExtractTokens(hash);
    HasRecoveryToken(hash) && t.accessToken.Some? && t.accessToken.value != "" &&
    t.refreshToken.Some? && t.refreshToken.value != ""
  }

  /** `initializeAuth()`: loading ends whatever happens. */
  function Initialize(st: AuthState, hash: string, service: Service): (r: AuthState)
    ensures !r.loading
    ensures ExchangesTokens(hash) && service.setSession.Ok? && Truthy(service.setSession.value) ==>
      r.recovery && r.user == UserOf(service.setSession.value)
    ensures !ExchangesTokens(hash) && service.getSession.Ok? ==>
      r.user == UserOf(service.getSession.value) &&
      r.recovery == (st.recovery || (Truthy(service.getSession.value) && HasRecoveryToken(hash)))
    ensures (ExchangesTokens(hash) && service.setSession.Err?) || (!ExchangesTokens(hash) && service.getSession.Err?) ==>
      r == st.(loading := false)
  {
    if ExchangesTokens(hash) then
      match service.setSession
      case Err(_) => st.(loading := false)
      case Ok(session) =>
        if Truthy(session) then AuthState(UserOf(session), false, true) else st.(loading := false)
    else
      match service.getSession
      case Err(_) => st.(loading := false)
      case Ok(session) =>
        AuthState(UserOf(session), false, if Truthy(session) && HasRecoveryToken(hash) then true else st.recovery)
  }

  // ---------------------------------------------------------------------
  // Actions
  // ---------------------------------------------------------------------

  const SESSION_MISSING := "Auth session missing! Please request a new password reset link."

  /** `updatePassword(newPassword)` with the current session `session` and
      the update's error `updateError`: the second value says whether the
      update was sent. */
  function UpdatePassword(st: AuthState, session: JsValue, updateError: Option<Exn>): (r: (Result<AuthState, Exn>, bool))
    ensures r.1 <==> Truthy(session)
    ensures !Truthy(session) ==> r.0 == Err(Error(SESSION_MISSING))
    ensures r.0.Ok? <==> Truthy(session) && updateError.None?
    ensures r.0.Ok? ==> r.0.value == st.(recovery := false)
    ensures Truthy(session) && updateError.Some? ==> r.0 == Err(updateError.value)
  {
    if !Truthy(session) then (Err(Error(SESSION_MISSING)), false)
    else if updateError.Some? then (Err(updateError.value), true)
    else (Ok(st.(recovery := false)), true)
  }

  /** `signOut()`: recovery ends only when the sign-out succeeds. */
  function SignOut(st: AuthState, signOutError: Option<Exn>): (r: Result<AuthState, Exn>)
    ensures r.Ok? <==> signOutError.None?
    ensures r.Ok? ==> r.value == st.(recovery := false)
    ensures r.Err? ==> r.error == signOutError.value
  {
    if signOutError.Some? then Err(signOutError.value) else Ok(st.(recovery := false))
  }

  /** `clearPasswordRecovery()`. */
  function ClearPasswordRecovery(st: AuthState): (r: AuthState)
    ensures !r.recovery && r.user == st.user && r.loading == st.loading
  {
    st.(recovery := false)
  }

  /** A recovery that the user abandons and a recovery that ends in a
      successful update leave the same state. */
  lemma UpdateEndsRecovery(st: AuthState, session: JsValue)
    requires Truthy(session)
    ensures UpdatePassword(st, session, None).0 == Ok(ClearPasswordRecovery(st))
  {
  }

  // ---------------------------------------------------------------------
  // Password rules shared by the login and reset pages
  // ---------------------------------------------------------------------

  const MISMATCH := "Passwords do not match"
  const TOO_SHORT := "Password must be at least 6 characters"
  const MIN_PASSWORD := 6

  /** The first problem with a new password and its confirmation: a
      mismatch is reported before the length. */
  function PasswordProblem(password: string, confirm: string): (r: Option<string>)
    ensures r.None? <==> password == confirm && |password| >= MIN_PASSWORD
    ensures password != confirm ==> r == Some(MISMATCH)
    ensures password == confirm && |password| < MIN_PASSWORD ==> r == Some(TOO_SHORT)
  {
    if password != confirm then Some(MISMATCH)
    else if |password| < MIN_PASSWORD then Some(TOO_SHORT)
    else None
  }
}

=== FILE: backlog.dfy ===
/** The STLC backlog page: the create request carried in the location
    hash, the kanban columns, dropping a card on a column, and the
    optimistic status change, delete and save of user stories and bugs,
    plus the step list of the bug form. */
module StlcBacklog {
  import opened Wrappers
  import opened Text
  import opened Json
  import Query
  import AppState

  const STATUSES: seq<string> := ["New", "Active", "In Progress", "Testing", "Done", "Closed"]

  const STORIES_TAB := "stories"

  // ---------------------------------------------------------------------
  // Opening the create dialog from the location hash
  // ---------------------------------------------------------------------

  /** The hash the quick-create dialog writes for an item type. */
  function QuickCreateHash(kind: string): string {
    "#/stlc?create=" + kind
  }

  /** The dialog the page opens on arrival: none without a non-empty
      `create` parameter, the bug form for `bug`, the story form for any
      other value. */
  /** `createType`: the `create` parameter of the hash's query part, if
      the hash has one. */
  function CreateType(hash: string): (r: Option<string>)
    ensures !Contains(hash, "?") ==> r.None?
    ensures Contains(hash, "?") ==> r == Query.Get(Split(hash, "?")[1], "create")
  {
    if Contains(hash, "?") then Query.Get(Split(hash, "?")[1], "create") else None
  }

  /** The form the hash asks to open: a bug form for `create=bug`, a story
      form for any other non-empty value, none for a missing or empty
      parameter. */
  function CreateRequest(hash: string): (r: Option<string>)
    ensures r.Some? ==> r.value in {"bug", "story"}
    ensures !Contains(hash, "?") ==> r.None?
    ensures r.Some? <==> CreateType(hash).Some? && CreateType(hash).value != ""
    ensures r == Some("bug") <==> CreateType(hash) == Some("bug")
    ensures r == Some("story") <==> CreateType(hash).Some? && CreateType(hash).value !in {"", "bug"}
  {
    var kind := CreateType(hash);
    if kind.Some? && kind.value != "" then Some(if kind.value == "bug" then "bug" else "story")
    else None
  }

  /** The part after the only `?` of `path?query`. */
  lemma QueryPart(path: string, query: string)
    requires '?' !in path && '?' !in query
    ensures Contains(path + "?" + query, "?")
    ensures Split(path + "?" + query, "?") == [path, query]
  {
    var h := path + "?" + query;
    assert h == Join([path, query], "?");
    SplitJoin([path, query], '?');
    FindAfterFree(path, '?', query);
  }

  /** A hash whose query names a dialog kind opens that kind. */
  lemma CreateFromQuery(h: string, kind: string)
    requires Contains(h, "?")
    requires kind in {"story", "bug"}
    requires Query.Get(Split(h, "?")[1], "create") == Some(kind)
    ensures CreateRequest(h) == Some(kind)
  {
  }

  lemma CreateParam(kind: string)
    requires kind in {"story", "bug"}
    ensures Query.Get("create" + "=" + kind, "create") == Some(kind)
  {
    Query.GetSingle("create", kind);
  }

  /** The hash written for a story or a bug opens the matching form. */
  lemma QuickCreateOpens(kind: string)
    requires kind in {"story", "bug"}
    ensures CreateRequest(QuickCreateHash(kind)) == Some(kind)
  {
    var h := QuickCreateHash(kind);
    var q := "create" + "=" + kind;
    assert h == "#/stlc" + "?" + q;
    QueryPart("#/stlc", q);
    CreateParam(kind);
    CreateFromQuery(h, kind);
  }

  // ---------------------------------------------------------------------
  // The board
  // ---------------------------------------------------------------------

  predicate HasStatus(item: Obj, status: string) {
    Get(item, "status") == Str(status)
  }

  /** The cards of one column: the items whose status is that column's,
      in list order. */
  function Column(items: seq<Obj>, status: string): (r: seq<Obj>)
    ensures IsSubsequence(r, items)
    ensures forall x :: multiset(r)[x] == if HasStatus(x, status) then multiset(items)[x] else 0
  {
    FilterKeepsOrder(items, (x: Obj) => HasStatus(x, status));
    Filter(items, (x: Obj) => HasStatus(x, status))
  }

  /** Every item shows in the column of its status and in no other; an
      item whose status is not one of the six shows nowhere. */
  lemma ColumnsPartition(items: seq<Obj>, x: Obj)
    requires x in items
    ensures forall s :: s in STATUSES ==> (x in Column(items, s) <==> Get(x, "status") == Str(s))
    ensures (forall s :: s in STATUSES ==> !HasStatus(x, s)) ==>
      forall s :: s in STATUSES ==> x !in Column(items, s)
  {
  }

  /** An item whose title is a string containing the query, ignoring
      case. */
  predicate TitleHit(x: Obj, query: string) {
    IsStr(Get(x, "title")) && Contains(ToLower(Get(x, "title").value.s), ToLower(query))
  }

  /** The search's test as a value to filter with. */
  function Hits(query: string): Obj -> bool {
    (x: Obj) => TitleHit(x, query)
  }

  /** A title `title?.toLowerCase()` can read: missing, `null` or a
      string. */
  predicate TitleReadable(x: Obj) {
    var t := Get(x, "title");
    t.None? || t.value == JNull || t.value.JStr?
  }

  /** `s.title?.toLowerCase().includes(query.toLowerCase())` over a list:
      the items whose title contains the query, in order, or the error a
      title that is not a string raises. */
  function TitleSearch(items: seq<Obj>, query: string): (r: Result<seq<Obj>, Exn>)
    ensures r.Ok? <==> forall x :: x in items ==> TitleReadable(x)
    ensures r.Ok? ==> r.value == Filter(items, Hits(query))
  {
    if |items| == 0 then Ok([])
    else
      assert items == [items[0]] + items[1..];
      match FieldHit(Get(items[0], "title"), "title", ToLower(query))
      case Err(e) =>
        assert !TitleReadable(items[0]);
        Err(e)
      case Ok(hit) =>
        match TitleSearch(items[1..], query)
        case Err(e) => Err(e)
        case Ok(rest) =>
          HitStep(items, query, hit, rest);
          Ok((if hit then [items[0]] else []) + rest)
  }

  /** One step of the search: the first item when it is a hit, then the
      hits among the rest. */
  lemma HitStep(items: seq<Obj>, query: string, hit: bool, rest: seq<Obj>)
    requires |items| > 0
    requires FieldHit(Get(items[0], "title"), "title", ToLower(query)) == Ok(hit)
    requires rest == Filter(items[1..], Hits(query))
    ensures (if hit then [items[0]] else []) + rest == Filter(items, Hits(query))
  {
    FilterStep(items, Hits(query));
  }

  /** Searching two lists one after the other finds what searching them
      joined finds, in the same order. */
  lemma TitleSearchAppend(a: seq<Obj>, b: seq<Obj>, query: string)
    requires TitleSearch(a, query).Ok? && TitleSearch(b, query).Ok?
    ensures TitleSearch(a + b, query) == Ok(TitleSearch(a, query).value + TitleSearch(b, query).value)
  {
    assert forall x :: x in a + b ==> x in a || x in b;
    FilterAppend(a, b, Hits(query));
  }

  /** With an empty query the search keeps exactly the items with a string
      title. */
  lemma TitleSearchEmptyQuery(items: seq<Obj>, x: Obj)
    requires TitleSearch(items, "").Ok?
    ensures x in TitleSearch(items, "").value <==> x in items && IsStr(Get(x, "title"))
  {
    if IsStr(Get(x, "title")) {
      ContainsEmpty(ToLower(Get(x, "title").value.s));
    }
  }

  /** `handleDrop`: the card and the column to move it to, when the card
      is found and is not already in that column. */
  function Drop(items: seq<Obj>, id: string, status: string): (r: Option<(Obj, string)>)
    ensures r.Some? <==> FindById(items, id).Some? && !HasStatus(FindById(items, id).value, status)
    ensures r.Some? ==> r.value == (FindById(items, id).value, status)
  {
    match FindById(items, id)
    case None => None
    case Some(item) => if HasStatus(item, status) then None else Some((item, status))
  }

  // ---------------------------------------------------------------------
  // Optimistic writes
  // ---------------------------------------------------------------------

  function UpdateAction(tab: string, item: Obj): AppState.Action {
    if tab == STORIES_TAB then AppState.UpdateUserStory(item) else AppState.UpdateBug(item)
  }

  function AddAction(tab: string, item: Obj): AppState.Action {
    if tab == STORIES_TAB then AppState.AddUserStory(item) else AppState.AddBug(item)
  }

  function DeleteAction(tab: string, id: JsValue): AppState.Action {
    if tab == STORIES_TAB then AppState.DeleteUserStory(id) else AppState.DeleteBug(id)
  }

  /** The list a tab shows. */
  function TabItems(s: AppState.State, tab: string): seq<Obj> {
    if tab == STORIES_TAB then s.userStories else s.bugs
  }

  /** What an optimistic write did: the store afterwards, the list handed
      to the remote save or delete, and the toasts shown in order. */
  datatype Written = Written(store: AppState.State, sent: seq<Json>, toasts: seq<AppState.Toast>)

  /** The toast a remote write ends with. */
  function Outcome(remote: Option<Exn>, success: string, failure: string): (t: AppState.Toast)
    ensures remote.None? <==> t.kind == "success"
    ensures remote.None? ==> t.message == success
    ensures remote.Some? ==> t == AppState.Toast(failure + remote.value.message, "error")
  {
    if remote.None? then AppState.Toast(success, "success")
    else AppState.Toast(failure + remote.value.message, "error")
  }

  /** `handleStatusChange(item, status)`: the copy with the new status goes
      into the store first and stays there whatever the remote save
      answers. */
  function StatusChange(s: AppState.State, tab: string, item: Obj, status: string, remote: Option<Exn>): (r: Written)
    ensures r.store == AppState.Reduce(s, UpdateAction(tab, Set(item, "status", JStr(status))))
    ensures r.sent == [JObj(Set(item, "status", JStr(status)))]
    ensures r.toasts == [Outcome(remote, "Status updated", "Failed to save status change: ")]
  {
    var updated := Set(item, "status", JStr(status));
    Written(AppState.Reduce(s, UpdateAction(tab, updated)), [JObj(updated)],
      [Outcome(remote, "Status updated", "Failed to save status change: ")])
  }

  /** `{ ...item, status }` sent as an update: the addressed items get the
      new status and keep every property the card does not carry; the
      others are untouched. */
  lemma {:induction false} StatusUpdateGet(items: seq<Obj>, item: Obj, status: string, i: nat, k: string)
    requires UniqueKeys(item)
    requires i < |items|
    ensures var after := AppState.UpdateById(items, Set(item, "status", JStr(status)));
      (AppState.StrictEquals(Get(items[i], "id"), Get(item, "id")) ==>
        (HasStatus(after[i], status) &&
         (k != "status" && !HasKey(item, k) ==> Get(after[i], k) == Get(items[i], k)))) &&
      (!AppState.StrictEquals(Get(items[i], "id"), Get(item, "id")) ==> after[i] == items[i])
  {
    var updated := Set(item, "status", JStr(status));
    SetUnique(item, "status", JStr(status));
    assert Get(updated, "id") == Get(item, "id");
    AppState.UpdateGet(items, updated, i, "status");
    AppState.UpdateGet(items, updated, i, k);
    assert HasKey(updated, "status");
    if k != "status" && !HasKey(item, k) {
      assert Get(updated, k) == Get(item, k) == None;
    }
  }

  /** After a status change on the stories tab, every story sharing the
      card's id sits in the new column, keeping its other properties; the
      other stories and all bugs are untouched, and a failed remote save
      changes none of this. */
  lemma StatusChangeMovesCard(s: AppState.State, item: Obj, status: string, remote: Option<Exn>, i: nat, k: string)
    requires UniqueKeys(item)
    requires i < |s.userStories|
    ensures var after := StatusChange(s, STORIES_TAB, item, status, remote).store;
      after.bugs == s.bugs && |after.userStories| == |s.userStories| &&
      (AppState.StrictEquals(Get(s.userStories[i], "id"), Get(item, "id")) ==>
        (HasStatus(after.userStories[i], status) &&
         (k != "status" && !HasKey(item, k) ==> Get(after.userStories[i], k) == Get(s.userStories[i], k)))) &&
      (!AppState.StrictEquals(Get(s.userStories[i], "id"), Get(item, "id")) ==>
        after.userStories[i] == s.userStories[i])
  {
    StoryUpdateStore(s, Set(item, "status", JStr(status)));
    StatusUpdateGet(s.userStories, item, status, i, k);
  }

  /** An update on the stories tab rewrites the stories and nothing else. */
  lemma StoryUpdateStore(s: AppState.State, updated: Obj)
    ensures AppState.Reduce(s, UpdateAction(STORIES_TAB, updated)) ==
      s.(userStories := AppState.UpdateById(s.userStories, updated))
  {
  }

  /** `handleDelete(item)`: the item leaves the store at once; when the
      remote delete fails it is added back, at the end of the list. */
  function DeleteItem(s: AppState.State, tab: string, item: Obj, remote: Option<Exn>): (r: Written)
    ensures remote.None? ==> r.store == AppState.Reduce(s, DeleteAction(tab, Get(item, "id")))
    ensures remote.Some? ==>
      r.store == AppState.Reduce(AppState.Reduce(s, DeleteAction(tab, Get(item, "id"))), AddAction(tab, item))
    ensures r.sent == [Get(item, "id").GetOr(JNull)]
    ensures r.toasts == [AppState.Toast("Deleting...", "info"), Outcome(remote, "Deleted successfully", "Delete failed: ")]
  {
    var removed := AppState.Reduce(s, DeleteAction(tab, Get(item, "id")));
    Written(if remote.None? then removed else AppState.Reduce(removed, AddAction(tab, item)),
      [Get(item, "id").GetOr(JNull)],
      [AppState.Toast("Deleting...", "info"), Outcome(remote, "Deleted successfully", "Delete failed: ")])
  }

  /** A successful delete removes exactly the stories sharing the item's
      id; a failed one puts back the item itself, last, so an item whose id
      no other story shares is restored to the same membership. */
  lemma DeleteRestores(s: AppState.State, item: Obj, remote: Option<Exn>)
    requires AppState.StrictEquals(Get(item, "id"), Get(item, "id"))
    ensures var after := DeleteItem(s, STORIES_TAB, item, remote).store;
      after.bugs == s.bugs &&
      (remote.None? ==> forall x :: x in after.userStories <==>
        x in s.userStories && !AppState.StrictEquals(Get(x, "id"), Get(item, "id"))) &&
      (remote.Some? ==> (after.userStories[|after.userStories| - 1] == item &&
        forall x :: x in after.userStories <==>
          x == item || (x in s.userStories && !AppState.StrictEquals(Get(x, "id"), Get(item, "id")))))
  {
    var id := Get(item, "id");
    var removed := AppState.Reduce(s, DeleteAction(STORIES_TAB, id));
    StoryDeleteStore(s, id);
    if remote.Some? {
      StoryAddStore(removed, item);
    }
  }

  /** Deleting a story by id filters the stories and nothing else. */
  lemma StoryDeleteStore(s: AppState.State, id: JsValue)
    ensures var r := AppState.Reduce(s, DeleteAction(STORIES_TAB, id));
      r == s.(userStories := AppState.DeleteId(s.userStories, id)) &&
      forall x :: x in r.userStories <==> x in s.userStories && !AppState.StrictEquals(Get(x, "id"), id)
  {
    assert DeleteAction(STORIES_TAB, id) == AppState.DeleteUserStory(id);
    var kept := AppState.DeleteId(s.userStories, id);
    assert AppState.Reduce(s, AppState.DeleteUserStory(id)) == s.(userStories := kept);
  }

  /** Adding a story appends it and touches nothing else. */
  lemma StoryAddStore(s: AppState.State, item: Obj)
    ensures AppState.Reduce(s, AddAction(STORIES_TAB, item)) == s.(userStories := s.userStories + [item])
  {
  }

  /** `{ ...item, id: item.id || Date.now().toString() }` at clock reading
      `now`. */
  function ItemWithId(item: Obj, now: nat): (r: Obj)
    ensures Truthy(Get(r, "id"))
    ensures Truthy(Get(item, "id")) ==> Get(r, "id") == Get(item, "id")
    ensures !Truthy(Get(item, "id")) ==> Get(r, "id") == Str(NatToString(now))
    ensures forall k :: k != "id" ==> Get(r, k) == Get(item, k)
  {
    Set(item, "id", Or(Get(item, "id"), Str(NatToString(now))).value)
  }

  /** The tab a dialog kind writes to. */
  function KindTab(kind: string): string {
    if kind == "story" then STORIES_TAB else "bugs"
  }

  /** `handleSave(item)`: an update when the dialog was opened on an item
      with an id, an addition otherwise; the dialog closes whatever the
      remote save answers. */
  function SaveItem(s: AppState.State, kind: string, editing: JsValue, item: Obj, now: nat, remote: Option<Exn>): (r: Written)
    ensures Truthy(Prop(editing, "id")) ==> r.store == AppState.Reduce(s, UpdateAction(KindTab(kind), ItemWithId(item, now)))
    ensures !Truthy(Prop(editing, "id")) ==> r.store == AppState.Reduce(s, AddAction(KindTab(kind), ItemWithId(item, now)))
    ensures r.sent == [JObj(ItemWithId(item, now))]
    ensures r.toasts == [Outcome(remote, "Saved successfully", "Save failed: ")]
  {
    var withId := ItemWithId(item, now);
    var action := if Truthy(Prop(editing, "id")) then UpdateAction(KindTab(kind), withId) else AddAction(KindTab(kind), withId);
    Written(AppState.Reduce(s, action), [JObj(withId)], [Outcome(remote, "Saved successfully", "Save failed: ")])
  }

  /** A story created from an empty dialog lands last in the list, with a
      truthy id, and keeps every other property the form gave it. */
  lemma CreatedStoryAppended(s: AppState.State, item: Obj, now: nat, remote: Option<Exn>)
    ensures var after := SaveItem(s, "story", None, item, now, remote).store.userStories;
      |after| == |s.userStories| + 1 && after[..|s.userStories|] == s.userStories &&
      Truthy(Get(after[|s.userStories|], "id")) &&
      forall k :: k != "id" ==> Get(after[|s.userStories|], k) == Get(item, k)
  {
  }

  /** The form's submit: the data with the dialog item's id, provided the
      title is a non-blank string; a title that is present but not a
      string has no `trim`. */
  function Submit(form: Obj, editing: JsValue): (r: Result<Option<Obj>, Exn>)
    ensures r.Err? <==> Get(form, "title").Some? && Get(form, "title") != Some(JNull) && !IsStr(Get(form, "title"))
    ensures r.Ok? && r.value.Some? <==> IsStr(Get(form, "title")) && !IsBlank(Get(form, "title").value.s)
    ensures r.Ok? && r.value.Some? ==> r.value.value == SetV(form, "id", Prop(editing, "id"))
  {
    var title := Get(form, "title");
    if title.None? || title == Some(JNull) then Ok(None)
    else if !title.value.JStr? then Err(TypeError("formData.title?.trim is not a function"))
    else if IsBlank(title.value.s) then Ok(None)
    else Ok(Some(SetV(form, "id", Prop(editing, "id"))))
  }

  // ---------------------------------------------------------------------
  // Steps to reproduce
  // ---------------------------------------------------------------------

  function NewStep(n: nat): Json {
    JObj([("step", JNum(n)), ("description", JStr(""))])
  }

  /** `addStep()`: a step numbered one past the current count, with an
      empty description, goes last. */
  function AddStep(form: Obj): (r: Result<Obj, Exn>)
    ensures r.Err? <==> Spread(Get(form, "stepsToReproduce")).Err?
    ensures r.Ok? ==> var steps := Spread(Get(form, "stepsToReproduce")).value;
      Get(r.value, "stepsToReproduce") == Some(JArr(steps + [NewStep(|steps| + 1)]))
    ensures r.Ok? ==> forall k :: k != "stepsToReproduce" ==> Get(r.value, k) == Get(form, k)
  {
    var steps :- Spread(Get(form, "stepsToReproduce"));
    Ok(Set(form, "stepsToReproduce", JArr(steps + [NewStep(|steps| + 1)])))
  }

  /** The steps are numbered 1, 2, 3, ... in order. */
  predicate Numbered(steps: seq<Json>) {
    forall k :: 0 <= k < |steps| ==> steps[k].JObj? && Get(steps[k].members, "step") == Some(JNum(k + 1))
  }

  /** Adding steps to a consecutively numbered list keeps it so. */
  lemma AddStepKeepsNumbering(form: Obj)
    requires Get(form, "stepsToReproduce").Some? && Get(form, "stepsToReproduce").value.JArr?
    requires Numbered(Get(form, "stepsToReproduce").value.items)
    ensures AddStep(form).Ok?
    ensures Numbered(Get(AddStep(form).value, "stepsToReproduce").value.items)
  {
    var steps := Get(form, "stepsToReproduce").value.items;
    assert Get(NewStep(|steps| + 1).members, "step") == Some(JNum(|steps| + 1));
  }

  /** `updateStep(i, d)`: only step `i`'s description changes; the list
      must be an array. */
  function UpdateStep(form: Obj, i: nat, d: string): (r: Result<Obj, Exn>)
    ensures var v := Get(form, "stepsToReproduce");
      r.Ok? <==> v.Some? && v.value.JArr?
    ensures r.Ok? ==> var steps := Get(form, "stepsToReproduce").value.items;
      exists after: seq<Json> :: Get(r.value, "stepsToReproduce") == Some(JArr(after)) && |after| == |steps| &&
        (forall k :: 0 <= k < |steps| && k != i ==> after[k] == steps[k]) &&
        (i < |steps| ==> after[i] == JObj(Set(ObjectSpread(Some(steps[i])), "description", JStr(d))))
    ensures r.Ok? ==> forall k :: k != "stepsToReproduce" ==> Get(r.value, k) == Get(form, k)
    ensures Get(form, "stepsToReproduce").None? ==>
      r == Err(TypeError("Cannot read properties of undefined (reading 'map')"))
    ensures Get(form, "stepsToReproduce") == Some(JNull) ==>
      r == Err(TypeError("Cannot read properties of null (reading 'map')"))
  {
    var v := Get(form, "stepsToReproduce");
    if v.None? then Err(TypeError("Cannot read properties of undefined (reading 'map')"))
    else if v.value == JNull then Err(TypeError("Cannot read properties of null (reading 'map')"))
    else if v.value.JArr? then Ok(Set(form, "stepsToReproduce", JArr(EditedSteps(v.value.items, i, d))))
    else Err(TypeError("p.stepsToReproduce.map is not a function"))
  }

  /** `steps.map((s, idx) => idx === i ? { ...s, description: d } : s)`. */
  function EditedSteps(steps: seq<Json>, i: nat, d: string): (r: seq<Json>)
    ensures |r| == |steps|
    ensures forall k :: 0 <= k < |steps| && k != i ==> r[k] == steps[k]
    ensures i < |steps| ==> r[i] == JObj(Set(ObjectSpread(Some(steps[i])), "description", JStr(d)))
  {
    seq(|steps|, k requires 0 <= k < |steps| =>
      if k == i then JObj(Set(ObjectSpread(Some(steps[k])), "description", JStr(d))) else steps[k])
  }
}

=== FILE: base64.dfy ===
/** `btoa`: the Base64 encoding of section 4 of RFC 4648 (alphabet
    `A-Z a-z 0-9 + /`, `=` padding) applied to a string whose characters are
    all in the range 0..255, each character standing for one byte. A string
    with a character above 255 makes `btoa` throw an `InvalidCharacterError`.
    `Decode` is the inverse (`atob` on well-formed input). */
module Base64 {
  import opened Wrappers

  type Byte = b: int | 0 <= b < 256
  type Sextet = v: int | 0 <= v < 64

  function AlphabetChar(v: Sextet): char {
    if v < 26 then ('A' as int + v) as char
    else if v < 52 then ('a' as int + v - 26) as char
    else if v < 62 then ('0' as int + v - 52) as char
    else if v == 62 then '+'
    else '/'
  }

  function AlphabetValue(c: char): Option<Sextet> {
    if 'A' <= c <= 'Z' then Some(c as int - 'A' as int)
    else if 'a' <= c <= 'z' then Some(c as int - 'a' as int + 26)
    else if '0' <= c <= '9' then Some(c as int - '0' as int + 52)
    else if c == '+' then Some(62)
    else if c == '/' then Some(63)
    else None
  }

  lemma AlphabetInverse(v: Sextet)
    ensures AlphabetValue(AlphabetChar(v)) == Some(v)
  {
  }

  predicate IsLatin1(s: string) {
    forall i :: 0 <= i < |s| ==> (s[i] as int) < 256
  }

  function Bytes(s: string): (r: seq<Byte>)
    requires IsLatin1(s)
    ensures |r| == |s|
    ensures forall i :: 0 <= i < |s| ==> r[i] == s[i] as int
  {
    if |s| == 0 then [] else [s[0] as int] + Bytes(s[1..])
  }

  function Chars(b: seq<Byte>): (r: string)
    ensures |r| == |b|
    ensures forall i :: 0 <= i < |b| ==> r[i] as int == b[i]
  {
    if |b| == 0 then "" else [b[0] as char] + Chars(b[1..])
  }

  /** Four characters for three bytes; `n` of them (1..3) are real, the rest
      of the four characters are `=`. */
  function Group(b0: Byte, b1: Byte, b2: Byte, n: int): string
    requires 1 <= n <= 3
  {
    var c0 := AlphabetChar(b0 / 4);
    var c1 := AlphabetChar((b0 % 4) * 16 + b1 / 16);
    var c2 := AlphabetChar((b1 % 16) * 4 + b2 / 64);
    var c3 := AlphabetChar(b2 % 64);
    if n == 1 then [c0, c1, '=', '=']
    else if n == 2 then [c0, c1, c2, '=']
    else [c0, c1, c2, c3]
  }

  function Encode(b: seq<Byte>): (r: string)
    ensures |r| == 4 * ((|b| + 2) / 3)
  {
    if |b| == 0 then ""
    else if |b| == 1 then Group(b[0], 0, 0, 1)
    else if |b| == 2 then Group(b[0], b[1], 0, 2)
    else Group(b[0], b[1], b[2], 3) + Encode(b[3..])
  }

  /** `btoa(s)`: `None` when `s` has a character outside 0..255. */
  function Btoa(s: string): (r: Option<string>)
    ensures r.Some? <==> IsLatin1(s)
    ensures r.Some? ==> |r.value| % 4 == 0
  {
    if IsLatin1(s) then Some(Encode(Bytes(s))) else None
  }

  /** Decodes one group of four characters into one to three bytes. */
  function DecodeGroup(g: string): Option<seq<Byte>>
    requires |g| == 4
  {
    var v0 :- AlphabetValue(g[0]);
    var v1 :- AlphabetValue(g[1]);
    var b0 := v0 * 4 + v1 / 16;
    if g[2] == '=' && g[3] == '=' then Some([b0])
    else
      var v2 :- AlphabetValue(g[2]);
      var b1 := (v1 % 16) * 16 + v2 / 4;
      if g[3] == '=' then Some([b0, b1])
      else
        var v3 :- AlphabetValue(g[3]);
        Some([b0, b1, (v2 % 4) * 64 + v3])
  }

  function Decode(s: string): Option<seq<Byte>>
    decreases |s|
  {
    if |s| == 0 then Some([])
    else if |s| < 4 then None
    else
      var head :- DecodeGroup(s[..4]);
      var tail :- Decode(s[4..]);
      Some(head + tail)
  }

  /** `atob(s)` on the output of `btoa`. */
  function Atob(s: string): Option<string> {
    var b :- Decode(s);
    Some(Chars(b))
  }

  /** The first two sextets of a group hold the first byte and the high
      half of the second. */
  lemma FirstSextets(b0: Byte, b1: Byte)
    ensures var v1 := (b0 % 4) * 16 + b1 / 16;
            (b0 / 4) * 4 + v1 / 16 == b0 && v1 % 16 == b1 / 16
  {
  }

  /** The second and third sextets hold the second byte and the top two
      bits of the third. */
  lemma MiddleSextets(b1: Byte, b2: Byte)
    ensures var v2 := (b1 % 16) * 4 + b2 / 64;
            (b1 / 16) * 16 + v2 / 4 == b1 && v2 % 4 == b2 / 64
  {
  }

  lemma GroupRoundTrip(b0: Byte, b1: Byte, b2: Byte, n: int)
    requires 1 <= n <= 3
    ensures DecodeGroup(Group(b0, b1, b2, n)) ==
      Some(if n == 1 then [b0] else if n == 2 then [b0, b1] else [b0, b1, b2])
  {
    var v1 := (b0 % 4) * 16 + b1 / 16;
    var v2 := (b1 % 16) * 4 + b2 / 64;
    AlphabetInverse(b0 / 4);
    AlphabetInverse(v1);
    AlphabetInverse(v2);
    AlphabetInverse(b2 % 64);
    FirstSextets(b0, b1);
    MiddleSextets(b1, b2);
  }

  /** One or two bytes make a single padded group. */
  lemma ShortRoundTrip(b: seq<Byte>)
    requires 1 <= |b| <= 2
    ensures Decode(Encode(b)) == Some(b)
  {
    var g := if |b| == 1 then Group(b[0], 0, 0, 1) else Group(b[0], b[1], 0, 2);
    if |b| == 1 {
      GroupRoundTrip(b[0], 0, 0, 1);
      assert b == [b[0]];
    } else {
      GroupRoundTrip(b[0], b[1], 0, 2);
      assert b == [b[0], b[1]];
    }
    assert Encode(b) == g;
    assert g[..4] == g && g[4..] == "";
    assert b + [] == b;
  }

  lemma {:induction false} EncodeRoundTrip(b: seq<Byte>)
    ensures Decode(Encode(b)) == Some(b)
    decreases |b|
  {
    if |b| == 1 || |b| == 2 {
      ShortRoundTrip(b);
    } else if |b| >= 3 {
      var g := Group(b[0], b[1], b[2], 3);
      GroupRoundTrip(b[0], b[1], b[2], 3);
      EncodeRoundTrip(b[3..]);
      assert Encode(b)[..4] == g;
      assert Encode(b)[4..] == Encode(b[3..]);
      assert [b[0], b[1], b[2]] + b[3..] == b;
    }
  }

  /** Decoding what `btoa` produced gives the original string back, so a
      server reading the `Authorization: Basic` credentials (section 2 of
      RFC 7617) sees exactly what was typed. */
  lemma BtoaRoundTrip(s: string)
    requires IsLatin1(s)
    ensures Btoa(s).Some?
    ensures Atob(Btoa(s).value) == Some(s)
  {
    EncodeRoundTrip(Bytes(s));
    assert Chars(Bytes(s)) == s;
  }
}

=== FILE: cleanup.dfy ===
/** The clean-up every AI handler applies to the model's reply before using
    it: removing Markdown code fences, and (in the development server)
    picking the JSON array or object out of surrounding prose with a
    greedy regular expression. Each function follows the global
    `String.prototype.replace` of its regular expression: matches are found
    left to right in the original string, and `^`/`$` in multiline mode
    anchor at line terminators of the original string. */
module Cleanup {
  import opened Wrappers
  import opened Text

  const FENCE := "```"

  // ---------------------------------------------------------------------
  // /^```[\w]*\n?/gm  then  /```$/gm  then trim (script handler)
  // ---------------------------------------------------------------------

  /** How many leading characters of `s` are word characters. */
  function WordRun(s: string): (n: nat)
    ensures n <= |s|
    ensures forall k :: 0 <= k < n ==> IsWordChar(s[k])
    ensures n < |s| ==> !IsWordChar(s[n])
  {
    if |s| > 0 && IsWordChar(s[0]) then 1 + WordRun(s[1..]) else 0
  }

  /** `s.replace(/^```[\w]*\n?/gm, '')`, scanning `s` whose first character
      follows a line start exactly when `lineStart` holds. */
  function StripOpeningFences(s: string, lineStart: bool): (r: string)
    ensures |r| <= |s|
    decreases |s|
  {
    if |s| == 0 then ""
    else if lineStart && FENCE <= s then
      var afterTicks := s[3..];
      var afterWord := afterTicks[WordRun(afterTicks)..];
      if |afterWord| > 0 && afterWord[0] == '\n' then StripOpeningFences(afterWord[1..], true)
      else StripOpeningFences(afterWord, false)
    else [s[0]] + StripOpeningFences(s[1..], IsLineTerminator(s[0]))
  }

  /** `s.replace(/```$/gm, '')`: three backticks followed by the end of the
      text or a line terminator, which stays. */
  function StripClosingFences(s: string): (r: string)
    ensures |r| <= |s|
    decreases |s|
  {
    if |s| == 0 then ""
    else if FENCE <= s && (|s| == 3 || IsLineTerminator(s[3])) then StripClosingFences(s[3..])
    else [s[0]] + StripClosingFences(s[1..])
  }

  /** The script handler's clean-up of the generated script. */
  function CleanScript(text: string): string {
    Trim(StripClosingFences(StripOpeningFences(text, true)))
  }

  lemma {:induction false} OpeningNoop(s: string, lineStart: bool)
    requires '`' !in s
    ensures StripOpeningFences(s, lineStart) == s
    decreases |s|
  {
    if |s| > 0 {
      assert s[0] != '`';
      assert !(FENCE <= s);
      assert s == [s[0]] + s[1..];
      OpeningNoop(s[1..], IsLineTerminator(s[0]));
    }
  }

  lemma {:induction false} ClosingNoop(s: string)
    requires '`' !in s
    ensures StripClosingFences(s) == s
    decreases |s|
  {
    if |s| > 0 {
      assert s[0] != '`';
      assert !(FENCE <= s);
      assert s == [s[0]] + s[1..];
      ClosingNoop(s[1..]);
    }
  }

  /** A reply without a backtick is only trimmed. */
  lemma CleanScriptPlain(text: string)
    requires '`' !in text
    ensures CleanScript(text) == Trim(text)
  {
    OpeningNoop(text, true);
    ClosingNoop(text);
  }

  /** A script wrapped in one fenced block, with a language tag of word
      characters, comes out as the trimmed script. */
  lemma CleanScriptFenced(lang: string, code: string)
    requires forall k :: 0 <= k < |lang| ==> IsWordChar(lang[k])
    requires '`' !in code
    ensures CleanScript(FENCE + lang + "\n" + code + "\n" + FENCE) == Trim(code + "\n")
  {
    var s := FENCE + lang + "\n" + code + "\n" + FENCE;
    var afterTicks := s[3..];
    assert afterTicks == lang + ("\n" + code + "\n" + FENCE);
    WordRunPrefix(lang, "\n" + code + "\n" + FENCE);
    var afterWord := afterTicks[|lang|..];
    assert afterWord == "\n" + code + "\n" + FENCE;
    assert FENCE <= s;
    assert StripOpeningFences(s, true) == StripOpeningFences(code + "\n" + FENCE, true) by {
      assert afterWord[1..] == code + "\n" + FENCE;
    }
    OpeningAppendFence(code + "\n", true);
    ClosingNoop(code + "\n");
  }

  lemma {:induction false} WordRunPrefix(w: string, rest: string)
    requires forall k :: 0 <= k < |w| ==> IsWordChar(w[k])
    requires |rest| > 0 && !IsWordChar(rest[0])
    ensures WordRun(w + rest) == |w|
  {
    if |w| > 0 {
      assert (w + rest)[1..] == w[1..] + rest;
      WordRunPrefix(w[1..], rest);
    } else {
      assert w + rest == rest;
    }
  }

  /** A fence on a line of its own at the end is matched by the opening
      pattern too (three backticks, no word, no line break), so the opening
      pass already removes it. */
  lemma {:induction false} OpeningAppendFence(x: string, lineStart: bool)
    requires '`' !in x && |x| > 0 && x[|x| - 1] == '\n'
    ensures StripOpeningFences(x + FENCE, lineStart) == x
    decreases |x|
  {
    var s := x + FENCE;
    assert s[0] == x[0];
    assert !(FENCE <= s);
    assert s[1..] == x[1..] + FENCE;
    if |x| == 1 {
      assert s[1..] == FENCE;
      assert FENCE[3..] == "";
      assert StripOpeningFences(FENCE, true) == "";
      assert x == [x[0]];
    } else {
      OpeningAppendFence(x[1..], IsLineTerminator(x[0]));
      assert x == [x[0]] + x[1..];
    }
  }

  /** A closing fence at the end of the text is removed by the closing
      pass. */
  lemma {:induction false} ClosingAppendFence(x: string)
    requires '`' !in x
    ensures StripClosingFences(x + FENCE) == x
    decreases |x|
  {
    var s := x + FENCE;
    if |x| == 0 {
      assert s == FENCE;
      assert s[3..] == "";
    } else {
      assert s[0] == x[0];
      assert !(FENCE <= s);
      assert s[1..] == x[1..] + FENCE;
      ClosingAppendFence(x[1..]);
    }
  }

  // ---------------------------------------------------------------------
  // /```json\n?/g  then  /```\n?/g  then trim (serverless JSON handlers)
  // ---------------------------------------------------------------------

  /** `s.replace(new RegExp(token + '\n?', 'g'), '')`. */
  function RemoveToken(s: string, token: string): (r: string)
    requires |token| > 0
    ensures |r| <= |s|
    decreases |s|
  {
    if |s| == 0 then ""
    else if token <= s then
      var rest := s[|token|..];
      RemoveToken(if |rest| > 0 && rest[0] == '\n' then rest[1..] else rest, token)
    else [s[0]] + RemoveToken(s[1..], token)
  }

  /** The serverless handlers' clean-up of a JSON reply. */
  function CleanJson(text: string): string {
    Trim(RemoveToken(RemoveToken(text, "```json"), FENCE))
  }

  lemma {:induction false} RemoveTokenNoop(s: string, token: string)
    requires |token| > 0 && token[0] == '`' && '`' !in s
    ensures RemoveToken(s, token) == s
    decreases |s|
  {
    if |s| > 0 {
      assert s[0] != '`';
      assert !(token <= s);
      assert s == [s[0]] + s[1..];
      RemoveTokenNoop(s[1..], token);
    }
  }

  /** A reply without a backtick is only trimmed. */
  lemma CleanJsonPlain(text: string)
    requires '`' !in text
    ensures CleanJson(text) == Trim(text)
  {
    RemoveTokenNoop(text, "```json");
    RemoveTokenNoop(text, FENCE);
  }

  /** A reply fenced as ```` ```json ```` … ```` ``` ```` comes out as the trimmed
      JSON text. */
  lemma CleanJsonFenced(body: string)
    requires '`' !in body
    ensures CleanJson("```json\n" + body + FENCE) == Trim(body)
  {
    var s := "```json\n" + body + FENCE;
    assert "```json" <= s;
    assert s[7..] == "\n" + body + FENCE;
    assert ("\n" + body + FENCE)[1..] == body + FENCE;
    RemoveTokenKeepsFence(body, "```json");
    ClosingTokenFence(body);
  }

  lemma {:induction false} RemoveTokenKeepsFence(x: string, token: string)
    requires '`' !in x && token == "```json"
    ensures RemoveToken(x + FENCE, token) == x + FENCE
    decreases |x|
  {
    var s := x + FENCE;
    if |x| == 0 {
      assert s == FENCE;
      assert !(token <= s);
      assert s[1..] == "``";
      assert !(token <= s[1..]);
      assert s[1..][1..] == "`";
      assert !(token <= s[1..][1..]);
      assert s[1..][1..][1..] == "";
    } else {
      assert s[0] == x[0];
      assert !(token <= s);
      assert s[1..] == x[1..] + FENCE;
      RemoveTokenKeepsFence(x[1..], token);
    }
  }

  lemma {:induction false} ClosingTokenFence(x: string)
    requires '`' !in x
    ensures RemoveToken(x + FENCE, FENCE) == x
    decreases |x|
  {
    var s := x + FENCE;
    if |x| == 0 {
      assert s == FENCE;
      assert s[3..] == "";
    } else {
      assert s[0] == x[0];
      assert !(FENCE <= s);
      assert s[1..] == x[1..] + FENCE;
      ClosingTokenFence(x[1..]);
    }
  }

  // ---------------------------------------------------------------------
  // /\[[\s\S]*\]/ and /\{[\s\S]*\}/ (development server)
  // ---------------------------------------------------------------------

  function LastIndexOf(s: string, c: char): (r: Option<nat>)
    ensures r.Some? ==> r.value < |s| && s[r.value] == c
    ensures r.Some? ==> forall k :: r.value < k < |s| ==> s[k] != c
    ensures r.None? ==> c !in s
    decreases |s|
  {
    if |s| == 0 then None
    else if s[|s| - 1] == c then Some(|s| - 1)
    else LastIndexOf(s[..|s| - 1], c)
  }

  function IndexOf(s: string, c: char): (r: Option<nat>)
    ensures r.Some? ==> r.value < |s| && s[r.value] == c
    ensures r.Some? ==> forall k :: 0 <= k < r.value ==> s[k] != c
    ensures r.None? ==> c !in s
    decreases |s|
  {
    if |s| == 0 then None
    else if s[0] == c then Some(0)
    else
      match IndexOf(s[1..], c)
      case None => None
      case Some(i) => Some(i + 1)
  }

  /** The text a greedy `open [\s\S]* close` pattern matches: from the first
      `open` to the last `close`, when that `close` comes after it. */
  function GreedySpan(s: string, open: char, close: char): (r: Option<string>)
    ensures r.Some? <==> IndexOf(s, open).Some? && LastIndexOf(s, close).Some?
                         && IndexOf(s, open).value < LastIndexOf(s, close).value
    ensures r.Some? ==> |r.value| >= 2 && r.value[0] == open && r.value[|r.value| - 1] == close
    ensures r.Some? ==> r.value == s[IndexOf(s, open).value..LastIndexOf(s, close).value + 1]
    ensures r.Some? ==> forall k :: 0 <= k < IndexOf(s, open).value ==> s[k] != open
    ensures r.Some? ==> forall k :: LastIndexOf(s, close).value < k < |s| ==> s[k] != close
  {
    match (IndexOf(s, open), LastIndexOf(s, close))
    case (Some(i), Some(j)) =>
      if i < j then Some(s[i..j + 1])
      else None
    case _ => None
  }

  /** The pattern matches somewhere exactly when an `open` comes before a
      `close`: when the first `open` has no `close` after it, no later
      `open` has one either. */
  lemma GreedySpanMatches(s: string, open: char, close: char)
    ensures GreedySpan(s, open, close).Some? <==>
            exists a, b :: 0 <= a < b < |s| && s[a] == open && s[b] == close
  {
    var i := IndexOf(s, open);
    var j := LastIndexOf(s, close);
    if exists a, b :: 0 <= a < b < |s| && s[a] == open && s[b] == close {
      var a, b :| 0 <= a < b < |s| && s[a] == open && s[b] == close;
      assert open in s && close in s;
    }
    if GreedySpan(s, open, close).Some? {
      assert s[i.value] == open && s[j.value] == close;
    }
  }
}

=== FILE: csv.dfy ===
/** Comma-separated values as the exporter writes them: a field is quoted
    when it holds a comma, a double quote or a line feed, with every double
    quote doubled (section 2 of RFC 4180); fields are joined with `,` and
    records with `\n`. A quote-aware reader is defined next to the writer so
    that the writer can be shown to lose nothing. */
module Csv {
  import opened Text

  /** The field has to be enclosed in double quotes. */
  predicate NeedsQuoting(s: string) {
    ',' in s || '"' in s || '\n' in s
  }

  /** `s.replace(/"/g, '""')`. */
  function DoubleQuotes(s: string): (r: string)
    ensures '"' !in s ==> r == s
    ensures |r| >= |s|
    ensures forall c :: c != '"' ==> (c in r <==> c in s)
  {
    if |s| == 0 then ""
    else (if s[0] == '"' then "\"\"" else [s[0]]) + DoubleQuotes(s[1..])
  }

  /** One field as written: quoted with doubled quotes when it needs
      quoting, verbatim otherwise. */
  function EscapeField(s: string): (r: string)
    ensures NeedsQuoting(s) <==> (|r| > 0 && r[0] == '"')
    ensures !NeedsQuoting(s) ==> r == s
  {
    if NeedsQuoting(s) then "\"" + DoubleQuotes(s) + "\"" else s
  }

  function EscapeAll(fields: seq<string>): (r: seq<string>)
    ensures |r| == |fields|
    ensures forall i :: 0 <= i < |fields| ==> r[i] == EscapeField(fields[i])
  {
    seq(|fields|, i requires 0 <= i < |fields| => EscapeField(fields[i]))
  }

  /** One record: the escaped fields joined with `,`. */
  function Record(fields: seq<string>): string {
    Join(EscapeAll(fields), ",")
  }

  /** A whole file: the records joined with `\n`. */
  function Document(rows: seq<seq<string>>): string {
    Join(seq(|rows|, i requires 0 <= i < |rows| => Record(rows[i])), "\n")
  }

  // ---------------------------------------------------------------------
  // Reading
  // ---------------------------------------------------------------------

  /** Outcome of scanning for a separator outside double quotes. */
  datatype Scan = Found(at: nat) | Through(quoted: bool)

  /** The first position holding `sep` while outside quotes, each `"`
      toggling the quoted state; or the state after the whole text. */
  function ScanFor(s: string, sep: char, quoted: bool): (r: Scan)
    ensures r.Found? ==> r.at < |s| && s[r.at] == sep
    decreases |s|
  {
    if |s| == 0 then Through(quoted)
    else if s[0] == sep && !quoted then Found(0)
    else
      match ScanFor(s[1..], sep, if s[0] == '"' then !quoted else quoted)
      case Found(k) => Found(k + 1)
      case Through(q) => Through(q)
  }

  /** Cuts the text at every separator that lies outside quotes. */
  function SplitTop(s: string, sep: char): (r: seq<string>)
    ensures |r| >= 1
    decreases |s|
  {
    match ScanFor(s, sep, false)
    case Through(_) => [s]
    case Found(k) => [s[..k]] + SplitTop(s[k + 1..], sep)
  }

  /** Undoes the doubling of quotes. */
  function Undouble(s: string): string
    decreases |s|
  {
    if |s| == 0 then ""
    else if |s| >= 2 && s[0] == '"' && s[1] == '"' then "\"" + Undouble(s[2..])
    else [s[0]] + Undouble(s[1..])
  }

  /** One field as read: a quoted field loses its quotes and its doubled
      quotes, any other field is taken verbatim. */
  function Unescape(f: string): string {
    if |f| >= 2 && f[0] == '"' && f[|f| - 1] == '"' then Undouble(f[1..|f| - 1]) else f
  }

  function ParseRecord(line: string): (r: seq<string>)
    ensures |r| >= 1
  {
    var cells := SplitTop(line, ',');
    seq(|cells|, i requires 0 <= i < |cells| => Unescape(cells[i]))
  }

  function Parse(text: string): (r: seq<seq<string>>)
    ensures |r| >= 1
  {
    var lines := SplitTop(text, '\n');
    seq(|lines|, i requires 0 <= i < |lines| => ParseRecord(lines[i]))
  }

  // ---------------------------------------------------------------------
  // The writer loses nothing
  // ---------------------------------------------------------------------

  /** Cutting at top-level separators and joining on them again gives the
      text back. */
  lemma {:induction false} JoinSplitTop(s: string, sep: char)
    ensures Join(SplitTop(s, sep), [sep]) == s
    decreases |s|
  {
    match ScanFor(s, sep, false)
    case Through(_) =>
    case Found(k) =>
      JoinSplitTop(s[k + 1..], sep);
      JoinCons(s[..k], SplitTop(s[k + 1..], sep), [sep]);
      assert s[..k] + [sep] + s[k + 1..] == s;
  }

  lemma {:induction false} ScanAppend(a: string, b: string, sep: char, q: bool)
    ensures ScanFor(a + b, sep, q) ==
      match ScanFor(a, sep, q)
      case Found(k) => Found(k)
      case Through(q') =>
        match ScanFor(b, sep, q')
        case Found(k) => Found(|a| + k)
        case Through(q'') => Through(q'')
    decreases |a|
  {
    if |a| > 0 {
      assert (a + b)[1..] == a[1..] + b;
      ScanAppend(a[1..], b, sep, if a[0] == '"' then !q else q);
    } else {
      assert a + b == b;
    }
  }

  /** Inside quotes a doubled-quote text never shows a separator and
      leaves the reader inside quotes. */
  lemma {:induction false} DoubledScan(s: string, sep: char)
    requires sep != '"'
    ensures ScanFor(DoubleQuotes(s), sep, true) == Through(true)
    decreases |s|
  {
    if |s| > 0 {
      var piece := if s[0] == '"' then "\"\"" else [s[0]];
      DoubledScan(s[1..], sep);
      ScanAppend(piece, DoubleQuotes(s[1..]), sep, true);
    }
  }

  lemma {:induction false} PlainScan(s: string, sep: char)
    requires '"' !in s && sep !in s
    ensures ScanFor(s, sep, false) == Through(false)
    decreases |s|
  {
    if |s| > 0 {
      PlainScan(s[1..], sep);
    }
  }

  /** An escaped field holds no separator outside quotes and ends outside
      quotes. */
  lemma EscapedScan(s: string, sep: char)
    requires sep == ',' || sep == '\n'
    ensures ScanFor(EscapeField(s), sep, false) == Through(false)
  {
    if NeedsQuoting(s) {
      var d := DoubleQuotes(s);
      DoubledScan(s, sep);
      ScanAppend("\"", d, sep, false);
      ScanAppend("\"" + d, "\"", sep, false);
    } else {
      PlainScan(s, sep);
    }
  }

  lemma {:induction false} JoinScan(parts: seq<string>, c: char, sep: char)
    requires c != sep && c != '"'
    requires forall i :: 0 <= i < |parts| ==> ScanFor(parts[i], sep, false) == Through(false)
    ensures ScanFor(Join(parts, [c]), sep, false) == Through(false)
    decreases |parts|
  {
    if |parts| >= 2 {
      JoinScan(parts[1..], c, sep);
      JoinCons(parts[0], parts[1..], [c]);
      assert [parts[0]] + parts[1..] == parts;
      ScanAppend(parts[0], [c], sep, false);
      ScanAppend(parts[0] + [c], Join(parts[1..], [c]), sep, false);
    }
  }

  lemma {:induction false} SplitTopJoin(parts: seq<string>, sep: char)
    requires |parts| >= 1
    requires forall i :: 0 <= i < |parts| ==> ScanFor(parts[i], sep, false) == Through(false)
    ensures SplitTop(Join(parts, [sep]), sep) == parts
    decreases |parts|
  {
    if |parts| >= 2 {
      var j := Join(parts[1..], [sep]);
      JoinCons(parts[0], parts[1..], [sep]);
      assert [parts[0]] + parts[1..] == parts;
      var s := parts[0] + [sep] + j;
      ScanAppend(parts[0], [sep] + j, sep, false);
      assert ([sep] + j)[0] == sep;
      assert ScanFor([sep] + j, sep, false) == Found(0);
      assert parts[0] + [sep] + j == parts[0] + ([sep] + j);
      assert ScanFor(s, sep, false) == Found(|parts[0]|);
      assert s[..|parts[0]|] == parts[0];
      assert s[|parts[0]| + 1..] == j;
      SplitTopJoin(parts[1..], sep);
      assert SplitTop(s, sep) == [parts[0]] + SplitTop(j, sep);
    }
  }

  lemma {:induction false} UndoubleDouble(s: string)
    ensures Undouble(DoubleQuotes(s)) == s
    decreases |s|
  {
    if |s| > 0 {
      UndoubleDouble(s[1..]);
      var d := DoubleQuotes(s);
      if s[0] == '"' {
        assert d[2..] == DoubleQuotes(s[1..]);
      } else {
        assert d[1..] == DoubleQuotes(s[1..]);
        assert d[0] == s[0];
      }
    }
  }

  /** Reading an escaped field gives the field back. */
  lemma UnescapeEscape(s: string)
    ensures Unescape(EscapeField(s)) == s
  {
    if NeedsQuoting(s) {
      var f := EscapeField(s);
      assert f[1..|f| - 1] == DoubleQuotes(s);
      UndoubleDouble(s);
    } else if |s| >= 2 {
      assert s[0] in s;
    }
  }

  /** Reading one written record gives its fields back. */
  lemma RecordRoundTrip(fields: seq<string>)
    requires |fields| >= 1
    ensures ParseRecord(Record(fields)) == fields
  {
    var e := EscapeAll(fields);
    forall i | 0 <= i < |e|
      ensures ScanFor(e[i], ',', false) == Through(false)
    {
      EscapedScan(fields[i], ',');
    }
    SplitTopJoin(e, ',');
    forall i | 0 <= i < |fields|
      ensures Unescape(e[i]) == fields[i]
    {
      UnescapeEscape(fields[i]);
    }
  }

  /** Reading a written file gives every record back, field for field,
      whatever the fields contain. */
  lemma DocumentRoundTrip(rows: seq<seq<string>>)
    requires |rows| >= 1
    requires forall i :: 0 <= i < |rows| ==> |rows[i]| >= 1
    ensures Parse(Document(rows)) == rows
  {
    var records := seq(|rows|, i requires 0 <= i < |rows| => Record(rows[i]));
    forall i | 0 <= i < |records|
      ensures ScanFor(records[i], '\n', false) == Through(false)
    {
      var e := EscapeAll(rows[i]);
      forall j | 0 <= j < |e|
        ensures ScanFor(e[j], '\n', false) == Through(false)
      {
        EscapedScan(rows[i][j], '\n');
      }
      JoinScan(e, ',', '\n');
    }
    SplitTopJoin(records, '\n');
    forall i | 0 <= i < |rows|
      ensures ParseRecord(records[i]) == rows[i]
    {
      RecordRoundTrip(rows[i]);
    }
  }
}

=== FILE: dev_server.dfy ===
/** The Express development server: the same AI endpoints as the serverless
    handlers, backed by the Gemini SDK model object, which exists only when
    `GEMINI_API_KEY` was set at start-up; a proxy; and an in-memory store
    of five lists. The model's answers and the proxied `fetch` are inputs;
    prompts are opaque and left out. */
module DevServer {
  import opened Wrappers
  import opened Text
  import opened Json
  import opened Cleanup
  import EventStream
  import Handlers

  type Reply = Handlers.Reply

  const DEFAULT_MODEL_NAME := "gemini-2.5-flash"
  const UNAVAILABLE := "AI service unavailable"

  /** `process.env.GEMINI_MODEL || 'gemini-2.5-flash'`; an unset variable is
      the empty string. */
  function ModelName(env: string): (r: string)
    ensures env != "" ==> r == env
    ensures env == "" ==> r == DEFAULT_MODEL_NAME
  {
    if env != "" then env else DEFAULT_MODEL_NAME
  }

  /** The server's configuration: whether the model object was created, and
      its name. */
  datatype Config = Config(modelReady: bool, modelName: string)

  /** `GET /api/health`; `timestamp` is `new Date().toISOString()`. */
  function Health(c: Config, timestamp: string): (r: Json)
    ensures r.JObj? && UniqueKeys(r.members)
    ensures ("geminiConnected", JBool(c.modelReady)) in r.members
    ensures ("model", if c.modelReady then JStr(c.modelName) else JNull) in r.members
    ensures ("status", JStr("ok")) in r.members
  {
    JObj([("status", JStr("ok")), ("geminiConnected", JBool(c.modelReady)),
          ("model", if c.modelReady then JStr(c.modelName) else JNull),
          ("timestamp", JStr(timestamp))])
  }

  /** What `model.generateContent(prompt)` gave: a rejection, or the
      response text. */
  datatype ModelAnswer = ModelThrew(message: string) | ModelText(text: string)

  /** `res.status(s).json({ error })`. */
  function Fail(status: int, message: string): Reply {
    Handlers.JsonReply(status, JObj([("error", JStr(message))]))
  }

  function Ok200(body: Json): Reply {
    Handlers.JsonReply(200, body)
  }

  /** Every AI endpoint starts with this guard. */
  function ModelGuard(c: Config): (r: Option<Reply>)
    ensures r.Some? <==> !c.modelReady
    ensures r.Some? ==> r.value == Fail(503, UNAVAILABLE)
  {
    if c.modelReady then None else Some(Fail(503, UNAVAILABLE))
  }

  /** `JSON.parse(text.match(pattern)[0])` where the pattern is the greedy
      span from `open` to `close`; `missing` is the error thrown when there
      is no span. */
  function ExtractJson(text: string, open: char, close: char, missing: string,
                       parse: string -> Result<Json, string>): (r: Result<Json, string>)
    ensures GreedySpan(text, open, close).None? ==> r == Err(missing)
    ensures GreedySpan(text, open, close).Some? ==> r == parse(GreedySpan(text, open, close).value)
  {
    match GreedySpan(text, open, close)
    case None => Err(missing)
    case Some(span) => parse(span)
  }

  /** A JSON value the model wraps in prose is recovered whole, as long as
      the prose before it has no opening bracket and the prose after it no
      closing one. */
  lemma ExtractAmidProse(before: string, v: Json, after: string, open: char, close: char,
                         missing: string, parse: string -> Result<Json, string>)
    requires (v.JArr? && open == '[' && close == ']') || (v.JObj? && open == '{' && close == '}')
    requires open !in before && close !in after
    requires forall x :: parse(Stringify(x)) == Ok(x)
    ensures ExtractJson(before + Stringify(v) + after, open, close, missing, parse) == Ok(v)
  {
    var j := Stringify(v);
    var s := before + j + after;
    StringifyEnds(v);
    var i := IndexOf(s, open);
    var l := LastIndexOf(s, close);
    assert s[|before|] == open;
    assert forall k :: 0 <= k < |before| ==> s[k] == before[k];
    assert i.Some? && i.value == |before|;
    assert s[|before| + |j| - 1] == close;
    assert forall k :: |before| + |j| <= k < |s| ==> s[k] == after[k - |before| - |j|];
    assert l.Some? && l.value == |before| + |j| - 1;
    assert s[|before|..|before| + |j|] == j;
  }

  /** `JSON.stringify` of an array ends with `]`, of an object with `}`. */
  lemma StringifyEnds(v: Json)
    requires v.JArr? || v.JObj?
    ensures |Stringify(v)| >= 2
    ensures v.JArr? ==> Stringify(v)[|Stringify(v)| - 1] == ']'
    ensures v.JObj? ==> Stringify(v)[|Stringify(v)| - 1] == '}'
  {
  }

  // ---------------------------------------------------------------------
  // AI endpoints
  // ---------------------------------------------------------------------

  /** `POST /api/ai/generate-testcases`. */
  function GenerateTestCases(c: Config, answer: ModelAnswer, parse: string -> Result<Json, string>): (r: Reply)
    ensures !c.modelReady ==> r == Fail(503, UNAVAILABLE)
    ensures c.modelReady && answer.ModelText? && GreedySpan(answer.text, '[', ']').None?
            ==> r == Fail(500, "Failed to parse test cases from AI response")
    ensures c.modelReady && answer.ModelThrew? ==> r == Fail(500, answer.message)
    ensures c.modelReady && answer.ModelText? && GreedySpan(answer.text, '[', ']').Some?
            ==> match parse(GreedySpan(answer.text, '[', ']').value)
                case Ok(cases) => r == Ok200(JObj([("testCases", cases), ("model", JStr(c.modelName))]))
                case Err(m) => r == Fail(500, m)
  {
    if !c.modelReady then Fail(503, UNAVAILABLE)
    else
      match answer
      case ModelThrew(m) => Fail(500, m)
      case ModelText(text) =>
        match ExtractJson(text, '[', ']', "Failed to parse test cases from AI response", parse)
        case Ok(cases) => Ok200(JObj([("testCases", cases), ("model", JStr(c.modelName))]))
        case Err(m) => Fail(500, m)
  }

  /** `POST /api/ai/audit-accessibility`. */
  function AuditAccessibility(c: Config, answer: ModelAnswer, parse: string -> Result<Json, string>): (r: Reply)
    ensures !c.modelReady ==> r == Fail(503, UNAVAILABLE)
    ensures c.modelReady && answer.ModelText? && GreedySpan(answer.text, '{', '}').None?
            ==> r == Fail(500, "Failed to parse audit results")
    ensures c.modelReady && answer.ModelThrew? ==> r == Fail(500, answer.message)
    ensures c.modelReady && answer.ModelText? && GreedySpan(answer.text, '{', '}').Some?
            ==> match parse(GreedySpan(answer.text, '{', '}').value)
                case Ok(v) => r == Ok200(v)
                case Err(m) => r == Fail(500, m)
  {
    if !c.modelReady then Fail(503, UNAVAILABLE)
    else
      match answer
      case ModelThrew(m) => Fail(500, m)
      case ModelText(text) =>
        match ExtractJson(text, '{', '}', "Failed to parse audit results", parse)
        case Ok(v) => Ok200(v)
        case Err(m) => Fail(500, m)
  }

  /** `POST /api/ai/generate-from-notes`. */
  function GenerateFromNotes(c: Config, answer: ModelAnswer, parse: string -> Result<Json, string>): (r: Reply)
    ensures !c.modelReady ==> r == Fail(503, UNAVAILABLE)
    ensures c.modelReady && answer.ModelText? && GreedySpan(answer.text, '{', '}').None?
            ==> r == Fail(500, "Failed to parse generated content")
    ensures c.modelReady && answer.ModelThrew? ==> r == Fail(500, answer.message)
    ensures c.modelReady && answer.ModelText? && GreedySpan(answer.text, '{', '}').Some?
            ==> match parse(GreedySpan(answer.text, '{', '}').value)
                case Ok(v) => r == Ok200(JObj([("generated", v)]))
                case Err(m) => r == Fail(500, m)
  {
    if !c.modelReady then Fail(503, UNAVAILABLE)
    else
      match answer
      case ModelThrew(m) => Fail(500, m)
      case ModelText(text) =>
        match ExtractJson(text, '{', '}', "Failed to parse generated content", parse)
        case Ok(v) => Ok200(JObj([("generated", v)]))
        case Err(m) => Fail(500, m)
  }

  /** `POST /api/ai/generate-assertions`: no bracketed span is not an error
      but an empty list. Reading `request.method` throws when the body has
      no `request`, before the model is asked. */
  function GenerateAssertions(c: Config, body: Json, answer: ModelAnswer,
                              parse: string -> Result<Json, string>): (r: Reply)
    ensures !c.modelReady ==> r == Fail(503, UNAVAILABLE)
    ensures c.modelReady && Prop(Some(body), "request") in {None, Some(JNull)}
            ==> r.JsonReply? && r.status == 500
    ensures c.modelReady && Prop(Some(body), "request") !in {None, Some(JNull)}
            && Prop(Some(body), "response") !in {None, Some(JNull)}
            && answer.ModelText? && GreedySpan(answer.text, '[', ']').None?
            ==> r == Ok200(JObj([("assertions", JArr([]))]))
    ensures c.modelReady && Prop(Some(body), "request") !in {None, Some(JNull)}
            && Prop(Some(body), "response") !in {None, Some(JNull)}
            && answer.ModelText? && GreedySpan(answer.text, '[', ']').Some?
            ==> match parse(GreedySpan(answer.text, '[', ']').value)
                case Ok(v) => r == Ok200(JObj([("assertions", v)]))
                case Err(m) => r == Fail(500, m)
  {
    if !c.modelReady then Fail(503, UNAVAILABLE)
    else
      var request := Prop(Some(body), "request");
      var response := Prop(Some(body), "response");
      if request.None? then Fail(500, "Cannot read properties of undefined (reading 'method')")
      else if request == Some(JNull) then Fail(500, "Cannot read properties of null (reading 'method')")
      else if response.None? then Fail(500, "Cannot read properties of undefined (reading 'status')")
      else if response == Some(JNull) then Fail(500, "Cannot read properties of null (reading 'status')")
      else
        match answer
        case ModelThrew(m) => Fail(500, m)
        case ModelText(text) =>
          match GreedySpan(text, '[', ']')
          case None => Ok200(JObj([("assertions", JArr([]))]))
          case Some(span) =>
            match parse(span)
            case Ok(v) => Ok200(JObj([("assertions", v)]))
            case Err(m) => Fail(500, m)
  }

  /** `POST /api/ai/summarize` and `POST /api/ai/elaborate`: the model's text,
      untrimmed, under `key`. */
  function TextEndpoint(c: Config, key: string, answer: ModelAnswer): (r: Reply)
    ensures !c.modelReady ==> r == Fail(503, UNAVAILABLE)
    ensures c.modelReady && answer.ModelText? ==> r == Ok200(JObj([(key, JStr(answer.text))]))
    ensures c.modelReady && answer.ModelThrew? ==> r == Fail(500, answer.message)
  {
    if !c.modelReady then Fail(503, UNAVAILABLE)
    else
      match answer
      case ModelThrew(m) => Fail(500, m)
      case ModelText(text) => Ok200(JObj([(key, JStr(text))]))
  }

  // ---------------------------------------------------------------------
  // The script stream
  // ---------------------------------------------------------------------

  /** What `model.generateContentStream` gave: the texts of the chunks that
      arrived, and the error that ended the stream early, if any. */
  datatype ModelStream = ModelStream(texts: seq<string>, failure: Option<string>)

  /** The chunk texts `if (text)` lets through: the non-empty ones, in
      arrival order and each as often as it arrived. */
  function NonEmpty(texts: seq<string>): (r: seq<string>)
    ensures r == Filter(texts, Written)
    ensures forall t :: t in r ==> t != ""
  {
    if |texts| == 0 then []
    else
      FilterStep(texts, Written);
      (if texts[0] != "" then [texts[0]] else []) + NonEmpty(texts[1..])
  }

  /** `if (text)` as a value to filter with. */
  function Written(t: string): bool {
    t != ""
  }

  /** Skipping the empty chunks loses no text: the events carry the whole
      answer. */
  lemma {:induction false} NonEmptyKeepsText(texts: seq<string>)
    ensures EventStream.Concat(NonEmpty(texts)) == EventStream.Concat(texts)
  {
    if |texts| > 0 {
      NonEmptyKeepsText(texts[1..]);
      var rest := NonEmpty(texts[1..]);
      if texts[0] != "" {
        assert ([texts[0]] + rest)[1..] == rest;
      }
    }
  }

  /** The payload of an error event. */
  function ErrorPayload(message: string): string {
    Stringify(JObj([("error", JStr(message))]))
  }

  /** `POST /api/ai/generate-script`: one `{text}` event per non-empty chunk,
      then `[DONE]`, or, when the stream fails, an error event and no
      `[DONE]`. The unavailable model is answered with JSON, not events. */
  function GenerateScript(c: Config, stream: ModelStream): (r: Either)
    ensures !c.modelReady ==> r == JsonAnswer(Fail(503, UNAVAILABLE))
    ensures c.modelReady ==> r.StreamAnswer?
    ensures c.modelReady && stream.failure.None?
            ==> r.body == EventStream.Frames(EventStream.TextPayloads(NonEmpty(stream.texts)) + [EventStream.DONE])
    ensures c.modelReady && stream.failure.Some?
            ==> r.body == EventStream.Frames(EventStream.TextPayloads(NonEmpty(stream.texts))
                                             + [ErrorPayload(stream.failure.value)])
  {
    if !c.modelReady then JsonAnswer(Fail(503, UNAVAILABLE))
    else
      var events := EventStream.TextPayloads(NonEmpty(stream.texts));
      StreamAnswer(EventStream.Frames(events + [if stream.failure.None? then EventStream.DONE
                                                else ErrorPayload(stream.failure.value)]))
  }

  datatype Either = JsonAnswer(reply: Reply) | StreamAnswer(body: string)

  /** The client reading the stream in one chunk yields every non-empty
      chunk text in order; it sees `[DONE]` exactly when the stream did not
      fail, and then the error event comes last. */
  lemma ScriptStreamRoundTrip(stream: ModelStream, parse: string -> Result<Json, string>)
    requires forall v :: parse(Stringify(v)) == Ok(v)
    ensures var b := GenerateScript(Config(true, DEFAULT_MODEL_NAME), stream).body;
            var ps := EventStream.AllPayloads([b]);
            (EventStream.DONE in ps <==> stream.failure.None?)
            && EventStream.Fragments(EventStream.UntilDone(ps), parse)
               == EventStream.TextFragments(NonEmpty(stream.texts))
                  + (if stream.failure.None? then [] else [JObj([("error", JStr(stream.failure.value))])])
  {
    var texts := NonEmpty(stream.texts);
    var b := GenerateScript(Config(true, DEFAULT_MODEL_NAME), stream).body;
    EventStream.TextFragmentsParsed(texts, parse);
    if stream.failure.None? {
      DoneStreamPayloads(texts);
    } else {
      ErrorFragment(stream.failure.value, parse);
      FailedStreamPayloads(texts, stream.failure.value, parse);
    }
  }

  /** A stream that ended well reads back as its text events, cut at
      `[DONE]`. */
  lemma DoneStreamPayloads(texts: seq<string>)
    ensures var events := EventStream.TextPayloads(texts);
            var ps := EventStream.AllPayloads([EventStream.Frames(events + [EventStream.DONE])]);
            EventStream.DONE in ps && EventStream.UntilDone(ps) == events
  {
    var events := EventStream.TextPayloads(texts);
    OneReadPayloads(texts, EventStream.DONE);
    EventStream.TextPayloadsOneLine(texts);
    EventStream.UntilDoneAtDone(events);
  }

  /** A stream that failed reads back as its text events and then the
      error object, with no `[DONE]`. */
  lemma FailedStreamPayloads(texts: seq<string>, message: string, parse: string -> Result<Json, string>)
    requires EventStream.Fragment(ErrorPayload(message), parse) == JObj([("error", JStr(message))])
    requires EventStream.Fragments(EventStream.TextPayloads(texts), parse) == EventStream.TextFragments(texts)
    ensures var events := EventStream.TextPayloads(texts);
            var ps := EventStream.AllPayloads([EventStream.Frames(events + [ErrorPayload(message)])]);
            EventStream.DONE !in ps &&
            EventStream.Fragments(EventStream.UntilDone(ps), parse)
              == EventStream.TextFragments(texts) + [JObj([("error", JStr(message))])]
  {
    var events := EventStream.TextPayloads(texts);
    var last := ErrorPayload(message);
    ErrorPayloadOneLine(message);
    LastPayloadKept(texts, last);
    EventStream.FragmentsSnoc(events, last, parse);
  }

  /** An error event's payload is one line and not `[DONE]`. */
  lemma ErrorPayloadOneLine(message: string)
    ensures '\n' !in ErrorPayload(message) && ErrorPayload(message) != EventStream.DONE
  {
    StringifyOneLine(JObj([("error", JStr(message))]));
    assert ErrorPayload(message)[0] == '{';
  }

  /** The client reads an error event back as the error object. */
  lemma ErrorFragment(message: string, parse: string -> Result<Json, string>)
    requires forall v :: parse(Stringify(v)) == Ok(v)
    ensures EventStream.Fragment(ErrorPayload(message), parse) == JObj([("error", JStr(message))])
  {
    assert parse(ErrorPayload(message)) == Ok(JObj([("error", JStr(message))]));
  }

  /** Text events and one more line-free payload other than `[DONE]`,
      read in one chunk, come back whole and without `[DONE]`. */
  lemma LastPayloadKept(texts: seq<string>, last: string)
    requires '\n' !in last && last != EventStream.DONE
    ensures var ps := EventStream.TextPayloads(texts) + [last];
            EventStream.AllPayloads([EventStream.Frames(ps)]) == ps &&
            EventStream.DONE !in ps && EventStream.UntilDone(ps) == ps
  {
    var events := EventStream.TextPayloads(texts);
    OneReadPayloads(texts, last);
    EventStream.TextPayloadsOneLine(texts);
    EventStream.UntilDoneAppend(events + [last], []);
    assert events + [last] + [] == events + [last];
  }

  /** Text events followed by one more line-free payload, read in one
      chunk, give those payloads back. */
  lemma OneReadPayloads(texts: seq<string>, last: string)
    requires '\n' !in last
    ensures EventStream.AllPayloads([EventStream.Frames(EventStream.TextPayloads(texts) + [last])])
            == EventStream.TextPayloads(texts) + [last]
  {
    var ps := EventStream.TextPayloads(texts) + [last];
    EventStream.TextPayloadsOneLine(texts);
    assert forall k :: 0 <= k < |ps| ==> '\n' !in ps[k];
    EventStream.OneChunk(ps);
  }

  // ---------------------------------------------------------------------
  // Proxy
  // ---------------------------------------------------------------------

  /** `fetch` rejected, or answered with headers and body text. */
  datatype Fetched = FetchFailed(message: string) | Fetched(status: int, statusText: string,
                                                           headers: seq<(string, string)>, text: string)

  /** The body the development proxy attaches: for a truthy body and a raw
      method other than "GET" (a HEAD request keeps it, unlike the serverless
      proxy). */
  function ProxyBody(verb: JsValue, body: JsValue): (r: Option<string>)
    ensures r.Some? <==> Truthy(body) && verb != Str("GET")
    ensures r.Some? && IsStr(body) ==> r.value == body.value.s
    ensures r.Some? && !IsStr(body) ==> r.value == Stringify(body.value)
  {
    if Truthy(body) && verb != Str("GET") then
      Some(if body.value.JStr? then body.value.s else Stringify(body.value))
    else None
  }

  /** The object relayed for an answered request. */
  function Relayed(status: int, statusText: string, headers: Obj, text: string, elapsed: int): Obj {
    [("status", JNum(status)), ("statusText", JStr(statusText)),
     ("headers", JObj(headers)), ("body", JStr(text)), ("time", JNum(elapsed))]
  }

  lemma RelayedUnique(status: int, statusText: string, headers: Obj, text: string, elapsed: int)
    ensures UniqueKeys(Relayed(status, statusText, headers, text, elapsed))
  {
  }

  lemma RelayedHead(status: int, statusText: string, headers: Obj, text: string, elapsed: int)
    ensures var o := Relayed(status, statusText, headers, text, elapsed);
      Get(o, "status") == Some(JNum(status)) && Get(o, "statusText") == Str(statusText) &&
      Get(o, "headers") == Some(JObj(headers))
  {
    var o := Relayed(status, statusText, headers, text, elapsed);
    RelayedUnique(status, statusText, headers, text, elapsed);
    GetAt(o, 2);
  }

  lemma RelayedTail(status: int, statusText: string, headers: Obj, text: string, elapsed: int)
    ensures var o := Relayed(status, statusText, headers, text, elapsed);
      Get(o, "body") == Str(text) && Get(o, "time") == Some(JNum(elapsed))
  {
    var o := Relayed(status, statusText, headers, text, elapsed);
    RelayedUnique(status, statusText, headers, text, elapsed);
    GetAt(o, 3);
    GetAt(o, 4);
  }

  /** `POST /api/proxy/execute`: the outgoing request's body, and the reply. */
  function ProxyExecute(body: Json, f: Fetched, elapsed: int): (r: (Option<string>, Reply))
    ensures r.0 == ProxyBody(Prop(Some(body), "method"), Prop(Some(body), "body"))
    ensures f.FetchFailed? ==> r.1 == Handlers.JsonReply(500, JObj([("status", JNum(0)), ("statusText", JStr("Error")),
                                                                   ("body", JStr(f.message)), ("time", JNum(0))]))
    ensures f.Fetched? ==> r.1.JsonReply? && r.1.status == 200 && r.1.body.JObj?
                           && UniqueKeys(r.1.body.members)
                           && Get(r.1.body.members, "status") == Some(JNum(f.status))
                           && Get(r.1.body.members, "statusText") == Str(f.statusText)
                           && Get(r.1.body.members, "headers") == Some(JObj(Handlers.HeaderObject(f.headers)))
                           && Get(r.1.body.members, "body") == Str(f.text)
                           && Get(r.1.body.members, "time") == Some(JNum(elapsed))
  {
    var sent := ProxyBody(Prop(Some(body), "method"), Prop(Some(body), "body"));
    match f
    case FetchFailed(m) =>
      (sent, Handlers.JsonReply(500, JObj([("status", JNum(0)), ("statusText", JStr("Error")),
                                           ("body", JStr(m)), ("time", JNum(0))])))
    case Fetched(status, statusText, hs, text) =>
      RelayedUnique(status, statusText, Handlers.HeaderObject(hs), text, elapsed);
      RelayedHead(status, statusText, Handlers.HeaderObject(hs), text, elapsed);
      RelayedTail(status, statusText, Handlers.HeaderObject(hs), text, elapsed);
      (sent, Ok200(JObj(Relayed(status, statusText, Handlers.HeaderObject(hs), text, elapsed))))
  }

  // ---------------------------------------------------------------------
  // In-memory storage
  // ---------------------------------------------------------------------

  datatype Collection = TestCases | UserStories | Bugs | TestPlans | ApiCollections

  /** The request field each `POST /api/data/...` reads. */
  function BodyField(c: Collection): string {
    match c
    case TestCases => "testCases"
    case UserStories => "stories"
    case Bugs => "bugs"
    case TestPlans => "plans"
    case ApiCollections => "collections"
  }

  /** The five lists, each starting empty. */
  type Storage = map<Collection, Json>

  const EMPTY_STORAGE: Storage :=
    map[TestCases := JArr([]), UserStories := JArr([]), Bugs := JArr([]), TestPlans := JArr([]),
        ApiCollections := JArr([])]

  /** `GET /api/data/...`. */
  function GetData(s: Storage, c: Collection): Json {
    if c in s then s[c] else JArr([])
  }

  /** `POST /api/data/...`: the list is replaced by the request's field, or by
      `[]` when it is missing or falsy. */
  function PostData(s: Storage, c: Collection, body: Json): (r: (Storage, Json))
    ensures r.1 == JObj([("success", JBool(true))])
    ensures Truthy(Prop(Some(body), BodyField(c))) ==> GetData(r.0, c) == Prop(Some(body), BodyField(c)).value
    ensures !Truthy(Prop(Some(body), BodyField(c))) ==> GetData(r.0, c) == JArr([])
    ensures forall d :: d != c ==> GetData(r.0, d) == GetData(s, d)
  {
    (s[c := Or(Prop(Some(body), BodyField(c)), Some(JArr([]))).value], JObj([("success", JBool(true))]))
  }

  /** Last write wins: a second POST to a list erases the first entirely. */
  lemma PostLastWriteWins(s: Storage, c: Collection, first: Json, second: Json)
    ensures GetData(PostData(PostData(s, c, first).0, c, second).0, c) == GetData(PostData(s, c, second).0, c)
    ensures PostData(PostData(s, c, first).0, c, second).0 == PostData(s, c, second).0
  {
  }
}

=== FILE: event_stream.dfy ===
/** The event-stream wire format between the script-generation handler and
    the browser client: the server writes frames `data: <payload>\n\n`
    (section 9.2 of the WHATWG HTML Living Standard, "Server-sent events"),
    the script text cut into 50-character pieces each sent as `{"text":…}`,
    then `data: [DONE]`. The client splits every chunk it reads on `\n`,
    keeps the lines starting with `data: `, stops at `[DONE]`, and turns
    every other payload into a fragment: the parsed JSON value, or
    `{text: payload}` when the payload is not JSON. */
module EventStream {
  import opened Wrappers
  import opened Text
  import opened Json

  const DATA_PREFIX := "data: "
  const DONE := "[DONE]"
  const CHUNK_SIZE := 50

  // ---------------------------------------------------------------------
  // Server side
  // ---------------------------------------------------------------------

  /** One event: `data: <payload>` followed by a blank line. */
  function Frame(payload: string): string {
    DATA_PREFIX + payload + "\n\n"
  }

  function Frames(payloads: seq<string>): string {
    if |payloads| == 0 then "" else Frame(payloads[0]) + Frames(payloads[1..])
  }

  /** `s.slice(i, i + size)` for `i = 0, size, 2*size, …` while `i < |s|`. */
  function Chunks(s: string, size: nat): (r: seq<string>)
    requires size > 0
    ensures forall k :: 0 <= k < |r| ==> 0 < |r[k]| <= size
    ensures forall k :: 0 <= k < |r| - 1 ==> |r[k]| == size
    decreases |s|
  {
    if |s| == 0 then [] else [Take(s, size)] + Chunks(Drop(s, size), size)
  }

  function Concat(parts: seq<string>): string {
    if |parts| == 0 then "" else parts[0] + Concat(parts[1..])
  }

  /** The pieces put back together are the text. */
  lemma {:induction false} ChunksConcat(s: string, size: nat)
    requires size > 0
    ensures Concat(Chunks(s, size)) == s
    decreases |s|
  {
    if |s| > 0 {
      ChunksConcat(Drop(s, size), size);
      assert (Chunks(s, size))[1..] == Chunks(Drop(s, size), size);
    }
  }

  /** There are exactly ceil(|s| / size) pieces: the fewest pieces of at
      most `size` characters that hold the text. */
  lemma {:induction false} ChunksCount(s: string, size: nat)
    requires size > 0
    ensures (|Chunks(s, size)| - 1) * size < |s| <= |Chunks(s, size)| * size
            || (|s| == 0 && |Chunks(s, size)| == 0)
    decreases |s|
  {
    if |s| > size {
      var rest := Drop(s, size);
      ChunksCount(rest, size);
      var n := |Chunks(rest, size)|;
      assert |Chunks(s, size)| == n + 1;
      assert (n - 1) * size < |rest| <= n * size;
      assert (n + 1) * size == n * size + size;
    }
  }

  /** The payload carrying one piece of script text: `{"text":"…"}`. */
  function TextPayload(piece: string): string {
    Stringify(JObj([("text", JStr(piece))]))
  }

  function TextPayloads(pieces: seq<string>): (r: seq<string>)
    ensures |r| == |pieces|
    ensures forall k :: 0 <= k < |r| ==> r[k] == TextPayload(pieces[k])
  {
    if |pieces| == 0 then [] else [TextPayload(pieces[0])] + TextPayloads(pieces[1..])
  }

  /** The whole body of a successful script stream. */
  function ScriptBody(script: string): string {
    Frames(TextPayloads(Chunks(script, CHUNK_SIZE)) + [DONE])
  }

  /** The whole body of a failed script stream: one `{"error":…}` event and
      no `[DONE]`. */
  function ErrorBody(message: string): string {
    Frames([Stringify(JObj([("error", JStr(message))]))])
  }

  // ---------------------------------------------------------------------
  // Client side
  // ---------------------------------------------------------------------

  /** The payloads of the `data: ` lines among `lines`, in order. */
  function DataLines(lines: seq<string>): (r: seq<string>)
    ensures |r| <= |lines|
  {
    if |lines| == 0 then []
    else (if DATA_PREFIX <= lines[0] then [Drop(lines[0], 6)] else []) + DataLines(lines[1..])
  }

  /** The payloads the client takes from one chunk it read. */
  function ReadPayloads(chunk: string): seq<string> {
    DataLines(Split(chunk, "\n"))
  }

  /** The payloads of a sequence of chunks, each chunk split on its own. */
  function AllPayloads(chunks: seq<string>): seq<string> {
    if |chunks| == 0 then [] else ReadPayloads(chunks[0]) + AllPayloads(chunks[1..])
  }

  lemma {:induction false} AllPayloadsAppend(a: seq<string>, b: seq<string>)
    ensures AllPayloads(a + b) == AllPayloads(a) + AllPayloads(b)
  {
    if |a| == 0 {
      assert a + b == b;
    } else {
      assert (a + b)[0] == a[0];
      assert (a + b)[1..] == a[1..] + b;
      AllPayloadsAppend(a[1..], b);
    }
  }

  /** What the client yields for one payload. */
  function Fragment(payload: string, parse: string -> Result<Json, string>): Json {
    match parse(payload)
    case Ok(v) => v
    case Err(_) => JObj([("text", JStr(payload))])
  }

  function Fragments(payloads: seq<string>, parse: string -> Result<Json, string>): (r: seq<Json>)
    ensures |r| == |payloads|
    ensures forall k :: 0 <= k < |r| ==> r[k] == Fragment(payloads[k], parse)
  {
    if |payloads| == 0 then [] else [Fragment(payloads[0], parse)] + Fragments(payloads[1..], parse)
  }

  /** The payloads before the first `[DONE]`. */
  function UntilDone(payloads: seq<string>): (r: seq<string>)
    ensures r <= payloads
    ensures DONE !in r
    ensures DONE !in payloads ==> r == payloads
    ensures DONE in payloads ==> payloads[|r|] == DONE
  {
    if |payloads| == 0 then []
    else if payloads[0] == DONE then []
    else [payloads[0]] + UntilDone(payloads[1..])
  }

  lemma {:induction false} UntilDoneAppend(a: seq<string>, b: seq<string>)
    requires DONE !in a
    ensures UntilDone(a + b) == a + UntilDone(b)
  {
    if |a| > 0 {
      assert (a + b)[1..] == a[1..] + b;
      assert (a + b)[0] == a[0] && a[0] != DONE;
      UntilDoneAppend(a[1..], b);
      assert a == [a[0]] + a[1..];
    } else {
      assert a + b == b;
    }
  }

  lemma AllPayloadsStep(chunks: seq<string>, i: nat)
    requires i < |chunks|
    ensures AllPayloads(chunks[..i + 1]) == AllPayloads(chunks[..i]) + ReadPayloads(chunks[i])
  {
    assert chunks[..i + 1] == chunks[..i] + [chunks[i]];
    AllPayloadsAppend(chunks[..i], [chunks[i]]);
    assert AllPayloads([chunks[i]]) == ReadPayloads(chunks[i]) + AllPayloads([]);
  }

  /** The client's reading loop over the chunks of a response body. Returns
      the fragments it yields and whether it stopped at `[DONE]`; when it
      did not, the body ended (or the read failed) first. */
  method ReadStream(chunks: seq<string>, parse: string -> Result<Json, string>)
    returns (fragments: seq<Json>, sawDone: bool)
    ensures sawDone <==> DONE in AllPayloads(chunks)
    ensures fragments == Fragments(UntilDone(AllPayloads(chunks)), parse)
  {
    fragments := [];
    var i := 0;
    while i < |chunks|
      invariant 0 <= i <= |chunks|
      invariant DONE !in AllPayloads(chunks[..i])
      invariant fragments == Fragments(AllPayloads(chunks[..i]), parse)
    {
      var lines := ReadPayloads(chunks[i]);
      var j := 0;
      while j < |lines|
        invariant 0 <= j <= |lines|
        invariant DONE !in lines[..j]
        invariant fragments == Fragments(AllPayloads(chunks[..i]) + lines[..j], parse)
      {
        var data := lines[j];
        if data == DONE {
          AllPayloadsStep(chunks, i);
          DoneStops(chunks, i, lines, j);
          return fragments, true;
        }
        FragmentsStep(AllPayloads(chunks[..i]), lines, j, parse);
        fragments := fragments + [Fragment(data, parse)];
        j := j + 1;
      }
      assert lines[..j] == lines;
      AllPayloadsStep(chunks, i);
      i := i + 1;
    }
    assert chunks[..i] == chunks;
    return fragments, false;
  }

  lemma FragmentsStep(pre: seq<string>, lines: seq<string>, j: nat, parse: string -> Result<Json, string>)
    requires j < |lines|
    ensures Fragments(pre + lines[..j + 1], parse) == Fragments(pre + lines[..j], parse) + [Fragment(lines[j], parse)]
    ensures DONE !in lines[..j] && lines[j] != DONE ==> DONE !in lines[..j + 1]
  {
    assert pre + lines[..j + 1] == (pre + lines[..j]) + [lines[j]];
    FragmentsSnoc(pre + lines[..j], lines[j], parse);
  }

  lemma {:induction false} FragmentsSnoc(ps: seq<string>, p: string, parse: string -> Result<Json, string>)
    ensures Fragments(ps + [p], parse) == Fragments(ps, parse) + [Fragment(p, parse)]
  {
    var a := Fragments(ps + [p], parse);
    var b := Fragments(ps, parse) + [Fragment(p, parse)];
    assert |a| == |b|;
    forall k | 0 <= k < |a| ensures a[k] == b[k] {
      if k < |ps| {
        assert (ps + [p])[k] == ps[k];
      }
    }
  }

  /** The payloads read after a chunk containing `[DONE]` do not matter. */
  lemma DoneStops(chunks: seq<string>, i: nat, lines: seq<string>, j: nat)
    requires i < |chunks| && lines == ReadPayloads(chunks[i]) && j < |lines| && lines[j] == DONE
    requires DONE !in AllPayloads(chunks[..i]) && DONE !in lines[..j]
    ensures DONE in AllPayloads(chunks)
    ensures UntilDone(AllPayloads(chunks)) == AllPayloads(chunks[..i]) + lines[..j]
  {
    assert chunks[..i] + chunks[i..] == chunks;
    AllPayloadsAppend(chunks[..i], chunks[i..]);
    assert chunks[i..][1..] == chunks[i + 1..];
    UntilDoneAt(AllPayloads(chunks[..i]), lines, j, AllPayloads(chunks[i + 1..]));
  }

  lemma UntilDoneAt(pre: seq<string>, lines: seq<string>, j: nat, rest: seq<string>)
    requires j < |lines| && lines[j] == DONE
    requires DONE !in pre && DONE !in lines[..j]
    ensures DONE in pre + (lines + rest)
    ensures UntilDone(pre + (lines + rest)) == pre + lines[..j]
  {
    assert (pre + (lines + rest))[|pre| + j] == DONE;
    var tail := lines[j..] + rest;
    assert lines + rest == lines[..j] + tail;
    assert pre + (lines + rest) == (pre + lines[..j]) + tail;
    UntilDoneAppend(pre + lines[..j], tail);
    assert tail[0] == DONE;
  }

  // ---------------------------------------------------------------------
  // Round trip
  // ---------------------------------------------------------------------

  /** A line-free payload framed and split again gives its line, a blank
      line, then what follows. */
  lemma FrameSplit(p: string, rest: string)
    requires '\n' !in p
    ensures Split(Frame(p) + rest, "\n") == [DATA_PREFIX + p, ""] + Split(rest, "\n")
  {
    var line := DATA_PREFIX + p;
    assert '\n' !in line;
    assert Frame(p) + rest == line + ['\n'] + ("\n" + rest);
    SplitAtFirst(line, '\n', "\n" + rest);
    assert "" + ['\n'] + rest == "\n" + rest;
    SplitAtFirst("", '\n', rest);
  }

  /** Text split at the first separator, where that separator follows a
      piece without one. */
  lemma SplitAtFirst(x: string, c: char, y: string)
    requires c !in x
    ensures Split(x + [c] + y, [c]) == [x] + Split(y, [c])
  {
    var s := x + [c] + y;
    FindAfterFree(x, c, y);
    assert s[..|x|] == x;
    assert s[|x| + 1..] == y;
  }

  lemma {:induction false} DataLinesAppend(a: seq<string>, b: seq<string>)
    ensures DataLines(a + b) == DataLines(a) + DataLines(b)
  {
    if |a| > 0 {
      assert (a + b)[1..] == a[1..] + b;
      assert (a + b)[0] == a[0];
      DataLinesAppend(a[1..], b);
    } else {
      assert a + b == b;
    }
  }

  lemma PrefixDrop(p: string)
    ensures DATA_PREFIX <= DATA_PREFIX + p
    ensures Drop(DATA_PREFIX + p, 6) == p
  {
    assert (DATA_PREFIX + p)[..6] == DATA_PREFIX;
    assert (DATA_PREFIX + p)[6..] == p;
  }

  /** Reading the frames of line-free payloads in one chunk gives back the
      payloads, in order. */
  lemma {:induction false} FramesRoundTrip(ps: seq<string>)
    requires forall k :: 0 <= k < |ps| ==> '\n' !in ps[k]
    ensures ReadPayloads(Frames(ps)) == ps
  {
    if |ps| == 0 {
      assert Split("", "\n") == [""];
    } else {
      var rest := Frames(ps[1..]);
      assert Frames(ps) == Frame(ps[0]) + rest;
      FrameCons(ps[0], rest);
      FramesRoundTrip(ps[1..]);
      assert [ps[0]] + ps[1..] == ps;
    }
  }

  /** A frame read ahead of more text gives its payload first. */
  lemma FrameCons(p: string, rest: string)
    requires '\n' !in p
    ensures ReadPayloads(Frame(p) + rest) == [p] + ReadPayloads(rest)
  {
    FrameSplit(p, rest);
    PrefixDrop(p);
    DataLinesAppend([DATA_PREFIX + p, ""], Split(rest, "\n"));
    assert DataLines([DATA_PREFIX + p, ""]) == [p];
  }

  /** A frame per read is the same as one read of all frames. */
  lemma {:induction false} FramePerReadRoundTrip(ps: seq<string>)
    requires forall k :: 0 <= k < |ps| ==> '\n' !in ps[k]
    ensures AllPayloads(FrameReads(ps)) == ps
  {
    if |ps| > 0 {
      FramePerReadRoundTrip(ps[1..]);
      FramesRoundTrip([ps[0]]);
      assert Frames([ps[0]]) == Frame(ps[0]) + "";
      assert Frame(ps[0]) + "" == Frame(ps[0]);
      assert FrameReads(ps)[1..] == FrameReads(ps[1..]);
    }
  }

  /** Each payload's frame delivered as a chunk of its own. */
  function FrameReads(ps: seq<string>): (r: seq<string>)
    ensures |r| == |ps|
    ensures forall k :: 0 <= k < |ps| ==> r[k] == Frame(ps[k])
  {
    if |ps| == 0 then [] else [Frame(ps[0])] + FrameReads(ps[1..])
  }

  lemma TextPayloadsOneLine(pieces: seq<string>)
    ensures forall k :: 0 <= k < |pieces| ==> '\n' !in TextPayloads(pieces)[k]
    ensures DONE !in TextPayloads(pieces)
  {
    forall k | 0 <= k < |pieces|
      ensures '\n' !in TextPayloads(pieces)[k]
      ensures TextPayloads(pieces)[k] != DONE
    {
      StringifyOneLine(JObj([("text", JStr(pieces[k]))]));
    }
  }

  function TextFragments(pieces: seq<string>): (r: seq<Json>)
    ensures |r| == |pieces|
    ensures forall k :: 0 <= k < |r| ==> r[k] == JObj([("text", JStr(pieces[k]))])
  {
    if |pieces| == 0 then [] else [JObj([("text", JStr(pieces[0]))])] + TextFragments(pieces[1..])
  }

  /** When the JSON reader inverts `JSON.stringify`, a client that receives a
      script stream in one chunk yields one `{text: piece}` fragment per
      50-character piece of the script, in order, and stops at `[DONE]`. */
  lemma ScriptStreamRoundTrip(script: string, parse: string -> Result<Json, string>)
    requires forall v :: parse(Stringify(v)) == Ok(v)
    ensures DONE in AllPayloads([ScriptBody(script)])
    ensures Fragments(UntilDone(AllPayloads([ScriptBody(script)])), parse)
            == TextFragments(Chunks(script, CHUNK_SIZE))
  {
    var pieces := Chunks(script, CHUNK_SIZE);
    ScriptPayloads(script);
    TextFragmentsParsed(pieces, parse);
  }

  /** The payloads of a script stream are the text payloads of its pieces
      and then `[DONE]`. */
  lemma ScriptPayloads(script: string)
    ensures var ps := TextPayloads(Chunks(script, CHUNK_SIZE));
      AllPayloads([ScriptBody(script)]) == ps + [DONE] && UntilDone(ps + [DONE]) == ps
  {
    var pieces := Chunks(script, CHUNK_SIZE);
    var ps := TextPayloads(pieces);
    TextPayloadsOneLine(pieces);
    DoneOneLine(ps);
    OneChunk(ps + [DONE]);
    UntilDoneAtDone(ps);
  }

  /** `[DONE]` put after line-free payloads keeps them line-free. */
  lemma DoneOneLine(ps: seq<string>)
    requires forall k :: 0 <= k < |ps| ==> '\n' !in ps[k]
    ensures forall k :: 0 <= k < |ps + [DONE]| ==> '\n' !in (ps + [DONE])[k]
  {
    forall k | 0 <= k < |ps + [DONE]| ensures '\n' !in (ps + [DONE])[k] {
      if k == |ps| {
        assert (ps + [DONE])[k] == DONE;
      } else {
        assert (ps + [DONE])[k] == ps[k];
      }
    }
  }

  /** Line-free payloads framed and read in one chunk come back as they
      were. */
  lemma OneChunk(ps: seq<string>)
    requires forall k :: 0 <= k < |ps| ==> '\n' !in ps[k]
    ensures AllPayloads([Frames(ps)]) == ps
  {
    FramesRoundTrip(ps);
    assert [Frames(ps)][1..] == [];
  }

  /** The client stops right at a final `[DONE]`. */
  lemma UntilDoneAtDone(ps: seq<string>)
    requires DONE !in ps
    ensures UntilDone(ps + [DONE]) == ps
  {
    UntilDoneAppend(ps, [DONE]);
    assert UntilDone([DONE]) == [];
    assert ps + [] == ps;
  }

  /** Text payloads parse back to their `{text}` objects. */
  lemma TextFragmentsParsed(pieces: seq<string>, parse: string -> Result<Json, string>)
    requires forall v :: parse(Stringify(v)) == Ok(v)
    ensures Fragments(TextPayloads(pieces), parse) == TextFragments(pieces)
  {
    var fr := Fragments(TextPayloads(pieces), parse);
    forall k | 0 <= k < |pieces|
      ensures fr[k] == TextFragments(pieces)[k]
    {
      assert parse(Stringify(JObj([("text", JStr(pieces[k]))]))) == Ok(JObj([("text", JStr(pieces[k]))]));
    }
  }

  /** A stream that failed carries its message and never `[DONE]`. */
  lemma ErrorBodyRoundTrip(message: string, parse: string -> Result<Json, string>)
    requires forall v :: parse(Stringify(v)) == Ok(v)
    ensures AllPayloads([ErrorBody(message)]) == [Stringify(JObj([("error", JStr(message))]))]
    ensures DONE !in AllPayloads([ErrorBody(message)])
    ensures Fragments(UntilDone(AllPayloads([ErrorBody(message)])), parse)
            == [JObj([("error", JStr(message))])]
  {
    var p := Stringify(JObj([("error", JStr(message))]));
    StringifyOneLine(JObj([("error", JStr(message))]));
    FramesRoundTrip([p]);
    assert [ErrorBody(message)][..0] == [];
    assert p[0] == '{';
  }

  /** A chunk without a line break is one line. */
  lemma OneLineChunk(c: string)
    requires '\n' !in c
    ensures ReadPayloads(c) == if DATA_PREFIX <= c then [c[6..]] else []
  {
    ContainsChar(c, '\n');
    assert Split(c, "\n") == [c];
  }

  /** A frame cut inside its payload, between two chunks, is not reassembled:
      the client yields the first part of the payload as a payload of its
      own and drops the rest, whose line does not start with `data: `. */
  lemma SplitFrameLost(p: string, k: nat)
    requires '\n' !in p && 0 < k < |p|
    requires !(DATA_PREFIX <= p[k..])
    ensures AllPayloads([DATA_PREFIX + p[..k], p[k..] + "\n\n"]) == [p[..k]]
  {
    var c0 := DATA_PREFIX + p[..k];
    var c1 := p[k..] + "\n\n";
    assert '\n' !in p[..k] && '\n' !in p[k..] by {
      assert forall x :: x in p[..k] ==> x in p;
      assert forall x :: x in p[k..] ==> x in p;
    }
    assert '\n' !in c0;
    OneLineChunk(c0);
    PrefixDrop(p[..k]);
    FrameSplitTail(p[k..]);
    NoDataLines([p[k..], "", ""]);
    assert [c0, c1][1..] == [c1];
    assert [c1][1..] == [];
    assert AllPayloads([c1]) == [] + AllPayloads([]);
  }

  lemma {:induction false} NoDataLines(lines: seq<string>)
    requires forall k :: 0 <= k < |lines| ==> !(DATA_PREFIX <= lines[k])
    ensures DataLines(lines) == []
  {
    if |lines| > 0 {
      NoDataLines(lines[1..]);
    }
  }

  /** The lines of `x + "\n\n"` for a line-free `x`. */
  lemma FrameSplitTail(x: string)
    requires '\n' !in x
    ensures Split(x + "\n\n", "\n") == [x, "", ""]
  {
    FindAfterFree(x, '\n', "\n");
    assert x + "\n\n" == x + ['\n'] + "\n";
    assert (x + "\n\n")[..|x|] == x;
    assert (x + "\n\n")[|x| + 1..] == "\n";
    FindAfterFree("", '\n', "");
    assert "" + ['\n'] + "" == "\n";
    assert "\n"[1..] == "";
    assert "\n"[..0] == "";
    assert Find("", "\n").None?;
  }
}

=== FILE: export.dfy ===
/** The library's exporters: the JSON envelope, CSV in its test-case and
    generic layouts (the latter over flattened records), and the Postman
    v2.1 collection built from a saved API collection. The browser download
    and the export timestamp are left to the caller; a thrown error is the
    `Threw` outcome. */
module Export {
  import opened Wrappers
  import opened Text
  import opened Json
  import Csv

  // ---------------------------------------------------------------------
  // Own properties and flattening
  // ---------------------------------------------------------------------

  /** `Object.entries(v)` for anything but `null`: an object's properties,
      an array's or a string's indices, nothing for numbers and booleans. */
  function OwnEntries(v: Json): (r: Obj)
    ensures v.JObj? ==> r == v.members
    ensures v.JArr? ==> (|r| == |v.items| &&
      forall i :: 0 <= i < |v.items| ==> r[i] == (NatToString(i), v.items[i]))
  {
    match v
    case JObj(ms) => ms
    case JArr(items) => seq(|items|, i requires 0 <= i < |items| => (NatToString(i), items[i]))
    case JStr(s) => seq(|s|, i requires 0 <= i < |s| => (NatToString(i), JStr([s[i]])))
    case _ => []
  }

  /** A value `flattenObject` keeps as it is. */
  predicate Leaf(v: Json) {
    !v.JArr? && !v.JObj?
  }

  /** Every property holds a leaf. */
  predicate Flat(o: Obj) {
    forall i :: 0 <= i < |o| ==> Leaf(o[i].1)
  }

  /** The flattened name of property `k` under `prefix`. */
  function DottedKey(prefix: string, k: string): string {
    if prefix != "" then prefix + "." + k else k
  }

  /** How an array element is written into a flattened cell:
      `typeof v === 'object'` values (arrays, objects and `null`) as JSON,
      everything else as `join` would. */
  function ElementText(v: Json): string {
    if v.JNull? || v.JArr? || v.JObj? then Stringify(v) else ValueString(v)
  }

  /** The cell an array property flattens to: its elements joined with `; `. */
  function ArrayCell(items: seq<Json>): string {
    Join(seq(|items|, i requires 0 <= i < |items| => ElementText(items[i])), "; ")
  }

  /** The loop of `flattenObject` from property `i` of `o` on, writing into
      `acc`: arrays become one string cell, objects are flattened under the
      dotted name and assigned over `acc`, and every other value (`null`
      included) is kept. The result has unique names and only leaves. */
  function FlattenMembers(o: Json, prefix: string, i: nat, acc: Obj): (r: Obj)
    requires o.JObj? && i <= |o.members|
    requires UniqueKeys(acc) && Flat(acc)
    ensures UniqueKeys(r) && Flat(r)
    decreases o, |o.members| - i
  {
    if i == |o.members| then acc
    else
      var k := o.members[i].0;
      var key := DottedKey(prefix, k);
      var v := o.members[i].1;
      var acc' := (
        if v.JArr? then
          SetFlat(acc, key, JStr(ArrayCell(v.items)));
          Set(acc, key, JStr(ArrayCell(v.items)))
        else if v.JObj? then
          var sub := FlattenMembers(v, key, 0, []);
          MergeFlat(acc, sub);
          Merge(acc, sub)
        else
          SetFlat(acc, key, v);
          Set(acc, key, v));
      FlattenMembers(o, prefix, i + 1, acc')
  }

  /** `flattenObject(v)`: `null` throws, as `Object.entries(null)` does. */
  function FlattenObject(v: Json): (r: Result<Obj, Exn>)
    ensures r.Err? <==> v.JNull?
    ensures r.Ok? ==> UniqueKeys(r.value) && Flat(r.value)
  {
    if v.JNull? then Err(TypeError("Cannot convert undefined or null to object"))
    else
      var entries := OwnEntries(v);
      Ok(FlattenMembers(JObj(entries), "", 0, []))
  }

  lemma {:induction false} SetMembers(o: Obj, k: string, v: Json)
    ensures forall p :: p in Set(o, k, v) ==> p in o || p == (k, v)
    decreases |o|
  {
    if |o| > 0 && o[0].0 != k {
      SetMembers(o[1..], k, v);
    }
  }

  lemma SetFlat(o: Obj, k: string, v: Json)
    requires UniqueKeys(o) && Flat(o) && Leaf(v)
    ensures UniqueKeys(Set(o, k, v)) && Flat(Set(o, k, v))
  {
    SetUnique(o, k, v);
    SetMembers(o, k, v);
    var r := Set(o, k, v);
    forall i | 0 <= i < |r| ensures Leaf(r[i].1) {
      assert r[i] in r;
    }
  }

  lemma {:induction false} MergeFlat(a: Obj, b: Obj)
    requires UniqueKeys(a) && Flat(a) && Flat(b)
    ensures UniqueKeys(Merge(a, b)) && Flat(Merge(a, b))
    decreases |b|
  {
    if |b| > 0 {
      SetFlat(a, b[0].0, b[0].1);
      MergeFlat(Set(a, b[0].0, b[0].1), b[1..]);
    }
  }

  // Flattening a record that is already flat changes nothing but the
  // names, which take the prefix.

  function Prefixed(prefix: string, o: Obj): (r: Obj)
    ensures |r| == |o|
  {
    seq(|o|, i requires 0 <= i < |o| => (DottedKey(prefix, o[i].0), o[i].1))
  }

  lemma DottedKeyInjective(prefix: string, a: string, b: string)
    requires DottedKey(prefix, a) == DottedKey(prefix, b)
    ensures a == b
  {
    if prefix != "" {
      assert a == DottedKey(prefix, a)[|prefix| + 1..];
      assert b == DottedKey(prefix, b)[|prefix| + 1..];
    }
  }

  lemma PrefixedUnique(prefix: string, o: Obj)
    requires UniqueKeys(o)
    ensures UniqueKeys(Prefixed(prefix, o))
  {
    var r := Prefixed(prefix, o);
    forall i, j | 0 <= i < j < |r| ensures r[i].0 != r[j].0 {
      if r[i].0 == r[j].0 {
        DottedKeyInjective(prefix, o[i].0, o[j].0);
      }
    }
  }

  /** Setting a new name appends it. */
  lemma {:induction false} SetFresh(o: Obj, k: string, v: Json)
    requires !HasKey(o, k)
    ensures Set(o, k, v) == o + [(k, v)]
    decreases |o|
  {
    if |o| > 0 {
      HasKeyTail(o, k);
      SetFresh(o[1..], k, v);
      assert [o[0]] + (o[1..] + [(k, v)]) == o + [(k, v)];
    }
  }

  /** Assigning properties with fresh, distinct names appends them. */
  lemma {:induction false} MergeFresh(a: Obj, b: Obj)
    requires UniqueKeys(a + b)
    ensures Merge(a, b) == a + b
    decreases |b|
  {
    if |b| > 0 {
      FreshHead(a, b);
      SetFresh(a, b[0].0, b[0].1);
      MergeFresh(a + [b[0]], b[1..]);
    }
  }

  /** The first name of `b` is not among `a`'s, and moving it over keeps
      the names distinct. */
  lemma FreshHead(a: Obj, b: Obj)
    requires UniqueKeys(a + b) && |b| > 0
    ensures !HasKey(a, b[0].0)
    ensures (a + [b[0]]) + b[1..] == a + b
  {
    forall i | 0 <= i < |a| ensures a[i].0 != b[0].0 {
      assert (a + b)[i] == a[i] && (a + b)[|a|] == b[0];
    }
    assert (a + [b[0]]) + b[1..] == a + b;
  }

  lemma {:induction false} FlattenPlainFrom(prefix: string, o: Obj, i: nat)
    requires UniqueKeys(o) && Flat(o) && i <= |o|
    ensures UniqueKeys(Prefixed(prefix, o[..i])) && Flat(Prefixed(prefix, o[..i]))
    ensures FlattenMembers(JObj(o), prefix, i, Prefixed(prefix, o[..i])) == Prefixed(prefix, o)
    decreases |o| - i
  {
    assert UniqueKeys(o[..i]);
    PrefixedUnique(prefix, o[..i]);
    if i < |o| {
      var acc := Prefixed(prefix, o[..i]);
      FlattenPlainFrom(prefix, o, i + 1);
      assert FlattenMembers(JObj(o), prefix, i, acc) == FlattenMembers(JObj(o), prefix, i + 1, Prefixed(prefix, o[..i + 1])) by {
        PrefixedSnoc(prefix, o, i);
        LeafStep(JObj(o), prefix, i, acc);
      }
    } else {
      assert o[..i] == o;
    }
  }

  /** The next property of a record with unique names, assigned under its
      dotted name, extends the prefixed record by one. */
  lemma PrefixedSnoc(prefix: string, o: Obj, i: nat)
    requires UniqueKeys(o) && i < |o|
    ensures Set(Prefixed(prefix, o[..i]), DottedKey(prefix, o[i].0), o[i].1) == Prefixed(prefix, o[..i + 1])
  {
    var acc := Prefixed(prefix, o[..i]);
    var key := DottedKey(prefix, o[i].0);
    assert !HasKey(acc, key) by {
      if HasKey(acc, key) {
        var j :| 0 <= j < |acc| && acc[j].0 == key;
        DottedKeyInjective(prefix, o[j].0, o[i].0);
      }
    }
    SetFresh(acc, key, o[i].1);
    assert o[..i + 1] == o[..i] + [o[i]];
  }

  /** A leaf is assigned as it is. */
  lemma LeafStep(o: Json, prefix: string, i: nat, acc: Obj)
    requires o.JObj? && i < |o.members| && Leaf(o.members[i].1)
    requires UniqueKeys(acc) && Flat(acc)
    ensures var acc' := Set(acc, DottedKey(prefix, o.members[i].0), o.members[i].1);
            UniqueKeys(acc') && Flat(acc') &&
            FlattenMembers(o, prefix, i, acc) == FlattenMembers(o, prefix, i + 1, acc')
  {
    SetFlat(acc, DottedKey(prefix, o.members[i].0), o.members[i].1);
  }

  /** A record of leaves with unique names flattens to itself. */
  lemma FlattenFlatRecord(o: Obj)
    requires UniqueKeys(o) && Flat(o)
    ensures FlattenObject(JObj(o)) == Ok(o)
  {
    FlattenPlainFrom("", o, 0);
    assert o[..0] == [];
    assert Prefixed("", o) == o;
  }

  /** A record nested under `a` flattens to its properties named `a.<k>`. */
  lemma FlattenNestedRecord(a: string, inner: Obj)
    requires a != ""
    requires UniqueKeys(inner) && Flat(inner)
    ensures FlattenObject(JObj([(a, JObj(inner))])) ==
      Ok(seq(|inner|, i requires 0 <= i < |inner| => (a + "." + inner[i].0, inner[i].1)))
  {
    var outer := JObj([(a, JObj(inner))]);
    assert OwnEntries(outer) == outer.members;
    NestedMembers(a, inner);
    PrefixedDotted(a, inner);
  }

  /** The one nested record is flattened under its name and merged into
      the empty result. */
  lemma NestedMembers(a: string, inner: Obj)
    requires UniqueKeys(inner) && Flat(inner)
    ensures FlattenMembers(JObj([(a, JObj(inner))]), "", 0, []) == Prefixed(a, inner)
  {
    var outer := JObj([(a, JObj(inner))]);
    FlattenPlainFrom(a, inner, 0);
    assert inner[..0] == [];
    var sub := Prefixed(a, inner);
    PrefixedUnique(a, inner);
    assert [] + sub == sub;
    MergeFresh([], sub);
    assert FlattenMembers(outer, "", 0, []) == FlattenMembers(outer, "", 1, sub);
  }

  /** Under a non-empty prefix every name becomes `prefix.name`. */
  lemma PrefixedDotted(a: string, o: Obj)
    requires a != ""
    ensures Prefixed(a, o) == seq(|o|, i requires 0 <= i < |o| => (a + "." + o[i].0, o[i].1))
  {
  }

  // ---------------------------------------------------------------------
  // CSV
  // ---------------------------------------------------------------------

  /** What `exportToCsv` does: nothing, download a file, or throw. */
  datatype CsvExport = NoFile | CsvFile(text: string) | CsvThrew(error: Exn)

  const TEST_CASE_HEADERS: seq<string> := ["Scenario", "Epic", "Title", "Category", "Priority",
    "Preconditions", "Steps", "Expected Result", "Tags", "Estimated Time (min)"]

  function NullRead(name: string): Exn {
    TypeError("Cannot read properties of null (reading '" + name + "')")
  }

  /** `v || ''` printed by `String()`. */
  function OrEmpty(v: JsValue): string {
    ToJsString(Or(v, Str("")))
  }

  /** `v?.join(sep) || ''`: empty for a missing list; anything but an
      array has no `join` and throws. */
  function ListCell(v: JsValue, name: string, sep: string): (r: Result<string, Exn>)
    ensures r.Err? <==> v.Some? && v.value != JNull && !v.value.JArr?
  {
    match v
    case None => Ok("")
    case Some(JNull) => Ok("")
    case Some(JArr(items)) => Ok(JoinValues(items, sep))
    case Some(_) => Err(TypeError("tc." + name + "?.join is not a function"))
  }

  /** `tc.steps?.map((s, i) => \`${i + 1}. ${s.action}\`).join(' | ') || ''`. */
  function StepsCell(v: JsValue): (r: Result<string, Exn>)
    ensures v.None? || v == Some(JNull) ==> r == Ok("")
    ensures r.Err? <==> v.Some? && v.value != JNull && (!v.value.JArr? || JNull in v.value.items)
  {
    match v
    case None => Ok("")
    case Some(JNull) => Ok("")
    case Some(JArr(items)) =>
      if JNull in items then Err(NullRead("action"))
      else Ok(Join(seq(|items|, i requires 0 <= i < |items| =>
        NatToString(i + 1) + ". " + ToJsString(Prop(Some(items[i]), "action"))), " | "))
    case Some(_) => Err(TypeError("tc.steps?.map is not a function"))
  }

  /** The ten cells of one test case, in header order. */
  function TestCaseFields(tc: Json): (r: Result<seq<string>, Exn>)
    ensures r.Ok? ==> |r.value| == |TEST_CASE_HEADERS|
    ensures tc.JNull? ==> r.Err?
  {
    if tc.JNull? then Err(NullRead("steps"))
    else
      var p := Some(tc);
      var steps :- StepsCell(Prop(p, "steps"));
      var preconditions :- ListCell(Prop(p, "preconditions"), "preconditions", " | ");
      var tags :- ListCell(Prop(p, "tags"), "tags", ", ");
      Ok([OrEmpty(Or(Prop(p, "scenarioTitle"), Prop(p, "epic"))),
          OrEmpty(Prop(p, "epic")),
          OrEmpty(Prop(p, "title")),
          OrEmpty(Prop(p, "category")),
          OrEmpty(Prop(p, "priority")),
          preconditions,
          steps,
          OrEmpty(Prop(p, "expectedResult")),
          tags,
          OrEmpty(Prop(p, "estimatedTimeMinutes"))])
  }

  function TestCaseRows(items: seq<Json>): (r: Result<seq<seq<string>>, Exn>)
    ensures r.Ok? ==> (|r.value| == |items| &&
      forall i :: 0 <= i < |items| ==> TestCaseFields(items[i]) == Ok(r.value[i]))
    ensures r.Err? <==> exists i :: 0 <= i < |items| && TestCaseFields(items[i]).Err?
  {
    MapOrThrow(TestCaseFields, items)
  }

  /** The first element has truthy `steps` or `expectedResult`. */
  predicate TestCaseMode(first: Json) {
    Truthy(Prop(Some(first), "steps")) || Truthy(Prop(Some(first), "expectedResult"))
  }

  /** A generic cell: `flat[h] ?? ''` as `join` writes it. */
  function CellText(v: JsValue): string {
    match v
    case None => ""
    case Some(JNull) => ""
    case Some(x) => ValueString(x)
  }

  /** One generic record as corrected: the value of each column, `''`
      where the item has no own property of that name. */
  function GenericRow(flat: Obj, headers: seq<string>): (r: seq<string>)
    ensures |r| == |headers|
    ensures forall j :: 0 <= j < |headers| && !HasKey(flat, headers[j]) ==> r[j] == ""
  {
    seq(|headers|, j requires 0 <= j < |headers| => CellText(Get(flat, headers[j])))
  }

  /** The text `join` writes for a member of `Object.prototype`: the
      prototype object itself for `__proto__`, the `Object` function for
      `constructor`, and a native function of its own name for every
      other member. */
  function InheritedText(name: string): (r: string)
    requires name in PROTOTYPE_MEMBERS
    ensures r != ""
    ensures name == "constructor" ==> r == "function Object() { [native code] }"
    ensures name == "__proto__" ==> r == "[object Object]"
    ensures name != "constructor" && name != "__proto__" ==> r == "function " + name + "() { [native code] }"
  {
    if name == "__proto__" then "[object Object]"
    else if name == "constructor" then "function Object() { [native code] }"
    else "function " + name + "() { [native code] }"
  }

  /** `flat[h]` as the exporter reads it off the plain object the
      flattening builds: an own property, else an inherited member, else
      `undefined`, each written as `val ?? ''` and `join` print it. */
  function CellAsWritten(flat: Obj, h: string): string {
    if HasKey(flat, h) then GenericCellAsWritten(Get(flat, h))
    else if h in PROTOTYPE_MEMBERS then InheritedText(h)
    else ""
  }

  /** One generic record as written: a column the item lacks is empty,
      unless its name is a member of `Object.prototype`, whose text is
      written instead. */
  function GenericRowAsWritten(flat: Obj, headers: seq<string>): (r: seq<string>)
    ensures |r| == |headers|
    ensures forall j :: 0 <= j < |headers| && HasKey(flat, headers[j]) ==>
      r[j] == GenericCellAsWritten(Get(flat, headers[j]))
    ensures forall j :: 0 <= j < |headers| && !HasKey(flat, headers[j]) ==>
      (r[j] == "" <==> headers[j] !in PROTOTYPE_MEMBERS)
  {
    seq(|headers|, j requires 0 <= j < |headers| => CellAsWritten(flat, headers[j]))
  }

  /** No column the item lacks names a member of `Object.prototype`. */
  predicate NoInheritedColumn(flat: Obj, headers: seq<string>) {
    forall j :: 0 <= j < |headers| && headers[j] in PROTOTYPE_MEMBERS ==> HasKey(flat, headers[j])
  }

  function FlattenAll(items: seq<Json>): (r: Result<seq<Obj>, Exn>)
    ensures r.Ok? ==> (|r.value| == |items| &&
      forall i :: 0 <= i < |items| ==> FlattenObject(items[i]) == Ok(r.value[i]))
    ensures r.Err? <==> JNull in items
  {
    if |items| == 0 then Ok([])
    else
      var first :- FlattenObject(items[0]);
      var rest :- FlattenAll(items[1..]);
      assert forall i :: 1 <= i < |items| ==> items[i] == items[1..][i - 1];
      Ok([first] + rest)
  }

  /** The generic layout with the column names escaped like every other
      field: one record of names, then one record per flattened item. */
  function GenericCsv(headers: seq<string>, flats: seq<Obj>): string {
    Csv.Document([headers] + seq(|flats|, i requires 0 <= i < |flats| => GenericRow(flats[i], headers)))
  }

  /** The generic layout as the exporter writes it: names joined bare,
      only string values escaped, and inherited members read as values. */
  function GenericCsvAsWritten(headers: seq<string>, flats: seq<Obj>): string {
    Join([Join(headers, ",")] + seq(|flats|, i requires 0 <= i < |flats| =>
      Join(GenericRowAsWritten(flats[i], headers), ",")), "\n")
  }

  function GenericCellAsWritten(v: JsValue): string {
    if v.Some? && v.value.JStr? && Csv.NeedsQuoting(v.value.s) then
      "\"" + Csv.DoubleQuotes(v.value.s) + "\""
    else CellText(v)
  }

  /** `exportToCsv(data)`, generic layout as corrected. */
  function ExportCsv(data: Json): (r: CsvExport)
    ensures r.NoFile? <==> !data.JArr? || |data.items| == 0
    ensures r.CsvThrew? <==> (data.JArr? && |data.items| > 0 &&
      (if !data.items[0].JNull? && TestCaseMode(data.items[0])
       then TestCaseRows(data.items).Err?
       else JNull in data.items))
  {
    if !data.JArr? || |data.items| == 0 then NoFile
    else if data.items[0].JNull? then CsvThrew(NullRead("steps"))
    else if TestCaseMode(data.items[0]) then
      match TestCaseRows(data.items)
      case Err(e) => CsvThrew(e)
      case Ok(rows) => CsvFile(TestCaseCsv(rows))
    else
      match FlattenAll(data.items)
      case Err(e) => CsvThrew(e)
      case Ok(flats) => CsvFile(GenericCsv(Keys(flats[0]), flats))
  }

  /** `[headers.join(','), ...rows].join('\n')` in the test-case layout,
      each row's fields escaped and joined with `,`. */
  function TestCaseCsv(rows: seq<seq<string>>): string {
    Join([Join(TEST_CASE_HEADERS, ",")] +
      seq(|rows|, i requires 0 <= i < |rows| => Csv.Record(rows[i])), "\n")
  }

  /** The test-case layout is the header record and one record per test
      case. */
  lemma TestCaseCsvIsDocument(rows: seq<seq<string>>)
    ensures TestCaseCsv(rows) == Csv.Document([TEST_CASE_HEADERS] + rows)
  {
    HeadersNeedNoQuoting();
    assert Csv.Record(TEST_CASE_HEADERS) == Join(TEST_CASE_HEADERS, ",");
    RecordsCons(TEST_CASE_HEADERS, rows);
  }

  /** Letters, digits, spaces and parentheses need no quoting. */
  lemma PlainName(h: string)
    requires forall k :: 0 <= k < |h| ==> IsWordChar(h[k]) || h[k] == ' ' || h[k] == '(' || h[k] == ')'
    ensures !Csv.NeedsQuoting(h)
  {
  }

  lemma HeadersNeedNoQuoting()
    ensures Csv.EscapeAll(TEST_CASE_HEADERS) == TEST_CASE_HEADERS
  {
    PlainName("Scenario");
    PlainName("Epic");
    PlainName("Title");
    PlainName("Category");
    PlainName("Priority");
    PlainName("Preconditions");
    PlainName("Steps");
    PlainName("Expected Result");
    PlainName("Tags");
    PlainName("Estimated Time (min)");
  }

  lemma ExportCsvTestCaseText(data: Json)
    ensures ExportCsv(data).CsvFile? && TestCaseMode(data.items[0]) ==>
      TestCaseRows(data.items).Ok? && ExportCsv(data).text == TestCaseCsv(TestCaseRows(data.items).value)
  {
  }

  /** Rows of ten fields read back from the test-case layout unchanged. */
  lemma TestCaseCsvRoundTrip(rows: seq<seq<string>>)
    requires forall i :: 0 <= i < |rows| ==> |rows[i]| == |TEST_CASE_HEADERS|
    ensures Csv.Parse(TestCaseCsv(rows)) == [TEST_CASE_HEADERS] + rows
  {
    TestCaseCsvIsDocument(rows);
    var all := [TEST_CASE_HEADERS] + rows;
    forall i | 0 <= i < |all| ensures |all[i]| >= 1 {
      if i > 0 {
        assert all[i] == rows[i - 1];
      }
    }
    Csv.DocumentRoundTrip(all);
  }

  /** In the test-case layout the file reads back as the header record and
      one record of exactly ten fields per test case, in order. */
  lemma TestCaseCsvShape(items: seq<Json>, rows: seq<seq<string>>)
    requires TestCaseRows(items) == Ok(rows)
    ensures var records := Csv.Parse(TestCaseCsv(rows));
      |records| == |items| + 1 && records[0] == TEST_CASE_HEADERS &&
      forall i :: 0 <= i < |items| ==>
        TestCaseFields(items[i]) == Ok(records[i + 1]) && |records[i + 1]| == 10
  {
    RowsOfTen(items, rows);
    TestCaseCsvRoundTrip(rows);
    ShiftedRows(TEST_CASE_HEADERS, rows);
  }

  /** Every row of a successful conversion has ten fields. */
  lemma RowsOfTen(items: seq<Json>, rows: seq<seq<string>>)
    requires TestCaseRows(items) == Ok(rows)
    ensures |rows| == |items|
    ensures forall i :: 0 <= i < |items| ==> TestCaseFields(items[i]) == Ok(rows[i]) && |rows[i]| == 10
  {
  }

  /** The records after the header are the rows. */
  lemma ShiftedRows(header: seq<string>, rows: seq<seq<string>>)
    ensures var records := [header] + rows;
      |records| == |rows| + 1 && records[0] == header &&
      forall i :: 0 <= i < |rows| ==> records[i + 1] == rows[i]
  {
  }

  /** In the generic layout the file reads back as the column names of the
      first item and one record per item holding its value in each column,
      `''` where the item lacks it. */
  lemma GenericCsvShape(data: Json)
    requires ExportCsv(data).CsvFile?
    requires !TestCaseMode(data.items[0])
    requires |FlattenAll(data.items).value[0]| > 0
    ensures var flats := FlattenAll(data.items).value;
      var headers := Keys(flats[0]);
      var records := Csv.Parse(ExportCsv(data).text);
      |records| == |data.items| + 1 && records[0] == headers &&
      forall i :: 0 <= i < |data.items| ==> records[i + 1] == GenericRow(flats[i], headers)
  {
    var flats := FlattenAll(data.items).value;
    GenericCsvRoundTrip(Keys(flats[0]), flats);
  }

  /** The corrected generic layout reads back record for record. */
  lemma GenericCsvRoundTrip(headers: seq<string>, flats: seq<Obj>)
    requires |headers| > 0
    ensures Csv.Parse(GenericCsv(headers, flats)) ==
      [headers] + seq(|flats|, i requires 0 <= i < |flats| => GenericRow(flats[i], headers))
  {
    var all := [headers] + seq(|flats|, i requires 0 <= i < |flats| => GenericRow(flats[i], headers));
    Csv.DocumentRoundTrip(all);
  }

  lemma DecimalPlain(n: int)
    ensures !Csv.NeedsQuoting(IntToString(n))
  {
    var r := IntToString(n);
    if n >= 0 {
      assert forall k :: 0 <= k < |r| ==> IsDigit(r[k]);
    } else {
      assert forall k :: 0 <= k < |r| - 1 ==> IsDigit(r[1..][k]);
    }
  }

  /** On flattened values the exporter's cell is the escaped cell text. */
  lemma CellAsWrittenIsEscaped(v: JsValue)
    requires v.None? || Leaf(v.value)
    ensures GenericCellAsWritten(v) == Csv.EscapeField(CellText(v))
  {
    if v.Some? && v.value.JNum? {
      DecimalPlain(v.value.n);
    }
  }

  /** The exporter's data record of one flattened item is the escaped
      record of its cells. */
  lemma RowAsWrittenIsRecord(headers: seq<string>, flat: Obj)
    requires Flat(flat)
    requires NoInheritedColumn(flat, headers)
    ensures Join(GenericRowAsWritten(flat, headers), ",") == Csv.Record(GenericRow(flat, headers))
  {
    forall j | 0 <= j < |headers|
      ensures GenericRowAsWritten(flat, headers)[j] == Csv.EscapeField(GenericRow(flat, headers)[j])
    {
      var g := Get(flat, headers[j]);
      if g.Some? {
        var m :| 0 <= m < |flat| && flat[m] == (headers[j], g.value);
        assert Leaf(flat[m].1);
      }
      CellAsWrittenIsEscaped(g);
    }
    assert GenericRowAsWritten(flat, headers) == Csv.EscapeAll(GenericRow(flat, headers));
  }

  /** When no column name needs quoting and no item lacks a column named
      after a member of `Object.prototype`, the layout as written and the
      corrected one are the same text. */
  lemma GenericCsvAgrees(headers: seq<string>, flats: seq<Obj>)
    requires forall j :: 0 <= j < |headers| ==> !Csv.NeedsQuoting(headers[j])
    requires forall i :: 0 <= i < |flats| ==> Flat(flats[i]) && NoInheritedColumn(flats[i], headers)
    ensures GenericCsvAsWritten(headers, flats) == GenericCsv(headers, flats)
  {
    var rows := seq(|flats|, i requires 0 <= i < |flats| => GenericRow(flats[i], headers));
    var all := [headers] + rows;
    assert Csv.EscapeAll(headers) == headers;
    assert Csv.Record(headers) == Join(headers, ",");
    DataRecords(headers, flats);
    RecordsCons(headers, rows);
    assert GenericCsv(headers, flats) == Join(seq(|all|, i requires 0 <= i < |all| => Csv.Record(all[i])), "\n");
  }

  /** Each data record as written is the escaped record of its row. */
  lemma DataRecords(headers: seq<string>, flats: seq<Obj>)
    requires forall i :: 0 <= i < |flats| ==> Flat(flats[i]) && NoInheritedColumn(flats[i], headers)
    ensures var rows := seq(|flats|, i requires 0 <= i < |flats| => GenericRow(flats[i], headers));
            seq(|flats|, i requires 0 <= i < |flats| => Join(GenericRowAsWritten(flats[i], headers), ","))
            == seq(|rows|, i requires 0 <= i < |rows| => Csv.Record(rows[i]))
  {
    forall i | 0 <= i < |flats|
      ensures Join(GenericRowAsWritten(flats[i], headers), ",") == Csv.Record(GenericRow(flats[i], headers))
    {
      RowAsWrittenIsRecord(headers, flats[i]);
    }
  }

  /** The records of a header and rows are the header's record and then
      the rows' records. */
  lemma RecordsCons(header: seq<string>, rows: seq<seq<string>>)
    ensures var all := [header] + rows;
            seq(|all|, i requires 0 <= i < |all| => Csv.Record(all[i]))
            == [Csv.Record(header)] + seq(|rows|, i requires 0 <= i < |rows| => Csv.Record(rows[i]))
  {
    var all := [header] + rows;
    forall i | 1 <= i < |all| ensures all[i] == rows[i - 1] { }
  }

  /** The exporter's text for one column `a,b` holding the number 1. */
  lemma CommaHeaderText()
    ensures GenericCsvAsWritten(["a,b"], [[("a,b", JNum(1))]]) == "a,b\n1"
  {
    var headers := ["a,b"];
    var flats := [[("a,b", JNum(1))]];
    assert Get(flats[0], "a,b") == Some(JNum(1));
    assert GenericCellAsWritten(Some(JNum(1))) == "1";
    assert GenericRowAsWritten(flats[0], headers) == ["1"];
    var rows := seq(|flats|, i requires 0 <= i < |flats| => Join(GenericRowAsWritten(flats[i], headers), ","));
    assert rows == ["1"];
    assert [Join(headers, ",")] + rows == ["a,b", "1"];
    JoinCons("a,b", ["1"], "\n");
  }

  /** A column name holding a comma is split in two by the exporter, so the
      header record no longer lines up with the data record. */
  lemma GenericHeaderCommaSplits()
    ensures Csv.Parse(GenericCsvAsWritten(["a,b"], [[("a,b", JNum(1))]])) == [["a", "b"], ["1"]]
  {
    CommaHeaderText();
    CommaTextLines();
    CommaRecordSplits();
    OneRecord();
  }

  lemma CommaTextLines()
    ensures Csv.SplitTop("a,b\n1", '\n') == ["a,b", "1"]
  {
    var parts := ["a,b", "1"];
    JoinCons("a,b", ["1"], "\n");
    assert ["a,b"] + ["1"] == parts;
    assert Join(parts, "\n") == "a,b\n1";
    assert ['\n'] == "\n";
    Csv.PlainScan("a,b", '\n');
    Csv.PlainScan("1", '\n');
    assert forall i :: 0 <= i < |parts| ==> Csv.ScanFor(parts[i], '\n', false) == Csv.Through(false);
    Csv.SplitTopJoin(parts, '\n');
  }

  lemma OneRecord()
    ensures Csv.ParseRecord("1") == ["1"]
  {
    Csv.PlainScan("1", ',');
    assert Csv.SplitTop("1", ',') == ["1"];
  }

  lemma CommaRecordSplits()
    ensures Csv.ParseRecord("a,b") == ["a", "b"]
  {
    JoinCons("a", ["b"], ",");
    assert ["a"] + ["b"] == ["a", "b"];
    assert "a" + "," + "b" == "a,b";
    Csv.PlainScan("a", ',');
    Csv.PlainScan("b", ',');
    assert [','] == ",";
    Csv.SplitTopJoin(["a", "b"], ',');
    assert Csv.SplitTop("a,b", ',') == ["a", "b"];
  }

  /** The items `[{ toString: "a" }, {}]` flatten to themselves. */
  lemma FlattenToStringItems()
    ensures FlattenAll([JObj([("toString", JStr("a"))]), JObj([])]) == Ok([[("toString", JStr("a"))], []])
  {
    var flats: seq<Obj> := [[("toString", JStr("a"))], []];
    var o := JObj(flats[0]);
    assert OwnEntries(o) == flats[0];
    assert Set([], "toString", JStr("a")) == flats[0];
    assert FlattenMembers(o, "", 1, flats[0]) == flats[0];
    assert FlattenObject(o) == Ok(flats[0]);
    assert FlattenObject(JObj([])) == Ok(flats[1]);
    var items := [o, JObj([])];
    assert JNull !in items;
    var got := FlattenAll(items);
    assert got.Ok? && |got.value| == 2 && got.value[0] == flats[0] && got.value[1] == flats[1];
    assert got.value == flats;
  }

  /** An item without a `toString` property gets, as written, the text of
      the inherited method in a `toString` column, where the corrected
      record has an empty cell. */
  lemma InheritedCellRead()
    ensures GenericRowAsWritten([], ["toString"]) == [InheritedText("toString")]
    ensures InheritedText("toString") == "function " + "toString" + "() { [native code] }"
    ensures GenericRow([], ["toString"]) == [""]
  {
    assert !HasKey([], "toString");
  }

  /** A record lacking a `constructor` column gets the text of the
      `Object` function that every plain object inherits under that
      name. */
  lemma InheritedConstructorRead()
    ensures GenericRowAsWritten([], ["constructor"]) == ["function Object() { [native code] }"]
    ensures GenericRow([], ["constructor"]) == [""]
  {
    assert !HasKey([], "constructor");
  }

  /** The items `[{ toString: "a" }, {}]`: the second lacks the first's
      only column, so the exporter writes the inherited method's text as
      its cell. */
  lemma InheritedColumnRead()
    ensures FlattenAll([JObj([("toString", JStr("a"))]), JObj([])]) == Ok([[("toString", JStr("a"))], []])
    ensures GenericCsvAsWritten(["toString"], [[("toString", JStr("a"))], []]) ==
      Join(["toString", "a", InheritedText("toString")], "\n")
  {
    FlattenToStringItems();
    InheritedCellRead();
    var flats: seq<Obj> := [[("toString", JStr("a"))], []];
    var text := InheritedText("toString");
    assert GenericCellAsWritten(Some(JStr("a"))) == "a";
    assert GenericRowAsWritten(flats[0], ["toString"]) == ["a"];
    assert Join([text], ",") == text;
    var rows := seq(|flats|, i requires 0 <= i < |flats| => Join(GenericRowAsWritten(flats[i], ["toString"]), ","));
    assert rows == ["a", text];
    assert Join(["toString"], ",") == "toString";
    assert [Join(["toString"], ",")] + rows == ["toString", "a", text];
  }

  /** With the column name escaped the same item reads back whole. */
  lemma GenericHeaderCommaKept()
    ensures Csv.Parse(GenericCsv(["a,b"], [[("a,b", JNum(1))]])) == [["a,b"], ["1"]]
  {
    var flat := [("a,b", JNum(1))];
    assert Get(flat, "a,b") == Some(JNum(1));
    assert GenericRow(flat, ["a,b"]) == ["1"];
    GenericCsvRoundTrip(["a,b"], [flat]);
  }

  // ---------------------------------------------------------------------
  // JSON envelope
  // ---------------------------------------------------------------------

  /** A property that is present only when its value is defined. */
  function Opt(k: string, v: JsValue): (r: Obj)
    ensures |r| <= 1 && (forall p :: p in r ==> p.0 == k)
  {
    if v.Some? then [(k, v.value)] else []
  }

  /** `{ exportedAt, itemCount: data.length, data }`. */
  function Envelope(data: Json, exportedAt: string): (r: Json)
    ensures r.JObj?
    ensures ("data", data) in r.members
    ensures ("exportedAt", JStr(exportedAt)) in r.members
    ensures data.JArr? ==> ("itemCount", JNum(|data.items|)) in r.members
    ensures !data.JArr? && !data.JStr? ==> !HasKey(r.members, "itemCount")
  {
    var ms := [("exportedAt", JStr(exportedAt))] + Opt("itemCount", Length(data)) + [("data", data)];
    assert ms[|ms| - 1] == ("data", data);
    JObj(ms)
  }

  /** `exportToJson(data)`: the envelope, pretty-printed; reading the length
      of `null` throws. */
  function ExportJson(data: Json, exportedAt: string): (r: Result<string, Exn>)
    ensures r.Err? <==> data.JNull?
    ensures r.Ok? ==> "{\n" <= r.value
  {
    if data.JNull? then Err(NullRead("length"))
    else Ok(Pretty(Envelope(data, exportedAt), 0))
  }

  // ---------------------------------------------------------------------
  // Postman collection
  // ---------------------------------------------------------------------

  const POSTMAN_SCHEMA := "https://schema.getpostman.com/json/collection/v2.1.0/collection.json"

  function HeaderItem(key: Json, value: Json): Json {
    JObj([("key", key), ("value", value)])
  }

  /** `Object.entries(headers || {}).map(([key, value]) => ({ key, value }))`
      as written: one item per own property of the stored value. */
  function PostmanHeadersAsWritten(headers: JsValue): (r: seq<Json>)
    ensures headers.Some? && headers.value.JObj? ==> |r| == |headers.value.members|
  {
    var entries := if Truthy(headers) then OwnEntries(headers.value) else [];
    seq(|entries|, i requires 0 <= i < |entries| => HeaderItem(JStr(entries[i].0), entries[i].1))
  }

  /** A header row of the request editor with both a key and a value. */
  predicate CompleteRow(row: Json) {
    Truthy(Prop(Some(row), "key")) && Truthy(Prop(Some(row), "value"))
  }

  /** The complete rows of the editor as Postman headers, in order. */
  function RowHeaders(rows: seq<Json>): (r: seq<Json>)
    ensures |r| <= |rows|
    ensures (forall i :: 0 <= i < |rows| ==> CompleteRow(rows[i])) ==> (|r| == |rows| &&
      forall i :: 0 <= i < |rows| ==>
        r[i] == HeaderItem(Prop(Some(rows[i]), "key").value, Prop(Some(rows[i]), "value").value))
    ensures forall h :: h in r ==>
      exists i :: 0 <= i < |rows| && CompleteRow(rows[i]) &&
        h == HeaderItem(Prop(Some(rows[i]), "key").value, Prop(Some(rows[i]), "value").value)
  {
    if |rows| == 0 then []
    else
      var rest := RowHeaders(rows[1..]);
      assert forall i :: 1 <= i < |rows| ==> rows[i] == rows[1..][i - 1];
      if CompleteRow(rows[0]) then
        [HeaderItem(Prop(Some(rows[0]), "key").value, Prop(Some(rows[0]), "value").value)] + rest
      else rest
  }

  /** The Postman headers as evidently intended: the request editor stores
      its headers as a list of `{ key, value }` rows, and each complete row
      becomes one header; a stored object still maps property to header. */
  function PostmanHeaders(headers: JsValue): seq<Json> {
    if headers.Some? && headers.value.JArr? then RowHeaders(headers.value.items)
    else PostmanHeadersAsWritten(headers)
  }

  /** The exporter's headers for a row list are named by the row indices
      and carry whole rows as values; the intended headers carry the rows'
      own names and values. */
  lemma PostmanHeaderRows(k: string, v: string)
    requires k != "" && v != ""
    ensures var row := JObj([("key", JStr(k)), ("value", JStr(v))]);
      PostmanHeadersAsWritten(Some(JArr([row]))) == [HeaderItem(JStr("0"), row)] &&
      PostmanHeaders(Some(JArr([row]))) == [HeaderItem(JStr(k), JStr(v))]
  {
    var row := JObj([("key", JStr(k)), ("value", JStr(v))]);
    assert NatToString(0) == "0";
    assert Prop(Some(row), "key") == Some(JStr(k));
    assert row.members[1..] == [("value", JStr(v))];
    assert Get(row.members, "value") == Get([("value", JStr(v))], "value");
  }

  /** `{ raw, host: [url.split('/')[2]], path: url.split('/').slice(3) }`;
      a missing third segment is written as `null`. */
  function UrlObject(url: string): Json {
    var parts := Split(url, "/");
    JObj([("raw", JStr(url)),
          ("host", JArr([if |parts| > 2 then JStr(parts[2]) else JNull])),
          ("path", JArr(seq(|Drop(parts, 3)|, i requires 0 <= i < |Drop(parts, 3)| => JStr(Drop(parts, 3)[i]))))])
  }

  function UrlOf(scheme: string, host: string, path: seq<string>): string {
    scheme + "//" + host + (if |path| > 0 then "/" + Join(path, "/") else "")
  }

  /** Splitting `<scheme>//<host>/<p1>/…/<pn>` on `/` gives the scheme, an
      empty segment, the host and the path segments. */
  lemma UrlSplit(scheme: string, host: string, path: seq<string>)
    requires '/' !in scheme && '/' !in host
    requires forall i :: 0 <= i < |path| ==> '/' !in path[i]
    ensures Split(UrlOf(scheme, host, path), "/") == [scheme, "", host] + path
  {
    var parts := [scheme, "", host] + path;
    forall i | 0 <= i < |parts| ensures '/' !in parts[i] {
      if i >= 3 { assert parts[i] == path[i - 3]; }
    }
    var hp := [host] + path;
    if |path| > 0 {
      JoinCons(host, path, "/");
    } else {
      assert hp == [host];
    }
    assert Join(hp, "/") == host + (if |path| > 0 then "/" + Join(path, "/") else "");
    JoinCons("", hp, "/");
    assert ["", host] + path == [""] + hp;
    JoinCons(scheme, ["", host] + path, "/");
    assert [scheme] + (["", host] + path) == parts;
    assert Join(parts, "/") == UrlOf(scheme, host, path);
    SplitJoin(parts, '/');
  }

  /** For `<scheme>//<host>/<p1>/…/<pn>` the host and the path segments come
      back as written. */
  lemma UrlObjectParts(scheme: string, host: string, path: seq<string>)
    requires '/' !in scheme && '/' !in host
    requires forall i :: 0 <= i < |path| ==> '/' !in path[i]
    ensures UrlObject(UrlOf(scheme, host, path)) ==
      JObj([("raw", JStr(UrlOf(scheme, host, path))), ("host", JArr([JStr(host)])),
        ("path", JArr(seq(|path|, i requires 0 <= i < |path| => JStr(path[i]))))])
  {
    UrlSplit(scheme, host, path);
    var parts := [scheme, "", host] + path;
    assert Split(UrlOf(scheme, host, path), "/") == parts;
    assert |parts| > 2 && parts[2] == host;
    assert Drop(parts, 3) == path;
    assert seq(|Drop(parts, 3)|, i requires 0 <= i < |Drop(parts, 3)| => JStr(Drop(parts, 3)[i])) ==
      seq(|path|, i requires 0 <= i < |path| => JStr(path[i]));
  }

  /** The raw body: strings verbatim, anything else as JSON. */
  function RawBody(body: Json): string {
    if body.JStr? then body.s else Stringify(body)
  }

  function PostmanBody(body: Json): Json {
    JObj([("mode", JStr("raw")), ("raw", JStr(RawBody(body))),
          ("options", JObj([("raw", JObj([("language", JStr("json"))]))]))])
  }

  /** The `request` part of one Postman item: the body is present iff the
      stored body is truthy. */
  function PostmanRequest(req: Json, url: string): (r: Json)
    ensures r.JObj?
    ensures Truthy(Prop(Some(req), "body")) ==>
      ("body", PostmanBody(Prop(Some(req), "body").value)) in r.members
    ensures !Truthy(Prop(Some(req), "body")) ==> !HasKey(r.members, "body")
    ensures ("url", UrlObject(url)) in r.members
  {
    var body := Prop(Some(req), "body");
    var fixed := [("header", JArr(PostmanHeaders(Or(Prop(Some(req), "headers"), Some(JObj([])))))),
                  ("url", UrlObject(url))];
    var head := Opt("method", Prop(Some(req), "method")) + fixed;
    assert forall p :: p in head ==> p.0 != "body";
    var tail := if Truthy(body) then [("body", PostmanBody(body.value))] else [];
    var ms := head + tail;
    assert ("url", UrlObject(url)) in head;
    assert !Truthy(body) ==> ms == head;
    JObj(ms)
  }

  /** One item per saved request: `null` requests and non-string URLs
      throw. */
  function PostmanItem(req: Json): (r: Result<Json, Exn>)
    ensures r.Ok? <==> !req.JNull? && IsStr(Prop(Some(req), "url"))
    ensures r.Ok? ==> (r.value.JObj? &&
      ("request", PostmanRequest(req, Prop(Some(req), "url").value.s)) in r.value.members)
  {
    if req.JNull? then Err(NullRead("name"))
    else
      var url := Prop(Some(req), "url");
      if url.None? then Err(TypeError("Cannot read properties of undefined (reading 'split')"))
      else if url.value.JNull? then Err(NullRead("split"))
      else if !url.value.JStr? then Err(TypeError("req.url.split is not a function"))
      else
        var ms := Opt("name", Prop(Some(req), "name")) + [("request", PostmanRequest(req, url.value.s))];
        assert ms[|ms| - 1] == ("request", PostmanRequest(req, url.value.s));
        Ok(JObj(ms))
  }

  function PostmanItems(reqs: seq<Json>): (r: Result<seq<Json>, Exn>)
    ensures r.Ok? ==> (|r.value| == |reqs| &&
      forall i :: 0 <= i < |reqs| ==> PostmanItem(reqs[i]) == Ok(r.value[i]))
    ensures r.Err? <==> exists i :: 0 <= i < |reqs| && PostmanItem(reqs[i]).Err?
  {
    MapOrThrow(PostmanItem, reqs)
  }

  /** `xs.map(f)` for an `f` that may throw: the first exception thrown,
      or every result in order. */
  function MapOrThrow<T>(f: Json -> Result<T, Exn>, xs: seq<Json>): (r: Result<seq<T>, Exn>)
    ensures r.Ok? ==> (|r.value| == |xs| && forall i :: 0 <= i < |xs| ==> f(xs[i]) == Ok(r.value[i]))
    ensures r.Err? <==> exists i :: 0 <= i < |xs| && f(xs[i]).Err?
  {
    if |xs| == 0 then Ok([])
    else
      var first :- f(xs[0]);
      var rest :- MapOrThrow(f, xs[1..]);
      assert forall i :: 1 <= i < |xs| ==> xs[i] == xs[1..][i - 1];
      Ok([first] + rest)
  }

  /** The Postman v2.1 collection: its name and schema, and one item per
      saved request in order. */
  function PostmanCollection(collection: Json): (r: Result<Json, Exn>)
    ensures r.Ok? ==> collection.JObj? && IsArr(Prop(Some(collection), "requests")) && r.value.JObj?
    ensures r.Ok? ==> (IsArr(Prop(Some(collection), "requests")) &&
      var reqs := Prop(Some(collection), "requests").value.items;
      exists items :: ("item", JArr(items)) in r.value.members && |items| == |reqs| &&
        forall i :: 0 <= i < |reqs| ==> PostmanItem(reqs[i]) == Ok(items[i]))
  {
    if collection.JNull? then Err(NullRead("name"))
    else
      var requests := Prop(Some(collection), "requests");
      if !IsArr(requests) then
        Err(TypeError("collection.requests.map is not a function"))
      else
        var items :- PostmanItems(requests.value.items);
        var info := JObj(Opt("name", Prop(Some(collection), "name")) +
                         [("schema", JStr(POSTMAN_SCHEMA))]);
        var r := JObj([("info", info), ("item", JArr(items))]);
        assert ("item", JArr(items)) in r.members;
        Ok(r)
  }

  predicate IsArr(v: JsValue) { v.Some? && v.value.JArr? }

  /** `exportToPostman(collection)`: the collection in the JSON envelope,
      which carries no item count since an object has no `length`. */
  function ExportPostman(collection: Json, exportedAt: string): (r: Result<string, Exn>)
    ensures r.Ok? <==> PostmanCollection(collection).Ok?
    ensures r.Ok? ==>
      r.value == Pretty(JObj([("exportedAt", JStr(exportedAt)), ("data", PostmanCollection(collection).value)]), 0)
  {
    var c :- PostmanCollection(collection);
    EnvelopeOfObject(c, exportedAt);
    ExportJson(c, exportedAt)
  }

  lemma EnvelopeOfObject(c: Json, exportedAt: string)
    requires c.JObj?
    ensures Envelope(c, exportedAt) == JObj([("exportedAt", JStr(exportedAt)), ("data", c)])
  {
    assert Opt("itemCount", Length(c)) == [];
  }
}

=== FILE: handlers.dfy ===
/** The serverless AI and proxy handlers. Each answers a CORS preflight
    (`OPTIONS`) with an empty 200 and any other method but `POST` with 405,
    checks its required body fields and the Gemini API key, makes one call
    to the Gemini REST endpoint, cleans the model's text of Markdown fences
    and answers with the parsed JSON. Errors thrown inside the handler's
    `try` become a 500 carrying the error's message.

    The Gemini call and the proxied `fetch` are inputs (`Upstream`,
    `ProxyUpstream`); the prompt text is opaque, and each handler reports
    instead the values it interpolated into it (`Prompt`), or `None` when
    it made no call. An unset `GEMINI_API_KEY` is the empty string. */
module Handlers {
  import opened Wrappers
  import opened Text
  import opened Json
  import opened Cleanup
  import EventStream
  import ApiClient

  // ---------------------------------------------------------------------
  // Requests, replies, errors
  // ---------------------------------------------------------------------

  datatype Request = Request(verb: string, body: JsValue)

  /** `res.status(200).end()` or `res.status(s).json(body)`. */
  datatype Reply = EmptyOk | JsonReply(status: int, body: Json)

  /** What the Gemini `fetch` gave: a rejection, or a status and body text. */
  datatype Upstream = FetchThrew(error: Exn) | Answered(status: int, body: string)

  /** The values a handler interpolated into the prompt it sent. */
  datatype NoteKind = StoryTemplate | BugTemplate

  datatype Prompt =
    | TestCasesPrompt(userStory: string, context: Option<string>)
    | NotesPrompt(template: NoteKind, notes: string)
    | AuditPrompt(level: string, target: string)
    | AssertionsPrompt(requestMethod: string, url: string, status: string, body: string)
    | SummaryPrompt(audit: bool, input: string)
    | ScriptPrompt(framework: string, language: string, browser: string, headless: bool,
                   useFixtures: bool, testData: Option<string>, scenario: string)

  /** A JSON handler's reply, and the prompt it sent upstream, if any. */
  datatype Handled = Handled(reply: Reply, prompt: Option<Prompt>)

  const METHOD_NOT_ALLOWED := JObj([("error", JStr("Method not allowed"))])
  const NO_KEY := "Gemini API key not configured"

  function ErrorReply(status: int, message: string): Reply {
    JsonReply(status, JObj([("error", JStr(message))]))
  }

  /** The `catch` block: 500 with the error's message or the handler's
      fallback, and, in some handlers, `error.toString()` as `details`. */
  function Caught(e: Exn, fallback: string, withDetails: bool): (r: Reply)
    ensures r.JsonReply? && r.status == 500 && r.body.JObj?
    ensures Get(r.body.members, "error") == Str(if e.message != "" then e.message else fallback)
  {
    JsonReply(500, JObj([("error", JStr(if e.message != "" then e.message else fallback))]
      + (if withDetails then [("details", JStr(ErrorText(e)))] else [])))
  }

  /** `const { a, … } = req.body` throws when the body is `undefined` or
      `null`. */
  predicate CannotDestructure(body: JsValue) {
    body.None? || body == Some(JNull)
  }

  function DestructureError(field: string, body: JsValue): Exn {
    TypeError("Cannot destructure property '" + field + "' of 'req.body' as it is "
      + (if body.None? then "undefined" else "null") + ".")
  }

  /** The method guard every handler starts with. */
  function MethodGuard(verb: string): (r: Option<Reply>)
    ensures r == None <==> verb == "POST"
    ensures verb == "OPTIONS" ==> r == Some(EmptyOk)
    ensures verb != "OPTIONS" && verb != "POST" ==> r == Some(JsonReply(405, METHOD_NOT_ALLOWED))
  {
    if verb == "OPTIONS" then Some(EmptyOk)
    else if verb != "POST" then Some(JsonReply(405, METHOD_NOT_ALLOWED))
    else None
  }

  // ---------------------------------------------------------------------
  // Reading Gemini's answer
  // ---------------------------------------------------------------------

  /** `v?.[0]`. */
  function At0(v: JsValue): JsValue {
    match v
    case Some(JArr(items)) => if |items| > 0 then Some(items[0]) else None
    case Some(JObj(ms)) => Get(ms, "0")
    case Some(JStr(s)) => if |s| > 0 then Str(s[..1]) else None
    case _ => None
  }

  /** `result.candidates?.[0]?.content?.parts?.[0]?.text`; reading
      `candidates` of a `null` result throws. */
  function CandidateText(result: Json): Result<JsValue, Exn> {
    if result == JNull then Err(TypeError("Cannot read properties of null (reading 'candidates')"))
    else Ok(Prop(At0(Prop(Prop(At0(Prop(Some(result), "candidates")), "content"), "parts")), "text"))
  }

  /** The JSON Gemini sends for a reply whose text is `t`. */
  function GeminiResult(t: string): Json {
    JObj([("candidates", JArr([JObj([("content", JObj([("parts", JArr([JObj([("text", JStr(t))])]))]))])]))])
  }

  lemma GeminiResultText(t: string)
    ensures CandidateText(GeminiResult(t)) == Ok(Str(t))
  {
  }

  /** `await response.json()` (or `JSON.parse(text)`): a `SyntaxError` when
      the text is not JSON. */
  function ParseOrThrow(text: string, parse: string -> Result<Json, string>): (r: Result<Json, Exn>)
    ensures parse(text).Ok? <==> r.Ok?
    ensures r.Ok? ==> r.value == parse(text).value
  {
    match parse(text)
    case Ok(v) => Ok(v)
    case Err(m) => Err(Exn("SyntaxError", m))
  }

  /** The model's text from an ok answer: it must be present (truthy) and,
      to be cleaned with `.replace` or `.trim`, a string. `name` is the
      variable the handler keeps it in. */
  function ReplyText(body: string, parse: string -> Result<Json, string>, name: string, call: string,
                     noText: string): (r: Result<string, Exn>)
    ensures r.Ok? <==> parse(body).Ok? && CandidateText(parse(body).value).Ok?
                       && IsStr(CandidateText(parse(body).value).value)
                       && CandidateText(parse(body).value).value != Str("")
    ensures r.Ok? ==> Str(r.value) == CandidateText(parse(body).value).value
  {
    var result :- ParseOrThrow(body, parse);
    var text :- CandidateText(result);
    if !Truthy(text) then Err(Error(noText))
    else if !IsStr(text) then Err(TypeError(name + "." + call + " is not a function"))
    else Ok(text.value.s)
  }

  /** An answer that is not ok throws `Gemini API error: <status>`, in some
      handlers followed by the body; an ok one gives the fence-cleaned text
      parsed as JSON. */
  function GeminiJson(up: Upstream, parse: string -> Result<Json, string>, withBody: bool,
                      noText: string): (r: Result<Json, Exn>)
    ensures up.FetchThrew? ==> r == Err(up.error)
    ensures up.Answered? && !ApiClient.IsOk(up.status) ==> r.Err? && r.error.name == "Error"
    ensures r.Ok? ==> up.Answered? && ApiClient.IsOk(up.status)
                      && ReplyText(up.body, parse, "text", "replace", noText).Ok?
                      && parse(CleanJson(ReplyText(up.body, parse, "text", "replace", noText).value)) == Ok(r.value)
  {
    match up
    case FetchThrew(e) => Err(e)
    case Answered(status, body) =>
      if !ApiClient.IsOk(status) then
        Err(Error("Gemini API error: " + IntToString(status) + (if withBody then " " + body else "")))
      else
        var text :- ReplyText(body, parse, "text", "replace", noText);
        ParseOrThrow(CleanJson(text), parse)
  }

  /** When Gemini answers with a JSON value fenced as ```` ```json ````, and the
      JSON reader inverts `JSON.stringify`, the handler's data is that value. */
  lemma GeminiJsonFenced(status: int, body: string, v: Json, parse: string -> Result<Json, string>,
                         withBody: bool, noText: string)
    requires ApiClient.IsOk(status)
    requires forall x :: parse(Stringify(x)) == Ok(x)
    requires '`' !in Stringify(v)
    requires parse(body) == Ok(GeminiResult("```json\n" + Stringify(v) + FENCE))
    ensures GeminiJson(Answered(status, body), parse, withBody, noText) == Ok(v)
  {
    StringifyTrimmed(v);
    FencedTextRead(status, body, Stringify(v), v, parse, withBody, noText);
  }

  /** The same for any trimmed text `s` without backquotes that the reader
      reads as `v`. */
  lemma FencedTextRead(status: int, body: string, s: string, v: Json, parse: string -> Result<Json, string>,
                       withBody: bool, noText: string)
    requires ApiClient.IsOk(status)
    requires parse(s) == Ok(v) && Trim(s) == s && '`' !in s
    requires parse(body) == Ok(GeminiResult("```json\n" + s + FENCE))
    ensures GeminiJson(Answered(status, body), parse, withBody, noText) == Ok(v)
  {
    var t := "```json\n" + s + FENCE;
    ReplyTextOfResult(body, parse, t, "text", "replace", noText);
    CleanJsonFenced(s);
    assert CleanJson(t) == s;
  }

  /** A well-formed Gemini answer with non-empty text gives that text. */
  lemma ReplyTextOfResult(body: string, parse: string -> Result<Json, string>, t: string,
                          name: string, call: string, noText: string)
    requires t != "" && parse(body) == Ok(GeminiResult(t))
    ensures ReplyText(body, parse, name, call, noText) == Ok(t)
  {
    GeminiResultText(t);
  }

  // ---------------------------------------------------------------------
  // api/ai/generate-testcases
  // ---------------------------------------------------------------------

  const RATE_LIMIT_REPLY := JObj([
    ("error", JStr("Rate limit exceeded. Please wait a moment and try again.")),
    ("details", JStr("The Gemini API has a limit of 15 requests per minute on the free tier."))])

  /** How the handler recognises a rate-limited answer (section 4 of RFC 6585,
      or Gemini's own wording in the body). */
  predicate RateLimited(status: int, errorText: string) {
    status == 429 || Contains(errorText, "quota") || Contains(errorText, "rate limit")
  }

  /** `userStory?.substring(0, 100)`, logged before the story is checked:
      a present, non-null story that is not a string has no `substring`. */
  predicate SubstringThrows(story: JsValue) {
    story.Some? && story.value != JNull && !story.value.JStr?
  }

  const SUBSTRING_ERROR := TypeError("userStory?.substring is not a function")
  const NULL_DATA_ERROR := TypeError("Cannot read properties of null (reading 'testCases')")
  const TEST_CASES_FALLBACK := "Failed to generate test cases"

  /** The reply to Gemini's data once the rate limit is ruled out:
      `data.testCases?.length` is logged first, which throws for `null`. */
  function TestCasesData(g: Result<Json, Exn>): (r: Reply)
    ensures g == Ok(JNull) ==> r == Caught(NULL_DATA_ERROR, TEST_CASES_FALLBACK, true)
    ensures g.Ok? && g.value != JNull ==> r == JsonReply(200, g.value)
    ensures g.Err? ==> r == Caught(g.error, TEST_CASES_FALLBACK, true)
  {
    match g
    case Ok(d) => if d == JNull then Caught(NULL_DATA_ERROR, TEST_CASES_FALLBACK, true) else JsonReply(200, d)
    case Err(e) => Caught(e, TEST_CASES_FALLBACK, true)
  }

  function GenerateTestCases(req: Request, apiKey: string, up: Upstream,
                             parse: string -> Result<Json, string>): (h: Handled)
    ensures MethodGuard(req.verb).Some? ==> h == Handled(MethodGuard(req.verb).value, None)
    ensures h.prompt.Some? <==> req.verb == "POST" && !CannotDestructure(req.body)
                                && IsStr(Prop(req.body, "userStory")) && Truthy(Prop(req.body, "userStory"))
                                && apiKey != ""
    ensures req.verb == "POST" && !CannotDestructure(req.body) && SubstringThrows(Prop(req.body, "userStory"))
            ==> h.reply == Caught(SUBSTRING_ERROR, TEST_CASES_FALLBACK, true)
    ensures req.verb == "POST" && !CannotDestructure(req.body) && !SubstringThrows(Prop(req.body, "userStory"))
            && !Truthy(Prop(req.body, "userStory"))
            ==> h.reply == ErrorReply(400, "User story is required")
    ensures req.verb == "POST" && !CannotDestructure(req.body) && IsStr(Prop(req.body, "userStory"))
            && Truthy(Prop(req.body, "userStory")) && apiKey == ""
            ==> h.reply == ErrorReply(500, NO_KEY)
    ensures h.reply == JsonReply(429, RATE_LIMIT_REPLY) <==>
            h.prompt.Some? && up.Answered? && !ApiClient.IsOk(up.status) && RateLimited(up.status, up.body)
    ensures h.prompt.Some? && !(up.Answered? && !ApiClient.IsOk(up.status) && RateLimited(up.status, up.body))
            ==> h.reply == TestCasesData(GeminiJson(up, parse, true, "No text in Gemini response"))
  {
    if MethodGuard(req.verb).Some? then Handled(MethodGuard(req.verb).value, None)
    else if CannotDestructure(req.body) then
      Handled(Caught(DestructureError("userStory", req.body), TEST_CASES_FALLBACK, true), None)
    else
      var story := Prop(req.body, "userStory");
      var context := Prop(req.body, "context");
      if SubstringThrows(story) then Handled(Caught(SUBSTRING_ERROR, TEST_CASES_FALLBACK, true), None)
      else if !Truthy(story) then Handled(ErrorReply(400, "User story is required"), None)
      else if apiKey == "" then Handled(ErrorReply(500, NO_KEY), None)
      else
        var prompt := TestCasesPrompt(story.value.s, if Truthy(context) then Some(ToJsString(context)) else None);
        if up.Answered? && !ApiClient.IsOk(up.status) && RateLimited(up.status, up.body) then
          Handled(JsonReply(429, RATE_LIMIT_REPLY), Some(prompt))
        else
          Handled(TestCasesData(GeminiJson(up, parse, true, "No text in Gemini response")), Some(prompt))
  }

  /** A rate-limited answer is reported as 429 whatever its body, and any
      other failed answer as 500: the client's retry loop sees both as
      failures. */
  lemma TestCasesUpstreamFailure(req: Request, apiKey: string, status: int, body: string,
                                 parse: string -> Result<Json, string>)
    requires req.verb == "POST" && !CannotDestructure(req.body)
    requires IsStr(Prop(req.body, "userStory")) && Truthy(Prop(req.body, "userStory")) && apiKey != ""
    requires !ApiClient.IsOk(status)
    ensures var h := GenerateTestCases(req, apiKey, Answered(status, body), parse);
            h.reply.JsonReply? && (h.reply.status == 429 <==> RateLimited(status, body))
            && (h.reply.status != 429 ==> h.reply.status == 500)
  {
    if !RateLimited(status, body) {
      assert h: GeminiJson(Answered(status, body), parse, true, "No text in Gemini response").Err?;
    }
  }

  /** Every POST is answered with JSON, and with 200 exactly when the story
      is a non-empty string, the key is set, and Gemini's cleaned answer
      parses to a value other than `null`; 400 exactly when the story is
      missing, `null` or empty. */
  lemma TestCasesStatus(req: Request, apiKey: string, up: Upstream, parse: string -> Result<Json, string>)
    requires req.verb == "POST"
    ensures var h := GenerateTestCases(req, apiKey, up, parse);
            var g := GeminiJson(up, parse, true, "No text in Gemini response");
            h.reply.JsonReply? && h.reply.status in {200, 400, 429, 500}
            && (h.reply.status == 200 <==> h.prompt.Some? && g.Ok? && g.value != JNull)
            && (h.reply.status == 400 <==>
                  !CannotDestructure(req.body) && Prop(req.body, "userStory") in {None, Some(JNull), Str("")})
  {
    var h := GenerateTestCases(req, apiKey, up, parse);
    var g := GeminiJson(up, parse, true, "No text in Gemini response");
    if h.prompt.Some? && up.Answered? && !ApiClient.IsOk(up.status) {
      assert g.Err?;
    }
  }

  /** Gemini's fenced JSON document reaches the client unchanged, unless it
      is `null`. */
  lemma TestCasesFencedReply(req: Request, apiKey: string, status: int, body: string, s: string, v: Json,
                             parse: string -> Result<Json, string>)
    requires req.verb == "POST" && !CannotDestructure(req.body)
    requires IsStr(Prop(req.body, "userStory")) && Truthy(Prop(req.body, "userStory")) && apiKey != ""
    requires ApiClient.IsOk(status)
    requires parse(s) == Ok(v) && Trim(s) == s && '`' !in s
    requires parse(body) == Ok(GeminiResult("```json\n" + s + FENCE))
    ensures var h := GenerateTestCases(req, apiKey, Answered(status, body), parse);
            h.reply == (if v == JNull then Caught(NULL_DATA_ERROR, TEST_CASES_FALLBACK, true) else JsonReply(200, v))
  {
    FencedTextRead(status, body, s, v, parse, true, "No text in Gemini response");
  }

  // ---------------------------------------------------------------------
  // api/ai/generate-from-notes
  // ---------------------------------------------------------------------

  function GenerateFromNotes(req: Request, apiKey: string, up: Upstream,
                             parse: string -> Result<Json, string>): (h: Handled)
    ensures MethodGuard(req.verb).Some? ==> h == Handled(MethodGuard(req.verb).value, None)
    ensures h.prompt.Some? <==> req.verb == "POST" && !CannotDestructure(req.body)
                                && Truthy(Prop(req.body, "notes")) && apiKey != ""
                                && Prop(req.body, "type") in {Str("story"), Str("bug")}
    ensures h.prompt.Some? ==> h.prompt.value.NotesPrompt?
                               && (h.prompt.value.template == StoryTemplate <==> Prop(req.body, "type") == Str("story"))
    ensures req.verb == "POST" && !CannotDestructure(req.body) && !Truthy(Prop(req.body, "notes"))
            ==> h.reply == ErrorReply(400, "Notes are required")
    ensures req.verb == "POST" && !CannotDestructure(req.body) && Truthy(Prop(req.body, "notes"))
            && apiKey == ""
            ==> h.reply == ErrorReply(500, NO_KEY)
    ensures req.verb == "POST" && !CannotDestructure(req.body) && Truthy(Prop(req.body, "notes"))
            && apiKey != "" && Prop(req.body, "type") !in {Str("story"), Str("bug")}
            ==> h.reply == ErrorReply(400, "Type must be \"story\" or \"bug\"")
    ensures h.prompt.Some? ==> h.reply == (match GeminiJson(up, parse, false, "No response from Gemini")
                                           case Ok(d) => JsonReply(200, d)
                                           case Err(e) => Caught(e, "Failed to generate from notes", false))
  {
    if MethodGuard(req.verb).Some? then Handled(MethodGuard(req.verb).value, None)
    else if CannotDestructure(req.body) then
      Handled(Caught(DestructureError("notes", req.body), "Failed to generate from notes", false), None)
    else
      var notes := Prop(req.body, "notes");
      var kind := Prop(req.body, "type");
      if !Truthy(notes) then Handled(ErrorReply(400, "Notes are required"), None)
      else if apiKey == "" then Handled(ErrorReply(500, NO_KEY), None)
      else if kind != Str("story") && kind != Str("bug") then
        Handled(ErrorReply(400, "Type must be \"story\" or \"bug\""), None)
      else
        var prompt := NotesPrompt(if kind == Str("story") then StoryTemplate else BugTemplate, ToJsString(notes));
        match GeminiJson(up, parse, false, "No response from Gemini")
        case Ok(d) => Handled(JsonReply(200, d), Some(prompt))
        case Err(e) => Handled(Caught(e, "Failed to generate from notes", false), Some(prompt))
  }

  // ---------------------------------------------------------------------
  // api/ai/audit-accessibility
  // ---------------------------------------------------------------------

  const DEFAULT_WCAG_LEVEL := "2.1 AA"

  function AuditAccessibility(req: Request, apiKey: string, up: Upstream,
                              parse: string -> Result<Json, string>): (h: Handled)
    ensures MethodGuard(req.verb).Some? ==> h == Handled(MethodGuard(req.verb).value, None)
    ensures h.prompt.Some? <==> req.verb == "POST" && !CannotDestructure(req.body)
                                && (Truthy(Prop(req.body, "url")) || Truthy(Prop(req.body, "html")))
                                && apiKey != ""
    ensures req.verb == "POST" && !CannotDestructure(req.body)
            && !Truthy(Prop(req.body, "url")) && !Truthy(Prop(req.body, "html"))
            ==> h.reply == ErrorReply(400, "URL or HTML is required")
    ensures h.prompt.Some? ==> h.prompt.value.AuditPrompt?
    ensures h.prompt.Some? && !Truthy(Prop(req.body, "wcagLevel")) ==> h.prompt.value.level == DEFAULT_WCAG_LEVEL
    ensures h.prompt.Some? && IsStr(Prop(req.body, "wcagLevel")) && Truthy(Prop(req.body, "wcagLevel"))
            ==> h.prompt.value.level == Prop(req.body, "wcagLevel").value.s
    ensures h.prompt.Some? ==> h.reply == (match GeminiJson(up, parse, true, "No text in Gemini response")
                                           case Ok(d) => JsonReply(200, d)
                                           case Err(e) => Caught(e, "Failed to audit accessibility", true))
  {
    if MethodGuard(req.verb).Some? then Handled(MethodGuard(req.verb).value, None)
    else if CannotDestructure(req.body) then
      Handled(Caught(DestructureError("url", req.body), "Failed to audit accessibility", true), None)
    else
      var url := Prop(req.body, "url");
      var html := Prop(req.body, "html");
      var level := Prop(req.body, "wcagLevel");
      if !Truthy(url) && !Truthy(html) then Handled(ErrorReply(400, "URL or HTML is required"), None)
      else if apiKey == "" then Handled(ErrorReply(500, NO_KEY), None)
      else
        // Only the URL reaches the prompt: an HTML-only audit names "Website".
        var prompt := AuditPrompt(ToJsString(Or(level, Str(DEFAULT_WCAG_LEVEL))), ToJsString(Or(url, Str("Website"))));
        match GeminiJson(up, parse, true, "No text in Gemini response")
        case Ok(d) => Handled(JsonReply(200, d), Some(prompt))
        case Err(e) => Handled(Caught(e, "Failed to audit accessibility", true), Some(prompt))
  }

  // ---------------------------------------------------------------------
  // api/ai/generate-assertions
  // ---------------------------------------------------------------------

  const BODY_LIMIT := 2000

  /** The response body as the prompt shows it: a string as is, anything
      else pretty-printed, cut to its first 2000 characters. An absent body
      has no JSON text, and `.substring` of `undefined` throws. */
  function ResponseBodyExcerpt(body: JsValue): (r: Result<string, Exn>)
    ensures r.Ok? <==> body.Some?
    ensures r.Ok? ==> |r.value| <= BODY_LIMIT
    ensures r.Ok? ==> r.value <= (if body.value.JStr? then body.value.s else Pretty(body.value, 0))
  {
    match body
    case None => Err(TypeError("Cannot read properties of undefined (reading 'substring')"))
    case Some(JStr(s)) => Ok(Take(s, BODY_LIMIT))
    case Some(v) => Ok(Take(Pretty(v, 0), BODY_LIMIT))
  }

  function GenerateAssertions(req: Request, apiKey: string, up: Upstream,
                              parse: string -> Result<Json, string>): (h: Handled)
    ensures MethodGuard(req.verb).Some? ==> h == Handled(MethodGuard(req.verb).value, None)
    ensures h.prompt.Some? <==> req.verb == "POST" && !CannotDestructure(req.body)
                                && Truthy(Prop(req.body, "response")) && apiKey != ""
                                && Prop(Prop(req.body, "response"), "body").Some?
    ensures req.verb == "POST" && !CannotDestructure(req.body) && !Truthy(Prop(req.body, "response"))
            ==> h.reply == ErrorReply(400, "Response is required")
    ensures h.prompt.Some? ==> h.prompt.value.AssertionsPrompt?
    ensures h.prompt.Some? && !Truthy(Prop(Prop(req.body, "request"), "method")) ==> h.prompt.value.requestMethod == "GET"
    ensures h.prompt.Some? && !Truthy(Prop(Prop(req.body, "request"), "url")) ==> h.prompt.value.url == ""
    ensures h.prompt.Some? ==> |h.prompt.value.body| <= BODY_LIMIT
    ensures h.prompt.Some? ==> h.reply == (match GeminiJson(up, parse, false, "No response from Gemini")
                                           case Ok(d) => JsonReply(200, d)
                                           case Err(e) => Caught(e, "Failed to generate assertions", false))
  {
    if MethodGuard(req.verb).Some? then Handled(MethodGuard(req.verb).value, None)
    else if CannotDestructure(req.body) then
      Handled(Caught(DestructureError("request", req.body), "Failed to generate assertions", false), None)
    else
      var request := Prop(req.body, "request");
      var response := Prop(req.body, "response");
      if !Truthy(response) then Handled(ErrorReply(400, "Response is required"), None)
      else if apiKey == "" then Handled(ErrorReply(500, NO_KEY), None)
      else
        match ResponseBodyExcerpt(Prop(response, "body"))
        case Err(e) => Handled(Caught(e, "Failed to generate assertions", false), None)
        case Ok(excerpt) =>
          var prompt := AssertionsPrompt(ToJsString(Or(Prop(request, "method"), Str("GET"))),
                                         ToJsString(Or(Prop(request, "url"), Str(""))),
                                         ToJsString(Prop(response, "status")), excerpt);
          match GeminiJson(up, parse, false, "No response from Gemini")
          case Ok(d) => Handled(JsonReply(200, d), Some(prompt))
          case Err(e) => Handled(Caught(e, "Failed to generate assertions", false), Some(prompt))
  }

  // ---------------------------------------------------------------------
  // api/ai/summarize
  // ---------------------------------------------------------------------

  function Summarize(req: Request, apiKey: string, up: Upstream,
                     parse: string -> Result<Json, string>): (h: Handled)
    ensures MethodGuard(req.verb).Some? ==> h == Handled(MethodGuard(req.verb).value, None)
    ensures h.prompt.Some? <==> req.verb == "POST" && !CannotDestructure(req.body)
                                && Truthy(Or(Prop(req.body, "content"), Prop(req.body, "text"))) && apiKey != ""
    ensures req.verb == "POST" && !CannotDestructure(req.body)
            && !Truthy(Prop(req.body, "content")) && !Truthy(Prop(req.body, "text"))
            ==> h.reply == ErrorReply(400, "Content or text is required")
    ensures h.prompt.Some? ==> h.prompt.value.SummaryPrompt?
    ensures h.prompt.Some? ==> (h.prompt.value.audit <==> Prop(req.body, "type") == Str("accessibility-audit"))
    ensures h.prompt.Some? && Truthy(Prop(req.body, "content")) && IsStr(Prop(req.body, "content"))
            && Prop(req.body, "type") != Str("accessibility-audit")
            ==> h.prompt.value.input == Prop(req.body, "content").value.s
    ensures h.prompt.Some? && h.reply.JsonReply? && h.reply.status == 200
            ==> up.Answered? && ReplyText(up.body, parse, "summary", "trim", "No response from Gemini").Ok?
                && h.reply.body == JObj([("summary", JStr(Trim(ReplyText(up.body, parse, "summary", "trim", "No response from Gemini").value)))])
  {
    if MethodGuard(req.verb).Some? then Handled(MethodGuard(req.verb).value, None)
    else if CannotDestructure(req.body) then
      Handled(Caught(DestructureError("content", req.body), "Failed to summarize", false), None)
    else
      var input := Or(Prop(req.body, "content"), Prop(req.body, "text"));
      if !Truthy(input) then Handled(ErrorReply(400, "Content or text is required"), None)
      else if apiKey == "" then Handled(ErrorReply(500, NO_KEY), None)
      else
        var audit := Prop(req.body, "type") == Str("accessibility-audit");
        var shown := if audit then Pretty(input.value, 0)
                     else if input.value.JStr? then input.value.s else Pretty(input.value, 0);
        var prompt := SummaryPrompt(audit, shown);
        var r: Result<string, Exn> :=
          match up
          case FetchThrew(e) => Err(e)
          case Answered(status, body) =>
            if !ApiClient.IsOk(status) then Err(Error("Gemini API error: " + IntToString(status)))
            else ReplyText(body, parse, "summary", "trim", "No response from Gemini");
        match r
        case Ok(summary) => Handled(JsonReply(200, JObj([("summary", JStr(Trim(summary)))])), Some(prompt))
        case Err(e) => Handled(Caught(e, "Failed to summarize", false), Some(prompt))
  }

  // ---------------------------------------------------------------------
  // api/proxy/execute
  // ---------------------------------------------------------------------

  /** The request the proxy sends on. */
  datatype ProxyCall = ProxyCall(url: string, verb: string, headers: Json, body: Option<string>)

  /** What the proxied `fetch` gave: a rejection, or the response with its
      headers (as `Headers.forEach` visits them), its `content-type` and its
      body text. */
  datatype ProxyUpstream =
    | ProxyThrew(error: Exn)
    | ProxyAnswered(status: int, statusText: string, headers: seq<(string, string)>,
                    contentType: Option<string>, text: string)

  /** The body the proxy attaches: only for a truthy body and a raw `method`
      field that is neither "GET" nor "HEAD", so a missing method (which
      sends GET) still carries one. */
  function ProxyBody(verb: JsValue, body: JsValue): (r: Option<string>)
    ensures r.Some? <==> Truthy(body) && verb != Str("GET") && verb != Str("HEAD")
    ensures r.Some? && IsStr(body) ==> r.value == body.value.s
    ensures r.Some? && !IsStr(body) ==> r.value == Stringify(body.value)
  {
    if Truthy(body) && verb != Str("GET") && verb != Str("HEAD") then
      Some(if body.value.JStr? then body.value.s else Stringify(body.value))
    else None
  }

  /** `responseHeaders[key] = value` for each header in turn: every name
      appears once, and the last header of a name gives its value. */
  function HeaderObject(hs: seq<(string, string)>): (r: Obj)
    ensures UniqueKeys(r)
    ensures forall k :: 0 <= k < |hs| ==> Get(r, hs[k].0).Some?
    ensures |hs| > 0 ==> Get(r, hs[|hs| - 1].0) == Some(JStr(hs[|hs| - 1].1))
  {
    if |hs| == 0 then []
    else
      var last := hs[|hs| - 1];
      var prefix := HeaderObject(hs[..|hs| - 1]);
      SetUnique(prefix, last.0, JStr(last.1));
      assert forall k :: 0 <= k < |hs| - 1 ==> hs[k] == hs[..|hs| - 1][k];
      Set(prefix, last.0, JStr(last.1))
  }

  /** The proxy handler; `elapsed` is `Date.now() - startTime`. The reply
      says what was sent on (`None` when nothing was). */
  function ProxyExecute(req: Request, up: ProxyUpstream, elapsed: int,
                        parse: string -> Result<Json, string>): (r: (Reply, Option<ProxyCall>))
    ensures MethodGuard(req.verb).Some? ==> r == (MethodGuard(req.verb).value, None)
    ensures r.1.Some? <==> req.verb == "POST" && !CannotDestructure(req.body) && Truthy(Prop(req.body, "url"))
    ensures req.verb == "POST" && !CannotDestructure(req.body) && !Truthy(Prop(req.body, "url"))
            ==> r.0 == ErrorReply(400, "URL is required")
    ensures r.1.Some? && !Truthy(Prop(req.body, "method")) ==> r.1.value.verb == "GET"
    ensures r.1.Some? && !Truthy(Prop(req.body, "headers")) ==> r.1.value.headers == JObj([])
    ensures r.1.Some? ==> r.1.value.body == ProxyBody(Prop(req.body, "method"), Prop(req.body, "body"))
    ensures r.1.Some? && up.ProxyThrew? ==> r.0 == Caught(up.error, "Failed to execute request", true)
    ensures r.1.Some? && up.ProxyAnswered? && !(up.contentType.Some? && Contains(up.contentType.value, "application/json"))
            ==> r.0 == JsonReply(200, JObj([("status", JNum(up.status)), ("statusText", JStr(up.statusText)),
                                            ("headers", JObj(HeaderObject(up.headers))), ("body", JStr(up.text)),
                                            ("time", JNum(elapsed))]))
    ensures r.1.Some? && up.ProxyAnswered? && up.contentType.Some? && Contains(up.contentType.value, "application/json")
            ==> (r.0.JsonReply? && r.0.status == 200 <==> parse(up.text).Ok?)
  {
    if MethodGuard(req.verb).Some? then (MethodGuard(req.verb).value, None)
    else if CannotDestructure(req.body) then
      (Caught(DestructureError("method", req.body), "Failed to execute request", true), None)
    else
      var verb := Prop(req.body, "method");
      var url := Prop(req.body, "url");
      var headers := Prop(req.body, "headers");
      var body := Prop(req.body, "body");
      if !Truthy(url) then (ErrorReply(400, "URL is required"), None)
      else
        var call := ProxyCall(ToJsString(url), ToJsString(Or(verb, Str("GET"))),
                              Or(headers, Some(JObj([]))).value, ProxyBody(verb, body));
        match up
        case ProxyThrew(e) => (Caught(e, "Failed to execute request", true), Some(call))
        case ProxyAnswered(status, statusText, hs, contentType, text) =>
          var isJson := contentType.Some? && Contains(contentType.value, "application/json");
          var shown: Result<string, Exn> :=
            if isJson then
              match ParseOrThrow(text, parse)
              case Ok(v) => Ok(if v.JStr? then v.s else Pretty(v, 0))
              case Err(e) => Err(e)
            else Ok(text);
          match shown
          case Err(e) => (Caught(e, "Failed to execute request", true), Some(call))
          case Ok(b) =>
            (JsonReply(200, JObj([("status", JNum(status)), ("statusText", JStr(statusText)),
                                  ("headers", JObj(HeaderObject(hs))), ("body", JStr(b)),
                                  ("time", JNum(elapsed))])), Some(call))
  }

  /** A JSON body is handed back re-serialised with two-space indentation:
      for an object or array reply, the client sees `JSON.stringify(v, null, 2)`. */
  lemma ProxyJsonBody(req: Request, status: int, statusText: string, contentType: string, v: Json,
                      text: string, elapsed: int, parse: string -> Result<Json, string>)
    requires req.verb == "POST" && !CannotDestructure(req.body) && Truthy(Prop(req.body, "url"))
    requires Contains(contentType, "application/json") && parse(text) == Ok(v) && !v.JStr?
    ensures ProxyExecute(req, ProxyAnswered(status, statusText, [], Some(contentType), text), elapsed, parse).0
            == JsonReply(200, JObj([("status", JNum(status)), ("statusText", JStr(statusText)),
                                    ("headers", JObj([])), ("body", JStr(Pretty(v, 0))),
                                    ("time", JNum(elapsed))]))
  {
  }

  // ---------------------------------------------------------------------
  // api/ai/generate-script (event stream)
  // ---------------------------------------------------------------------

  /** `res.status(200).end()` for the preflight, or the event-stream body. */
  datatype StreamReply = Preflight | Events(body: string)

  datatype ScriptHandled = ScriptHandled(reply: StreamReply, prompt: Option<Prompt>)

  /** `testCase.steps?.map(s => s.action).join(', ')` inside a template:
      `undefined` without steps, the actions joined otherwise (a `null` or
      missing action shows as empty); a `null` step or a `steps` value that
      is not an array throws. */
  function StepsText(steps: JsValue): (r: Result<string, Exn>)
    ensures steps.None? || steps == Some(JNull) ==> r == Ok("undefined")
    ensures steps.Some? && steps.value.JArr? && JNull !in steps.value.items ==> r.Ok?
    ensures steps.Some? && steps.value.JArr? && JNull in steps.value.items ==> r.Err?
    ensures steps.Some? && steps.value != JNull && !steps.value.JArr? ==> r.Err?
  {
    match steps
    case None => Ok("undefined")
    case Some(JNull) => Ok("undefined")
    case Some(JArr(items)) =>
      if JNull in items then Err(TypeError("Cannot read properties of null (reading 'action')"))
      else Ok(Join(seq(|items|, i requires 0 <= i < |items| => JoinElement(Prop(Some(items[i]), "action"))), ", "))
    case Some(_) => Err(TypeError("testCase.steps?.map is not a function"))
  }

  /** `scenario || (testCase ? "<title>: <description>\nSteps: <steps>" : null)`
      as the prompt prints it; `None` when neither is given. */
  function InputScenario(scenario: JsValue, testCase: JsValue): (r: Result<Option<string>, Exn>)
    ensures Truthy(scenario) ==> r == Ok(Some(ToJsString(scenario)))
    ensures !Truthy(scenario) && !Truthy(testCase) ==> r == Ok(None)
    ensures !Truthy(scenario) && Truthy(testCase) && r.Ok? ==> r.value.Some?
  {
    if Truthy(scenario) then Ok(Some(ToJsString(scenario)))
    else if !Truthy(testCase) then Ok(None)
    else
      var steps :- StepsText(Prop(testCase, "steps"));
      Ok(Some(ToJsString(Prop(testCase, "title")) + ": "
              + ToJsString(Or(Prop(testCase, "description"), Str(""))) + "\nSteps: " + steps))
  }

  function ScriptError(message: string, prompt: Option<Prompt>): ScriptHandled {
    ScriptHandled(Events(EventStream.ErrorBody(message)), prompt)
  }

  function GenerateScript(req: Request, apiKey: string, up: Upstream,
                          parse: string -> Result<Json, string>): (h: ScriptHandled)
    ensures req.verb == "OPTIONS" ==> h == ScriptHandled(Preflight, None)
    ensures req.verb != "OPTIONS" && req.verb != "POST" ==> h == ScriptError("Method not allowed", None)
    ensures h.reply.Preflight? <==> req.verb == "OPTIONS"
    ensures h.prompt.Some? ==> req.verb == "POST" && !CannotDestructure(req.body) && apiKey != ""
                               && h.prompt.value.ScriptPrompt?
    ensures h.prompt.Some? && !Truthy(Prop(req.body, "framework")) ==> h.prompt.value.framework == "Playwright"
    ensures h.prompt.Some? && !Truthy(Prop(req.body, "language")) ==> h.prompt.value.language == "typescript"
    ensures h.prompt.Some? && !Truthy(Prop(req.body, "browser")) ==> h.prompt.value.browser == "chromium"
    ensures h.prompt.Some? ==> (h.prompt.value.headless <==> Prop(req.body, "headless") != Some(JBool(false)))
    ensures h.prompt.Some? ==> (h.prompt.value.useFixtures <==> Prop(req.body, "useFixtures") != Some(JBool(false)))
    ensures h.prompt.Some? && up.Answered? && ApiClient.IsOk(up.status)
            && ReplyText(up.body, parse, "text", "replace", "No response from Gemini").Ok?
            ==> h.reply == Events(EventStream.ScriptBody(CleanScript(
                  ReplyText(up.body, parse, "text", "replace", "No response from Gemini").value)))
    ensures req.verb == "POST" && !CannotDestructure(req.body)
            && InputScenario(Prop(req.body, "scenario"), Prop(req.body, "testCase")) == Ok(None)
            ==> h == ScriptError("Scenario or test case is required", None)
    ensures req.verb == "POST" && !CannotDestructure(req.body)
            && InputScenario(Prop(req.body, "scenario"), Prop(req.body, "testCase")).Ok?
            && InputScenario(Prop(req.body, "scenario"), Prop(req.body, "testCase")).value.Some?
            ==> (h.prompt.Some? <==> apiKey != "")
    ensures req.verb == "POST" && apiKey == "" ==> h.prompt.None? && h.reply.Events?
    ensures h.prompt.Some? && up.Answered? && !ApiClient.IsOk(up.status)
            ==> h.reply == Events(EventStream.ErrorBody("Gemini API error: " + IntToString(up.status)))
  {
    if req.verb == "OPTIONS" then ScriptHandled(Preflight, None)
    else if req.verb != "POST" then ScriptError("Method not allowed", None)
    else if CannotDestructure(req.body) then ScriptError(DestructureError("scenario", req.body).message, None)
    else
      match InputScenario(Prop(req.body, "scenario"), Prop(req.body, "testCase"))
      case Err(e) => ScriptError(e.message, None)
      case Ok(None) => ScriptError("Scenario or test case is required", None)
      case Ok(Some(scenario)) =>
        if apiKey == "" then ScriptError(NO_KEY, None)
        else ScriptAnswer(ScriptPromptFor(req.body, scenario), up, parse)
  }

  /** The script prompt's settings read from the body, each with its
      default. */
  function ScriptPromptFor(b: JsValue, scenario: string): (p: Prompt)
    ensures p.ScriptPrompt?
    ensures !Truthy(Prop(b, "framework")) ==> p.framework == "Playwright"
    ensures !Truthy(Prop(b, "language")) ==> p.language == "typescript"
    ensures !Truthy(Prop(b, "browser")) ==> p.browser == "chromium"
    ensures p.headless <==> Prop(b, "headless") != Some(JBool(false))
    ensures p.useFixtures <==> Prop(b, "useFixtures") != Some(JBool(false))
  {
    var testData := Prop(b, "testData");
    ScriptPrompt(
      ToJsString(Or(Prop(b, "framework"), Str("Playwright"))),
      ToJsString(Or(Prop(b, "language"), Str("typescript"))),
      ToJsString(Or(Prop(b, "browser"), Str("chromium"))),
      Prop(b, "headless") != Some(JBool(false)),
      Prop(b, "useFixtures") != Some(JBool(false)),
      if Truthy(testData) then Some(ToJsString(testData)) else None,
      scenario)
  }

  /** The events sent once the prompt went to Gemini: the script on a good
      answer, otherwise an error event. */
  function ScriptAnswer(prompt: Prompt, up: Upstream, parse: string -> Result<Json, string>): (h: ScriptHandled)
    ensures h.prompt == Some(prompt) && h.reply.Events?
    ensures up.Answered? && ApiClient.IsOk(up.status)
            && ReplyText(up.body, parse, "text", "replace", "No response from Gemini").Ok?
            ==> h.reply == Events(EventStream.ScriptBody(CleanScript(
                  ReplyText(up.body, parse, "text", "replace", "No response from Gemini").value)))
    ensures up.Answered? && !ApiClient.IsOk(up.status)
            ==> h.reply == Events(EventStream.ErrorBody("Gemini API error: " + IntToString(up.status)))
  {
    match up
    case FetchThrew(e) => ScriptError(e.message, Some(prompt))
    case Answered(status, body) =>
      if !ApiClient.IsOk(status) then ScriptError("Gemini API error: " + IntToString(status), Some(prompt))
      else
        match ReplyText(body, parse, "text", "replace", "No response from Gemini")
        case Err(e) => ScriptError(e.message, Some(prompt))
        case Ok(text) => ScriptHandled(Events(EventStream.ScriptBody(CleanScript(text))), Some(prompt))
  }

  /** End to end: when Gemini answers with the script in one fenced block
      and the client reads the whole stream in one chunk, the client yields
      the trimmed script in 50-character `{text}` fragments, in order, and
      sees `[DONE]`. */
  lemma ScriptHandlerRoundTrip(req: Request, apiKey: string, status: int, body: string,
                               lang: string, code: string, parse: string -> Result<Json, string>)
    requires req.verb == "POST" && !CannotDestructure(req.body)
    requires IsStr(Prop(req.body, "scenario")) && Truthy(Prop(req.body, "scenario")) && apiKey != ""
    requires ApiClient.IsOk(status)
    requires forall k :: 0 <= k < |lang| ==> IsWordChar(lang[k])
    requires '`' !in code
    requires parse(body) == Ok(GeminiResult(FENCE + lang + "\n" + code + "\n" + FENCE))
    requires forall v :: parse(Stringify(v)) == Ok(v)
    ensures GenerateScript(req, apiKey, Answered(status, body), parse).reply.Events?
    ensures var b := GenerateScript(req, apiKey, Answered(status, body), parse).reply.body;
            EventStream.DONE in EventStream.AllPayloads([b])
            && EventStream.Fragments(EventStream.UntilDone(EventStream.AllPayloads([b])), parse)
               == EventStream.TextFragments(EventStream.Chunks(Trim(code + "\n"), EventStream.CHUNK_SIZE))
  {
    var t := FENCE + lang + "\n" + code + "\n" + FENCE;
    ReplyTextOfResult(body, parse, t, "text", "replace", "No response from Gemini");
    assert InputScenario(Prop(req.body, "scenario"), Prop(req.body, "testCase")).value.Some?;
    var h := GenerateScript(req, apiKey, Answered(status, body), parse);
    assert h.reply == Events(EventStream.ScriptBody(CleanScript(t)));
    CleanScriptFenced(lang, code);
    EventStream.ScriptStreamRoundTrip(Trim(code + "\n"), parse);
  }
}

=== FILE: json.dfy ===
/** JavaScript values as the application sees them: JSON data (objects keep
    their properties in insertion order), `undefined` as a missing value, the
    truthiness that `||` and `if` test, `String(v)`, and `JSON.stringify`
    in its compact and its two-space-indented forms. */
module Json {
  import opened Wrappers
  import opened Text

  /** A JSON value. Numbers are integers: no computation in this model
      depends on fractional values. */
  datatype Json =
    | JNull
    | JBool(b: bool)
    | JNum(n: int)
    | JStr(s: string)
    | JArr(items: seq<Json>)
    | JObj(members: Obj)

  /** An object's own properties, in insertion order. */
  type Obj = seq<(string, Json)>

  /** A value that may be `undefined` (`None`). A property that holds
      `undefined` is modelled as absent. */
  type JsValue = Option<Json>

  // ---------------------------------------------------------------------
  // Objects
  // ---------------------------------------------------------------------

  function Keys(o: Obj): (r: seq<string>)
    ensures |r| == |o|
    ensures forall i :: 0 <= i < |o| ==> r[i] == o[i].0
  {
    if |o| == 0 then [] else [o[0].0] + Keys(o[1..])
  }

  /** No property name occurs twice: every object JavaScript builds. */
  predicate UniqueKeys(o: Obj) {
    forall i, j :: 0 <= i < j < |o| ==> o[i].0 != o[j].0
  }

  predicate HasKey(o: Obj, k: string) {
    exists i :: 0 <= i < |o| && o[i].0 == k
  }

  /** `o[k]`. */
  function Get(o: Obj, k: string): (r: JsValue)
    ensures r.Some? <==> HasKey(o, k)
    ensures r.Some? ==> exists i :: 0 <= i < |o| && o[i] == (k, r.value)
  {
    if |o| == 0 then None
    else if o[0].0 == k then Some(o[0].1)
    else
      var r := Get(o[1..], k);
      assert HasKey(o[1..], k) ==> HasKey(o, k);
      assert HasKey(o, k) ==> HasKey(o[1..], k) by {
        if HasKey(o, k) {
          var i :| 0 <= i < |o| && o[i].0 == k;
          assert o[1..][i - 1].0 == k;
        }
      }
      r
  }

  /** `o[k] = v` on an object: an existing property keeps its position and
      takes the new value; a new property goes last. */
  function Set(o: Obj, k: string, v: Json): (r: Obj)
    ensures Get(r, k) == Some(v)
    ensures forall k' :: k' != k ==> Get(r, k') == Get(o, k')
    ensures |r| == if HasKey(o, k) then |o| else |o| + 1
  {
    if |o| == 0 then [(k, v)]
    else if o[0].0 == k then [(k, v)] + o[1..]
    else
      HasKeyTail(o, k);
      [o[0]] + Set(o[1..], k, v)
  }

  lemma HasKeyTail(o: Obj, k: string)
    requires |o| > 0 && o[0].0 != k
    ensures HasKey(o, k) <==> HasKey(o[1..], k)
  {
    if HasKey(o, k) {
      var i :| 0 <= i < |o| && o[i].0 == k;
      assert o[1..][i - 1].0 == k;
    }
    if HasKey(o[1..], k) {
      var i :| 0 <= i < |o| - 1 && o[1..][i].0 == k;
      assert o[i + 1].0 == k;
    }
  }

  /** Setting a property keeps the order of the existing ones and appends a
      new one. */
  lemma {:induction false} SetKeys(o: Obj, k: string, v: Json)
    ensures HasKey(o, k) ==> Keys(Set(o, k, v)) == Keys(o)
    ensures !HasKey(o, k) ==> Keys(Set(o, k, v)) == Keys(o) + [k]
  {
    if |o| == 0 {
    } else if o[0].0 != k {
      SetKeys(o[1..], k, v);
      HasKeyTail(o, k);
      SetCons(o, k, v);
      KeysPrepend(o[0], o[1..], Set(o[1..], k, v), HasKey(o, k), k);
    } else {
      SetKeysHead(o, k, v);
    }
  }

  /** Setting the first property keeps every name. */
  lemma SetKeysHead(o: Obj, k: string, v: Json)
    requires |o| > 0 && o[0].0 == k
    ensures HasKey(o, k) && Keys(Set(o, k, v)) == Keys(o)
  {
    assert Set(o, k, v) == [(k, v)] + o[1..];
    KeysCons((k, v), o[1..]);
    KeysCons(o[0], o[1..]);
    assert [o[0]] + o[1..] == o;
  }

  /** Putting a property in front of an object puts its name in front of
      the object's names. */
  lemma KeysPrepend(head: (string, Json), rest: Obj, tail: Obj, present: bool, k: string)
    requires Keys(tail) == if present then Keys(rest) else Keys(rest) + [k]
    ensures Keys([head] + tail) == if present then [head.0] + Keys(rest) else [head.0] + Keys(rest) + [k]
  {
    KeysCons(head, tail);
    if !present {
      assert [head.0] + (Keys(rest) + [k]) == [head.0] + Keys(rest) + [k];
    }
  }

  /** `Set` past a first property of another name. */
  lemma SetCons(o: Obj, k: string, v: Json)
    requires |o| > 0 && o[0].0 != k
    ensures Set(o, k, v) == [o[0]] + Set(o[1..], k, v)
  {
  }

  lemma KeysCons(x: (string, Json), rest: Obj)
    ensures Keys([x] + rest) == [x.0] + Keys(rest)
  {
    assert ([x] + rest)[1..] == rest;
  }

  /** Setting a property never introduces a second property of the same name. */
  lemma SetUnique(o: Obj, k: string, v: Json)
    requires UniqueKeys(o)
    ensures UniqueKeys(Set(o, k, v))
  {
    SetKeys(o, k, v);
    UniqueKeysDistinct(o);
    UniqueKeysDistinct(Set(o, k, v));
    if !HasKey(o, k) {
      DistinctSnoc(Keys(o), k);
    }
  }

  /** No name occurs twice. */
  predicate AllDistinct(ks: seq<string>) {
    forall i, j :: 0 <= i < j < |ks| ==> ks[i] != ks[j]
  }

  lemma UniqueKeysDistinct(o: Obj)
    ensures UniqueKeys(o) <==> AllDistinct(Keys(o))
  {
  }

  lemma DistinctSnoc(ks: seq<string>, k: string)
    requires AllDistinct(ks) && k !in ks
    ensures AllDistinct(ks + [k])
  {
    forall i, j | 0 <= i < j < |ks| + 1 ensures (ks + [k])[i] != (ks + [k])[j] {
      assert (ks + [k])[i] == ks[i];
    }
  }

  /** `delete o[k]`. */
  function Remove(o: Obj, k: string): (r: Obj)
    ensures Get(r, k) == None
    ensures forall k' :: k' != k ==> Get(r, k') == Get(o, k')
    ensures |r| <= |o|
  {
    if |o| == 0 then []
    else if o[0].0 == k then Remove(o[1..], k)
    else [o[0]] + Remove(o[1..], k)
  }

  /** `{ ...o, [k]: v }` where `v` may be `undefined`. */
  function SetV(o: Obj, k: string, v: JsValue): (r: Obj)
    ensures Get(r, k) == v
    ensures forall k' :: k' != k ==> Get(r, k') == Get(o, k')
  {
    if v.Some? then Set(o, k, v.value) else Remove(o, k)
  }

  /** `{ ...a, ...b }`: the properties of `b`, in order, written over `a`. */
  function Merge(a: Obj, b: Obj): (r: Obj)
    decreases |b|
  {
    if |b| == 0 then a else Merge(Set(a, b[0].0, b[0].1), b[1..])
  }

  /** A property of a spread merge comes from the right operand when it has
      it, otherwise from the left. */
  lemma {:induction false} MergeGet(a: Obj, b: Obj, k: string)
    requires UniqueKeys(b)
    ensures Get(Merge(a, b), k) == if HasKey(b, k) then Get(b, k) else Get(a, k)
    decreases |b|
  {
    if |b| > 0 {
      assert UniqueKeys(b[1..]);
      MergeGet(Set(a, b[0].0, b[0].1), b[1..], k);
      if b[0].0 == k {
        assert !HasKey(b[1..], k);
      } else {
        HasKeyTail(b, k);
      }
    }
  }

  /** In an object without repeated names, each property is what `o[k]`
      reads. */
  lemma GetAt(o: Obj, i: nat)
    requires UniqueKeys(o) && i < |o|
    ensures Get(o, o[i].0) == Some(o[i].1)
  {
    var r := Get(o, o[i].0);
    var j :| 0 <= j < |o| && o[j] == (o[i].0, r.value);
  }

  /** Writing a property with the value it already holds changes nothing. */
  lemma {:induction false} SetNoop(o: Obj, k: string, v: Json)
    requires UniqueKeys(o) && Get(o, k) == Some(v)
    ensures Set(o, k, v) == o
  {
    if o[0].0 != k {
      assert UniqueKeys(o[1..]);
      SetNoop(o[1..], k, v);
    }
  }

  lemma {:induction false} MergeUnique(a: Obj, b: Obj)
    requires UniqueKeys(a)
    ensures UniqueKeys(Merge(a, b))
    decreases |b|
  {
    if |b| > 0 {
      SetUnique(a, b[0].0, b[0].1);
      MergeUnique(Set(a, b[0].0, b[0].1), b[1..]);
    }
  }

  /** Spreading properties an object already holds changes nothing. */
  lemma {:induction false} MergeNoop(m: Obj, b: Obj)
    requires UniqueKeys(m)
    requires forall j :: 0 <= j < |b| ==> Get(m, b[j].0) == Some(b[j].1)
    ensures Merge(m, b) == m
    decreases |b|
  {
    if |b| > 0 {
      SetNoop(m, b[0].0, b[0].1);
      MergeNoop(m, b[1..]);
    }
  }

  /** `{ ...{ ...a, ...b }, ...b }` is `{ ...a, ...b }`. */
  lemma MergeIdempotent(a: Obj, b: Obj)
    requires UniqueKeys(a) && UniqueKeys(b)
    ensures Merge(Merge(a, b), b) == Merge(a, b)
  {
    var m := Merge(a, b);
    MergeUnique(a, b);
    forall j | 0 <= j < |b| ensures Get(m, b[j].0) == Some(b[j].1) {
      MergeGet(a, b, b[j].0);
      GetAt(b, j);
    }
    MergeNoop(m, b);
  }

  /** The properties every plain object inherits from `Object.prototype`
      (section 20.1.3 of ECMA-262, with the accessors of its Annex B.2.2):
      reading one of them off an object that lacks an own property of that
      name gives a function, or the prototype itself for `__proto__`,
      never `undefined`. */
  const PROTOTYPE_MEMBERS: set<string> := {
    "constructor", "hasOwnProperty", "isPrototypeOf", "propertyIsEnumerable",
    "toLocaleString", "toString", "valueOf", "__proto__",
    "__defineGetter__", "__defineSetter__", "__lookupGetter__", "__lookupSetter__"}

  /** The own properties of a value read as an object: an object's
      properties, and none for any other value. Where a spread `{ ...v }`
      can meet a string or an array, `ObjectSpread` below copies their
      indices as well. */
  function Members(v: Json): Obj {
    if v.JObj? then v.members else []
  }

  /** `{ ...v }` as an object: an object's own properties, the indexed
      elements of an array or characters of a string, and nothing for any
      other value. */
  function ObjectSpread(v: JsValue): (r: Obj)
    ensures v.Some? && v.value.JObj? ==> r == v.value.members
    ensures (v.None? || !(v.value.JObj? || v.value.JArr? || v.value.JStr?)) ==> r == []
  {
    if v.None? then []
    else match v.value
      case JObj(m) => m
      case JArr(items) => seq(|items|, i requires 0 <= i < |items| => (NatToString(i), items[i]))
      case JStr(s) => seq(|s|, i requires 0 <= i < |s| => (NatToString(i), JStr([s[i]])))
      case _ => []
  }

  /** `v[k]` (and `v?.[k]`) for a property name: `undefined` unless `v` is an
      object having it. */
  function Prop(v: JsValue, k: string): JsValue {
    if v.Some? && v.value.JObj? then Get(v.value.members, k) else None
  }

  function Str(s: string): JsValue { Some(JStr(s)) }

  /** The value is a string. */
  predicate IsStr(v: JsValue) { v.Some? && v.value.JStr? }

  // ---------------------------------------------------------------------
  // Truthiness and conversions
  // ---------------------------------------------------------------------

  /** `!!v` (section 7.1.2 of ECMA-262, ToBoolean). */
  predicate Truthy(v: JsValue) {
    match v
    case None => false
    case Some(JNull) => false
    case Some(JBool(b)) => b
    case Some(JNum(n)) => n != 0
    case Some(JStr(s)) => s != ""
    case Some(JArr(_)) => true
    case Some(JObj(_)) => true
  }

  /** `a || b`. */
  function Or(a: JsValue, b: JsValue): (r: JsValue)
    ensures Truthy(a) ==> r == a
    ensures !Truthy(a) ==> r == b
  {
    if Truthy(a) then a else b
  }

  /** `a ?? b`. */
  function Coalesce(a: JsValue, b: JsValue): (r: JsValue)
    ensures a.Some? && a.value != JNull ==> r == a
    ensures a.None? || a.value == JNull ==> r == b
  {
    if a.Some? && a.value != JNull then a else b
  }

  /** `String(v)` and template-literal interpolation (section 7.1.17 of
      ECMA-262, ToString). Arrays join their elements with `,`, writing
      `null` and `undefined` elements as empty; plain objects give
      `[object Object]`. */
  function ToJsString(v: JsValue): (r: string)
    ensures IsStr(v) ==> r == v.value.s
  {
    if v.None? then "undefined" else ValueString(v.value)
  }

  function ValueString(v: Json): string {
    match v
    case JNull => "null"
    case JBool(b) => if b then "true" else "false"
    case JNum(n) => IntToString(n)
    case JStr(s) => s
    case JArr(items) =>
      Join(seq(|items|, i requires 0 <= i < |items| =>
        if items[i] == JNull then "" else ValueString(items[i])), ",")
    case JObj(_) => "[object Object]"
  }

  /** How `Array.prototype.join` writes one element. */
  function JoinElement(v: JsValue): string {
    if v.None? || v == Some(JNull) then "" else ToJsString(v)
  }

  /** `arr.join(sep)`: `null` elements are written as empty. */
  function JoinValues(items: seq<Json>, sep: string): string {
    Join(seq(|items|, i requires 0 <= i < |items| => JoinElement(Some(items[i]))), sep)
  }

  /** An object literal: properties holding `undefined` are not
      written. */
  function Literal(pairs: seq<(string, JsValue)>): (r: Obj)
    ensures |r| <= |pairs|
    ensures forall i :: 0 <= i < |r| ==> exists j :: 0 <= j < |pairs| && pairs[j] == (r[i].0, Some(r[i].1))
    ensures forall k :: HasKey(r, k) ==> exists j :: 0 <= j < |pairs| && pairs[j].0 == k
  {
    if |pairs| == 0 then []
    else
      var rest := Literal(pairs[1..]);
      assert forall i :: 0 <= i < |rest| ==> exists j :: 0 <= j < |pairs| && pairs[j] == (rest[i].0, Some(rest[i].1)) by {
        forall i | 0 <= i < |rest| ensures exists j :: 0 <= j < |pairs| && pairs[j] == (rest[i].0, Some(rest[i].1)) {
          var j :| 0 <= j < |pairs| - 1 && pairs[1..][j] == (rest[i].0, Some(rest[i].1));
          assert pairs[j + 1] == (rest[i].0, Some(rest[i].1));
        }
      }
      if pairs[0].1.Some? then [(pairs[0].0, pairs[0].1.value)] + rest else rest
  }

  /** The names of an object literal's properties are pairwise distinct. */
  predicate DistinctNames(pairs: seq<(string, JsValue)>) {
    forall i, j :: 0 <= i < j < |pairs| ==> pairs[i].0 != pairs[j].0
  }

  /** Reading a property of an object literal gives the value written
      for it, `undefined` included. */
  lemma {:induction false} LiteralGet(pairs: seq<(string, JsValue)>, j: nat)
    requires DistinctNames(pairs)
    requires j < |pairs|
    ensures Get(Literal(pairs), pairs[j].0) == pairs[j].1
  {
    if j > 0 {
      LiteralGet(pairs[1..], j - 1);
    }
  }

  /** `v?.toLowerCase().includes(lq)`: `undefined` (falsy) for a missing
      or `null` field, a `TypeError` for a field that is not a string. */
  function FieldHit(v: JsValue, field: string, lq: string): (r: Result<bool, Exn>)
    ensures r.Err? <==> v.Some? && v.value != JNull && !v.value.JStr?
    ensures r == Ok(true) <==> IsStr(v) && Contains(ToLower(v.value.s), lq)
  {
    if v.None? || v.value == JNull then Ok(false)
    else if v.value.JStr? then Ok(Contains(ToLower(v.value.s), lq))
    else Err(TypeError("item." + field + "?.toLowerCase is not a function"))
  }

  /** `[...(v || [])]`: a falsy value gives no steps, a string its
      characters, and any other non-array value is not iterable. */
  function Spread(v: JsValue): (r: Result<seq<Json>, Exn>)
    ensures r.Err? <==> Truthy(v) && !v.value.JArr? && !v.value.JStr?
    ensures v.Some? && v.value.JArr? ==> r == Ok(v.value.items)
    ensures !Truthy(v) ==> r == Ok([])
  {
    if !Truthy(v) then Ok([])
    else if v.value.JArr? then Ok(v.value.items)
    else if v.value.JStr? then Ok(seq(|v.value.s|, i requires 0 <= i < |v.value.s| => JStr([v.value.s[i]])))
    else Err(TypeError("object is not iterable"))
  }

  /** A list of objects as a JSON array's elements. */
  function Objects(items: seq<Obj>): (r: seq<Json>)
    ensures |r| == |items|
    ensures forall i :: 0 <= i < |items| ==> r[i] == JObj(items[i])
  {
    seq(|items|, i requires 0 <= i < |items| => JObj(items[i]))
  }

  /** `items.find(i => i.id === id)` with a string `id`: the first item
      with that id. */
  function FindById(items: seq<Obj>, id: string): (r: Option<Obj>)
    ensures r.Some? ==> exists i :: 0 <= i < |items| && items[i] == r.value && FirstIdAt(items, id, i)
    ensures r.None? ==> forall i :: 0 <= i < |items| ==> Get(items[i], "id") != Str(id)
  {
    if |items| == 0 then None
    else if Get(items[0], "id") == Str(id) then
      assert FirstIdAt(items, id, 0);
      Some(items[0])
    else
      var r := FindById(items[1..], id);
      assert forall i :: 1 <= i < |items| ==> items[i] == items[1..][i - 1];
      if r.Some? then
        var i :| 0 <= i < |items| - 1 && items[1..][i] == r.value && FirstIdAt(items[1..], id, i);
        assert items[i + 1] == r.value && FirstIdAt(items, id, i + 1);
        r
      else r
  }

  /** Item `i` is the first whose `id` is the string `id`. */
  predicate FirstIdAt(items: seq<Obj>, id: string, i: nat)
    requires i < |items|
  {
    Get(items[i], "id") == Str(id) && forall j :: 0 <= j < i ==> Get(items[j], "id") != Str(id)
  }

  /** `v.length`: defined for arrays and strings only (strings counted in
      characters). */
  function Length(v: Json): JsValue {
    match v
    case JArr(items) => Some(JNum(|items|))
    case JStr(s) => Some(JNum(|s|))
    case _ => None
  }

  // ---------------------------------------------------------------------
  // Errors
  // ---------------------------------------------------------------------

  /** A thrown JavaScript error: its constructor name and message. */
  datatype Exn = Exn(name: string, message: string)

  function Error(message: string): Exn { Exn("Error", message) }
  function TypeError(message: string): Exn { Exn("TypeError", message) }

  /** `error.toString()`. */
  function ErrorText(e: Exn): string {
    if e.message == "" then e.name else e.name + ": " + e.message
  }

  // ---------------------------------------------------------------------
  // JSON.stringify
  // ---------------------------------------------------------------------

  function HexDigit(d: nat): char
    requires d < 16
  {
    if d < 10 then ('0' as int + d) as char else ('a' as int + d - 10) as char
  }

  /** How `JSON.stringify` writes one character inside a string literal
      (section 25.5.2.3 of ECMA-262, QuoteJSONString). */
  function EscapeChar(c: char): (r: string)
    ensures |r| >= 1
    ensures !IsLineTerminator(c) || c == '\U{2028}' || c == '\U{2029}' ==> '\n' !in r && '\r' !in r
    ensures c != '\n' && c != '\r' ==> r == [c] || r[0] == '\\'
  {
    if c == '"' then "\\\""
    else if c == '\\' then "\\\\"
    else if c == '\U{0008}' then "\\b"
    else if c == '\U{000C}' then "\\f"
    else if c == '\n' then "\\n"
    else if c == '\r' then "\\r"
    else if c == '\t' then "\\t"
    else if (c as int) < 0x20 then "\\u00" + [HexDigit(c as int / 16), HexDigit(c as int % 16)]
    else [c]
  }

  function EscapeString(s: string): (r: string)
    ensures '\n' !in r && '\r' !in r
  {
    if |s| == 0 then "" else EscapeChar(s[0]) + EscapeString(s[1..])
  }

  /** A string as a JSON string literal. */
  function Quote(s: string): (r: string)
    ensures |r| >= 2 && r[0] == '"' && r[|r| - 1] == '"'
    ensures '\n' !in r
  {
    "\"" + EscapeString(s) + "\""
  }

  /** `JSON.stringify(v)`: the compact serialisation. */
  function Stringify(v: Json): (r: string)
    ensures |r| >= 1
    ensures v.JObj? ==> r[0] == '{'
    ensures v.JArr? ==> r[0] == '['
    ensures v.JStr? ==> r[0] == '"'
  {
    match v
    case JNull => "null"
    case JBool(b) => if b then "true" else "false"
    case JNum(n) => IntToString(n)
    case JStr(s) => Quote(s)
    case JArr(items) =>
      "[" + Join(seq(|items|, i requires 0 <= i < |items| => Stringify(items[i])), ",") + "]"
    case JObj(ms) =>
      "{" + Join(seq(|ms|, i requires 0 <= i < |ms| =>
        Quote(ms[i].0) + ":" + Stringify(ms[i].1)), ",") + "}"
  }

  lemma JoinAvoids(parts: seq<string>, sep: string, c: char)
    requires c !in sep
    requires forall k :: 0 <= k < |parts| ==> c !in parts[k]
    ensures c !in Join(parts, sep)
  {
    if |parts| > 1 {
      JoinAvoids(parts[1..], sep, c);
    }
  }

  lemma DecimalHasNoNewline(n: int)
    ensures '\n' !in IntToString(n)
  {
    var r := IntToString(n);
    if n >= 0 {
      assert forall k :: 0 <= k < |r| ==> IsDigit(r[k]);
    } else {
      assert forall k :: 0 <= k < |r| - 1 ==> IsDigit(r[1..][k]);
    }
  }

  /** The compact serialisation never contains a line feed: string contents
      are escaped and no separator is a line break. This is what lets one
      serialised value travel as one line of an event stream. */
  lemma {:induction false} StringifyOneLine(v: Json)
    ensures '\n' !in Stringify(v)
  {
    match v
    case JNull =>
    case JBool(_) =>
    case JNum(n) => DecimalHasNoNewline(n);
    case JStr(_) =>
    case JArr(items) =>
      var parts := seq(|items|, i requires 0 <= i < |items| => Stringify(items[i]));
      forall k | 0 <= k < |parts| ensures '\n' !in parts[k] {
        StringifyOneLine(items[k]);
      }
      JoinAvoids(parts, ",", '\n');
    case JObj(ms) =>
      var parts := seq(|ms|, i requires 0 <= i < |ms| =>
        Quote(ms[i].0) + ":" + Stringify(ms[i].1));
      forall k | 0 <= k < |parts| ensures '\n' !in parts[k] {
        StringifyOneLine(ms[k].1);
      }
      JoinAvoids(parts, ",", '\n');
  }

  /** `JSON.stringify` output neither starts nor ends with white space, so
      trimming it changes nothing. */
  lemma StringifyTrimmed(v: Json)
    ensures Trim(Stringify(v)) == Stringify(v)
  {
    var r := Stringify(v);
    match v {
      case JNum(n) =>
        if n < 0 {
          assert r[1..] == NatToString(-n);
          assert r[|r| - 1] == r[1..][|r| - 2];
        }
        assert IsDigit(r[|r| - 1]);
      case JArr(items) =>
        assert r[|r| - 1] == ']';
      case JObj(ms) =>
        assert r[|r| - 1] == '}';
      case JStr(s) =>
      case _ =>
    }
    TrimNoop(r);
  }

  function Indent(depth: nat): string {
    Repeat(' ', 2 * depth)
  }

  /** `JSON.stringify(v, null, 2)` for a value nested `depth` levels deep:
      every element or property on its own line, indented by two spaces per
      level, `": "` between a key and its value, empty containers as `[]`
      and `{}`. */
  function Pretty(v: Json, depth: nat): (r: string)
    ensures !v.JArr? && !v.JObj? ==> r == Stringify(v)
    ensures v.JArr? && |v.items| > 0 ==> "[\n" <= r
    ensures v.JObj? && |v.members| > 0 ==> "{\n" <= r
    ensures v == JArr([]) ==> r == "[]"
    ensures v == JObj([]) ==> r == "{}"
  {
    match v
    case JArr(items) =>
      if |items| == 0 then "[]"
      else
        "[\n" + Join(seq(|items|, i requires 0 <= i < |items| =>
          Indent(depth + 1) + Pretty(items[i], depth + 1)), ",\n")
        + "\n" + Indent(depth) + "]"
    case JObj(ms) =>
      if |ms| == 0 then "{}"
      else
        "{\n" + Join(seq(|ms|, i requires 0 <= i < |ms| =>
          Indent(depth + 1) + Quote(ms[i].0) + ": " + Pretty(ms[i].1, depth + 1)), ",\n")
        + "\n" + Indent(depth) + "}"
    case _ => Stringify(v)
  }
}

=== FILE: library.dfy ===
/** The library page: the list shown for the active tab, the search over
    it, the selection (an insertion-ordered set of ids), the grouping of
    test cases by scenario with its tri-state "select all", and the guards
    around deleting and exporting the selection. */
module Library {
  import opened Wrappers
  import opened Text
  import opened Json
  import AppState

  // ---------------------------------------------------------------------
  // The active list
  // ---------------------------------------------------------------------

  const TEST_CASES_TAB := "test-cases"
  const USER_STORIES_TAB := "user-stories"
  const BUGS_TAB := "bugs"
  const TEST_PLANS_TAB := "test-plans"
  const API_COLLECTIONS_TAB := "api-collections"

  /** `getActiveData()`: the store slice behind the tab, nothing for any
      other tab. */
  function ActiveData(s: AppState.State, tab: string): (r: seq<Json>)
    ensures tab == TEST_CASES_TAB ==> r == Objects(s.testCases)
    ensures tab == USER_STORIES_TAB ==> r == Objects(s.userStories)
    ensures tab == BUGS_TAB ==> r == Objects(s.bugs)
    ensures tab == TEST_PLANS_TAB ==> r == Objects(s.testPlans)
    ensures tab == API_COLLECTIONS_TAB ==> r == Objects(s.apiCollections)
    ensures tab !in {TEST_CASES_TAB, USER_STORIES_TAB, BUGS_TAB, TEST_PLANS_TAB, API_COLLECTIONS_TAB} ==> r == []
  {
    if tab == TEST_CASES_TAB then Objects(s.testCases)
    else if tab == USER_STORIES_TAB then Objects(s.userStories)
    else if tab == BUGS_TAB then Objects(s.bugs)
    else if tab == TEST_PLANS_TAB then Objects(s.testPlans)
    else if tab == API_COLLECTIONS_TAB then Objects(s.apiCollections)
    else []
  }

  // ---------------------------------------------------------------------
  // Search
  // ---------------------------------------------------------------------

  /** The search predicate for one item: falsy items never match; the
      title, the name and the description are tried in that order. */
  function ItemHit(item: Json, lq: string): (r: Result<bool, Exn>)
    ensures !Truthy(Some(item)) ==> r == Ok(false)
    ensures r == Ok(true) ==> (Truthy(Some(item)) &&
      exists f :: f in ["title", "name", "description"] && FieldHit(Prop(Some(item), f), f, lq) == Ok(true))
  {
    if !Truthy(Some(item)) then Ok(false)
    else
      var t :- FieldHit(Prop(Some(item), "title"), "title", lq);
      if t then Ok(true)
      else
        var n :- FieldHit(Prop(Some(item), "name"), "name", lq);
        if n then Ok(true)
        else FieldHit(Prop(Some(item), "description"), "description", lq)
  }

  /** The search's test as a value to filter with. */
  function Matches(lq: string): Json -> bool {
    (x: Json) => ItemHit(x, lq) == Ok(true)
  }

  /** `data.filter(...)` with the lower-cased query: the items that match,
      in order, or the first `TypeError` a field raised. */
  function SearchLower(items: seq<Json>, lq: string): (r: Result<seq<Json>, Exn>)
    ensures r.Ok? <==> forall i :: 0 <= i < |items| ==> ItemHit(items[i], lq).Ok?
    ensures r.Ok? ==> r.value == Filter(items, Matches(lq))
  {
    if |items| == 0 then Ok([])
    else
      match ItemHit(items[0], lq)
      case Err(e) => Err(e)
      case Ok(hit) =>
        match SearchLower(items[1..], lq)
        case Err(e) =>
          Err(e)
        case Ok(rest) =>
          assert forall i :: 1 <= i < |items| ==> items[i] == items[1..][i - 1];
          FilterStep(items, Matches(lq));
          Ok((if hit then [items[0]] else []) + rest)
  }

  function Search(items: seq<Json>, query: string): Result<seq<Json>, Exn> {
    SearchLower(items, ToLower(query))
  }

  /** Searching two lists one after the other finds what searching them
      joined finds, in the same order. */
  lemma SearchAppend(a: seq<Json>, b: seq<Json>, lq: string)
    requires SearchLower(a, lq).Ok? && SearchLower(b, lq).Ok?
    ensures SearchLower(a + b, lq) == Ok(SearchLower(a, lq).value + SearchLower(b, lq).value)
  {
    assert forall i :: 0 <= i < |a + b| ==> (a + b)[i] in a || (a + b)[i] in b;
    FilterAppend(a, b, Matches(lq));
  }

  /** `null`, and an object with none of the three fields, are dropped
      even by the empty query. */
  lemma SearchDropsFieldless(q: string)
    ensures ItemHit(JNull, q) == Ok(false)
    ensures ItemHit(JObj([]), q) == Ok(false)
  {
  }

  /** The empty query keeps every item whose title is a string. */
  lemma EmptyQueryKeepsTitled(item: Obj, title: string)
    requires Get(item, "title") == Some(JStr(title))
    ensures ItemHit(JObj(item), "") == Ok(true)
  {
    ContainsEmpty(ToLower(title));
  }

  // ---------------------------------------------------------------------
  // Selection
  // ---------------------------------------------------------------------

  /** A JavaScript `Set` of ids: no value twice, in insertion order. */
  type Selection = seq<JsValue>

  predicate NoDup(s: Selection) {
    forall i, j :: 0 <= i < j < |s| ==> s[i] != s[j]
  }

  /** `set.delete(id)`. */
  function Without(s: Selection, id: JsValue): (r: Selection)
    ensures forall x :: x in r <==> x in s && x != id
    ensures NoDup(s) ==> NoDup(r)
    ensures |r| <= |s|
  {
    if |s| == 0 then []
    else if s[0] == id then Without(s[1..], id)
    else
      var rest := Without(s[1..], id);
      assert NoDup(s) ==> s[0] !in s[1..];
      [s[0]] + rest
  }

  /** `set.add(id)`. */
  function With(s: Selection, id: JsValue): (r: Selection)
    ensures forall x :: x in r <==> x in s || x == id
    ensures NoDup(s) ==> NoDup(r)
  {
    if id in s then s else s + [id]
  }

  /** `toggleSelect(id)`. */
  function Toggle(s: Selection, id: JsValue): (r: Selection)
    ensures id in r <==> id !in s
    ensures forall x :: x != id ==> (x in r <==> x in s)
    ensures NoDup(s) ==> NoDup(r)
  {
    if id in s then Without(s, id) else With(s, id)
  }

  /** Toggling the same id twice restores the selection's members. */
  lemma ToggleTwice(s: Selection, id: JsValue)
    ensures forall x :: x in Toggle(Toggle(s, id), id) <==> x in s
  {
  }

  /** `new Set(values)`: first occurrences, in order. */
  function Dedup(values: seq<JsValue>): (r: Selection)
    ensures NoDup(r)
    ensures forall x :: x in r <==> x in values
    decreases |values|
  {
    if |values| == 0 then []
    else
      var init := Dedup(values[..|values| - 1]);
      assert forall x :: x in values <==> x in values[..|values| - 1] || x == values[|values| - 1] by {
        assert values == values[..|values| - 1] + [values[|values| - 1]];
      }
      With(init, values[|values| - 1])
  }

  function IdOf(item: Json): JsValue {
    Prop(Some(item), "id")
  }

  function Ids(items: seq<Json>): (r: seq<JsValue>)
    ensures |r| == |items|
    ensures forall i :: 0 <= i < |items| ==> r[i] == IdOf(items[i])
  {
    seq(|items|, i requires 0 <= i < |items| => IdOf(items[i]))
  }

  /** `selectAll()`: clears the selection whenever its size equals the
      number of visible items, whatever ids it holds; otherwise selects
      exactly the visible ids. */
  function SelectAll(s: Selection, visible: seq<Json>): (r: Selection)
    ensures NoDup(r)
    ensures |s| == |visible| ==> r == []
    ensures |s| != |visible| ==> forall x :: x in r <==> exists i :: 0 <= i < |visible| && IdOf(visible[i]) == x
  {
    if |s| == |visible| then []
    else
      var ids := Ids(visible);
      assert forall x :: x in ids <==> exists i :: 0 <= i < |visible| && IdOf(visible[i]) == x by {
        forall x | x in ids ensures exists i :: 0 <= i < |visible| && IdOf(visible[i]) == x {
          var i :| 0 <= i < |ids| && ids[i] == x;
        }
      }
      Dedup(ids)
  }

  /** The check compares sizes, not contents: one selected id that is not
      visible, against one visible item, clears the selection instead of
      selecting the visible one. */
  lemma SelectAllComparesSizes(other: JsValue, item: Obj)
    requires other != Get(item, "id")
    ensures SelectAll([other], [JObj(item)]) == []
  {
  }

  // ---------------------------------------------------------------------
  // Grouping by scenario
  // ---------------------------------------------------------------------

  /** `tc.epic || tc.scenarioTitle || 'Ungrouped Test Cases'`, as the
      property name it becomes. */
  function GroupKey(tc: Obj): string {
    ToJsString(Or(Or(Get(tc, "epic"), Get(tc, "scenarioTitle")), Str("Ungrouped Test Cases")))
  }

  /** Groups in order of first appearance, each with its test cases. */
  type Groups = seq<(string, seq<Obj>)>

  function GroupKeys(g: Groups): (r: seq<string>)
    ensures |r| == |g|
    ensures forall i :: 0 <= i < |g| ==> r[i] == g[i].0
  {
    seq(|g|, i requires 0 <= i < |g| => g[i].0)
  }

  predicate UniqueStrings(s: seq<string>) {
    forall i, j :: 0 <= i < j < |s| ==> s[i] != s[j]
  }

  /** One step of the reduce: append to the group of `k`, or open it. */
  function Place(g: Groups, k: string, x: Obj): (r: Groups)
    requires UniqueStrings(GroupKeys(g))
    ensures UniqueStrings(GroupKeys(r))
    ensures k in GroupKeys(r)
    ensures k in GroupKeys(g) ==> |r| == |g|
    ensures k !in GroupKeys(g) ==> |r| == |g| + 1 && r[|g|] == (k, [x])
    ensures forall i :: 0 <= i < |g| ==> r[i] == (g[i].0, if g[i].0 == k then g[i].1 + [x] else g[i].1)
  {
    var updated := seq(|g|, i requires 0 <= i < |g| =>
      (g[i].0, if g[i].0 == k then g[i].1 + [x] else g[i].1));
    assert GroupKeys(updated) == GroupKeys(g);
    if k in GroupKeys(g) then updated
    else
      var r := updated + [(k, [x])];
      assert GroupKeys(r) == GroupKeys(g) + [k];
      r
  }

  /** The grouping with a fresh dictionary for the groups. */
  function Group(items: seq<Obj>): (r: Groups)
    ensures UniqueStrings(GroupKeys(r))
    decreases |items|
  {
    if |items| == 0 then []
    else
      var last := items[|items| - 1];
      Place(Group(items[..|items| - 1]), GroupKey(last), last)
  }

  /** The items with a given key, in input order. */
  function WithKey(items: seq<Obj>, k: string): seq<Obj>
    decreases |items|
  {
    if |items| == 0 then []
    else
      var last := items[|items| - 1];
      WithKey(items[..|items| - 1], k) + (if GroupKey(last) == k then [last] else [])
  }

  lemma {:induction false} WithKeyNone(items: seq<Obj>, k: string)
    requires forall j :: 0 <= j < |items| ==> GroupKey(items[j]) != k
    ensures WithKey(items, k) == []
    decreases |items|
  {
    if |items| > 0 {
      WithKeyNone(items[..|items| - 1], k);
    }
  }

  /** Every test case lands in exactly one group: the keys are distinct,
      every case's key has a group, and the group of a key holds exactly
      the cases with that key, in input order. */
  lemma GroupExact(items: seq<Obj>)
    ensures UniqueStrings(GroupKeys(Group(items)))
    ensures forall j :: 0 <= j < |items| ==> GroupKey(items[j]) in GroupKeys(Group(items))
    ensures forall i :: 0 <= i < |Group(items)| ==> Group(items)[i].1 == WithKey(items, Group(items)[i].0)
  {
    GroupCovers(items);
    GroupContents(items);
  }

  lemma {:induction false} GroupCovers(items: seq<Obj>)
    ensures forall j :: 0 <= j < |items| ==> GroupKey(items[j]) in GroupKeys(Group(items))
    decreases |items|
  {
    if |items| > 0 {
      var init := items[..|items| - 1];
      GroupCovers(init);
      var g := Group(init);
      var x := items[|items| - 1];
      var r := Place(g, GroupKey(x), x);
      assert Group(items) == r;
      forall j | 0 <= j < |init| ensures GroupKey(items[j]) in GroupKeys(r) {
        assert items[j] == init[j];
        PlaceKeepsKey(g, GroupKey(x), x, GroupKey(init[j]));
      }
    }
  }

  /** Placing a case never drops a group. */
  lemma PlaceKeepsKey(g: Groups, k: string, x: Obj, key: string)
    requires UniqueStrings(GroupKeys(g))
    requires key in GroupKeys(g)
    ensures key in GroupKeys(Place(g, k, x))
  {
    var r := Place(g, k, x);
    var i :| 0 <= i < |g| && GroupKeys(g)[i] == key;
    assert r[i].0 == g[i].0;
  }

  lemma {:induction false} GroupContents(items: seq<Obj>)
    ensures forall i :: 0 <= i < |Group(items)| ==> Group(items)[i].1 == WithKey(items, Group(items)[i].0)
    decreases |items|
  {
    if |items| > 0 {
      var init := items[..|items| - 1];
      var x := items[|items| - 1];
      var k := GroupKey(x);
      GroupContents(init);
      GroupCovers(init);
      var g := Group(init);
      var r := Group(items);
      assert r == Place(g, k, x);
      forall i | 0 <= i < |r| ensures r[i].1 == WithKey(items, r[i].0) {
        if i < |g| {
          assert r[i].1 == WithKey(init, g[i].0) + (if g[i].0 == k then [x] else []);
        } else {
          forall j | 0 <= j < |init| ensures GroupKey(init[j]) != k {
            assert GroupKey(init[j]) in GroupKeys(g);
          }
          WithKeyNone(init, k);
        }
      }
    }
  }

  /** The test case's group key is not a property every object inherits. */
  predicate OwnKey(tc: Obj) {
    GroupKey(tc) !in PROTOTYPE_MEMBERS
  }

  predicate AllOwnKeys(items: seq<Obj>) {
    forall j :: 0 <= j < |items| ==> OwnKey(items[j])
  }

  lemma AllOwnKeysLast(items: seq<Obj>)
    requires |items| > 0
    ensures AllOwnKeys(items) <==> AllOwnKeys(items[..|items| - 1]) && OwnKey(items[|items| - 1])
  {
    assert forall j :: 0 <= j < |items| - 1 ==> items[..|items| - 1][j] == items[j];
  }

  /** The grouping as the page writes it, into `{}`: a key naming a
      property every object inherits (`toString`, `constructor`, ...)
      finds that inherited value instead of `undefined`, so no array is
      created and the following `push` throws. */
  function GroupAsWritten(items: seq<Obj>): (r: Result<Groups, Exn>)
    ensures r.Ok? <==> AllOwnKeys(items)
    ensures r.Ok? ==> r.value == Group(items)
    decreases |items|
  {
    if |items| == 0 then Ok([])
    else
      var last := items[|items| - 1];
      AllOwnKeysLast(items);
      match GroupAsWritten(items[..|items| - 1])
      case Err(e) => Err(e)
      case Ok(g) =>
        if !OwnKey(last) then Err(TypeError("acc[scenarioKey].push is not a function"))
        else Ok(Place(g, GroupKey(last), last))
  }

  /** A test case filed under the epic "toString" breaks the page. */
  lemma InheritedEpicThrows()
    ensures GroupAsWritten([[("epic", JStr("toString"))]]).Err?
    ensures Group([[("epic", JStr("toString"))]]) == [("toString", [[("epic", JStr("toString"))]])]
  {
    var tc: Obj := [("epic", JStr("toString"))];
    assert GroupKey(tc) == "toString";
    assert [tc][..0] == [];
  }

  // ---------------------------------------------------------------------
  // Selecting a whole scenario
  // ---------------------------------------------------------------------

  predicate AllSelected(s: Selection, cases: seq<Obj>) {
    forall i :: 0 <= i < |cases| ==> Get(cases[i], "id") in s
  }

  predicate SomeSelected(s: Selection, cases: seq<Obj>) {
    exists i :: 0 <= i < |cases| && Get(cases[i], "id") in s
  }

  /** The scenario checkbox is indeterminate: some but not all selected. */
  predicate Indeterminate(s: Selection, cases: seq<Obj>) {
    SomeSelected(s, cases) && !AllSelected(s, cases)
  }

  function CaseIds(cases: seq<Obj>): (r: seq<JsValue>)
    ensures |r| == |cases|
    ensures forall i :: 0 <= i < |cases| ==> r[i] == Get(cases[i], "id")
  {
    seq(|cases|, i requires 0 <= i < |cases| => Get(cases[i], "id"))
  }

  function AddAll(s: Selection, ids: seq<JsValue>): (r: Selection)
    ensures forall x :: x in r <==> x in s || x in ids
    ensures NoDup(s) ==> NoDup(r)
    decreases |ids|
  {
    if |ids| == 0 then s else AddAll(With(s, ids[0]), ids[1..])
  }

  function RemoveAll(s: Selection, ids: seq<JsValue>): (r: Selection)
    ensures forall x :: x in r <==> x in s && x !in ids
    ensures NoDup(s) ==> NoDup(r)
    decreases |ids|
  {
    if |ids| == 0 then s else RemoveAll(Without(s, ids[0]), ids[1..])
  }

  /** `selectAllInScenario(cases)`: unselects the scenario's ids when all
      are selected and selects them all otherwise; ids outside the
      scenario keep their state. */
  function SelectScenario(s: Selection, cases: seq<Obj>): (r: Selection)
    ensures NoDup(s) ==> NoDup(r)
    ensures forall x :: x !in CaseIds(cases) ==> (x in r <==> x in s)
    ensures AllSelected(s, cases) ==> forall i :: 0 <= i < |cases| ==> Get(cases[i], "id") !in r
    ensures !AllSelected(s, cases) ==> AllSelected(r, cases)
  {
    var ids := CaseIds(cases);
    if AllSelected(s, cases) then RemoveAll(s, ids) else AddAll(s, ids)
  }

  /** From a checkbox that is fully checked or fully clear, two clicks
      restore the selection's members. */
  lemma SelectScenarioTwice(s: Selection, cases: seq<Obj>)
    requires AllSelected(s, cases) || !SomeSelected(s, cases)
    ensures forall x :: x in SelectScenario(SelectScenario(s, cases), cases) <==> x in s
  {
    var once := SelectScenario(s, cases);
    var ids := CaseIds(cases);
    if AllSelected(s, cases) {
      if |cases| > 0 {
        assert Get(cases[0], "id") !in once;
        assert !AllSelected(once, cases);
      }
      forall x | x in ids ensures x in s {
        var i :| 0 <= i < |ids| && ids[i] == x;
      }
    } else {
      forall x | x in ids ensures x !in s {
        var i :| 0 <= i < |ids| && ids[i] == x;
        assert Get(cases[i], "id") == x;
      }
    }
  }

  // ---------------------------------------------------------------------
  // Delete and export
  // ---------------------------------------------------------------------

  /** What a delete did: the service it called (if any), the ids passed,
      the store actions dispatched, whether the selection was cleared,
      and the toast shown. */
  datatype DeleteOutcome = DeleteOutcome(
    service: Option<string>, ids: seq<JsValue>, actions: seq<AppState.Action>,
    cleared: bool, toast: Option<AppState.Toast>)

  /** The remote delete of each tab that supports one. */
  function DeleteService(tab: string): Option<string> {
    if tab == TEST_CASES_TAB then Some("deleteTestCases")
    else if tab == USER_STORIES_TAB then Some("deleteUserStories")
    else if tab == BUGS_TAB then Some("deleteBugs")
    else if tab == TEST_PLANS_TAB then Some("deleteTestPlans")
    else None
  }

  /** `activeTab.replace(/-/g, ' ')`. */
  function ItemType(tab: string): (r: string)
    ensures |r| == |tab| && '-' !in r
  {
    seq(|tab|, i requires 0 <= i < |tab| => if tab[i] == '-' then ' ' else tab[i])
  }

  /** The store action removing one item of a tab other than test cases. */
  function DeleteOne(tab: string, id: JsValue): AppState.Action {
    if tab == USER_STORIES_TAB then AppState.DeleteUserStory(id)
    else if tab == BUGS_TAB then AppState.DeleteBug(id)
    else AppState.DeleteTestPlan(id)
  }

  /** The store actions a successful delete dispatches. */
  function LocalDeletes(tab: string, ids: Selection): (r: seq<AppState.Action>)
    ensures tab == TEST_CASES_TAB ==> r == [AppState.DeleteTestCases(ids)]
    ensures tab != TEST_CASES_TAB ==> |r| == |ids|
  {
    if tab == TEST_CASES_TAB then [AppState.DeleteTestCases(ids)]
    else seq(|ids|, i requires 0 <= i < |ids| => DeleteOne(tab, ids[i]))
  }

  /** `handleDelete()`, with the answer to the confirmation dialog and the
      error the remote delete threw, if any. */
  function HandleDelete(tab: string, s: Selection, confirmed: bool, remoteError: Option<Exn>): (r: DeleteOutcome)
    ensures |s| == 0 ==> r == DeleteOutcome(None, [], [], false, Some(AppState.Toast("No items selected", "warning")))
    ensures r.service.Some? <==> |s| > 0 && confirmed && DeleteService(tab).Some?
    ensures r.service.Some? ==> r.service == DeleteService(tab) && r.ids == s
    ensures |r.actions| > 0 ==> r.service.Some? && remoteError.None?
    ensures r.cleared <==> r.service.Some? && remoteError.None?
    ensures r.cleared ==> r.actions == LocalDeletes(tab, s)
  {
    if |s| == 0 then DeleteOutcome(None, [], [], false, Some(AppState.Toast("No items selected", "warning")))
    else if !confirmed then DeleteOutcome(None, [], [], false, None)
    else if DeleteService(tab).None? then
      DeleteOutcome(None, [], [], false, Some(AppState.Toast("Delete not supported for this item type", "error")))
    else if remoteError.Some? then
      DeleteOutcome(DeleteService(tab), s, [], false,
        Some(AppState.Toast("Failed to delete: " + remoteError.value.message, "error")))
    else
      DeleteOutcome(DeleteService(tab), s, LocalDeletes(tab, s), true,
        Some(AppState.Toast("Deleted " + NatToString(|s|) + " " + ItemType(tab), "success")))
  }

  /** The collections tab never deletes. */
  lemma CollectionsNeverDeleted(s: Selection, confirmed: bool, remoteError: Option<Exn>)
    ensures HandleDelete(API_COLLECTIONS_TAB, s, confirmed, remoteError).service.None?
    ensures HandleDelete(API_COLLECTIONS_TAB, s, confirmed, remoteError).actions == []
  {
  }

  /** Deleting selected stories one action at a time removes exactly the
      stories whose id is selected. */
  lemma {:induction false} StoryDeletesExact(st: AppState.State, ids: Selection)
    ensures var after := AppState.ReduceAll(st, LocalDeletes(USER_STORIES_TAB, ids)).userStories;
      forall x :: x in after <==> x in st.userStories && !AppState.Includes(ids, Get(x, "id"))
    decreases |ids|
  {
    if |ids| > 0 {
      var init := ids[..|ids| - 1];
      var id := ids[|ids| - 1];
      StoryDeletesExact(st, init);
      StoryDeletesLast(st, ids);
      var before := AppState.ReduceAll(st, LocalDeletes(USER_STORIES_TAB, init));
      StoryDeleteStore(before, id);
      DeleteIdStep(st.userStories, before.userStories, ids);
    }
  }

  /** Deleting one story rewrites the stories as `DeleteId`. */
  lemma StoryDeleteStore(s: AppState.State, id: JsValue)
    ensures AppState.Reduce(s, AppState.DeleteUserStory(id)).userStories == AppState.DeleteId(s.userStories, id)
  {
    assert AppState.Target(AppState.DeleteUserStory(id)) == AppState.UserStoriesSlice;
    assert AppState.ReduceRecords(s.userStories, AppState.DeleteUserStory(id)) == AppState.DeleteId(s.userStories, id);
  }

  /** Removing the last selected id from what the earlier ids left removes
      exactly the items whose id is selected. */
  lemma DeleteIdStep(items: seq<Obj>, before: seq<Obj>, ids: Selection)
    requires |ids| > 0
    requires forall x :: x in before <==> x in items && !AppState.Includes(ids[..|ids| - 1], Get(x, "id"))
    ensures forall x :: x in AppState.DeleteId(before, ids[|ids| - 1]) <==>
      x in items && !AppState.Includes(ids, Get(x, "id"))
  {
    IncludesLast(ids);
  }

  lemma StoryDeletesLast(st: AppState.State, ids: Selection)
    requires |ids| > 0
    ensures AppState.ReduceAll(st, LocalDeletes(USER_STORIES_TAB, ids)) ==
      AppState.Reduce(AppState.ReduceAll(st, LocalDeletes(USER_STORIES_TAB, ids[..|ids| - 1])),
        AppState.DeleteUserStory(ids[|ids| - 1]))
  {
    var acts := LocalDeletes(USER_STORIES_TAB, ids);
    assert acts[..|acts| - 1] == LocalDeletes(USER_STORIES_TAB, ids[..|ids| - 1]);
  }

  lemma IncludesLast(ids: Selection)
    requires |ids| > 0
    ensures forall v :: AppState.Includes(ids, v) <==>
      AppState.Includes(ids[..|ids| - 1], v) || AppState.StrictEquals(ids[|ids| - 1], v)
  {
    var init := ids[..|ids| - 1];
    forall v ensures AppState.Includes(ids, v) <==>
      AppState.Includes(init, v) || AppState.StrictEquals(ids[|ids| - 1], v)
    {
      if AppState.Includes(ids, v) {
        var i :| 0 <= i < |ids| && AppState.StrictEquals(ids[i], v);
        if i < |init| {
          assert init[i] == ids[i];
        }
      }
      if AppState.Includes(init, v) {
        var i :| 0 <= i < |init| && AppState.StrictEquals(init[i], v);
        assert ids[i] == init[i];
      }
    }
  }

  /** What an export did: the format and items handed to the exporter, or
      none, and the toast shown. */
  datatype ExportOutcome = ExportOutcome(format: Option<string>, data: seq<Json>, filename: string, toast: AppState.Toast)

  /** The visible items whose id is selected, in display order. */
  function Chosen(visible: seq<Json>, s: Selection): (r: seq<Json>)
    ensures forall x :: x in r <==> x in visible && IdOf(x) in s
    ensures |r| <= |visible|
  {
    Filter(visible, (x: Json) => IdOf(x) in s)
  }

  /** `handleExport(format)` at clock reading `now`; `exportError` is what
      the exporter threw, if anything. */
  function HandleExport(tab: string, format: string, visible: seq<Json>, s: Selection, now: nat, exportError: Option<Exn>): (r: ExportOutcome)
    ensures |s| == 0 ==> r.format.None? && r.toast == AppState.Toast("Please select items to export", "warning")
    ensures r.format.Some? ==> |s| > 0 && r.data == Chosen(visible, s) && |r.data| > 0
    ensures r.format.Some? <==> |s| > 0 && |Chosen(visible, s)| > 0 && format in {"json", "csv", "excel"}
    ensures r.format.Some? ==> r.format.value == format && r.filename == tab + "-" + NatToString(now)
    ensures r.toast.kind == "success" <==> r.format.Some? && exportError.None?
  {
    var data := Chosen(visible, s);
    var filename := tab + "-" + NatToString(now);
    if |s| == 0 then ExportOutcome(None, [], filename, AppState.Toast("Please select items to export", "warning"))
    else if |data| == 0 then ExportOutcome(None, [], filename, AppState.Toast("No items selected for export", "warning"))
    else if format !in {"json", "csv", "excel"} then ExportOutcome(None, [], filename, AppState.Toast("Invalid export format", "error"))
    else if exportError.Some? then
      ExportOutcome(Some(format), data, filename, AppState.Toast("Export failed: " + exportError.value.message, "error"))
    else
      ExportOutcome(Some(format), data, filename,
        AppState.Toast("Exported " + NatToString(|data|) + " selected item(s) as " + ToUpper(format), "success"))
  }

  /** The page's own state. */
  datatype View = View(tab: string, query: string, selected: Selection)

  /** Clicking a tab clears both the selection and the query. */
  function SwitchTab(v: View, tab: string): (r: View)
    ensures r.tab == tab && r.query == "" && r.selected == []
  {
    View(tab, "", [])
  }
}

=== FILE: login.dfy ===
/** The login page: signing in, signing up, asking for a reset email,
    and setting a new password while in recovery. The auth service's
    answers are parameters. */
module Login {
  import opened Wrappers
  import opened Text
  import opened Json
  import Auth

  /** The page's own state. Both mode flags can be set at once; the
      forgot-password mode wins. */
  datatype Page = Page(isSignUp: bool, isForgot: bool, error: string, message: string, loading: bool)

  const INITIAL_PAGE := Page(false, false, "", "", false)

  // ---------------------------------------------------------------------
  // Errors
  // ---------------------------------------------------------------------

  const VERIFY_FIRST := "Please verify your email first."
  const BAD_CREDENTIALS := "Invalid email or password."
  const GENERIC_ERROR := "An error occurred"

  /** The message shown for a failed submit. */
  function ErrorMessage(e: Exn): (r: string)
    ensures Contains(e.message, "Email not confirmed") ==> r == VERIFY_FIRST
    ensures !Contains(e.message, "Email not confirmed") && Contains(e.message, "Invalid login credentials") ==> r == BAD_CREDENTIALS
    ensures !Contains(e.message, "Email not confirmed") && !Contains(e.message, "Invalid login credentials") ==>
      r == (if e.message == "" then GENERIC_ERROR else e.message)
  {
    if Contains(e.message, "Email not confirmed") then VERIFY_FIRST
    else if Contains(e.message, "Invalid login credentials") then BAD_CREDENTIALS
    else if e.message == "" then GENERIC_ERROR
    else e.message
  }

  /** A submit never fails silently: some message always shows, and only
      the two known service errors are reworded. */
  lemma ErrorMessageShown(e: Exn)
    ensures ErrorMessage(e) != ""
    ensures ErrorMessage(e) != e.message && e.message != "" ==>
      Contains(e.message, "Email not confirmed") || Contains(e.message, "Invalid login credentials")
  {
  }

  // ---------------------------------------------------------------------
  // Submitting
  // ---------------------------------------------------------------------

  /** What a submit asked of the auth service. */
  datatype Call = NoCall | ResetCall(email: string) | SignUpCall(email: string, password: string) | SignInCall(email: string, password: string)

  /** The service's answers: the reset request's error, what `signUp`
      returns (its `data`: `{ user, session }`), and the sign-in's error. */
  datatype Replies = Replies(reset: Option<Exn>, signUp: Result<JsValue, Exn>, signIn: Option<Exn>)

  datatype Submitted = Submitted(page: Page, call: Call, hash: Option<string>)

  const RESET_SENT := "Password reset email sent! Check your inbox."
  const CHECK_EMAIL := "Account created! Check your email to verify."
  const CAN_SIGN_IN := "Account created! You can now sign in."

  /** The page after a successful sign-up whose result is `data`: a user
      without a session must confirm the email first; otherwise the page
      goes back to signing in. */
  function SignedUp(page: Page, data: JsValue): (r: Page)
    ensures Truthy(Prop(data, "user")) && !Truthy(Prop(data, "session")) ==> r.message == CHECK_EMAIL && r.isSignUp == page.isSignUp
    ensures !(Truthy(Prop(data, "user")) && !Truthy(Prop(data, "session"))) ==> r.message == CAN_SIGN_IN && !r.isSignUp
  {
    if Truthy(Prop(data, "user")) && !Truthy(Prop(data, "session")) then page.(message := CHECK_EMAIL)
    else page.(message := CAN_SIGN_IN, isSignUp := false)
  }

  /** The same step as the page writes it: `const { data } = await
      signUp(…)` destructures a `data` property out of what `signUp`
      already unwrapped, so `data` is `undefined`. */
  function SignedUpAsWritten(page: Page, returned: JsValue): (r: Page)
    ensures !Truthy(Prop(returned, "data")) ==> r.message == CAN_SIGN_IN && !r.isSignUp
  {
    SignedUp(page, Prop(returned, "data"))
  }

  /** A user created without a session is told to check the email by the
      intended step, but the page as written says they can sign in now. */
  lemma SignUpWithoutSessionMessage(page: Page, user: Json)
    requires Truthy(Some(user))
    ensures var returned := Some(JObj([("user", user), ("session", JNull)]));
      SignedUp(page, returned).message == CHECK_EMAIL &&
      SignedUpAsWritten(page, returned).message == CAN_SIGN_IN
  {
  }

  /** `handleSubmit()`: forgot-password mode first, then sign-up, then
      sign-in. Sign-up checks the passwords before calling the service. */
  function Submit(page: Page, email: string, password: string, confirm: string, replies: Replies): (r: Submitted)
    ensures !r.page.loading
    ensures page.isForgot ==> r.call == ResetCall(email)
    ensures !page.isForgot && page.isSignUp ==>
      (r.call == SignUpCall(email, password) <==> Auth.PasswordProblem(password, confirm).None?)
    ensures !page.isForgot && page.isSignUp && Auth.PasswordProblem(password, confirm).Some? ==>
      r.call == NoCall && r.page.error == Auth.PasswordProblem(password, confirm).value
    ensures !page.isForgot && page.isSignUp && Auth.PasswordProblem(password, confirm).None? && replies.signUp.Ok? ==>
      r.page == SignedUp(page.(error := "", message := "", loading := false), replies.signUp.value)
    ensures !page.isForgot && !page.isSignUp ==> r.call == SignInCall(email, password)
    ensures r.hash == Some("#/") <==> !page.isForgot && !page.isSignUp && replies.signIn.None?
    ensures r.page.error != "" <==> (r.call == NoCall ||
      (r.call.ResetCall? && replies.reset.Some?) ||
      (r.call.SignUpCall? && replies.signUp.Err?) ||
      (r.call.SignInCall? && replies.signIn.Some?))
  {
    var cleared := page.(error := "", message := "", loading := false);
    if page.isForgot then
      match replies.reset
      case Some(e) => Submitted(cleared.(error := ErrorMessage(e)), ResetCall(email), None)
      case None => Submitted(cleared.(message := RESET_SENT), ResetCall(email), None)
    else if page.isSignUp then
      match Auth.PasswordProblem(password, confirm)
      case Some(problem) => Submitted(cleared.(error := problem), NoCall, None)
      case None =>
        match replies.signUp
        case Err(e) => Submitted(cleared.(error := ErrorMessage(e)), SignUpCall(email, password), None)
        case Ok(data) => Submitted(SignedUp(cleared, data), SignUpCall(email, password), None)
    else
      match replies.signIn
      case Some(e) => Submitted(cleared.(error := ErrorMessage(e)), SignInCall(email, password), None)
      case None => Submitted(cleared, SignInCall(email, password), Some("#/"))
  }

  // ---------------------------------------------------------------------
  // What the page shows
  // ---------------------------------------------------------------------

  datatype Screen =
    | NewPasswordForm
    | LoginForm(title: string, password: bool, confirm: bool, button: string)

  /** The rendered form: in recovery always the set-new-password form. */
  function View(recovery: bool, page: Page): (r: Screen)
    ensures recovery <==> r.NewPasswordForm?
    ensures r.LoginForm? ==> (r.password <==> !page.isForgot) && (r.confirm <==> page.isSignUp && !page.isForgot)
  {
    if recovery then NewPasswordForm
    else LoginForm(
      if page.isForgot then "Reset Password" else if page.isSignUp then "Create Account" else "Welcome back",
      !page.isForgot,
      page.isSignUp && !page.isForgot,
      if page.loading then "Please wait..." else if page.isForgot then "Send Reset Link"
      else if page.isSignUp then "Create Account" else "Sign In")
  }

  /** The form's title names what submitting it does. */
  lemma TitleMatchesSubmit(page: Page, email: string, password: string, confirm: string, replies: Replies)
    ensures var s := View(false, page);
      var c := Submit(page, email, password, confirm, replies).call;
      (s.title == "Reset Password" <==> c.ResetCall?) &&
      (s.title == "Welcome back" <==> c.SignInCall?) &&
      (s.title == "Create Account" <==> c.SignUpCall? || c.NoCall?)
  {
  }

  /** The "Forgot password?" link, shown only when signing in. */
  function ForgotLink(page: Page): (r: Option<Page>)
    ensures r.Some? <==> !page.isForgot && !page.isSignUp
    ensures r.Some? ==> r.value == page.(isForgot := true)
  {
    if !page.isForgot && !page.isSignUp then Some(page.(isForgot := true)) else None
  }

  /** "Back to Sign In" in forgot-password mode, or the sign-up toggle
      otherwise. */
  function SwitchLink(page: Page): (r: Page)
    ensures page.isForgot ==> r == page.(isForgot := false)
    ensures !page.isForgot ==> r == page.(isSignUp := !page.isSignUp)
  {
    if page.isForgot then page.(isForgot := false) else page.(isSignUp := !page.isSignUp)
  }

  /** Forgetting the password and going back lands on the sign-in form
      again. */
  lemma ForgotAndBack(page: Page)
    requires !page.isForgot && !page.isSignUp
    ensures SwitchLink(ForgotLink(page).value) == page
  {
  }

  // ---------------------------------------------------------------------
  // Setting a new password
  // ---------------------------------------------------------------------

  const PASSWORD_UPDATED := "Password updated successfully! Redirecting..."
  const UPDATE_FAILED := "Failed to update password"

  /** The delay before the page clears the fields and goes home. */
  const REDIRECT_DELAY := 1500

  datatype Updated = Updated(auth: Auth.AuthState, page: Page, called: bool, redirect: Option<(nat, string)>)

  /** `handleUpdatePassword()` with the session `session` and the update's
      error `updateError` as the service answers them. */
  function UpdatePassword(auth: Auth.AuthState, page: Page, newPassword: string, confirm: string,
                          session: JsValue, updateError: Option<Exn>): (r: Updated)
    ensures !r.page.loading
    ensures r.called ==> Auth.PasswordProblem(newPassword, confirm).None?
    ensures Auth.PasswordProblem(newPassword, confirm).Some? ==>
      r == Updated(auth, page.(error := Auth.PasswordProblem(newPassword, confirm).value, message := "", loading := false), false, None)
    ensures r.redirect.Some? <==> Auth.PasswordProblem(newPassword, confirm).None? && Truthy(session) && updateError.None?
    ensures r.redirect.Some? ==> r.redirect.value == (REDIRECT_DELAY, "#/") && !r.auth.recovery && r.page.message == PASSWORD_UPDATED
    ensures r.redirect.None? ==> r.auth == auth
  {
    var cleared := page.(error := "", message := "", loading := false);
    match Auth.PasswordProblem(newPassword, confirm)
    case Some(problem) => Updated(auth, cleared.(error := problem), false, None)
    case None =>
      var (result, called) := Auth.UpdatePassword(auth, session, updateError);
      match result
      case Err(e) =>
        Updated(auth, cleared.(error := if e.message == "" then UPDATE_FAILED else e.message), called, None)
      case Ok(after) => Updated(after, cleared.(message := PASSWORD_UPDATED), called, Some((REDIRECT_DELAY, "#/")))
  }

  /** Without a session the update is never sent and the page says why. */
  lemma UpdateWithoutSession(auth: Auth.AuthState, page: Page, password: string, session: JsValue, updateError: Option<Exn>)
    requires |password| >= Auth.MIN_PASSWORD && !Truthy(session)
    ensures var r := UpdatePassword(auth, page, password, password, session, updateError);
      !r.called && r.page.error == Auth.SESSION_MISSING && r.auth == auth
  {
  }

  /** Cancel on the recovery form: recovery ends and the hash goes to the
      login route. */
  function CancelRecovery(auth: Auth.AuthState): (r: (Auth.AuthState, string))
    ensures !r.0.recovery && r.1 == "#/login"
    ensures View(r.0.recovery, INITIAL_PAGE) == LoginForm("Welcome back", true, false, "Sign In")
  {
    (Auth.ClearPasswordRecovery(auth), "#/login")
  }
}

=== FILE: query.dfy ===
/** Reading a URL query string the way `URLSearchParams` does
    (the application/x-www-form-urlencoded parser of the WHATWG URL
    standard, section 5.1): a leading `?` is dropped, the string is cut at
    every `&`, empty pieces are skipped, each piece is cut at its first
    `=`, and `+` reads as a space. */
module Query {
  import opened Wrappers
  import opened Text

  function PlusToSpace(s: string): (r: string)
    ensures |r| == |s|
    ensures forall k :: 0 <= k < |s| ==> r[k] == (if s[k] == '+' then ' ' else s[k])
  {
    seq(|s|, k requires 0 <= k < |s| => if s[k] == '+' then ' ' else s[k])
  }

  /** One `name=value` piece; a piece without `=` has an empty value. */
  function Pair(piece: string): (r: (string, string))
    ensures Find(piece, "=").None? ==> r == (PlusToSpace(piece), "")
  {
    match Find(piece, "=")
    case None => (PlusToSpace(piece), "")
    case Some(i) => (PlusToSpace(piece[..i]), PlusToSpace(piece[i + 1..]))
  }

  function Pairs(pieces: seq<string>): (r: seq<(string, string)>)
    ensures |r| <= |pieces|
  {
    if |pieces| == 0 then []
    else (if pieces[0] == "" then [] else [Pair(pieces[0])]) + Pairs(pieces[1..])
  }

  /** The name-value list of a query string. */
  function Parse(query: string): seq<(string, string)> {
    var body := if |query| > 0 && query[0] == '?' then query[1..] else query;
    Pairs(Split(body, "&"))
  }

  /** The first value under `name`. */
  function Lookup(pairs: seq<(string, string)>, name: string): (r: Option<string>)
    ensures r.Some? ==> exists i :: 0 <= i < |pairs| && pairs[i] == (name, r.value) && NoneBefore(pairs, name, i)
    ensures r.None? ==> forall i :: 0 <= i < |pairs| ==> pairs[i].0 != name
  {
    if |pairs| == 0 then None
    else if pairs[0].0 == name then
      assert pairs[0] == (name, pairs[0].1) && NoneBefore(pairs, name, 0);
      Some(pairs[0].1)
    else
      var r := Lookup(pairs[1..], name);
      assert forall i :: 1 <= i < |pairs| ==> pairs[i] == pairs[1..][i - 1];
      if r.Some? then
        var i :| 0 <= i < |pairs| - 1 && pairs[1..][i] == (name, r.value) && NoneBefore(pairs[1..], name, i);
        assert pairs[i + 1] == (name, r.value) && NoneBefore(pairs, name, i + 1);
        r
      else r
  }

  /** No pair before index `i` has the name. */
  predicate NoneBefore(pairs: seq<(string, string)>, name: string, i: nat)
    requires i <= |pairs|
  {
    forall j :: 0 <= j < i ==> pairs[j].0 != name
  }

  /** A later pair under the same name never hides an earlier one: the
      lookup in joined lists is the first list's when it has the name. */
  lemma {:induction false} LookupAppend(a: seq<(string, string)>, b: seq<(string, string)>, name: string)
    ensures Lookup(a + b, name) == if Lookup(a, name).Some? then Lookup(a, name) else Lookup(b, name)
  {
    if |a| > 0 {
      assert (a + b)[0] == a[0];
      assert (a + b)[1..] == a[1..] + b;
      LookupAppend(a[1..], b, name);
    } else {
      assert a + b == b;
    }
  }

  /** Only one leading `?` is dropped: a second one starts the first
      name. */
  lemma ParseDropsOneMark(q: string)
    ensures Parse("?" + q) == Pairs(Split(q, "&"))
    ensures q == "" || q[0] != '?' ==> Parse("?" + q) == Parse(q)
  {
  }

  /** `new URLSearchParams(query).get(name)`: a value exactly when some
      parsed pair has the name, and then the value of such a pair. */
  function Get(query: string, name: string): (r: Option<string>)
    ensures r.Some? <==> exists i :: 0 <= i < |Parse(query)| && Parse(query)[i].0 == name
    ensures r.Some? ==> (name, r.value) in Parse(query)
  {
    Lookup(Parse(query), name)
  }

  /** An empty query has no parameters. */
  lemma GetEmpty(name: string)
    ensures Get("", name).None?
  {
    assert Join([""], "&") == "";
    SplitJoin([""], '&');
    assert Pairs([""]) == [];
  }

  /** Text free of the characters the parser treats specially. */
  predicate Plain(s: string) {
    '&' !in s && '=' !in s && '+' !in s && '?' !in s && '#' !in s
  }

  lemma PlusFree(s: string)
    requires '+' !in s
    ensures PlusToSpace(s) == s
  {
  }

  /** A query holding one `name=value` pair yields the value back. */
  lemma {:induction false} GetSingle(name: string, value: string)
    requires Plain(name) && |name| > 0
    requires '&' !in value && '+' !in value && '?' !in value
    ensures Get(name + "=" + value, name) == Some(value)
  {
    var q := name + "=" + value;
    assert q == Join([q], "&");
    SplitJoin([q], '&');
    assert Split(q, "&") == [q];
    assert q[0] == name[0];
    FindAfterFree(name, '=', value);
    assert q[..|name|] == name;
    assert q[|name| + 1..] == value;
    PlusFree(name);
    PlusFree(value);
    assert Pairs([q]) == [Pair(q)];
  }
}

=== FILE: records.dfy ===
/** The persistence layer: how the application's records become database
    rows (with the defaults the service fills in), how rows come back as
    records when the store loads, and what each save, update and delete
    does to the tables. The database itself is a value of five tables; a
    rejected write is an outcome supplied from outside. */
module Records {
  import opened Wrappers
  import opened Text
  import opened Json
  import AppState

  // ---------------------------------------------------------------------
  // Records as the application holds them
  // ---------------------------------------------------------------------

  /** The properties of a test case the service and the loader read; any
      of them may be `undefined`. */
  datatype TestCase = TestCase(
    id: JsValue, category: JsValue, title: JsValue, priority: JsValue,
    preconditions: JsValue, steps: JsValue, expectedResult: JsValue, tags: JsValue,
    estimatedTimeMinutes: JsValue, scenarioTitle: JsValue, epic: JsValue, generatedAt: JsValue)

  datatype Story = Story(
    id: JsValue, title: JsValue, description: JsValue, acceptanceCriteria: JsValue,
    priority: JsValue, epic: JsValue, tags: JsValue, status: JsValue)

  datatype Bug = Bug(
    id: JsValue, title: JsValue, description: JsValue, stepsToReproduce: JsValue,
    severity: JsValue, priority: JsValue, environment: JsValue, tags: JsValue, status: JsValue)

  datatype Plan = Plan(
    id: JsValue, name: JsValue, description: JsValue, testCases: JsValue,
    status: JsValue, metadata: JsValue)

  datatype Collection = Collection(id: JsValue, name: JsValue, requests: JsValue)

  // ---------------------------------------------------------------------
  // Rows as the database holds them
  // ---------------------------------------------------------------------

  datatype TestCaseRow = TestCaseRow(
    userId: string, testId: JsValue, category: JsValue, title: JsValue, priority: JsValue,
    preconditions: JsValue, steps: JsValue, expectedResult: JsValue, tags: JsValue,
    estimatedTimeMinutes: JsValue, scenarioTitle: JsValue, epic: JsValue, generatedAt: JsValue)

  datatype StoryRow = StoryRow(
    userId: string, storyId: JsValue, title: JsValue, description: JsValue,
    acceptanceCriteria: JsValue, priority: JsValue, epic: JsValue, tags: JsValue, status: JsValue)

  datatype BugRow = BugRow(
    userId: string, bugId: JsValue, title: JsValue, description: JsValue,
    stepsToReproduce: JsValue, severity: JsValue, priority: JsValue, environment: JsValue,
    tags: JsValue, status: JsValue)

  datatype PlanRow = PlanRow(
    userId: string, planId: JsValue, name: JsValue, description: JsValue,
    testCases: JsValue, status: JsValue, metadata: JsValue)

  datatype CollectionRow = CollectionRow(
    userId: string, collectionId: JsValue, name: JsValue, requests: JsValue)

  datatype Db = Db(
    testCases: seq<TestCaseRow>, stories: seq<StoryRow>, bugs: seq<BugRow>,
    plans: seq<PlanRow>, collections: seq<CollectionRow>)

  // ---------------------------------------------------------------------
  // Record to row, with defaults
  // ---------------------------------------------------------------------

  const EMPTY_LIST: JsValue := Some(JArr([]))

  /** A column as an insert stores it: a property that is `undefined` is
      dropped from the request body, so its column holds `NULL`. */
  function Stored(v: JsValue): (r: JsValue)
    ensures r.Some?
    ensures v.Some? ==> r == v
    ensures v.None? ==> r == Some(JNull)
  {
    if v.Some? then v else Some(JNull)
  }

  /** One test case as `saveTestCases` writes it; `now` is the ISO time
      of the save. */
  function TestCaseToRow(user: string, tc: TestCase, now: string): (r: TestCaseRow)
    ensures r.userId == user && r.testId == Stored(tc.id) && r.title == Stored(tc.title)
    ensures r.category == (if Truthy(tc.category) then tc.category else Str("Uncategorized"))
    ensures r.priority == (if Truthy(tc.priority) then tc.priority else Str("Medium"))
    ensures r.estimatedTimeMinutes == (if Truthy(tc.estimatedTimeMinutes) then tc.estimatedTimeMinutes else Some(JNum(5)))
    ensures r.scenarioTitle == (if Truthy(tc.scenarioTitle) then tc.scenarioTitle else Str("Ungrouped Test Cases"))
    ensures r.epic == (if Truthy(tc.epic) then tc.epic else Some(JNull))
    ensures r.generatedAt == (if Truthy(tc.generatedAt) then tc.generatedAt else Str(now))
    ensures Truthy(r.preconditions) && Truthy(r.steps) && Truthy(r.tags)
  {
    TestCaseRow(user, Stored(tc.id),
      Or(tc.category, Str("Uncategorized")),
      Stored(tc.title),
      Or(tc.priority, Str("Medium")),
      Or(tc.preconditions, EMPTY_LIST),
      Or(tc.steps, EMPTY_LIST),
      Or(tc.expectedResult, Str("")),
      Or(tc.tags, EMPTY_LIST),
      Or(tc.estimatedTimeMinutes, Some(JNum(5))),
      Or(tc.scenarioTitle, Str("Ungrouped Test Cases")),
      Or(tc.epic, Some(JNull)),
      Or(tc.generatedAt, Str(now)))
  }

  function StoryToRow(user: string, s: Story): (r: StoryRow)
    ensures r.userId == user && r.storyId == Stored(s.id) && r.title == Stored(s.title)
    ensures r.priority == (if Truthy(s.priority) then s.priority else Str("Medium"))
    ensures r.status == (if Truthy(s.status) then s.status else Str("New"))
    ensures r.description == (if Truthy(s.description) then s.description else Str(""))
    ensures Truthy(r.acceptanceCriteria) && Truthy(r.tags)
  {
    StoryRow(user, Stored(s.id), Stored(s.title),
      Or(s.description, Str("")),
      Or(s.acceptanceCriteria, EMPTY_LIST),
      Or(s.priority, Str("Medium")),
      Or(s.epic, Str("")),
      Or(s.tags, EMPTY_LIST),
      Or(s.status, Str("New")))
  }

  function BugToRow(user: string, b: Bug): (r: BugRow)
    ensures r.userId == user && r.bugId == Stored(b.id) && r.title == Stored(b.title)
    ensures r.severity == (if Truthy(b.severity) then b.severity else Str("Major"))
    ensures r.priority == (if Truthy(b.priority) then b.priority else Str("Medium"))
    ensures r.status == (if Truthy(b.status) then b.status else Str("New"))
    ensures Truthy(r.stepsToReproduce) && Truthy(r.tags)
  {
    BugRow(user, Stored(b.id), Stored(b.title),
      Or(b.description, Str("")),
      Or(b.stepsToReproduce, EMPTY_LIST),
      Or(b.severity, Str("Major")),
      Or(b.priority, Str("Medium")),
      Or(b.environment, Str("")),
      Or(b.tags, EMPTY_LIST),
      Or(b.status, Str("New")))
  }

  function PlanToRow(user: string, p: Plan): (r: PlanRow)
    ensures r.userId == user && r.planId == Stored(p.id) && r.name == Stored(p.name)
    ensures r.status == (if Truthy(p.status) then p.status else Str("draft"))
    ensures r.metadata == (if Truthy(p.metadata) then p.metadata else Some(JNull))
    ensures Truthy(r.testCases)
  {
    PlanRow(user, Stored(p.id), Stored(p.name),
      Or(p.description, Str("")),
      Or(p.testCases, EMPTY_LIST),
      Or(p.status, Str("draft")),
      Or(p.metadata, Some(JNull)))
  }

  function CollectionToRow(user: string, c: Collection): (r: CollectionRow)
    ensures r.userId == user && r.collectionId == Stored(c.id) && r.name == Stored(c.name)
    ensures r.requests == (if Truthy(c.requests) then c.requests else EMPTY_LIST)
  {
    CollectionRow(user, Stored(c.id), Stored(c.name), Or(c.requests, EMPTY_LIST))
  }

  // ---------------------------------------------------------------------
  // Row to record, as the store loads
  // ---------------------------------------------------------------------

  function LoadTestCase(row: TestCaseRow): (r: TestCase)
    ensures r.id == row.testId && r.expectedResult == row.expectedResult
    ensures r.scenarioTitle == (if Truthy(row.scenarioTitle) then row.scenarioTitle else Str("Ungrouped Test Cases"))
  {
    TestCase(row.testId, row.category, row.title, row.priority, row.preconditions, row.steps,
      row.expectedResult, row.tags, row.estimatedTimeMinutes,
      Or(row.scenarioTitle, Str("Ungrouped Test Cases")), row.epic, row.generatedAt)
  }

  function LoadStory(row: StoryRow): (r: Story)
    ensures r.id == row.storyId && r.acceptanceCriteria == row.acceptanceCriteria
  {
    Story(row.storyId, row.title, row.description, row.acceptanceCriteria, row.priority,
      row.epic, row.tags, row.status)
  }

  function LoadBug(row: BugRow): (r: Bug)
    ensures r.id == row.bugId && r.stepsToReproduce == row.stepsToReproduce
  {
    Bug(row.bugId, row.title, row.description, row.stepsToReproduce, row.severity,
      row.priority, row.environment, row.tags, row.status)
  }

  function LoadPlan(row: PlanRow): (r: Plan)
    ensures r.id == row.planId && r.testCases == row.testCases
    ensures Truthy(r.metadata)
  {
    Plan(row.planId, row.name, row.description, row.testCases, row.status,
      Or(row.metadata, Some(JObj([]))))
  }

  function LoadCollection(row: CollectionRow): (r: Collection)
    ensures r.id == row.collectionId && r.name == row.name && r.requests == row.requests
  {
    Collection(row.collectionId, row.name, row.requests)
  }

  // ---------------------------------------------------------------------
  // Round trips
  // ---------------------------------------------------------------------

  predicate AllTruthy(tc: TestCase) {
    Truthy(tc.id) && Truthy(tc.category) && Truthy(tc.title) && Truthy(tc.priority) &&
    Truthy(tc.preconditions) && Truthy(tc.steps) && Truthy(tc.expectedResult) &&
    Truthy(tc.tags) && Truthy(tc.estimatedTimeMinutes) && Truthy(tc.scenarioTitle) &&
    Truthy(tc.epic) && Truthy(tc.generatedAt)
  }

  /** A test case whose properties are all set survives a save and a
      reload unchanged, whoever saved it and whenever. */
  lemma TestCaseRoundTrip(user: string, tc: TestCase, now: string)
    requires AllTruthy(tc)
    ensures LoadTestCase(TestCaseToRow(user, tc, now)) == tc
  {
  }

  /** Without that assumption a reload gives back the id and the title
      that were set (`null` for one left `undefined`) and every other
      property that was set, and shows the defaults for the rest. */
  lemma TestCaseReloaded(user: string, tc: TestCase, now: string)
    ensures var back := LoadTestCase(TestCaseToRow(user, tc, now));
      (tc.id.Some? ==> back.id == tc.id) && (tc.id.None? ==> back.id == Some(JNull)) &&
      (tc.title.Some? ==> back.title == tc.title) && (tc.title.None? ==> back.title == Some(JNull)) &&
      (Truthy(tc.category) ==> back.category == tc.category) &&
      (!Truthy(tc.category) ==> back.category == Str("Uncategorized")) &&
      (!Truthy(tc.priority) ==> back.priority == Str("Medium")) &&
      (!Truthy(tc.estimatedTimeMinutes) ==> back.estimatedTimeMinutes == Some(JNum(5))) &&
      (!Truthy(tc.scenarioTitle) ==> back.scenarioTitle == Str("Ungrouped Test Cases")) &&
      (!Truthy(tc.epic) ==> back.epic == Some(JNull))
  {
  }

  /** A story reloads as saved, except that an id or title left
      `undefined` comes back `null`. */
  lemma StoryRoundTrip(user: string, s: Story)
    requires Truthy(s.description) && Truthy(s.acceptanceCriteria) && Truthy(s.priority)
    requires Truthy(s.epic) && Truthy(s.tags) && Truthy(s.status)
    ensures LoadStory(StoryToRow(user, s)) == s.(id := Stored(s.id), title := Stored(s.title))
    ensures s.id.Some? && s.title.Some? ==> LoadStory(StoryToRow(user, s)) == s
  {
  }

  lemma BugRoundTrip(user: string, b: Bug)
    requires Truthy(b.description) && Truthy(b.stepsToReproduce) && Truthy(b.severity)
    requires Truthy(b.priority) && Truthy(b.environment) && Truthy(b.tags) && Truthy(b.status)
    ensures LoadBug(BugToRow(user, b)) == b.(id := Stored(b.id), title := Stored(b.title))
    ensures b.id.Some? && b.title.Some? ==> LoadBug(BugToRow(user, b)) == b
  {
  }

  /** A plan without metadata is stored with `null` and reloaded with
      `{}`; an id or name left `undefined` comes back `null`. */
  lemma PlanRoundTrip(user: string, p: Plan)
    requires Truthy(p.description) && Truthy(p.testCases) && Truthy(p.status)
    ensures LoadPlan(PlanToRow(user, p)) ==
      p.(id := Stored(p.id), name := Stored(p.name),
         metadata := if Truthy(p.metadata) then p.metadata else Some(JObj([])))
    ensures p.id.Some? && p.name.Some? && Truthy(p.metadata) ==> LoadPlan(PlanToRow(user, p)) == p
  {
  }

  lemma CollectionRoundTrip(user: string, c: Collection)
    requires Truthy(c.requests)
    ensures LoadCollection(CollectionToRow(user, c)) == c.(id := Stored(c.id), name := Stored(c.name))
    ensures c.id.Some? && c.name.Some? ==> LoadCollection(CollectionToRow(user, c)) == c
  {
  }

  // ---------------------------------------------------------------------
  // Table operations
  // ---------------------------------------------------------------------

  /** The conflict key of a row: the owner and the record id. A missing or
      `null` id is stored as SQL `NULL`, which never equals anything, so
      such a row has no key. */
  function RowKey(user: string, id: JsValue): Option<(string, Json)> {
    if id.None? || id == Some(JNull) then None else Some((user, id.value))
  }

  /** SQL `col IN (ids)`: `NULL` is in no list. */
  predicate InIds(id: JsValue, ids: seq<Json>) {
    id.Some? && id.value != JNull && id.value in ids
  }

  /** No two rows share a key. */
  predicate KeysUnique<R>(table: seq<R>, key: R -> Option<(string, Json)>) {
    forall i, j :: 0 <= i < j < |table| && key(table[i]).Some? ==> key(table[i]) != key(table[j])
  }

  /** Writing one row with `ON CONFLICT (key) DO UPDATE`: the row with the
      same key is replaced in place, otherwise the row is added. */
  function UpsertOne<R>(table: seq<R>, row: R, key: R -> Option<(string, Json)>): (r: seq<R>)
    ensures row in r
    ensures |r| == |table| || |r| == |table| + 1
    ensures forall x :: x in table && (key(row).None? || key(x) != key(row)) ==> x in r
    ensures forall x :: x in r ==> x == row || x in table
  {
    if key(row).Some? && exists i :: 0 <= i < |table| && key(table[i]) == key(row) then
      var r := seq(|table|, i requires 0 <= i < |table| => if key(table[i]) == key(row) then row else table[i]);
      var k :| 0 <= k < |table| && key(table[k]) == key(row);
      assert r[k] == row;
      assert forall x :: x in r ==> x == row || x in table by {
        forall x | x in r ensures x == row || x in table {
          var i :| 0 <= i < |r| && r[i] == x;
        }
      }
      assert forall x :: x in table && key(x) != key(row) ==> x in r by {
        forall x | x in table && key(x) != key(row) ensures x in r {
          var i :| 0 <= i < |table| && table[i] == x;
          assert r[i] == x;
        }
      }
      r
    else table + [row]
  }

  /** Writing a batch of rows one after another. */
  function Upsert<R>(table: seq<R>, rows: seq<R>, key: R -> Option<(string, Json)>): seq<R>
    decreases |rows|
  {
    if |rows| == 0 then table else Upsert(UpsertOne(table, rows[0], key), rows[1..], key)
  }

  lemma UpsertSingle<R>(table: seq<R>, row: R, key: R -> Option<(string, Json)>)
    ensures Upsert(table, [row], key) == UpsertOne(table, row, key)
  {
    assert [row][1..] == [];
  }

  /** An upsert keeps keys unique, and afterwards the row just written is
      the only one with its key. */
  lemma UpsertOneUnique<R>(table: seq<R>, row: R, key: R -> Option<(string, Json)>)
    requires KeysUnique(table, key)
    requires key(row).Some?
    ensures KeysUnique(UpsertOne(table, row, key), key)
    ensures forall i :: 0 <= i < |UpsertOne(table, row, key)| && key(UpsertOne(table, row, key)[i]) == key(row) ==>
      UpsertOne(table, row, key)[i] == row
  {
  }

  // ---------------------------------------------------------------------
  // Service operations
  // ---------------------------------------------------------------------

  /** What a service call did: the tables afterwards, what it threw, and
      whether it reached the database at all. */
  datatype Outcome = Outcome(db: Db, thrown: Option<Exn>, called: bool)

  const NOT_AUTHENTICATED: Exn := Error("Not authenticated")

  /** The common shape of every write: no signed-in user throws before
      anything else; nothing to do succeeds without a call; otherwise the
      database either applies the write or rejects it with `dbError`. */
  function Write(db: Db, user: Option<string>, nothingToDo: bool, dbError: Option<Exn>, written: Db): (r: Outcome)
    ensures user.None? ==> r == Outcome(db, Some(NOT_AUTHENTICATED), false)
    ensures user.Some? && nothingToDo ==> r == Outcome(db, None, false)
    ensures user.Some? && !nothingToDo ==> r.called && r.thrown == dbError
    ensures r.db == db || (r.called && r.thrown.None? && r.db == written)
  {
    if user.None? then Outcome(db, Some(NOT_AUTHENTICATED), false)
    else if nothingToDo then Outcome(db, None, false)
    else if dbError.Some? then Outcome(db, dbError, true)
    else Outcome(written, None, true)
  }

  function TestCaseRows(user: string, cases: seq<TestCase>, now: string): (r: seq<TestCaseRow>)
    ensures |r| == |cases|
    ensures forall i :: 0 <= i < |cases| ==> r[i] == TestCaseToRow(user, cases[i], now)
  {
    seq(|cases|, i requires 0 <= i < |cases| => TestCaseToRow(user, cases[i], now))
  }

  /** `saveTestCases(cases)`: one row per case, in order, always
      inserted; existing rows are never updated. */
  function SaveTestCases(db: Db, user: Option<string>, cases: seq<TestCase>, now: string, dbError: Option<Exn>): (r: Outcome)
    ensures user.None? ==> r == Outcome(db, Some(NOT_AUTHENTICATED), false)
    ensures |cases| == 0 ==> !r.called && (user.Some? ==> r.thrown.None?)
    ensures r.thrown.None? && user.Some? ==>
      r.db == db.(testCases := db.testCases + TestCaseRows(user.value, cases, now))
    ensures r.thrown.Some? ==> r.db == db
  {
    var rows := if user.Some? then TestCaseRows(user.value, cases, now) else [];
    Write(db, user, |cases| == 0, dbError, db.(testCases := db.testCases + rows))
  }

  function StoryKey(row: StoryRow): Option<(string, Json)> { RowKey(row.userId, row.storyId) }
  function BugKey(row: BugRow): Option<(string, Json)> { RowKey(row.userId, row.bugId) }

  function StoryRows(user: string, stories: seq<Story>): (r: seq<StoryRow>)
    ensures |r| == |stories|
    ensures forall i :: 0 <= i < |stories| ==> r[i] == StoryToRow(user, stories[i])
  {
    seq(|stories|, i requires 0 <= i < |stories| => StoryToRow(user, stories[i]))
  }

  function BugRows(user: string, bugs: seq<Bug>): (r: seq<BugRow>)
    ensures |r| == |bugs|
    ensures forall i :: 0 <= i < |bugs| ==> r[i] == BugToRow(user, bugs[i])
  {
    seq(|bugs|, i requires 0 <= i < |bugs| => BugToRow(user, bugs[i]))
  }

  /** `saveUserStories(stories)`: upsert on `(user_id, story_id)`. */
  function SaveUserStories(db: Db, user: Option<string>, stories: seq<Story>, dbError: Option<Exn>): (r: Outcome)
    ensures user.None? ==> r == Outcome(db, Some(NOT_AUTHENTICATED), false)
    ensures |stories| == 0 ==> !r.called && (user.Some? ==> r.thrown.None?)
    ensures r.thrown.None? && user.Some? ==>
      r.db == db.(stories := Upsert(db.stories, StoryRows(user.value, stories), StoryKey))
    ensures r.thrown.Some? ==> r.db == db
  {
    var rows := if user.Some? then StoryRows(user.value, stories) else [];
    Write(db, user, |stories| == 0, dbError, db.(stories := Upsert(db.stories, rows, StoryKey)))
  }

  /** `saveBugs(bugs)`: upsert on `(user_id, bug_id)`. */
  function SaveBugs(db: Db, user: Option<string>, bugs: seq<Bug>, dbError: Option<Exn>): (r: Outcome)
    ensures user.None? ==> r == Outcome(db, Some(NOT_AUTHENTICATED), false)
    ensures |bugs| == 0 ==> !r.called && (user.Some? ==> r.thrown.None?)
    ensures r.thrown.None? && user.Some? ==>
      r.db == db.(bugs := Upsert(db.bugs, BugRows(user.value, bugs), BugKey))
    ensures r.thrown.Some? ==> r.db == db
  {
    var rows := if user.Some? then BugRows(user.value, bugs) else [];
    Write(db, user, |bugs| == 0, dbError, db.(bugs := Upsert(db.bugs, rows, BugKey)))
  }

  function PlanRows(user: string, plans: seq<Plan>): (r: seq<PlanRow>)
    ensures |r| == |plans|
    ensures forall i :: 0 <= i < |plans| ==> r[i] == PlanToRow(user, plans[i])
  {
    seq(|plans|, i requires 0 <= i < |plans| => PlanToRow(user, plans[i]))
  }

  /** `saveTestPlans(plans)`: an upsert without a conflict column, whose
      rows carry no primary key, so every accepted write adds rows. */
  function SaveTestPlans(db: Db, user: Option<string>, plans: seq<Plan>, dbError: Option<Exn>): (r: Outcome)
    ensures user.None? ==> r == Outcome(db, Some(NOT_AUTHENTICATED), false)
    ensures |plans| == 0 ==> !r.called && (user.Some? ==> r.thrown.None?)
    ensures r.thrown.None? && user.Some? ==>
      r.db == db.(plans := db.plans + PlanRows(user.value, plans))
    ensures r.thrown.Some? ==> r.db == db
  {
    var rows := if user.Some? then PlanRows(user.value, plans) else [];
    Write(db, user, |plans| == 0, dbError, db.(plans := db.plans + rows))
  }

  /** `saveApiCollection(c)`: always one inserted row, no emptiness
      check. */
  function SaveApiCollection(db: Db, user: Option<string>, c: Collection, dbError: Option<Exn>): (r: Outcome)
    ensures user.None? ==> r == Outcome(db, Some(NOT_AUTHENTICATED), false)
    ensures user.Some? ==> r.called && r.thrown == dbError
    ensures r.thrown.None? && user.Some? ==>
      r.db == db.(collections := db.collections + [CollectionToRow(user.value, c)])
    ensures r.thrown.Some? ==> r.db == db
  {
    var rows := if user.Some? then [CollectionToRow(user.value, c)] else [];
    Write(db, user, false, dbError, db.(collections := db.collections + rows))
  }

  /** The row `updateApiCollection` addresses: the user's own, with the
      collection's id (SQL equality, so a missing id addresses nothing). */
  predicate Addressed(row: CollectionRow, user: string, id: JsValue) {
    row.userId == user && RowKey(user, id).Some? && row.collectionId == id
  }

  function UpdateCollections(table: seq<CollectionRow>, user: string, c: Collection): (r: seq<CollectionRow>)
    ensures |r| == |table|
    ensures forall i :: 0 <= i < |table| && !Addressed(table[i], user, c.id) ==> r[i] == table[i]
    ensures forall i :: 0 <= i < |table| && Addressed(table[i], user, c.id) && c.name.Some? ==>
      r[i] == table[i].(name := c.name, requests := Or(c.requests, EMPTY_LIST))
    ensures forall i :: 0 <= i < |table| && Addressed(table[i], user, c.id) && c.name.None? ==>
      r[i] == table[i].(requests := Or(c.requests, EMPTY_LIST))
  {
    seq(|table|, i requires 0 <= i < |table| =>
      if Addressed(table[i], user, c.id) then
        table[i].(name := if c.name.Some? then c.name else table[i].name, requests := Or(c.requests, EMPTY_LIST))
      else table[i])
  }

  /** `updateApiCollection(c)`: rewrites the name (kept when it is
      `undefined`, which the request body drops) and requests of the
      addressed rows; their owner and id stay. */
  function UpdateApiCollection(db: Db, user: Option<string>, c: Collection, dbError: Option<Exn>): (r: Outcome)
    ensures user.None? ==> r == Outcome(db, Some(NOT_AUTHENTICATED), false)
    ensures user.Some? ==> r.called && r.thrown == dbError
    ensures r.thrown.None? && user.Some? ==>
      r.db == db.(collections := UpdateCollections(db.collections, user.value, c))
    ensures r.thrown.Some? ==> r.db == db
  {
    var table := if user.Some? then UpdateCollections(db.collections, user.value, c) else db.collections;
    Write(db, user, false, dbError, db.(collections := table))
  }

  /** `!ids || ids.length === 0`: `None` stands for `null` or `undefined`. */
  predicate NoIds(ids: Option<seq<Json>>) {
    ids.None? || |ids.value| == 0
  }

  function IdList(ids: Option<seq<Json>>): seq<Json> {
    if ids.Some? then ids.value else []
  }

  /** `DELETE ... WHERE user_id = user AND <id column> IN (ids)`. */
  function DeleteTestCaseRows(table: seq<TestCaseRow>, user: string, ids: seq<Json>): seq<TestCaseRow> {
    Filter(table, (x: TestCaseRow) => !(x.userId == user && InIds(x.testId, ids)))
  }

  function DeleteStoryRows(table: seq<StoryRow>, user: string, ids: seq<Json>): seq<StoryRow> {
    Filter(table, (x: StoryRow) => !(x.userId == user && InIds(x.storyId, ids)))
  }

  function DeleteBugRows(table: seq<BugRow>, user: string, ids: seq<Json>): seq<BugRow> {
    Filter(table, (x: BugRow) => !(x.userId == user && InIds(x.bugId, ids)))
  }

  function DeletePlanRows(table: seq<PlanRow>, user: string, ids: seq<Json>): seq<PlanRow> {
    Filter(table, (x: PlanRow) => !(x.userId == user && InIds(x.planId, ids)))
  }

  /** `deleteTestCases(ids)`. */
  function DeleteTestCases(db: Db, user: Option<string>, ids: Option<seq<Json>>, dbError: Option<Exn>): (r: Outcome)
    ensures user.None? ==> r == Outcome(db, Some(NOT_AUTHENTICATED), false)
    ensures NoIds(ids) ==> !r.called && (user.Some? ==> r.thrown.None?)
    ensures r.db.stories == db.stories && r.db.bugs == db.bugs && r.db.plans == db.plans && r.db.collections == db.collections
    ensures forall x :: x in r.db.testCases <==>
      x in db.testCases && !(r.called && r.thrown.None? && x.userId == user.value && InIds(x.testId, IdList(ids)))
  {
    var table := if user.Some? then DeleteTestCaseRows(db.testCases, user.value, IdList(ids)) else db.testCases;
    Write(db, user, NoIds(ids), dbError, db.(testCases := table))
  }

  /** `deleteUserStories(ids)`. */
  function DeleteUserStories(db: Db, user: Option<string>, ids: Option<seq<Json>>, dbError: Option<Exn>): (r: Outcome)
    ensures user.None? ==> r == Outcome(db, Some(NOT_AUTHENTICATED), false)
    ensures NoIds(ids) ==> !r.called && (user.Some? ==> r.thrown.None?)
    ensures r.db.testCases == db.testCases && r.db.bugs == db.bugs && r.db.plans == db.plans && r.db.collections == db.collections
    ensures forall x :: x in r.db.stories <==>
      x in db.stories && !(r.called && r.thrown.None? && x.userId == user.value && InIds(x.storyId, IdList(ids)))
  {
    var table := if user.Some? then DeleteStoryRows(db.stories, user.value, IdList(ids)) else db.stories;
    Write(db, user, NoIds(ids), dbError, db.(stories := table))
  }

  /** `deleteBugs(ids)`. */
  function DeleteBugs(db: Db, user: Option<string>, ids: Option<seq<Json>>, dbError: Option<Exn>): (r: Outcome)
    ensures user.None? ==> r == Outcome(db, Some(NOT_AUTHENTICATED), false)
    ensures NoIds(ids) ==> !r.called && (user.Some? ==> r.thrown.None?)
    ensures r.db.testCases == db.testCases && r.db.stories == db.stories && r.db.plans == db.plans && r.db.collections == db.collections
    ensures forall x :: x in r.db.bugs <==>
      x in db.bugs && !(r.called && r.thrown.None? && x.userId == user.value && InIds(x.bugId, IdList(ids)))
  {
    var table := if user.Some? then DeleteBugRows(db.bugs, user.value, IdList(ids)) else db.bugs;
    Write(db, user, NoIds(ids), dbError, db.(bugs := table))
  }

  /** `deleteTestPlans(ids)`. */
  function DeleteTestPlans(db: Db, user: Option<string>, ids: Option<seq<Json>>, dbError: Option<Exn>): (r: Outcome)
    ensures user.None? ==> r == Outcome(db, Some(NOT_AUTHENTICATED), false)
    ensures NoIds(ids) ==> !r.called && (user.Some? ==> r.thrown.None?)
    ensures r.db.testCases == db.testCases && r.db.stories == db.stories && r.db.bugs == db.bugs && r.db.collections == db.collections
    ensures forall x :: x in r.db.plans <==>
      x in db.plans && !(r.called && r.thrown.None? && x.userId == user.value && InIds(x.planId, IdList(ids)))
  {
    var table := if user.Some? then DeletePlanRows(db.plans, user.value, IdList(ids)) else db.plans;
    Write(db, user, NoIds(ids), dbError, db.(plans := table))
  }

  // ---------------------------------------------------------------------
  // Properties of the service
  // ---------------------------------------------------------------------

  /** A delete never touches another user's rows. */
  lemma DeleteSparesOthers(db: Db, user: Option<string>, ids: Option<seq<Json>>, dbError: Option<Exn>, x: TestCaseRow)
    requires x in db.testCases && (user.None? || x.userId != user.value)
    ensures x in DeleteTestCases(db, user, ids, dbError).db.testCases
  {
  }

  /** Saving a story twice under the same id leaves exactly one row for
      it, holding what was saved last. */
  lemma SaveStoryTwice(db: Db, user: string, s1: Story, s2: Story)
    requires KeysUnique(db.stories, StoryKey)
    requires s1.id == s2.id && RowKey(user, s1.id).Some?
    ensures var after := SaveUserStories(SaveUserStories(db, Some(user), [s1], None).db, Some(user), [s2], None).db.stories;
      KeysUnique(after, StoryKey) &&
      StoryToRow(user, s2) in after &&
      forall i :: 0 <= i < |after| && StoryKey(after[i]) == RowKey(user, s1.id) ==> after[i] == StoryToRow(user, s2)
  {
    var r1 := StoryToRow(user, s1);
    var r2 := StoryToRow(user, s2);
    var mid := SaveUserStories(db, Some(user), [s1], None).db.stories;
    assert StoryRows(user, [s1]) == [r1];
    UpsertSingle(db.stories, r1, StoryKey);
    UpsertOneUnique(db.stories, r1, StoryKey);
    var after := SaveUserStories(SaveUserStories(db, Some(user), [s1], None).db, Some(user), [s2], None).db.stories;
    assert StoryRows(user, [s2]) == [r2];
    UpsertSingle(mid, r2, StoryKey);
    UpsertOneUnique(mid, r2, StoryKey);
  }

  /** Saving the same test case twice stores it twice: the insert never
      replaces. */
  lemma SaveTestCaseTwice(db: Db, user: string, tc: TestCase, now: string)
    ensures var after := SaveTestCases(SaveTestCases(db, Some(user), [tc], now, None).db, Some(user), [tc], now, None).db;
      after.testCases == db.testCases + [TestCaseToRow(user, tc, now), TestCaseToRow(user, tc, now)]
  {
    assert TestCaseRows(user, [tc], now) == [TestCaseToRow(user, tc, now)];
  }

  // ---------------------------------------------------------------------
  // Loading into the store
  // ---------------------------------------------------------------------

  function TestCaseObject(tc: TestCase): Obj {
    Literal([("id", tc.id), ("category", tc.category), ("title", tc.title), ("priority", tc.priority),
      ("preconditions", tc.preconditions), ("steps", tc.steps), ("expectedResult", tc.expectedResult),
      ("tags", tc.tags), ("estimatedTimeMinutes", tc.estimatedTimeMinutes),
      ("scenarioTitle", tc.scenarioTitle), ("epic", tc.epic), ("generatedAt", tc.generatedAt)])
  }

  function StoryObject(s: Story): Obj {
    Literal([("id", s.id), ("title", s.title), ("description", s.description),
      ("acceptanceCriteria", s.acceptanceCriteria), ("priority", s.priority), ("epic", s.epic),
      ("tags", s.tags), ("status", s.status)])
  }

  function BugObject(b: Bug): Obj {
    Literal([("id", b.id), ("title", b.title), ("description", b.description),
      ("stepsToReproduce", b.stepsToReproduce), ("severity", b.severity), ("priority", b.priority),
      ("environment", b.environment), ("tags", b.tags), ("status", b.status)])
  }

  function PlanObject(p: Plan): Obj {
    Literal([("id", p.id), ("name", p.name), ("description", p.description),
      ("testCases", p.testCases), ("status", p.status), ("metadata", p.metadata)])
  }

  function CollectionObject(c: Collection): Obj {
    Literal([("id", c.id), ("name", c.name), ("requests", c.requests)])
  }

  /** What one read returned: the rows (`data || []` leaves a missing
      result as an empty table), or the error the service threw. */
  datatype Read<R> = Rows(data: Option<seq<R>>) | ReadFailed(error: Exn)

  /** The five reads the loader awaits together. */
  datatype Fetched = Fetched(
    testCases: Read<TestCaseRow>, stories: Read<StoryRow>, bugs: Read<BugRow>,
    plans: Read<PlanRow>, collections: Read<CollectionRow>)

  function OrEmpty<R>(read: Read<R>): seq<R>
    requires read.Rows?
  {
    if read.data.Some? then read.data.value else []
  }

  /** Every read succeeded; `Promise.all` rejects on the first that
      failed. */
  predicate AllRead(f: Fetched) {
    f.testCases.Rows? && f.stories.Rows? && f.bugs.Rows? && f.plans.Rows? && f.collections.Rows?
  }

  /** The record a row loads as, for each table. */
  function TestCaseRecord(row: TestCaseRow): Obj { TestCaseObject(LoadTestCase(row)) }
  function StoryRecord(row: StoryRow): Obj { StoryObject(LoadStory(row)) }
  function BugRecord(row: BugRow): Obj { BugObject(LoadBug(row)) }
  function PlanRecord(row: PlanRow): Obj { PlanObject(LoadPlan(row)) }
  function CollectionRecord(row: CollectionRow): Obj { CollectionObject(LoadCollection(row)) }

  /** `items` holds one record per row, in the order of the rows. */
  predicate Carries<R>(items: seq<Obj>, rows: seq<R>, load: R -> Obj) {
    |items| == |rows| && forall i :: 0 <= i < |rows| ==> items[i] == load(rows[i])
  }

  function Records<R>(rows: seq<R>, load: R -> Obj): (r: seq<Obj>)
    ensures Carries(r, rows, load)
  {
    seq(|rows|, i requires 0 <= i < |rows| => load(rows[i]))
  }

  /** The `SET_*` actions the loader dispatches: none when a read failed
      (the error is caught and logged), else the five list actions in
      order, each carrying one record per row read, in the order read. */
  function LoadActions(f: Fetched): (r: seq<AppState.Action>)
    ensures !AllRead(f) <==> r == []
    ensures AllRead(f) ==> |r| == 5
    ensures AllRead(f) ==> r[0].SetTestCases? && Carries(r[0].items, OrEmpty(f.testCases), TestCaseRecord)
    ensures AllRead(f) ==> r[1].SetUserStories? && Carries(r[1].items, OrEmpty(f.stories), StoryRecord)
    ensures AllRead(f) ==> r[2].SetBugs? && Carries(r[2].items, OrEmpty(f.bugs), BugRecord)
    ensures AllRead(f) ==> r[3].SetTestPlans? && Carries(r[3].items, OrEmpty(f.plans), PlanRecord)
    ensures AllRead(f) ==> r[4].SetApiCollections? && Carries(r[4].items, OrEmpty(f.collections), CollectionRecord)
  {
    if !AllRead(f) then []
    else
      [AppState.SetTestCases(Records(OrEmpty(f.testCases), TestCaseRecord)),
       AppState.SetUserStories(Records(OrEmpty(f.stories), StoryRecord)),
       AppState.SetBugs(Records(OrEmpty(f.bugs), BugRecord)),
       AppState.SetTestPlans(Records(OrEmpty(f.plans), PlanRecord)),
       AppState.SetApiCollections(Records(OrEmpty(f.collections), CollectionRecord))]
  }

  /** Test cases saved with every property set come back from the next
      load as the very records that were saved, in the order read. */
  lemma ReloadedTestCases(f: Fetched, user: string, cases: seq<TestCase>, now: string)
    requires AllRead(f) && f.testCases == Rows(Some(TestCaseRows(user, cases, now)))
    requires forall i :: 0 <= i < |cases| ==> AllTruthy(cases[i])
    ensures LoadActions(f)[0] == AppState.SetTestCases(seq(|cases|, i requires 0 <= i < |cases| => TestCaseObject(cases[i])))
  {
    var items := LoadActions(f)[0].items;
    forall i | 0 <= i < |cases| ensures items[i] == TestCaseObject(cases[i]) {
      TestCaseRoundTrip(user, cases[i], now);
    }
  }

  /** Stories saved with every optional property set come back from the
      next load in the order read, unchanged except that an id or title
      left `undefined` comes back `null`. */
  lemma ReloadedStories(f: Fetched, user: string, stories: seq<Story>)
    requires AllRead(f) && f.stories == Rows(Some(StoryRows(user, stories)))
    requires forall i :: 0 <= i < |stories| ==>
      Truthy(stories[i].description) && Truthy(stories[i].acceptanceCriteria) && Truthy(stories[i].priority) &&
      Truthy(stories[i].epic) && Truthy(stories[i].tags) && Truthy(stories[i].status)
    ensures LoadActions(f)[1] ==
      AppState.SetUserStories(seq(|stories|, i requires 0 <= i < |stories| =>
        StoryObject(stories[i].(id := Stored(stories[i].id), title := Stored(stories[i].title)))))
  {
    var items := LoadActions(f)[1].items;
    forall i | 0 <= i < |stories|
      ensures items[i] == StoryObject(stories[i].(id := Stored(stories[i].id), title := Stored(stories[i].title)))
    {
      StoryRoundTrip(user, stories[i]);
    }
  }
}

=== FILE: reset_password.dfy ===
/** The reset-password page: reading the recovery tokens from the link,
    establishing a session from them (or finding an existing one), and
    submitting the new password. The auth service's answers are
    parameters. */
module ResetPassword {
  import opened Wrappers
  import opened Text
  import opened Json
  import Query
  import Auth

  // ---------------------------------------------------------------------
  // Tokens
  // ---------------------------------------------------------------------

  const MARKER := "#access_token="

  /** The query the tokens are read from: the text after the first
      `#access_token=` of the hash, else of the full URL, up to the next
      one, with `access_token=` put back in front; empty when neither has
      the marker. */
  function TokenPart(hash: string, url: string): (r: string)
    ensures !Contains(hash, MARKER) && !Contains(url, MARKER) ==> r == ""
    ensures Contains(hash, MARKER) || Contains(url, MARKER) ==> "access_token=" <= r
  {
    var source := if Contains(hash, MARKER) then hash else url;
    if !Contains(source, MARKER) then ""
    else
      var pieces := Split(source, MARKER);
      assert |pieces| >= 2 by {
        JoinSplit(source, MARKER);
        if |pieces| == 1 {
          SplitPiecesFree(source, MARKER);
        }
      }
      "access_token=" + pieces[1]
  }

  /** `a + sep + b` splits at `sep` into `a` and `b` when no occurrence
      starts inside `a` and `b` has none. */
  lemma SplitOnce(a: string, sep: string, b: string)
    requires |sep| > 0
    requires forall j :: 0 <= j < |a| ==> !OccursAt(a + sep + b, sep, j)
    requires !Contains(b, sep)
    ensures Contains(a + sep + b, sep)
    ensures Split(a + sep + b, sep) == [a, b]
  {
    var s := a + sep + b;
    assert s[|a|..|a| + |sep|] == sep;
    assert OccursAt(s, sep, |a|);
    assert Find(s, sep) == Some(|a|);
    assert s[|a| + |sep|..] == b;
    assert Split(b, sep) == [b];
    assert s[..|a|] == a;
  }

  /** In a link `#/reset-password#access_token=…` no marker starts inside
      the route. */
  lemma RouteHasNoMarker(b: string)
    ensures forall j :: 0 <= j < |"#/reset-password"| ==> !OccursAt("#/reset-password" + MARKER + b, MARKER, j)
  {
    var a := "#/reset-password";
    var s := a + MARKER + b;
    forall j | 0 <= j < |a| ensures !OccursAt(s, MARKER, j) {
      if j == 0 {
        assert s[0..|MARKER|][1] == s[1] == '/' != MARKER[1];
      } else {
        assert s[j..j + |MARKER|][0] == s[j] == a[j] != '#';
      }
    }
  }

  /** Text without `#` holds no marker. */
  lemma NoMarker(b: string)
    requires '#' !in b
    ensures !Contains(b, MARKER)
  {
    forall j | 0 <= j <= |b| ensures !OccursAt(b, MARKER, j) {
      if j + |MARKER| <= |b| {
        assert b[j..j + |MARKER|][0] == b[j] != '#';
      }
    }
  }

  /** For a reset link `#/reset-password#access_token=<rest>` this page
      and the auth context read their tokens from the same text. */
  lemma SameTokensAsContext(rest: string, url: string)
    requires '#' !in rest
    ensures var hash := "#/reset-password" + MARKER + rest;
      TokenPart(hash, url) == Auth.TokenSegment(hash) == "access_token=" + rest
  {
    RouteHasNoMarker(rest);
    NoMarker(rest);
    SplitOnce("#/reset-password", MARKER, rest);
    LinkShape(rest);
    Auth.RecoveryLinkSegment("access_token=" + rest);
  }

  /** The reset link read as the route, a `#`, and the token text. */
  lemma LinkShape(rest: string)
    ensures "#/reset-password" + MARKER + rest == "#/reset-password#" + ("access_token=" + rest)
  {
    var a := "#/reset-password";
    assert a + MARKER == "#/reset-password#" + "access_token=";
    assert (a + MARKER) + rest == ("#/reset-password#" + "access_token=") + rest;
  }

  /** The parameters read from the token text; none at all when neither
      the hash nor the URL carries the marker. */
  function Tokens(hash: string, url: string): (r: Auth.Tokens)
    ensures var q := TokenPart(hash, url);
      r == Auth.Tokens(Query.Get(q, "access_token"), Query.Get(q, "refresh_token"), Query.Get(q, "type"))
    ensures !Contains(hash, MARKER) && !Contains(url, MARKER) ==>
      r.accessToken.None? && r.refreshToken.None? && r.kind.None?
  {
    var q := TokenPart(hash, url);
    Query.GetEmpty("access_token");
    Query.GetEmpty("refresh_token");
    Query.GetEmpty("type");
    Auth.Tokens(Query.Get(q, "access_token"), Query.Get(q, "refresh_token"), Query.Get(q, "type"))
  }

  /** `accessToken && refreshToken && type === 'recovery'`: a missing or
      empty token does not count. */
  predicate AttemptsSession(t: Auth.Tokens) {
    t.accessToken.Some? && t.accessToken.value != "" &&
    t.refreshToken.Some? && t.refreshToken.value != "" &&
    t.kind == Some("recovery")
  }

  // ---------------------------------------------------------------------
  // Initialisation
  // ---------------------------------------------------------------------

  const INVALID_LINK := "Invalid or expired reset link. Please request a new one."
  const NO_TOKEN := "No valid reset token found. Please request a new password reset link."
  const INIT_FAILED := "An error occurred. Please try again."
  const UNABLE := "Unable to verify reset link"

  /** The page after initialisation; `cleanedHash` is the hash the URL is
      rewritten to. */
  datatype Init = Init(sessionReady: bool, error: string, initializing: bool,
                       setSessionCalled: bool, cleanedHash: Option<string>)

  /** The service's answers: `setSession` gives `{ data: { session }, error }`
      as the pair (session, error), `getSession` the existing session; `Err`
      when the call throws. */
  datatype Service = Service(setSession: Result<(JsValue, JsValue), Exn>, getSession: Result<JsValue, Exn>)

  function Initialize(hash: string, url: string, service: Service): (r: Init)
    ensures !r.initializing
    ensures r.setSessionCalled <==> AttemptsSession(Tokens(hash, url))
    ensures r.sessionReady <==>
      (AttemptsSession(Tokens(hash, url)) && service.setSession.Ok? && Truthy(service.setSession.value.0)) ||
      (!AttemptsSession(Tokens(hash, url)) && service.getSession.Ok? && Truthy(service.getSession.value))
    ensures r.cleanedHash.Some? <==> r.setSessionCalled && r.sessionReady
    ensures r.sessionReady ==> r.error == ""
    ensures !r.setSessionCalled && !r.sessionReady ==> r.error != ""
  {
    if AttemptsSession(Tokens(hash, url)) then
      match service.setSession
      case Err(_) => Init(false, INIT_FAILED, false, true, None)
      case Ok((session, error)) =>
        if Truthy(session) then Init(true, "", false, true, Some("#/reset-password"))
        else if Truthy(error) then Init(false, INVALID_LINK, false, true, None)
        else Init(false, "", false, true, None)
    else
      match service.getSession
      case Err(_) => Init(false, INIT_FAILED, false, false, None)
      case Ok(session) =>
        if Truthy(session) then Init(true, "", false, false, None)
        else Init(false, NO_TOKEN, false, false, None)
  }

  datatype Screen = Verifying | Problem(text: string) | PasswordForm

  /** What the page renders. */
  function View(st: Init): (r: Screen)
    ensures r.PasswordForm? <==> !st.initializing && st.sessionReady
    ensures r.Problem? ==> r.text != ""
  {
    if st.initializing then Verifying
    else if !st.sessionReady then Problem(if st.error == "" then UNABLE else st.error)
    else PasswordForm
  }

  /** The form appears exactly when a session was set from the link's
      tokens or already existed; otherwise some reason shows. */
  lemma FormIffSession(hash: string, url: string, service: Service)
    ensures var v := View(Initialize(hash, url, service));
      (v.PasswordForm? <==>
        (AttemptsSession(Tokens(hash, url)) && service.setSession.Ok? && Truthy(service.setSession.value.0)) ||
        (!AttemptsSession(Tokens(hash, url)) && service.getSession.Ok? && Truthy(service.getSession.value))) &&
      !v.Verifying?
  {
  }

  // ---------------------------------------------------------------------
  // Submitting
  // ---------------------------------------------------------------------

  const UPDATED := "Password updated successfully! Redirecting to login..."
  const UPDATE_FAILED := "Failed to update password"

  /** The delay before the page signs out and goes to the login route. */
  const SIGN_OUT_DELAY := 2000

  datatype Submitted = Submitted(error: string, message: string, loading: bool, called: bool, later: Option<(nat, string)>)

  /** `handleSubmit()` with the update's error `updateError`: checks the
      passwords first and sends nothing when they fail; on success signs
      out and goes to `#/login` after the delay. */
  function Submit(newPassword: string, confirm: string, updateError: Option<Exn>): (r: Submitted)
    ensures !r.loading
    ensures r.called <==> Auth.PasswordProblem(newPassword, confirm).None?
    ensures !r.called ==> r == Submitted(Auth.PasswordProblem(newPassword, confirm).value, "", false, false, None)
    ensures r.later.Some? <==> r.called && updateError.None?
    ensures r.later.Some? ==> r.later.value == (SIGN_OUT_DELAY, "#/login") && r.message == UPDATED && r.error == ""
    ensures r.called && updateError.Some? ==> r.error != "" && r.message == ""
  {
    match Auth.PasswordProblem(newPassword, confirm)
    case Some(problem) => Submitted(problem, "", false, false, None)
    case None =>
      match updateError
      case Some(e) => Submitted(if e.message == "" then UPDATE_FAILED else e.message, "", false, true, None)
      case None => Submitted("", UPDATED, false, true, Some((SIGN_OUT_DELAY, "#/login")))
  }

  /** A mismatch is what the page reports even when the password is also
      too short. */
  lemma MismatchFirst(newPassword: string, confirm: string, updateError: Option<Exn>)
    requires newPassword != confirm && |newPassword| < Auth.MIN_PASSWORD
    ensures Submit(newPassword, confirm, updateError).error == Auth.MISMATCH
  {
  }
}

=== FILE: router.dfy ===
/** The hash router: the path read from the URL's hash, `navigate`, and
    the route table with its fallback to the home page. */
module Router {
  import opened Wrappers
  import opened Text
  import Json

  datatype Page =
    | Home | Login | ResetPassword | TestCases | TestScripts | AdaAuditor
    | ApiTesting | TestPlans | Stlc | Library | Settings

  /** The route table, in the order it is written. */
  const ROUTES: seq<(string, Page)> := [
    ("", Home),
    ("login", Login),
    ("reset-password", ResetPassword),
    ("test-cases", TestCases),
    ("test-scripts", TestScripts),
    ("ada-auditor", AdaAuditor),
    ("api-testing", ApiTesting),
    ("test-plans", TestPlans),
    ("stlc", Stlc),
    ("library", Library),
    ("settings", Settings)
  ]

  /** The own entry of the route table under `path`. */
  function Lookup(path: string): (r: Option<Page>)
    ensures r.Some? <==> exists i :: 0 <= i < |ROUTES| && ROUTES[i].0 == path
    ensures r.Some? ==> exists i :: 0 <= i < |ROUTES| && ROUTES[i] == (path, r.value)
  {
    LookupIn(ROUTES, path)
  }

  function LookupIn(table: seq<(string, Page)>, path: string): (r: Option<Page>)
    ensures r.Some? <==> exists i :: 0 <= i < |table| && table[i].0 == path
    ensures r.Some? ==> exists i :: 0 <= i < |table| && table[i] == (path, r.value)
  {
    if |table| == 0 then None
    else if table[0].0 == path then Some(table[0].1)
    else
      var r := LookupIn(table[1..], path);
      assert forall i :: 1 <= i < |table| ==> table[i] == table[1..][i - 1];
      r
  }

  /** The table has eleven routes, each under its own name, and every
      page has exactly one route. */
  lemma RouteTableExact()
    ensures |ROUTES| == 11
    ensures forall i, j :: 0 <= i < j < |ROUTES| ==> ROUTES[i].0 != ROUTES[j].0 && ROUTES[i].1 != ROUTES[j].1
    ensures forall p: Page :: RouteIndex(p) < |ROUTES| && ROUTES[RouteIndex(p)].1 == p
  {
  }

  /** Where a page's route sits in the table. */
  function RouteIndex(p: Page): nat {
    match p
    case Home => 0 case Login => 1 case ResetPassword => 2 case TestCases => 3
    case TestScripts => 4 case AdaAuditor => 5 case ApiTesting => 6 case TestPlans => 7
    case Stlc => 8 case Library => 9 case Settings => 10
  }

  // ---------------------------------------------------------------------
  // The component rendered
  // ---------------------------------------------------------------------

  /** What `routes[path]` holds: a page, an inherited member of
      `Object.prototype`, or nothing. */
  datatype Rendered = Route(page: Page) | Inherited(name: string)

  /** `routes[currentPath] || Home` as written: a property read on an
      object literal also finds its inherited members, which are truthy. */
  function ComponentAsWritten(path: string): (r: Rendered)
    ensures Lookup(path).Some? ==> r == Route(Lookup(path).value)
    ensures Lookup(path).None? && path in Json.PROTOTYPE_MEMBERS ==> r == Inherited(path)
    ensures Lookup(path).None? && path !in Json.PROTOTYPE_MEMBERS ==> r == Route(Home)
  {
    match Lookup(path)
    case Some(p) => Route(p)
    case None => if path in Json.PROTOTYPE_MEMBERS then Inherited(path) else Route(Home)
  }

  /** The hash `#/toString` does not fall back to the home page as
      written: it renders `Object.prototype.toString`. */
  lemma InheritedMemberRendered()
    ensures ComponentAsWritten(HashPath("#/toString")) == Inherited("toString")
  {
    assert HashPath("#/toString") == "toString";
    assert forall i :: 0 <= i < |ROUTES| ==> ROUTES[i].0 != "toString";
  }

  /** The page rendered for a path: its own route, otherwise home. */
  function Component(path: string): (r: Page)
    ensures Lookup(path).Some? ==> r == Lookup(path).value
    ensures Lookup(path).None? ==> r == Home
  {
    match Lookup(path)
    case Some(p) => p
    case None => Home
  }

  /** Home is rendered exactly for the empty path and for paths with no
      route. */
  lemma HomeFallback(path: string)
    ensures Component(path) == Home <==> path == "" || forall i :: 0 <= i < |ROUTES| ==> ROUTES[i].0 != path
  {
    if Component(path) == Home && Lookup(path).Some? {
      var i :| 0 <= i < |ROUTES| && ROUTES[i] == (path, Home);
      RouteTableExact();
      assert i == 0;
    }
    if path == "" {
      assert ROUTES[0] == ("", Home);
    }
  }

  /** Every path the table does not name, inherited member or not,
      renders home. */
  lemma NoInheritedRoute(path: string)
    requires path in Json.PROTOTYPE_MEMBERS
    ensures Component(path) == Home
  {
    assert |path| >= 7 && (path[0] == '_' || |path| == 7 || |path| >= 13 || path == "toString" || path == "constructor");
    forall i | 0 <= i < |ROUTES| ensures ROUTES[i].0 != path {
      if |path| == 7 {
        assert path == "valueOf";
      }
    }
  }

  // ---------------------------------------------------------------------
  // Hash paths
  // ---------------------------------------------------------------------

  /** `getHashPath()`: the hash without its first character (the `#`) and
      then without one leading `/`. */
  function HashPath(hash: string): (r: string)
    ensures |hash| >= 2 && hash[1] == '/' ==> r == hash[2..]
    ensures (|hash| < 2 || hash[1] != '/') ==> r == Drop(hash, 1)
  {
    var h := Drop(hash, 1);
    if |h| > 0 && h[0] == '/' then h[1..] else h
  }

  /** `navigate(path)`: the hash written, with a `/` put in front when
      missing. */
  function Navigate(path: string): (r: string)
    ensures |r| > 0 && r[0] == '/'
    ensures "/" <= path ==> r == path
  {
    if |path| > 0 && path[0] == '/' then path else "/" + path
  }

  /** The hash a browser reports after `location.hash = h`. */
  function Hash(h: string): string {
    "#" + h
  }

  /** `navigate('/x')` and `navigate('x')` go to the same place. */
  lemma NavigateSlashOptional(x: string)
    requires |x| == 0 || x[0] != '/'
    ensures Navigate("/" + x) == Navigate(x)
  {
  }

  /** Navigating and reading the path back gives the path without its
      leading `/`. */
  lemma NavigateRoundTrip(path: string)
    ensures HashPath(Hash(Navigate(path))) == if "/" <= path then path[1..] else path
  {
    var n := Navigate(path);
    assert Hash(n)[1..] == n;
    if "/" <= path {
      assert n == path;
    } else {
      assert n == "/" + path;
      assert n[1..] == path;
    }
  }

  /** Navigating to a route's name renders its page. */
  lemma NavigateRenders(i: nat)
    requires i < |ROUTES|
    ensures Component(HashPath(Hash(Navigate(ROUTES[i].0)))) == ROUTES[i].1
  {
    var name := ROUTES[i].0;
    assert !("/" <= name) by {
      assert name == "" || name[0] != '/';
    }
    NavigateRoundTrip(name);
    RouteTableExact();
    var p := Lookup(name).value;
    var j :| 0 <= j < |ROUTES| && ROUTES[j] == (name, p);
    assert i == j;
  }
}

=== FILE: script_gen.dfy ===
/** The test script generator page: the framework and language choice,
    collecting the streamed script, stopping a stream, and the file
    extension of the download. */
module ScriptGenerator {
  import opened Wrappers
  import opened Text
  import opened Json
  import AppState
  import ApiClient
  import EventStream

  datatype Framework = Framework(id: string, name: string, languages: seq<string>)

  const FRAMEWORKS: seq<Framework> := [
    Framework("playwright", "Playwright", ["typescript", "python", "java"]),
    Framework("cypress", "Cypress", ["typescript", "javascript"]),
    Framework("selenium", "Selenium", ["python", "java", "javascript"]),
    Framework("robot", "Robot Framework", ["robot"])
  ]

  const DEFAULT_LANGUAGE := "typescript"

  datatype Config = Config(framework: string, language: string, browser: string,
    headless: bool, useFixtures: bool, includeTestData: bool)

  const INITIAL_CONFIG: Config := Config("playwright", "typescript", "chromium", true, true, false)

  // ---------------------------------------------------------------------
  // Framework and language
  // ---------------------------------------------------------------------

  /** `frameworks.find(f => f.id === id)`. */
  function FindFramework(id: string): (r: Option<Framework>)
    ensures r.Some? ==> r.value in FRAMEWORKS && r.value.id == id
    ensures r.None? ==> forall f :: f in FRAMEWORKS ==> f.id != id
  {
    if id == "playwright" then Some(FRAMEWORKS[0])
    else if id == "cypress" then Some(FRAMEWORKS[1])
    else if id == "selenium" then Some(FRAMEWORKS[2])
    else if id == "robot" then Some(FRAMEWORKS[3])
    else None
  }

  /** Choosing a framework: the language resets to the framework's first
      one, or to TypeScript for an unknown framework; the rest stays. */
  function ChooseFramework(config: Config, id: string): (r: Config)
    ensures r == config.(framework := id, language := r.language)
    ensures FindFramework(id).Some? ==> r.language == FindFramework(id).value.languages[0]
    ensures FindFramework(id).None? ==> r.language == DEFAULT_LANGUAGE
  {
    var fw := FindFramework(id);
    config.(framework := id, language := if fw.Some? && fw.value.languages[0] != "" then fw.value.languages[0] else DEFAULT_LANGUAGE)
  }

  /** After choosing a known framework the language is one it offers. */
  lemma ChosenLanguageOffered(config: Config, id: string)
    requires FindFramework(id).Some?
    ensures ChooseFramework(config, id).language in FindFramework(id).value.languages
  {
  }

  /** `extensions[language] || 'txt'`. */
  function Extension(language: string): (ext: string)
    ensures ext != ""
  {
    if language == "typescript" then "ts"
    else if language == "javascript" then "js"
    else if language == "python" then "py"
    else if language == "java" then "java"
    else if language == "robot" then "robot"
    else "txt"
  }

  /** Every language a framework offers downloads under its own
      extension, never the plain-text fallback; anything else falls back. */
  lemma OfferedLanguagesHaveExtensions(language: string)
    ensures (exists f :: f in FRAMEWORKS && language in f.languages) <==> Extension(language) != "txt"
  {
    if Extension(language) != "txt" {
      var f := if language == "typescript" || language == "java" || language == "python" then FRAMEWORKS[0]
        else if language == "javascript" then FRAMEWORKS[1] else FRAMEWORKS[3];
      assert f in FRAMEWORKS && language in f.languages;
    }
  }

  // ---------------------------------------------------------------------
  // Generating
  // ---------------------------------------------------------------------

  /** The body sent to the script stream; `testData` only when asked
      for. */
  function StreamInput(config: Config, scenario: string, testData: string): (r: Obj)
    ensures HasKey(r, "testData") <==> config.includeTestData
    ensures Get(r, "scenario") == Str(scenario)
  {
    var pairs := [("framework", Str(config.framework)), ("language", Str(config.language)),
      ("browser", Str(config.browser)), ("headless", Some(JBool(config.headless))),
      ("useFixtures", Some(JBool(config.useFixtures))), ("scenario", Str(scenario)),
      ("testData", if config.includeTestData then Str(testData) else None)];
    LiteralGet(pairs, 5);
    LiteralGet(pairs, 6);
    Literal(pairs)
  }

  /** The code collected from the fragments: each fragment's truthy `text`
      appended in order; reading `text` of a `null` fragment throws, and
      what was collected before stays. */
  function Collect(code: string, fragments: seq<Json>): (r: (string, Option<Exn>))
    ensures r.1.None? <==> forall k :: 0 <= k < |fragments| ==> fragments[k] != JNull
    ensures code <= r.0
    decreases |fragments|
  {
    if |fragments| == 0 then (code, None)
    else if fragments[0] == JNull then (code, Some(TypeError("Cannot read properties of null (reading 'text')")))
    else
      var text := Prop(Some(fragments[0]), "text");
      var r := Collect(if Truthy(text) then code + ToJsString(text) else code, fragments[1..]);
      assert forall k :: 1 <= k < |fragments| ==> fragments[k] == fragments[1..][k - 1];
      r
  }

  /** Fragments without a truthy `text`, such as `{error}` frames, add
      nothing. */
  lemma {:induction false} UntextedAddNothing(code: string, fragments: seq<Json>)
    requires forall k :: 0 <= k < |fragments| ==> fragments[k] != JNull && !Truthy(Prop(Some(fragments[k]), "text"))
    ensures Collect(code, fragments) == (code, None)
    decreases |fragments|
  {
    if |fragments| > 0 {
      UntextedAddNothing(code, fragments[1..]);
    }
  }

  /** Text fragments add up to their pieces put together. */
  lemma {:induction false} CollectTexts(code: string, pieces: seq<string>)
    requires forall k :: 0 <= k < |pieces| ==> pieces[k] != ""
    ensures Collect(code, EventStream.TextFragments(pieces)) == (code + EventStream.Concat(pieces), None)
    decreases |pieces|
  {
    if |pieces| > 0 {
      TextFragmentStep(code, pieces);
      CollectTexts(code + pieces[0], pieces[1..]);
      assert EventStream.Concat(pieces) == pieces[0] + EventStream.Concat(pieces[1..]);
      assert (code + pieces[0]) + EventStream.Concat(pieces[1..]) == code + (pieces[0] + EventStream.Concat(pieces[1..]));
    } else {
      assert code + "" == code;
    }
  }

  /** The first text fragment appends its piece. */
  lemma TextFragmentStep(code: string, pieces: seq<string>)
    requires |pieces| > 0 && pieces[0] != ""
    ensures Collect(code, EventStream.TextFragments(pieces))
            == Collect(code + pieces[0], EventStream.TextFragments(pieces[1..]))
  {
    var fr := EventStream.TextFragments(pieces);
    assert fr[1..] == EventStream.TextFragments(pieces[1..]);
    assert Get(fr[0].members, "text") == Str(pieces[0]);
    assert fr[0] != JNull && Truthy(Prop(Some(fr[0]), "text"));
    assert ToJsString(Prop(Some(fr[0]), "text")) == pieces[0];
  }

  /** What a generation did: the code shown, the toasts, and the stream
      registry afterwards; the streaming flag and request id are always
      cleared at the end. */
  datatype Generated = Generated(code: string, toasts: seq<AppState.Toast>, registry: ApiClient.Registry, streamed: bool)

  /** `handleGenerate()` at clock reading `now`, the stream answering
      with `f`; `controller` names the abort controller it registers. */
  function Generate(reg: ApiClient.Registry, scenario: string, now: nat, controller: nat,
                    f: ApiClient.StreamFetch, parse: string -> Result<Json, string>): (r: Generated)
    ensures IsBlank(scenario) ==> r == Generated("", [AppState.Toast("Please enter a test scenario", "warning")], reg, false)
    ensures !IsBlank(scenario) ==> r.streamed && r.registry == ApiClient.Unregister(reg, NatToString(now))
    ensures !IsBlank(scenario) ==> |r.toasts| <= 1
  {
    if IsBlank(scenario) then Generated("", [AppState.Toast("Please enter a test scenario", "warning")], reg, false)
    else
      var (result, after) := ApiClient.StreamRequest(reg, NatToString(now), controller, f, parse);
      var (code, thrown) := Collect("", result.fragments);
      Generated(code, Finish(result.end, thrown), after, true)
  }

  /** The toast a generation ends with: success when neither the stream
      nor the page threw, none for an abort, the message otherwise. */
  function Finish(end: ApiClient.StreamEnd, thrown: Option<Exn>): (r: seq<AppState.Toast>)
    ensures r == [] <==> thrown.None? && end.ThrewAbort?
    ensures r == [AppState.Toast("Script generated successfully", "success")] <==> thrown.None? && end.Returned?
  {
    if thrown.Some? then [AppState.Toast(thrown.value.message, "error")]
    else match end
      case Returned => [AppState.Toast("Script generated successfully", "success")]
      case ThrewAbort => []
      case Threw(m) => [AppState.Toast(m, "error")]
  }

  /** A script streamed in one read ends up on the page as the script
      itself, with the success toast. */
  lemma StreamedScriptShown(reg: ApiClient.Registry, scenario: string, now: nat, controller: nat,
                            script: string, parse: string -> Result<Json, string>)
    requires !IsBlank(scenario)
    requires forall v :: parse(Stringify(v)) == Ok(v)
    ensures var r := Generate(reg, scenario, now, controller,
      ApiClient.Streamed(200, "OK", "", [EventStream.ScriptBody(script)], ApiClient.Complete), parse);
      r.code == script && r.toasts == [AppState.Toast("Script generated successfully", "success")]
  {
    EventStream.ScriptStreamRoundTrip(script, parse);
    var pieces := EventStream.Chunks(script, EventStream.CHUNK_SIZE);
    CollectTexts("", pieces);
    EventStream.ChunksConcat(script, EventStream.CHUNK_SIZE);
  }

  /** A failed generation on the server sends one `{error}` frame and no
      `[DONE]`; the page shows no code and still reports success. */
  lemma ErrorFrameReportsSuccess(reg: ApiClient.Registry, scenario: string, now: nat, controller: nat,
                                 message: string, parse: string -> Result<Json, string>)
    requires !IsBlank(scenario)
    requires forall v :: parse(Stringify(v)) == Ok(v)
    ensures var r := Generate(reg, scenario, now, controller,
      ApiClient.Streamed(200, "OK", "", [EventStream.ErrorBody(message)], ApiClient.Complete), parse);
      r.code == "" && r.toasts == [AppState.Toast("Script generated successfully", "success")]
  {
    var fr := [JObj([("error", JStr(message))])];
    var f := ApiClient.Streamed(200, "OK", "", [EventStream.ErrorBody(message)], ApiClient.Complete);
    ErrorStream(reg, NatToString(now), controller, message, parse);
    GenerateReturned(reg, scenario, now, controller, f, parse, fr);
    ErrorFrameAddsNothing(message);
  }

  /** An `{error}` fragment has no `text` and adds nothing to the page. */
  lemma ErrorFrameAddsNothing(message: string)
    ensures Collect("", [JObj([("error", JStr(message))])]) == ("", None)
  {
    var fr := [JObj([("error", JStr(message))])];
    assert Prop(Some(fr[0]), "text") == None;
    UntextedAddNothing("", fr);
  }

  /** A stream that returns normally leaves on the page what its fragments
      add up to. */
  lemma GenerateReturned(reg: ApiClient.Registry, scenario: string, now: nat, controller: nat,
                         f: ApiClient.StreamFetch, parse: string -> Result<Json, string>, fragments: seq<Json>)
    requires !IsBlank(scenario)
    requires ApiClient.StreamRequest(reg, NatToString(now), controller, f, parse).0 == ApiClient.StreamResult(fragments, ApiClient.Returned)
    ensures var r := Generate(reg, scenario, now, controller, f, parse);
      r.code == Collect("", fragments).0 && r.toasts == Finish(ApiClient.Returned, Collect("", fragments).1)
  {
  }

  /** The client reads a lone `{error}` frame as that one fragment, and the
      stream returns normally. */
  lemma ErrorStream(reg: ApiClient.Registry, id: string, controller: nat, message: string,
                    parse: string -> Result<Json, string>)
    requires forall v :: parse(Stringify(v)) == Ok(v)
    ensures ApiClient.StreamRequest(reg, id, controller,
      ApiClient.Streamed(200, "OK", "", [EventStream.ErrorBody(message)], ApiClient.Complete), parse).0
      == ApiClient.StreamResult([JObj([("error", JStr(message))])], ApiClient.Returned)
  {
    var payloads := EventStream.AllPayloads([EventStream.ErrorBody(message)]);
    EventStream.ErrorBodyRoundTrip(message, parse);
    assert EventStream.UntilDone(payloads) == payloads;
  }

  /** `handleStop()`: with a request in flight its controller is aborted
      and forgotten and the toast says so; otherwise nothing happens. */
  function StopGeneration(reg: ApiClient.Registry, requestId: Option<string>): (r: (Option<nat>, ApiClient.Registry, seq<AppState.Toast>))
    ensures requestId.None? ==> r == (None, reg, [])
    ensures requestId.Some? ==> ((r.0, r.1) == ApiClient.Stop(reg, requestId.value) &&
      r.2 == [AppState.Toast("Generation stopped", "info")])
  {
    if requestId.None? then (None, reg, [])
    else
      var (aborted, after) := ApiClient.Stop(reg, requestId.value);
      (aborted, after, [AppState.Toast("Generation stopped", "info")])
  }

  /** A second stop of the same request aborts nothing more. */
  lemma StopTwice(reg: ApiClient.Registry, id: string)
    ensures StopGeneration(StopGeneration(reg, Some(id)).1, Some(id)).0 == None
  {
    ApiClient.StopIdempotent(reg, id);
  }
}

=== FILE: settings.dfy ===
/** The settings page: editing the local copy of the settings, the
    system prompts with their defaults, and saving to or restoring from
    the store. */
module Settings {
  import opened Wrappers
  import opened Text
  import opened Json
  import AppState

  // ---------------------------------------------------------------------
  // Default system prompts
  // ---------------------------------------------------------------------

  const PROMPT_PLAYWRIGHT :=
    "You are an expert Playwright test automation engineer. Generate production-ready test code following these best practices:\n" +
    "- Use page.getByRole, getByLabel, getByText for locators (prefer accessibility-based selectors)\n" +
    "- Include proper setup and teardown\n" +
    "- Add meaningful assertions with clear error messages\n" +
    "- Parameterize test data when applicable\n" +
    "- Include comments explaining complex logic\n" +
    "- Use async/await properly\n" +
    "- Handle waits appropriately (avoid arbitrary timeouts)"

  const PROMPT_CYPRESS :=
    "You are an expert Cypress test automation engineer. Generate production-ready test code following these best practices:\n" +
    "- Use cy.get with data-testid or accessibility selectors\n" +
    "- Chain commands properly\n" +
    "- Include proper beforeEach/afterEach hooks\n" +
    "- Add meaningful assertions\n" +
    "- Use fixtures for test data\n" +
    "- Handle async operations correctly\n" +
    "- Include comments for clarity"

  const PROMPT_SELENIUM :=
    "You are an expert Selenium test automation engineer. Generate production-ready test code following these best practices:\n" +
    "- Use explicit waits instead of implicit waits\n" +
    "- Implement Page Object Model pattern\n" +
    "- Use proper locator strategies (prefer ID, name, CSS over XPath)\n" +
    "- Include proper setup and teardown\n" +
    "- Add meaningful assertions\n" +
    "- Handle exceptions gracefully\n" +
    "- Include comments explaining the test flow"

  const PROMPT_ROBOT :=
    "You are an expert Robot Framework test automation engineer. Generate production-ready test code following these best practices:\n" +
    "- Use keyword-driven approach\n" +
    "- Create reusable keywords\n" +
    "- Use proper resource files structure\n" +
    "- Include meaningful documentation\n" +
    "- Use variables for test data\n" +
    "- Follow Robot Framework naming conventions\n" +
    "- Add proper tags for test organization"

  const PROMPT_ACCESSIBILITY :=
    "You are an expert accessibility auditor. Analyze the provided HTML and identify WCAG 2.1 compliance issues. For each issue:\n" +
    "- Identify the specific WCAG guideline violated\n" +
    "- Classify severity as Error (must fix) or Warning (should fix)\n" +
    "- Provide the exact HTML snippet causing the issue\n" +
    "- Suggest a specific fix with code example\n" +
    "Focus on: color contrast, keyboard navigation, ARIA labels, form labels, image alt text, heading hierarchy, focus indicators."

  const PROMPT_TEST_CASES :=
    "You are an expert QA engineer. Generate comprehensive test cases from the provided user story or requirements. Each test case must include:\n" +
    "- Unique ID\n" +
    "- Category (Functional, UI, Security, Performance, etc.)\n" +
    "- Clear title\n" +
    "- Priority (Critical, High, Medium, Low)\n" +
    "- Preconditions as an array\n" +
    "- Steps with stepNo, action, and optional data\n" +
    "- Expected result\n" +
    "- Relevant tags\n" +
    "- Estimated time in minutes\n" +
    "Return as a JSON array of test case objects."

  /** The prompt names, in the order of the tabs. */
  const PROMPT_KEYS: seq<string> := ["playwright", "cypress", "selenium", "robot", "accessibility", "testCases"]

  const DEFAULT_PROMPTS: Obj := [
    ("playwright", JStr(PROMPT_PLAYWRIGHT)),
    ("cypress", JStr(PROMPT_CYPRESS)),
    ("selenium", JStr(PROMPT_SELENIUM)),
    ("robot", JStr(PROMPT_ROBOT)),
    ("accessibility", JStr(PROMPT_ACCESSIBILITY)),
    ("testCases", JStr(PROMPT_TEST_CASES))
  ]

  /** `defaultSystemPrompts[key]`. */
  function DefaultPrompt(key: string): JsValue {
    Get(DEFAULT_PROMPTS, key)
  }

  /** Every prompt name has a non-empty default, and nothing else has one. */
  lemma DefaultsComplete(key: string)
    ensures DefaultPrompt(key).Some? <==> key in PROMPT_KEYS
    ensures key in PROMPT_KEYS ==> DefaultPrompt(key).value.JStr? && Truthy(DefaultPrompt(key))
  {
    PromptsShape();
    var v := DefaultPrompt(key);
    if v.Some? {
      var i :| 0 <= i < |DEFAULT_PROMPTS| && DEFAULT_PROMPTS[i] == (key, v.value);
      assert key == PROMPT_KEYS[i];
    }
    if key in PROMPT_KEYS {
      var j :| 0 <= j < |PROMPT_KEYS| && PROMPT_KEYS[j] == key;
      assert DEFAULT_PROMPTS[j].0 == key;
    }
  }

  /** The defaults follow the prompt names, each a non-empty text. */
  lemma PromptsShape()
    ensures |DEFAULT_PROMPTS| == |PROMPT_KEYS|
    ensures forall i :: 0 <= i < |DEFAULT_PROMPTS| ==>
      DEFAULT_PROMPTS[i].0 == PROMPT_KEYS[i] && DEFAULT_PROMPTS[i].1.JStr? && Truthy(Some(DEFAULT_PROMPTS[i].1))
  {
    assert |PROMPT_PLAYWRIGHT| > 0 && |PROMPT_CYPRESS| > 0 && |PROMPT_SELENIUM| > 0;
    assert |PROMPT_ROBOT| > 0 && |PROMPT_ACCESSIBILITY| > 0 && |PROMPT_TEST_CASES| > 0;
  }

  // ---------------------------------------------------------------------
  // Editing the local copy
  // ---------------------------------------------------------------------

  /** The stored prompts of some settings, as an object. */
  function Prompts(settings: Obj): Obj {
    Members(if HasKey(settings, "systemPrompts") then Get(settings, "systemPrompts").value else JNull)
  }

  /** `updatePrompt(key, value)`: the settings with one prompt replaced. */
  function UpdatePrompt(settings: Obj, key: string, value: string): (r: Obj)
    ensures Get(Prompts(r), key) == Str(value)
    ensures forall k :: k != "systemPrompts" ==> Get(r, k) == Get(settings, k)
    ensures var before := Get(settings, "systemPrompts");
      before.Some? && before.value.JObj? ==> forall k :: k != key ==> Get(Prompts(r), k) == Get(before.value.members, k)
  {
    Set(settings, "systemPrompts", JObj(Set(ObjectSpread(Get(settings, "systemPrompts")), key, JStr(value))))
  }

  /** `handleReset()`: the prompts go back to the defaults and every other
      setting stays. */
  function Reset(settings: Obj): (r: (Obj, AppState.Toast))
    ensures Prompts(r.0) == DEFAULT_PROMPTS
    ensures forall k :: k != "systemPrompts" ==> Get(r.0, k) == Get(settings, k)
    ensures r.1 == AppState.Toast("System prompts reset to defaults", "info")
  {
    (Set(settings, "systemPrompts", JObj(DEFAULT_PROMPTS)), AppState.Toast("System prompts reset to defaults", "info"))
  }

  /** Editing one of the plain fields (`backendUrl`, `defaultModel`, the
      export flags): `{ ...prev, [name]: value }`. */
  function EditField(settings: Obj, name: string, value: Json): (r: Obj)
    ensures Get(r, name) == Some(value)
    ensures forall k :: k != name ==> Get(r, k) == Get(settings, k)
  {
    Set(settings, name, value)
  }

  /** An export flag's checkbox: ticked unless the flag is `false`
      itself. */
  function FlagChecked(settings: Obj, name: string): (r: bool)
    ensures !HasKey(settings, name) ==> r
    ensures !r <==> Get(settings, name) == Some(JBool(false))
  {
    Get(settings, name) != Some(JBool(false))
  }

  // ---------------------------------------------------------------------
  // The prompt shown
  // ---------------------------------------------------------------------

  /** The text area's content: `settings.systemPrompts?.[active] ||
      defaultSystemPrompts[active]`. */
  function ShownPrompt(settings: Obj, active: string): (r: JsValue)
    ensures Truthy(Prop(Get(settings, "systemPrompts"), active)) ==> r == Prop(Get(settings, "systemPrompts"), active)
    ensures !Truthy(Prop(Get(settings, "systemPrompts"), active)) ==> r == DefaultPrompt(active)
  {
    Or(Prop(Get(settings, "systemPrompts"), active), DefaultPrompt(active))
  }

  /** A prompt typed into the box shows as typed; clearing it shows the
      default again. */
  lemma ShownAfterUpdate(settings: Obj, key: string, value: string)
    ensures value != "" ==> ShownPrompt(UpdatePrompt(settings, key, value), key) == Str(value)
    ensures value == "" ==> ShownPrompt(UpdatePrompt(settings, key, value), key) == DefaultPrompt(key)
  {
    var r := UpdatePrompt(settings, key, value);
    assert Get(r, "systemPrompts").Some? && Get(r, "systemPrompts").value.JObj?;
    assert Prop(Get(r, "systemPrompts"), key) == Get(Prompts(r), key);
  }

  /** After a reset every tab shows its default prompt. */
  lemma ShownAfterReset(settings: Obj, key: string)
    requires key in PROMPT_KEYS
    ensures ShownPrompt(Reset(settings).0, key) == DefaultPrompt(key)
    ensures Truthy(ShownPrompt(Reset(settings).0, key))
  {
    var r := Reset(settings).0;
    assert Get(r, "systemPrompts") == Some(JObj(DEFAULT_PROMPTS));
    DefaultsComplete(key);
  }

  /** A missing or empty stored prompt shows the default. */
  lemma MissingPromptShowsDefault(settings: Obj, key: string)
    requires !HasKey(settings, "systemPrompts") || !HasKey(Prompts(settings), key) || Get(Prompts(settings), key) == Str("")
    ensures ShownPrompt(settings, key) == DefaultPrompt(key)
  {
  }

  // ---------------------------------------------------------------------
  // Save and cancel
  // ---------------------------------------------------------------------

  /** `handleSave()`: the local settings are merged into the store's. */
  function Save(s: AppState.State, local: Obj): (r: (AppState.State, AppState.Toast))
    ensures r.0 == s.(settings := r.0.settings)
    ensures r.1 == AppState.Toast("Settings saved", "success")
  {
    (AppState.Reduce(s, AppState.SetSettings(local)), AppState.Toast("Settings saved", "success"))
  }

  /** Cancel: the local copy becomes the store's settings again. */
  function Cancel(s: AppState.State): (r: Obj)
    ensures r == s.settings
  {
    s.settings
  }

  /** After saving, cancelling shows every saved field as saved and every
      other field as the store had it. */
  lemma SaveThenCancel(s: AppState.State, local: Obj, k: string)
    requires UniqueKeys(local)
    ensures Get(Cancel(Save(s, local).0), k) == if HasKey(local, k) then Get(local, k) else Get(s.settings, k)
  {
    MergeGet(s.settings, local, k);
  }
}

=== FILE: shortcuts.dfy ===
/** The global keyboard shortcuts: a key event becomes at most one of
    opening the quick-create modal, navigating to a page, or closing the
    modals. */
module Shortcuts {
  import opened Wrappers
  import AppState
  import Router

  /** The element the key was pressed in. */
  datatype Target = Target(tagName: string, contentEditable: bool)

  datatype KeyEvent = KeyEvent(target: Target, ctrl: bool, meta: bool, shift: bool, key: string)

  /** What handling the event did: whether the browser default was
      prevented, the actions dispatched, and the hash navigated to. */
  datatype Effect = Effect(prevented: bool, actions: seq<AppState.Action>, hash: Option<string>)

  const NOTHING := Effect(false, [], None)

  predicate Typing(t: Target) {
    t.tagName == "INPUT" || t.tagName == "TEXTAREA" || t.contentEditable
  }

  /** The page a Ctrl/Cmd+Shift letter goes to. */
  function ShiftTarget(key: string): (r: Option<string>)
    ensures r.Some? <==> key in {"T", "S", "A"}
  {
    if key == "T" then Some("/test-cases")
    else if key == "S" then Some("/test-scripts")
    else if key == "A" then Some("/api-testing")
    else None
  }

  /** `handleKeyDown(e)`. */
  function HandleKey(e: KeyEvent): (r: Effect)
    ensures Typing(e.target) ==> r == NOTHING
    ensures r.hash.Some? ==> r.actions == [] && r.prevented
    ensures |r.actions| <= 2
    ensures r.prevented <==> !Typing(e.target) && (e.ctrl || e.meta) && (e.key == "k" || (e.shift && e.key in {"T", "S", "A"}))
  {
    var mod := e.ctrl || e.meta;
    if Typing(e.target) then NOTHING
    else if mod && e.key == "k" then Effect(true, [AppState.OpenModal("quickCreate")], None)
    else if mod && e.shift && ShiftTarget(e.key).Some? then
      Effect(true, [], Some(Router.Navigate(ShiftTarget(e.key).value)))
    else if e.key == "Escape" then
      Effect(false, [AppState.CloseModal("quickCreate"), AppState.CloseModal("apiStatus")], None)
    else NOTHING
  }

  /** Ctrl/Cmd+K opens quick create and does nothing else. */
  lemma QuickCreateOnly(e: KeyEvent)
    requires !Typing(e.target) && (e.ctrl || e.meta) && e.key == "k"
    ensures HandleKey(e) == Effect(true, [AppState.OpenModal("quickCreate")], None)
  {
  }

  /** The page a navigation to `/<name>` renders, for a route's name. */
  lemma SlashRouteRenders(name: string, i: nat)
    requires i < |Router.ROUTES| && Router.ROUTES[i].0 == name && |name| > 0 && name[0] != '/'
    ensures Router.Component(Router.HashPath(Router.Hash(Router.Navigate("/" + name)))) == Router.ROUTES[i].1
  {
    Router.NavigateSlashOptional(name);
    Router.NavigateRenders(i);
  }

  /** Each Ctrl/Cmd+Shift letter shortcut renders its page. */
  lemma ShortcutPages(e: KeyEvent)
    requires !Typing(e.target) && (e.ctrl || e.meta) && e.shift && e.key in {"T", "S", "A"}
    ensures var page := Router.Component(Router.HashPath(Router.Hash(HandleKey(e).hash.value)));
      (e.key == "T" ==> page == Router.TestCases) &&
      (e.key == "S" ==> page == Router.TestScripts) &&
      (e.key == "A" ==> page == Router.ApiTesting)
  {
    if e.key == "T" {
      assert "/test-cases" == "/" + "test-cases";
      SlashRouteRenders("test-cases", 3);
    } else if e.key == "S" {
      assert "/test-scripts" == "/" + "test-scripts";
      SlashRouteRenders("test-scripts", 4);
    } else {
      assert "/api-testing" == "/" + "api-testing";
      SlashRouteRenders("api-testing", 6);
    }
  }

  /** Closing one modal changes only that modal's flag. */
  lemma CloseModalState(s: AppState.State, name: string)
    ensures AppState.Reduce(s, AppState.CloseModal(name)) == s.(modals := s.modals[name := false])
  {
  }

  /** Escape outside a text field closes both modals and leaves the rest
      of the state alone; inside one it does nothing. */
  lemma EscapeClosesModals(s: AppState.State, e: KeyEvent)
    requires e.key == "Escape"
    ensures !Typing(e.target) ==>
      AppState.ReduceAll(s, HandleKey(e).actions) == s.(modals := s.modals["quickCreate" := false]["apiStatus" := false])
    ensures Typing(e.target) ==> AppState.ReduceAll(s, HandleKey(e).actions) == s
  {
    if !Typing(e.target) {
      AppState.ReduceAllShort(s, HandleKey(e).actions);
      CloseModalState(s, "quickCreate");
      CloseModalState(s.(modals := s.modals["quickCreate" := false]), "apiStatus");
    }
  }

  /** Keys without a shortcut have no effect. */
  lemma OtherKeysIgnored(e: KeyEvent)
    requires e.key !in {"k", "T", "S", "A", "Escape"}
    ensures HandleKey(e) == NOTHING
  {
  }
}

=== FILE: test_case_gen.dfy ===
/** The test case generator page: the positive/negative split of the
    generated cases, in-place edits of a cell or a step, the display id of
    a row, the default scenario name, and saving the batch under that
    scenario. */
module TestCaseGenerator {
  import opened Wrappers
  import opened Text
  import opened Json
  import AppState

  // ---------------------------------------------------------------------
  // Positive and negative cases
  // ---------------------------------------------------------------------

  /** `tc.category?.toLowerCase() || ''`: a missing or `null` category reads
      as empty, a category that is not a string has no `toLowerCase`. */
  function CategoryText(tc: Obj): (r: Result<string, Exn>)
    ensures r.Err? <==> Get(tc, "category").Some? && Get(tc, "category") != Some(JNull) && !IsStr(Get(tc, "category"))
    ensures IsStr(Get(tc, "category")) ==> r == Ok(ToLower(Get(tc, "category").value.s))
  {
    var c := Get(tc, "category");
    if c.None? || c == Some(JNull) then Ok("")
    else if c.value.JStr? then Ok(ToLower(c.value.s))
    else Err(TypeError("tc.category?.toLowerCase is not a function"))
  }

  predicate IsNegative(category: string) {
    Contains(category, "negative") || Contains(category, "error") || Contains(category, "edge")
  }

  predicate IsPositive(category: string) {
    Contains(category, "functional") || Contains(category, "positive") || !IsNegative(category)
  }

  /** Whether a case whose category can be read belongs in the negative
      (`negative`) or the positive section. */
  predicate Kept(x: Obj, negative: bool) {
    CategoryText(x).Ok? &&
    (if negative then IsNegative(CategoryText(x).value) else IsPositive(CategoryText(x).value))
  }

  /** The section's test as a value to filter with. */
  function InSection(negative: bool): Obj -> bool {
    (x: Obj) => Kept(x, negative)
  }

  /** The cases kept by one of the two filters, in order, or the first
      category that cannot be lower-cased. */
  function Classify(cases: seq<Obj>, negative: bool): (r: Result<seq<Obj>, Exn>)
    ensures r.Ok? <==> forall x :: x in cases ==> CategoryText(x).Ok?
    ensures r.Ok? ==> r.value == Filter(cases, InSection(negative))
  {
    if |cases| == 0 then Ok([])
    else
      assert cases == [cases[0]] + cases[1..];
      match CategoryText(cases[0])
      case Err(e) => Err(e)
      case Ok(c) =>
        match Classify(cases[1..], negative)
        case Err(e) => Err(e)
        case Ok(rest) =>
          FilterStep(cases, InSection(negative));
          Ok((if Kept(cases[0], negative) then [cases[0]] else []) + rest)
  }

  datatype Sections = Sections(positive: seq<Obj>, negative: seq<Obj>)

  /** `positiveTests` and `negativeTests`: no case is lost, a case is
      negative exactly when its category names negative, error or edge
      cases, and such a case is also positive when its category mentions
      functional or positive tests. */
  function Partition(cases: seq<Obj>): (r: Result<Sections, Exn>)
    ensures r.Ok? <==> forall x :: x in cases ==> CategoryText(x).Ok?
    ensures r.Ok? ==> forall x :: x in cases ==> x in r.value.positive || x in r.value.negative
    ensures r.Ok? ==> forall x :: x in r.value.negative <==> x in cases && IsNegative(CategoryText(x).value)
    ensures r.Ok? ==> forall x :: x in r.value.positive && x in r.value.negative <==>
      x in cases && IsNegative(CategoryText(x).value) &&
      (Contains(CategoryText(x).value, "functional") || Contains(CategoryText(x).value, "positive"))
  {
    var pos :- Classify(cases, false);
    var neg :- Classify(cases, true);
    Ok(Sections(pos, neg))
  }

  /** A "Functional Edge" case is listed under both headings. */
  lemma FunctionalEdgeInBoth()
    ensures IsNegative("functional edge") && IsPositive("functional edge")
  {
    assert OccursAt("functional edge", "edge", 11);
    assert OccursAt("functional edge", "functional", 0);
  }

  // ---------------------------------------------------------------------
  // Editing the generated table
  // ---------------------------------------------------------------------

  /** The case is the one the edit addresses: `tc.id === testCaseId`. */
  predicate Addressed(tc: Obj, id: JsValue) {
    AppState.StrictEquals(Get(tc, "id"), id)
  }

  /** `handleCellEdit(id, field, value)`: only the named field of the
      addressed cases changes. */
  function CellEdit(cases: seq<Obj>, id: JsValue, field: string, value: JsValue): (r: seq<Obj>)
    ensures |r| == |cases|
    ensures forall i :: 0 <= i < |cases| && !Addressed(cases[i], id) ==> r[i] == cases[i]
    ensures forall i :: 0 <= i < |cases| && Addressed(cases[i], id) ==> Get(r[i], field) == value
    ensures forall i, k :: 0 <= i < |cases| && k != field ==> Get(r[i], k) == Get(cases[i], k)
  {
    seq(|cases|, i requires 0 <= i < |cases| =>
      if Addressed(cases[i], id) then SetV(cases[i], field, value) else cases[i])
  }

  function Nulls(n: nat): (r: seq<Json>)
    ensures |r| == n && forall k :: 0 <= k < n ==> r[k] == JNull
  {
    if n == 0 then [] else [JNull] + Nulls(n - 1)
  }

  /** `steps[i] = { ...steps[i], action: value }`: the own properties of
      the old step (none for `null`, a number or a boolean; the indices of
      an array or a string) followed by the action. Writing past the end
      leaves holes, which serialise as `null`. */
  function SetAction(steps: seq<Json>, i: nat, value: JsValue): (r: seq<Json>)
    ensures |r| == if i < |steps| then |steps| else i + 1
    ensures forall k :: 0 <= k < |steps| && k != i ==> r[k] == steps[k]
    ensures r[i].JObj? && Get(r[i].members, "action") == value
    ensures i < |steps| ==> forall k :: k != "action" ==> Get(r[i].members, k) == Get(ObjectSpread(Some(steps[i])), k)
    ensures i >= |steps| ==> forall k :: k != "action" ==> Get(r[i].members, k) == None
  {
    if i < |steps| then steps[i := JObj(SetV(ObjectSpread(Some(steps[i])), "action", value))]
    else steps + Nulls(i - |steps|) + [JObj(SetV([], "action", value))]
  }

  /** `handleStepEdit(id, i, value)`: only the action of step `i` of the
      addressed cases changes, unless one of them holds steps that cannot
      be copied. */
  /** One case under `handleStepEdit`. */
  function StepEditOne(tc: Obj, id: JsValue, i: nat, value: JsValue): (r: Result<Obj, Exn>)
    ensures r.Err? <==> Addressed(tc, id) && Spread(Get(tc, "steps")).Err?
    ensures r.Ok? && !Addressed(tc, id) ==> r.value == tc
    ensures r.Ok? && Addressed(tc, id) ==>
      Get(r.value, "steps") == Some(JArr(SetAction(Spread(Get(tc, "steps")).value, i, value)))
    ensures r.Ok? ==> forall k :: k != "steps" ==> Get(r.value, k) == Get(tc, k)
  {
    if !Addressed(tc, id) then Ok(tc)
    else match Spread(Get(tc, "steps"))
      case Err(e) => Err(e)
      case Ok(steps) => Ok(Set(tc, "steps", JArr(SetAction(steps, i, value))))
  }

  function StepEdit(cases: seq<Obj>, id: JsValue, i: nat, value: JsValue): (r: Result<seq<Obj>, Exn>)
    ensures r.Err? <==> exists j :: 0 <= j < |cases| && StepEditOne(cases[j], id, i, value).Err?
    ensures r.Ok? ==> |r.value| == |cases|
    ensures r.Ok? ==> forall j :: 0 <= j < |cases| ==> Ok(r.value[j]) == StepEditOne(cases[j], id, i, value)
  {
    if |cases| == 0 then Ok([])
    else
      var head :- StepEditOne(cases[0], id, i, value);
      var rest :- StepEdit(cases[1..], id, i, value);
      assert forall j :: 1 <= j < |cases| ==> cases[j] == cases[1..][j - 1];
      Ok([head] + rest)
  }

  /** `handleStepEdit(id, i, value)`: only the action of step `i` of the
      addressed cases changes, and every other property of every case is
      kept, unless an addressed case holds steps that cannot be copied. */
  lemma StepEditChangesOneAction(cases: seq<Obj>, id: JsValue, i: nat, value: JsValue)
    ensures var r := StepEdit(cases, id, i, value);
      r.Err? <==> exists j :: 0 <= j < |cases| && Addressed(cases[j], id) && Spread(Get(cases[j], "steps")).Err?
    ensures var r := StepEdit(cases, id, i, value);
      r.Ok? ==> forall j :: 0 <= j < |cases| && !Addressed(cases[j], id) ==> r.value[j] == cases[j]
    ensures var r := StepEdit(cases, id, i, value);
      r.Ok? ==> forall j :: 0 <= j < |cases| && Addressed(cases[j], id) ==>
        Get(r.value[j], "steps") == Some(JArr(SetAction(Spread(Get(cases[j], "steps")).value, i, value)))
    ensures var r := StepEdit(cases, id, i, value);
      r.Ok? ==> forall j, k :: 0 <= j < |cases| && k != "steps" ==> Get(r.value[j], k) == Get(cases[j], k)
  {
    var r := StepEdit(cases, id, i, value);
    if r.Ok? {
      forall j | 0 <= j < |cases| ensures StepEditOne(cases[j], id, i, value) == Ok(r.value[j]) {
      }
    }
  }

  // ---------------------------------------------------------------------
  // Row ids
  // ---------------------------------------------------------------------

  /** The id column: `TC-` and the table title's first three characters
      upper-cased, then the row number zero-padded to three digits. */
  function RowLabel(title: string, index: nat): (r: string)
    ensures var p := PadStart(NatToString(index + 1), 3, '0');
      r == "TC-" + ToUpper(Take(title, 3)) + "-" + p && |p| >= 3
  {
    "TC-" + ToUpper(Take(title, 3)) + "-" + PadStart(NatToString(index + 1), 3, '0')
  }

  lemma {:induction false} Zeros(k: nat)
    ensures forall j :: 0 <= j < k ==> IsDigit(Repeat('0', k)[j])
    ensures DigitsValue(Repeat('0', k)) == 0
  {
    if k > 0 {
      Zeros(k - 1);
      var z := Repeat('0', k);
      assert z[..k - 1] == Repeat('0', k - 1);
    }
  }

  lemma {:induction false} LeadingZeros(k: nat, s: string)
    requires forall j :: 0 <= j < |s| ==> IsDigit(s[j])
    ensures forall j :: 0 <= j < |Repeat('0', k) + s| ==> IsDigit((Repeat('0', k) + s)[j])
    ensures DigitsValue(Repeat('0', k) + s) == DigitsValue(s)
    decreases |s|
  {
    var z := Repeat('0', k);
    Zeros(k);
    if |s| == 0 {
      assert z + s == z;
    } else {
      LeadingZeros(k, s[..|s| - 1]);
      assert (z + s)[..|z + s| - 1] == z + s[..|s| - 1];
    }
  }

  /** The padded row number reads back as the row number. */
  lemma RowNumber(index: nat)
    ensures var p := PadStart(NatToString(index + 1), 3, '0');
      (forall j :: 0 <= j < |p| ==> IsDigit(p[j])) && DigitsValue(p) == index + 1
  {
    var s := NatToString(index + 1);
    var k := if |s| < 3 then 3 - |s| else 0;
    LeadingZeros(k, s);
    assert PadStart(s, 3, '0') == Repeat('0', k) + s;
    DigitsRoundTrip(index + 1);
  }

  /** Two rows of one table never share an id. */
  lemma RowLabelsDistinct(title: string, a: nat, b: nat)
    requires a != b
    ensures RowLabel(title, a) != RowLabel(title, b)
  {
    var prefix := "TC-" + ToUpper(Take(title, 3)) + "-";
    var pa := PadStart(NatToString(a + 1), 3, '0');
    var pb := PadStart(NatToString(b + 1), 3, '0');
    RowNumber(a);
    RowNumber(b);
    assert RowLabel(title, a)[|prefix|..] == pa;
    assert RowLabel(title, b)[|prefix|..] == pb;
  }

  // ---------------------------------------------------------------------
  // Saving the batch
  // ---------------------------------------------------------------------

  /** `^As a.*?,?\s*` with the `i` flag: the lazy `.*?` matches nothing, so
      only "As a" in any case, an optional comma and the white space after
      it are removed. */
  function StripAsA(line: string): (r: string)
    ensures |r| <= |line| && r == line[|line| - |r|..]
    ensures !(|line| >= 4 && ToLower(line[..4]) == "as a") ==> r == line
  {
    if |line| >= 4 && ToLower(line[..4]) == "as a" then
      var rest := line[4..];
      var afterComma := if |rest| > 0 && rest[0] == ',' then rest[1..] else rest;
      TrimStart(afterComma)
    else line
  }

  /** The name the save dialog proposes: the story's first line without
      its "As a" opening, trimmed and cut to fifty characters, or
      'Test Cases' when nothing is left. */
  function DefaultScenarioName(story: string): (r: string)
    ensures 0 < |r| <= 50
    ensures r != "Test Cases" ==> r == Take(Trim(StripAsA(Split(story, "\n")[0])), 50)
  {
    var line := Split(story, "\n")[0];
    var name := Take(Trim(StripAsA(line)), 50);
    if name == "" then "Test Cases" else name
  }

  /** Because the match is lazy, "As an admin" loses only "As a". */
  lemma LazyMatchKeepsRest()
    ensures StripAsA("As an admin") == "n admin"
  {
    assert ToLower("As an admin"[..4]) == "as a";
    assert "As an admin"[4..] == "n admin";
    assert !IsJsWhitespace('n');
  }

  /** `tc-<timestamp>-<index>`. */
  function SavedId(timestamp: nat, index: nat): string {
    "tc-" + NatToString(timestamp) + "-" + NatToString(index)
  }

  /** The ids given to one batch are pairwise distinct. */
  lemma SavedIdsDistinct(timestamp: nat, a: nat, b: nat)
    requires SavedId(timestamp, a) == SavedId(timestamp, b)
    ensures a == b
  {
    var prefix := "tc-" + NatToString(timestamp) + "-";
    assert SavedId(timestamp, a)[|prefix|..] == NatToString(a);
    assert SavedId(timestamp, b)[|prefix|..] == NatToString(b);
    NatToStringInjective(a, b);
  }

  /** `{ ...tc, id, scenarioTitle, generatedAt }` for the case at `index`. */
  function WithMeta(tc: Obj, timestamp: nat, index: nat, scenario: string, isoNow: string): (r: Obj)
    ensures Get(r, "id") == Str(SavedId(timestamp, index))
    ensures Get(r, "scenarioTitle") == Str(scenario)
    ensures Get(r, "generatedAt") == Str(isoNow)
    ensures forall k :: k !in {"id", "scenarioTitle", "generatedAt"} ==> Get(r, k) == Get(tc, k)
  {
    Set(Set(Set(tc, "id", JStr(SavedId(timestamp, index))), "scenarioTitle", JStr(scenario)), "generatedAt", JStr(isoNow))
  }

  function Stamped(cases: seq<Obj>, timestamp: nat, scenario: string, isoNow: string): (r: seq<Obj>)
    ensures |r| == |cases|
    ensures forall i :: 0 <= i < |cases| ==> r[i] == WithMeta(cases[i], timestamp, i, scenario, isoNow)
  {
    seq(|cases|, i requires 0 <= i < |cases| => WithMeta(cases[i], timestamp, i, scenario, isoNow))
  }

  /** The page's own state around saving. */
  datatype Page = Page(generated: seq<Obj>, scenarioName: string, saveModalOpen: bool)

  datatype Saved = Saved(store: AppState.State, page: Page, reply: Option<AppState.SaveReply>, toast: Option<AppState.Toast>)

  /** `handleSaveConfirm()` at clock reading `timestamp`; `remote` is what
      the database write throws, if anything. The cases go into the store
      before the save is attempted and stay there whatever it answers; the
      page is cleared only on success. */
  function SaveConfirm(store: AppState.State, page: Page, signedIn: bool, timestamp: nat, isoNow: string, remote: Option<Exn>): (r: Saved)
    ensures IsBlank(page.scenarioName) ==>
      r == Saved(store, page, None, Some(AppState.Toast("Please enter a scenario name", "warning")))
    ensures !IsBlank(page.scenarioName) ==>
      r.store == AppState.Reduce(store, AppState.AddTestCases(Stamped(page.generated, timestamp, Trim(page.scenarioName), isoNow)))
    ensures !IsBlank(page.scenarioName) ==> r.reply.Some?
    ensures r.reply.Some? && r.reply.value.success ==> r.page == Page([], "", false) && r.toast.Some?
    ensures r.reply.Some? && !r.reply.value.success ==> r.page == page && r.toast.None?
    ensures r.reply.Some? ==> (r.reply.value.success <==> signedIn && |page.generated| > 0 && remote.None?)
  {
    if IsBlank(page.scenarioName) then
      Saved(store, page, None, Some(AppState.Toast("Please enter a scenario name", "warning")))
    else
      var stamped := Stamped(page.generated, timestamp, Trim(page.scenarioName), isoNow);
      var after := AppState.Reduce(store, AppState.AddTestCases(stamped));
      var reply := AppState.SaveToDatabase(signedIn, Some(JArr(Objects(stamped))), remote);
      AppState.ArraySaveAttempted(signedIn, Objects(stamped));
      if reply.success then
        Saved(after, Page([], "", false), Some(reply),
          Some(AppState.Toast("Saved " + NatToString(|stamped|) + " test cases to \"" + page.scenarioName + "\"", "success")))
      else Saved(after, page, Some(reply), None)
  }

  // ---------------------------------------------------------------------
  // The cell editor
  // ---------------------------------------------------------------------

  /** What a key press in an editable cell saves: the edited text on Enter
      in a single-line cell, the original value on Escape, nothing else. */
  function CellKey(key: string, multiline: bool, edited: JsValue, original: JsValue): (r: Option<JsValue>)
    ensures r.Some? <==> (key == "Enter" && !multiline) || key == "Escape"
    ensures key == "Escape" ==> r == Some(original)
    ensures key == "Enter" && !multiline ==> r == Some(edited)
  {
    if key == "Enter" && !multiline then Some(edited)
    else if key == "Escape" then Some(original)
    else None
  }
}

=== FILE: test_plan.dfy ===
/** The test plan page: the plan form, the set of test types, saving a
    plan (with its traceability matrix) into the store, and loading a
    stored plan back into the form. */
module TestPlanMaker {
  import opened Wrappers
  import opened Text
  import opened Json
  import AppState

  /** The form, one property of the component's `plan` object per field. */
  datatype Form = Form(
    id: JsValue, title: JsValue, scope: JsValue, objectives: JsValue,
    entryCriteria: JsValue, exitCriteria: JsValue, testTypes: JsValue,
    schedule: JsValue, resources: JsValue, risks: JsValue, traceability: JsValue)

  const EMPTY_SCHEDULE: Json := JObj([("startDate", JStr("")), ("endDate", JStr(""))])

  const EMPTY_FORM: Form := Form(
    Str(""), Str(""), Str(""), Str(""), Str(""), Str(""), Some(JArr([])),
    Some(EMPTY_SCHEDULE), Str(""), Str(""), Some(JArr([])))

  // ---------------------------------------------------------------------
  // Test types
  // ---------------------------------------------------------------------

  /** `toggleTestType(type)` on the list: every copy of the type is
      removed when it is present, otherwise it is appended. */
  function ToggleType(types: seq<Json>, ty: string): (r: seq<Json>)
    ensures JStr(ty) in r <==> JStr(ty) !in types
    ensures forall x :: x != JStr(ty) ==> (x in r <==> x in types)
    ensures JStr(ty) !in types ==> r == types + [JStr(ty)]
  {
    if JStr(ty) in types then Filter(types, Other(ty))
    else types + [JStr(ty)]
  }

  /** The test `t => t !== type` of the removing branch. */
  function Other(ty: string): Json -> bool {
    (t: Json) => t != JStr(ty)
  }

  /** Toggling the same type twice restores which types are chosen. */
  lemma ToggleTypeTwice(types: seq<Json>, ty: string)
    ensures forall x :: x in ToggleType(ToggleType(types, ty), ty) <==> x in types
  {
  }

  /** `toggleTestType(type)` on the form. `includes` is looked up on the
      stored value: an array toggles the type; a string tests for the type
      as a substring and, when it is absent, spreads its characters and
      appends the type, but has no `filter` when it is present; a missing
      or `null` value cannot be read, and any other value has no
      `includes`. */
  function ToggleTestType(f: Form, ty: string): (r: Result<Form, Exn>)
    ensures r.Ok? <==>
      f.testTypes.Some? &&
      (f.testTypes.value.JArr? || (f.testTypes.value.JStr? && !Contains(f.testTypes.value.s, ty)))
    ensures r.Ok? && f.testTypes.value.JArr? ==>
      r.value == f.(testTypes := Some(JArr(ToggleType(f.testTypes.value.items, ty))))
    ensures r.Ok? && f.testTypes.value.JStr? ==>
      var s := f.testTypes.value.s;
      r.value == f.(testTypes := r.value.testTypes) &&
      r.value.testTypes.Some? && r.value.testTypes.value.JArr? &&
      |r.value.testTypes.value.items| == |s| + 1 &&
      (forall i :: 0 <= i < |s| ==> r.value.testTypes.value.items[i] == JStr([s[i]])) &&
      r.value.testTypes.value.items[|s|] == JStr(ty)
    ensures f.testTypes.Some? && f.testTypes.value.JStr? && Contains(f.testTypes.value.s, ty) ==>
      r == Err(TypeError("prev.testTypes.filter is not a function"))
    ensures f.testTypes.None? ==> r == Err(TypeError("Cannot read properties of undefined (reading 'includes')"))
    ensures f.testTypes == Some(JNull) ==> r == Err(TypeError("Cannot read properties of null (reading 'includes')"))
  {
    match f.testTypes
    case None => Err(TypeError("Cannot read properties of undefined (reading 'includes')"))
    case Some(JNull) => Err(TypeError("Cannot read properties of null (reading 'includes')"))
    case Some(JArr(types)) => Ok(f.(testTypes := Some(JArr(ToggleType(types, ty)))))
    case Some(JStr(s)) =>
      if Contains(s, ty) then Err(TypeError("prev.testTypes.filter is not a function"))
      else Ok(f.(testTypes := Some(JArr(Spread(f.testTypes).value + [JStr(ty)]))))
    case Some(_) => Err(TypeError("prev.testTypes.includes is not a function"))
  }

  /** A plan stored with a string of test types: the first toggle turns
      it into the list of its characters plus the type, and the second
      takes the type out again, leaving the characters. */
  lemma StringTypesToggledTwice(f: Form, ty: string)
    requires f.testTypes.Some? && f.testTypes.value.JStr? && !Contains(f.testTypes.value.s, ty)
    ensures ToggleTestType(f, ty).Ok?
    ensures ToggleTestType(ToggleTestType(f, ty).value, ty) == Ok(f.(testTypes := Some(JArr(Spread(f.testTypes).value))))
  {
    var s := f.testTypes.value.s;
    var chars := Spread(f.testTypes).value;
    forall i | 0 <= i < |chars| ensures Other(ty)(chars[i]) {
      if chars[i] == JStr(ty) {
        ContainsChar(s, s[i]);
        assert false;
      }
    }
    var longer := chars + [JStr(ty)];
    FilterAppend(chars, [JStr(ty)], Other(ty));
    FilterAll(chars, Other(ty));
    FilterNone([JStr(ty)], Other(ty));
    assert longer[|chars|] == JStr(ty);
    assert ToggleType(longer, ty) == chars;
    var g := f.(testTypes := Some(JArr(longer)));
    assert ToggleTestType(f, ty) == Ok(g);
    assert ToggleTestType(g, ty) == Ok(g.(testTypes := Some(JArr(chars))));
  }

  // ---------------------------------------------------------------------
  // Saving
  // ---------------------------------------------------------------------

  /** `state.testCases.find(t => t.id === tcId)`: the first case with the
      id. */
  function FindCase(cases: seq<Obj>, id: Json): (r: Option<Obj>)
    ensures r.Some? ==> exists i :: 0 <= i < |cases| && cases[i] == r.value && FirstWithId(cases, id, i)
    ensures r.None? ==> forall i :: 0 <= i < |cases| ==> !HasId(cases[i], id)
  {
    if |cases| == 0 then None
    else if HasId(cases[0], id) then
      assert FirstWithId(cases, id, 0);
      Some(cases[0])
    else
      var r := FindCase(cases[1..], id);
      assert forall i :: 1 <= i < |cases| ==> cases[i] == cases[1..][i - 1];
      if r.Some? then
        var i :| 0 <= i < |cases| - 1 && cases[1..][i] == r.value && FirstWithId(cases[1..], id, i);
        assert cases[i + 1] == r.value && FirstWithId(cases, id, i + 1);
        r
      else r
  }

  predicate HasId(tc: Obj, id: Json) {
    AppState.StrictEquals(Get(tc, "id"), Some(id))
  }

  /** The case at `i` has the id and none before it does. */
  predicate FirstWithId(cases: seq<Obj>, id: Json, i: nat)
    requires i < |cases|
  {
    HasId(cases[i], id) && forall j :: 0 <= j < i ==> !HasId(cases[j], id)
  }

  /** The title the matrix shows for a test case id: its title in the
      store, or empty when the id is unknown or the title falsy. */
  function CaseTitle(cases: seq<Obj>, id: Json): (r: JsValue)
    ensures r.Some?
    ensures FindCase(cases, id).None? ==> r == Str("")
    ensures FindCase(cases, id).Some? ==> r == Or(Get(FindCase(cases, id).value, "title"), Str(""))
  {
    match FindCase(cases, id)
    case None => Str("")
    case Some(tc) => Or(Get(tc, "title"), Str(""))
  }

  /** A matrix entry: the test case id, its title, and the stories. */
  function TraceEntry(cases: seq<Obj>, id: Json, stories: seq<Json>): (r: Json)
    ensures r.JObj? && Get(r.members, "testCaseId") == Some(id)
    ensures Get(r.members, "testCaseTitle") == CaseTitle(cases, id)
    ensures Get(r.members, "linkedStories") == Some(JArr(stories))
  {
    var title := CaseTitle(cases, id);
    var pairs := [("testCaseId", Some(id)), ("testCaseTitle", title), ("linkedStories", Some(JArr(stories)))];
    assert DistinctNames(pairs);
    LiteralGet(pairs, 0); LiteralGet(pairs, 1); LiteralGet(pairs, 2);
    JObj(Literal(pairs))
  }

  /** One matrix entry per selected test case, in selection order, each
      linked to every selected story. */
  function Traceability(cases: seq<Obj>, selected: seq<Json>, stories: seq<Json>): (r: seq<Json>)
    ensures |r| == |selected|
    ensures forall i :: 0 <= i < |selected| ==> r[i] == TraceEntry(cases, selected[i], stories)
  {
    seq(|selected|, i requires 0 <= i < |selected| => TraceEntry(cases, selected[i], stories))
  }

  /** The `metadata` object of a saved plan. */
  function Metadata(f: Form, matrix: seq<Json>): (r: Obj)
    ensures Get(r, "scope") == f.scope && Get(r, "objectives") == f.objectives
    ensures Get(r, "entryCriteria") == f.entryCriteria && Get(r, "exitCriteria") == f.exitCriteria
    ensures Get(r, "testTypes") == f.testTypes && Get(r, "schedule") == f.schedule
    ensures Get(r, "resources") == f.resources && Get(r, "risks") == f.risks
    ensures Get(r, "traceabilityMatrix") == Some(JArr(matrix))
  {
    var pairs := [("scope", f.scope), ("objectives", f.objectives), ("entryCriteria", f.entryCriteria),
      ("exitCriteria", f.exitCriteria), ("testTypes", f.testTypes), ("schedule", f.schedule),
      ("resources", f.resources), ("risks", f.risks), ("traceabilityMatrix", Some(JArr(matrix)))];
    assert DistinctNames(pairs);
    LiteralGet(pairs, 0); LiteralGet(pairs, 1); LiteralGet(pairs, 2);
    LiteralGet(pairs, 3); LiteralGet(pairs, 4); LiteralGet(pairs, 5);
    LiteralGet(pairs, 6); LiteralGet(pairs, 7); LiteralGet(pairs, 8);
    Literal(pairs)
  }

  /** The stored object for given field values. */
  function RecordOf(id: JsValue, name: JsValue, description: JsValue, selected: seq<Json>, meta: Obj): (r: Obj)
    ensures Get(r, "id") == id && Get(r, "name") == name && Get(r, "description") == description
    ensures Get(r, "testCases") == Some(JArr(selected)) && Get(r, "status") == Str("draft")
    ensures Get(r, "metadata") == Some(JObj(meta))
  {
    var pairs := [("id", id), ("name", name), ("description", description), ("testCases", Some(JArr(selected))),
      ("status", Str("draft")), ("metadata", Some(JObj(meta)))];
    assert DistinctNames(pairs);
    LiteralGet(pairs, 0); LiteralGet(pairs, 1); LiteralGet(pairs, 2);
    LiteralGet(pairs, 3); LiteralGet(pairs, 4); LiteralGet(pairs, 5);
    Literal(pairs)
  }

  /** The stored plan: `name` is the title and `description` the scope,
      else the objectives, else empty; a falsy id is replaced by the
      clock reading. */
  function PlanRecord(f: Form, selected: seq<Json>, stories: seq<Json>, cases: seq<Obj>, now: nat): (r: Obj)
    ensures Get(r, "id") == Or(f.id, Str(NatToString(now)))
    ensures Get(r, "name") == f.title
    ensures Get(r, "description") == Or(Or(f.scope, f.objectives), Str(""))
    ensures Get(r, "testCases") == Some(JArr(selected))
    ensures Get(r, "status") == Str("draft")
    ensures Get(r, "metadata") == Some(JObj(Metadata(f, Traceability(cases, selected, stories))))
  {
    RecordOf(Or(f.id, Str(NatToString(now))), f.title, Or(Or(f.scope, f.objectives), Str("")),
      selected, Metadata(f, Traceability(cases, selected, stories)))
  }

  /** The page after a save attempt. */
  datatype Saved = Saved(action: Option<AppState.Action>, toast: AppState.Toast,
    form: Form, selectedCases: seq<Json>, selectedStories: seq<Json>)

  /** `handleSave()` at clock reading `now`. A title that is not a string
      has no `trim`. */
  function Save(f: Form, selected: seq<Json>, stories: seq<Json>, cases: seq<Obj>, now: nat): (r: Result<Saved, Exn>)
    ensures r.Err? <==> !IsStr(f.title)
    ensures r.Ok? && IsBlank(f.title.value.s) ==>
      r.value == Saved(None, AppState.Toast("Please enter a title", "warning"), f, selected, stories)
    ensures r.Ok? && !IsBlank(f.title.value.s) ==>
      r.value.form == EMPTY_FORM && r.value.selectedCases == [] && r.value.selectedStories == [] &&
      r.value.toast == AppState.Toast("Test plan saved", "success")
    ensures r.Ok? && !IsBlank(f.title.value.s) && Truthy(f.id) ==>
      r.value.action == Some(AppState.UpdateTestPlan(PlanRecord(f, selected, stories, cases, now)))
    ensures r.Ok? && !IsBlank(f.title.value.s) && !Truthy(f.id) ==>
      r.value.action == Some(AppState.AddTestPlan(PlanRecord(f, selected, stories, cases, now)))
  {
    if !IsStr(f.title) then Err(TypeError("plan.title.trim is not a function"))
    else if IsBlank(f.title.value.s) then
      Ok(Saved(None, AppState.Toast("Please enter a title", "warning"), f, selected, stories))
    else
      var record := PlanRecord(f, selected, stories, cases, now);
      var action := if Truthy(f.id) then AppState.UpdateTestPlan(record) else AppState.AddTestPlan(record);
      Ok(Saved(Some(action), AppState.Toast("Test plan saved", "success"), EMPTY_FORM, [], []))
  }

  // ---------------------------------------------------------------------
  // Loading
  // ---------------------------------------------------------------------

  /** `v?.[0]`. */
  function First(v: JsValue): (r: JsValue)
    ensures v.Some? && v.value.JArr? && |v.value.items| > 0 ==> r == Some(v.value.items[0])
  {
    if v.Some? && v.value.JArr? && |v.value.items| > 0 then Some(v.value.items[0])
    else Prop(v, "0")
  }

  datatype Loaded = Loaded(form: Form, selectedCases: JsValue, selectedStories: JsValue)

  /** A field as `stored || empty` reads it back: a truthy stored value
      unchanged, anything falsy (missing, `null`, `""`, `0`, `false`) as
      the empty value. */
  predicate Restored(field: JsValue, stored: JsValue, empty: Json) {
    (Truthy(stored) ==> field == stored) && (!Truthy(stored) ==> field == Some(empty))
  }

  /** `loadPlan(p)`: the stored record back into the form, with every
      falsy field replaced by its empty value, the selected test cases
      restored, and the selected stories taken from the first matrix
      entry only. */
  function LoadPlan(p: Json): (r: Loaded)
    ensures r.form.id == Prop(Some(p), "id")
    ensures Restored(r.form.title, Prop(Some(p), "name"), JStr(""))
    ensures var meta := Prop(Some(p), "metadata");
      Restored(r.form.scope, Prop(meta, "scope"), JStr("")) &&
      Restored(r.form.objectives, Prop(meta, "objectives"), JStr("")) &&
      Restored(r.form.entryCriteria, Prop(meta, "entryCriteria"), JStr("")) &&
      Restored(r.form.exitCriteria, Prop(meta, "exitCriteria"), JStr("")) &&
      Restored(r.form.resources, Prop(meta, "resources"), JStr("")) &&
      Restored(r.form.risks, Prop(meta, "risks"), JStr(""))
    ensures var meta := Prop(Some(p), "metadata");
      Restored(r.form.testTypes, Prop(meta, "testTypes"), JArr([])) &&
      Restored(r.form.schedule, Prop(meta, "schedule"), EMPTY_SCHEDULE) &&
      Restored(r.form.traceability, Prop(meta, "traceabilityMatrix"), JArr([]))
    ensures Restored(r.selectedCases, Prop(Some(p), "testCases"), JArr([]))
    ensures var matrix := Prop(Prop(Some(p), "metadata"), "traceabilityMatrix");
      matrix.Some? && matrix.value.JArr? && |matrix.value.items| > 0 ==>
        Restored(r.selectedStories, Prop(Some(matrix.value.items[0]), "linkedStories"), JArr([]))
    ensures var matrix := Prop(Prop(Some(p), "metadata"), "traceabilityMatrix");
      matrix.Some? && matrix.value.JObj? ==>
        Restored(r.selectedStories, Prop(Get(matrix.value.members, "0"), "linkedStories"), JArr([]))
    ensures var matrix := Prop(Prop(Some(p), "metadata"), "traceabilityMatrix");
      !(matrix.Some? && (matrix.value.JObj? || (matrix.value.JArr? && |matrix.value.items| > 0))) ==>
        r.selectedStories == Some(JArr([]))
  {
    var meta := Prop(Some(p), "metadata");
    Loaded(
      Form(Prop(Some(p), "id"), Or(Prop(Some(p), "name"), Str("")),
        Or(Prop(meta, "scope"), Str("")), Or(Prop(meta, "objectives"), Str("")),
        Or(Prop(meta, "entryCriteria"), Str("")), Or(Prop(meta, "exitCriteria"), Str("")),
        Or(Prop(meta, "testTypes"), Some(JArr([]))), Or(Prop(meta, "schedule"), Some(EMPTY_SCHEDULE)),
        Or(Prop(meta, "resources"), Str("")), Or(Prop(meta, "risks"), Str("")),
        Or(Prop(meta, "traceabilityMatrix"), Some(JArr([])))),
      Or(Prop(Some(p), "testCases"), Some(JArr([]))),
      Or(Prop(First(Prop(meta, "traceabilityMatrix")), "linkedStories"), Some(JArr([]))))
  }

  /** The form as the page's inputs produce it: text fields hold strings,
      the test types an array and the schedule an object. */
  predicate WellFormed(f: Form) {
    IsStr(f.title) && IsStr(f.scope) && IsStr(f.objectives) && IsStr(f.entryCriteria) &&
    IsStr(f.exitCriteria) && IsStr(f.resources) && IsStr(f.risks) &&
    f.testTypes.Some? && f.testTypes.value.JArr? && f.schedule.Some? && f.schedule.value.JObj?
  }

  lemma StringSurvivesOr(v: JsValue)
    requires IsStr(v)
    ensures Or(v, Str("")) == v
  {
  }

  /** Loading a stored record reads its fields and its metadata's. */
  lemma LoadRecord(id: JsValue, name: JsValue, description: JsValue, selected: seq<Json>, meta: Obj)
    ensures LoadPlan(JObj(RecordOf(id, name, description, selected, meta))) == Loaded(
      Form(id, Or(name, Str("")),
        Or(Get(meta, "scope"), Str("")), Or(Get(meta, "objectives"), Str("")),
        Or(Get(meta, "entryCriteria"), Str("")), Or(Get(meta, "exitCriteria"), Str("")),
        Or(Get(meta, "testTypes"), Some(JArr([]))), Or(Get(meta, "schedule"), Some(EMPTY_SCHEDULE)),
        Or(Get(meta, "resources"), Str("")), Or(Get(meta, "risks"), Str("")),
        Or(Get(meta, "traceabilityMatrix"), Some(JArr([])))),
      Some(JArr(selected)),
      Or(Prop(First(Get(meta, "traceabilityMatrix")), "linkedStories"), Some(JArr([]))))
  {
    var r := RecordOf(id, name, description, selected, meta);
    LoadObject(r, id, name, selected, meta);
  }

  /** Loading an object whose metadata is `meta` reads the form's fields
      from `meta`. */
  lemma LoadObject(r: Obj, id: JsValue, name: JsValue, selected: seq<Json>, meta: Obj)
    requires Get(r, "metadata") == Some(JObj(meta))
    requires Get(r, "id") == id && Get(r, "name") == name && Get(r, "testCases") == Some(JArr(selected))
    ensures LoadPlan(JObj(r)) == Loaded(
      Form(id, Or(name, Str("")),
        Or(Get(meta, "scope"), Str("")), Or(Get(meta, "objectives"), Str("")),
        Or(Get(meta, "entryCriteria"), Str("")), Or(Get(meta, "exitCriteria"), Str("")),
        Or(Get(meta, "testTypes"), Some(JArr([]))), Or(Get(meta, "schedule"), Some(EMPTY_SCHEDULE)),
        Or(Get(meta, "resources"), Str("")), Or(Get(meta, "risks"), Str("")),
        Or(Get(meta, "traceabilityMatrix"), Some(JArr([])))),
      Some(JArr(selected)),
      Or(Prop(First(Get(meta, "traceabilityMatrix")), "linkedStories"), Some(JArr([]))))
  {
  }

  /** Saving a well-formed plan and loading the stored record back gives
      the same title, scope, objectives, criteria, test types, schedule,
      resources and risks, the selected test cases, and the matrix that
      was stored; the selected stories come back whenever at least one
      test case was linked. */
  lemma SaveLoadRoundTrip(f: Form, selected: seq<Json>, stories: seq<Json>, cases: seq<Obj>, now: nat)
    requires WellFormed(f)
    ensures var back := LoadPlan(JObj(PlanRecord(f, selected, stories, cases, now)));
      back.form == f.(id := Or(f.id, Str(NatToString(now))),
        traceability := Some(JArr(Traceability(cases, selected, stories)))) &&
      back.selectedCases == Some(JArr(selected))
    ensures |selected| > 0 ==>
      LoadPlan(JObj(PlanRecord(f, selected, stories, cases, now))).selectedStories == Some(JArr(stories))
    ensures |selected| == 0 ==>
      LoadPlan(JObj(PlanRecord(f, selected, stories, cases, now))).selectedStories == Some(JArr([]))
  {
    var matrix := Traceability(cases, selected, stories);
    var meta := Metadata(f, matrix);
    var id := Or(f.id, Str(NatToString(now)));
    var record := RecordOf(id, f.title, Or(Or(f.scope, f.objectives), Str("")), selected, meta);
    assert PlanRecord(f, selected, stories, cases, now) == record;
    LoadRecord(id, f.title, Or(Or(f.scope, f.objectives), Str("")), selected, meta);
    LoadedFields(f, id, matrix);
    StoriesBack(cases, selected, stories);
  }

  /** The stories linked in the first matrix entry, as loading reads them. */
  lemma StoriesBack(cases: seq<Obj>, selected: seq<Json>, stories: seq<Json>)
    ensures var matrix := Traceability(cases, selected, stories);
      Or(Prop(First(Some(JArr(matrix))), "linkedStories"), Some(JArr([]))) ==
      if |selected| > 0 then Some(JArr(stories)) else Some(JArr([]))
  {
    var matrix := Traceability(cases, selected, stories);
    if |selected| > 0 {
      assert First(Some(JArr(matrix))) == Some(matrix[0]);
      var entry := TraceEntry(cases, selected[0], stories);
      assert matrix[0] == entry;
      assert Prop(Some(entry), "linkedStories") == Some(JArr(stories));
    }
  }

  /** The form read back from the metadata written for it. */
  lemma LoadedFields(f: Form, id: JsValue, matrix: seq<Json>)
    requires WellFormed(f)
    ensures var meta := Metadata(f, matrix);
      Form(id, Or(f.title, Str("")),
        Or(Get(meta, "scope"), Str("")), Or(Get(meta, "objectives"), Str("")),
        Or(Get(meta, "entryCriteria"), Str("")), Or(Get(meta, "exitCriteria"), Str("")),
        Or(Get(meta, "testTypes"), Some(JArr([]))), Or(Get(meta, "schedule"), Some(EMPTY_SCHEDULE)),
        Or(Get(meta, "resources"), Str("")), Or(Get(meta, "risks"), Str("")),
        Or(Get(meta, "traceabilityMatrix"), Some(JArr([])))) ==
      f.(id := id, traceability := Some(JArr(matrix)))
  {
    StringSurvivesOr(f.title);
    StringSurvivesOr(f.scope);
    StringSurvivesOr(f.objectives);
    StringSurvivesOr(f.entryCriteria);
    StringSurvivesOr(f.exitCriteria);
    StringSurvivesOr(f.resources);
    StringSurvivesOr(f.risks);
  }
}

=== FILE: text.dfy ===
/** The JavaScript string operations the application relies on: `indexOf`,
    `includes`, `split`/`join` on a separator, `trim`, `slice`, `padStart`,
    the decimal rendering of a number, and ASCII case mapping. Strings are
    sequences of Unicode scalar values (`seq<char>`). */
module Text {
  import opened Wrappers

  // ---------------------------------------------------------------------
  // Character classes
  // ---------------------------------------------------------------------

  /** The line terminators of ECMAScript (section 12.3 of ECMA-262); a regular
      expression's `.` does not match them and `^`/`$` in multiline mode
      anchor at them. */
  predicate IsLineTerminator(c: char) {
    c == '\n' || c == '\r' || c == '\U{2028}' || c == '\U{2029}'
  }

  /** The characters `String.prototype.trim` and the class `\s` treat as white
      space: ECMAScript WhiteSpace plus LineTerminator. */
  predicate IsJsWhitespace(c: char) {
    c == '\t' || c == '\U{000B}' || c == '\U{000C}' || c == ' ' || c == '\U{00A0}'
    || c == '\U{1680}' || ('\U{2000}' <= c <= '\U{200A}') || c == '\U{202F}'
    || c == '\U{205F}' || c == '\U{3000}' || c == '\U{FEFF}' || IsLineTerminator(c)
  }

  /** The class `\w` of a regular expression: ASCII letters, digits and `_`. */
  predicate IsWordChar(c: char) {
    ('a' <= c <= 'z') || ('A' <= c <= 'Z') || ('0' <= c <= '9') || c == '_'
  }

  predicate IsDigit(c: char) { '0' <= c <= '9' }

  // ---------------------------------------------------------------------
  // Searching
  // ---------------------------------------------------------------------

  /** `sub` occurs in `s` starting at index `i`. */
  predicate OccursAt(s: string, sub: string, i: nat) {
    i + |sub| <= |s| && s[i..i + |sub|] == sub
  }

  /** `s.indexOf(sub)`: the first index at which `sub` occurs, if any. */
  function Find(s: string, sub: string): (r: Option<nat>)
    ensures r.Some? ==> OccursAt(s, sub, r.value)
    ensures r.Some? ==> forall j :: 0 <= j < r.value ==> !OccursAt(s, sub, j)
    ensures r.None? ==> forall j :: 0 <= j <= |s| ==> !OccursAt(s, sub, j)
    decreases |s|
  {
    if |s| < |sub| then None
    else if s[..|sub|] == sub then Some(0)
    else
      match Find(s[1..], sub)
      case None =>
        assert forall j :: 1 <= j <= |s| ==> OccursAt(s, sub, j) == OccursAt(s[1..], sub, j - 1);
        None
      case Some(i) =>
        assert forall j :: 1 <= j <= |s| ==> OccursAt(s, sub, j) == OccursAt(s[1..], sub, j - 1);
        Some(i + 1)
  }

  /** `s.includes(sub)`. */
  predicate Contains(s: string, sub: string) {
    Find(s, sub).Some?
  }

  lemma ContainsChar(s: string, c: char)
    ensures Contains(s, [c]) <==> c in s
  {
    if Contains(s, [c]) {
      var i := Find(s, [c]).value;
      assert s[i..i + 1] == [c];
      assert s[i] == c;
    } else if c in s {
      var i :| 0 <= i < |s| && s[i] == c;
      assert s[i..i + 1] == [c];
      assert OccursAt(s, [c], i);
    }
  }

  /** Every text includes the empty text. */
  lemma ContainsEmpty(s: string)
    ensures Contains(s, "")
  {
    assert OccursAt(s, "", 0);
  }

  lemma ContainsPrefix(s: string, sub: string)
    requires sub <= s
    ensures Contains(s, sub)
  {
    assert s[0..|sub|] == sub;
    assert OccursAt(s, sub, 0);
  }

  // ---------------------------------------------------------------------
  // split / join
  // ---------------------------------------------------------------------

  /** `s.split(sep)` for a non-empty separator: the pieces between successive
      non-overlapping occurrences of `sep`, scanning left to right. */
  function Split(s: string, sep: string): (r: seq<string>)
    requires |sep| > 0
    ensures |r| >= 1
    decreases |s|
  {
    match Find(s, sep)
    case None => [s]
    case Some(i) => [s[..i]] + Split(s[i + |sep|..], sep)
  }

  /** No piece of a split contains the separator. */
  lemma {:induction false} SplitPiecesFree(s: string, sep: string)
    requires |sep| > 0
    ensures forall k :: 0 <= k < |Split(s, sep)| ==> !Contains(Split(s, sep)[k], sep)
    decreases |s|
  {
    match Find(s, sep)
    case None =>
    case Some(i) =>
      NoEarlierOccurrence(s, sep, i);
      SplitPiecesFree(s[i + |sep|..], sep);
  }

  /** A prefix that ends before the first occurrence of `sub` does not contain it. */
  lemma NoEarlierOccurrence(s: string, sub: string, i: nat)
    requires i <= |s|
    requires forall j :: 0 <= j < i ==> !OccursAt(s, sub, j)
    requires |sub| > 0
    ensures !Contains(s[..i], sub)
  {
    if Contains(s[..i], sub) {
      var j := Find(s[..i], sub).value;
      assert s[..i][j..j + |sub|] == s[j..j + |sub|];
      assert OccursAt(s, sub, j);
    }
  }

  /** `parts.join(sep)`. */
  function Join(parts: seq<string>, sep: string): (r: string)
    ensures |parts| == 1 ==> r == parts[0]
    ensures |parts| == 0 ==> r == ""
  {
    if |parts| == 0 then ""
    else if |parts| == 1 then parts[0]
    else parts[0] + sep + Join(parts[1..], sep)
  }

  /** Splitting on a separator and joining on the same separator gives the
      string back. */
  lemma {:induction false} JoinSplit(s: string, sep: string)
    requires |sep| > 0
    ensures Join(Split(s, sep), sep) == s
    decreases |s|
  {
    match Find(s, sep)
    case None =>
    case Some(i) =>
      var rest := s[i + |sep|..];
      var tail := Split(rest, sep);
      assert Split(s, sep) == [s[..i]] + tail;
      JoinSplit(rest, sep);
      JoinCons(s[..i], tail, sep);
      assert s[i..i + |sep|] == sep;
      Recompose(s, i, |sep|);
  }

  /** A string is its prefix, a middle slice and its suffix put together. */
  lemma Recompose(s: string, i: nat, k: nat)
    requires i + k <= |s|
    ensures s == s[..i] + s[i..i + k] + s[i + k..]
  {
  }

  lemma JoinCons(x: string, tail: seq<string>, sep: string)
    requires |tail| >= 1
    ensures Join([x] + tail, sep) == x + sep + Join(tail, sep)
  {
    assert ([x] + tail)[1..] == tail;
  }

  /** Joining pieces that do not contain a one-character separator and
      splitting the result on it gives the pieces back. */
  lemma {:induction false} SplitJoin(parts: seq<string>, c: char)
    requires |parts| >= 1
    requires forall k :: 0 <= k < |parts| ==> c !in parts[k]
    ensures Split(Join(parts, [c]), [c]) == parts
    decreases |parts|
  {
    var head := parts[0];
    ContainsChar(head, c);
    if |parts| == 1 {
      assert Join(parts, [c]) == head;
      assert Find(head, [c]).None?;
    } else {
      var rest := Join(parts[1..], [c]);
      var s := head + [c] + rest;
      assert Join(parts, [c]) == s;
      FindAfterFree(head, c, rest);
      assert s[|head| + 1..] == rest;
      assert s[..|head|] == head;
      SplitJoin(parts[1..], c);
      assert [head] + parts[1..] == parts;
    }
  }

  /** In `x + [c] + y` with `c` absent from `x`, the first `c` is the one after `x`. */
  lemma FindAfterFree(x: string, c: char, y: string)
    requires c !in x
    ensures Find(x + [c] + y, [c]) == Some(|x|)
  {
    var s := x + [c] + y;
    assert s[|x|..|x| + 1] == [c];
    assert OccursAt(s, [c], |x|);
    forall j | 0 <= j < |x|
      ensures !OccursAt(s, [c], j)
    {
      assert s[j] == x[j];
    }
  }

  // ---------------------------------------------------------------------
  // slicing and padding
  // ---------------------------------------------------------------------

  /** `s.slice(0, n)` for `n >= 0`. */
  function Take<T>(s: seq<T>, n: nat): (r: seq<T>)
    ensures |r| == if n < |s| then n else |s|
    ensures r <= s
  {
    if n < |s| then s[..n] else s
  }

  /** `s.slice(n)` for `n >= 0`. */
  function Drop<T>(s: seq<T>, n: nat): (r: seq<T>)
    ensures |r| == if n < |s| then |s| - n else 0
    ensures Take(s, n) + r == s
  {
    if n < |s| then s[n..] else []
  }

  /** `sub` is `items` with some elements left out and the rest kept in
      their order. */
  predicate IsSubsequence<T(==)>(sub: seq<T>, items: seq<T>)
    decreases |items|
  {
    if |sub| == 0 then true
    else if |items| == 0 then false
    else (sub[0] == items[0] && IsSubsequence(sub[1..], items[1..])) || IsSubsequence(sub, items[1..])
  }

  /** `items.filter(keep)`: the kept items in their order, each as often
      as it occurs (`FilterKeepsOrder`). */
  function Filter<T(!new)>(items: seq<T>, keep: T -> bool): (r: seq<T>)
    ensures forall x :: x in r <==> x in items && keep(x)
    ensures |r| <= |items|
  {
    if |items| == 0 then []
    else
      var rest := Filter(items[1..], keep);
      assert items == [items[0]] + items[1..];
      if keep(items[0]) then [items[0]] + rest else rest
  }

  /** The filtered list is the input with the rejected items left out:
      the kept items stay in their order, each as often as it occurs. */
  lemma {:induction false} FilterKeepsOrder<T(!new)>(items: seq<T>, keep: T -> bool)
    ensures IsSubsequence(Filter(items, keep), items)
    ensures forall x :: multiset(Filter(items, keep))[x] == if keep(x) then multiset(items)[x] else 0
    decreases |items|
  {
    if |items| > 0 {
      FilterKeepsOrder(items[1..], keep);
      var rest := Filter(items[1..], keep);
      assert items == [items[0]] + items[1..];
      if keep(items[0]) {
        assert ([items[0]] + rest)[1..] == rest;
      }
    }
  }

  /** One step of `Filter`: the first item, if kept, then the filtered
      rest. */
  lemma FilterStep<T(!new)>(items: seq<T>, keep: T -> bool)
    requires |items| > 0
    ensures Filter(items, keep) == (if keep(items[0]) then [items[0]] else []) + Filter(items[1..], keep)
  {
  }

  /** Filtering keeps the survivors in their original order. */
  lemma {:induction false} FilterAppend<T(!new)>(a: seq<T>, b: seq<T>, keep: T -> bool)
    ensures Filter(a + b, keep) == Filter(a, keep) + Filter(b, keep)
    decreases |a|
  {
    if |a| > 0 {
      assert (a + b)[1..] == a[1..] + b;
      FilterAppend(a[1..], b, keep);
    } else {
      assert a + b == b;
    }
  }

  /** Filtering a list of which every item survives changes nothing. */
  lemma {:induction false} FilterAll<T(!new)>(items: seq<T>, keep: T -> bool)
    requires forall i :: 0 <= i < |items| ==> keep(items[i])
    ensures Filter(items, keep) == items
    decreases |items|
  {
    if |items| > 0 {
      FilterAll(items[1..], keep);
    }
  }

  /** Filtering a list of which no item survives leaves nothing. */
  lemma {:induction false} FilterNone<T(!new)>(items: seq<T>, keep: T -> bool)
    requires forall i :: 0 <= i < |items| ==> !keep(items[i])
    ensures Filter(items, keep) == []
    decreases |items|
  {
    if |items| > 0 {
      FilterNone(items[1..], keep);
    }
  }

  function Repeat(c: char, n: nat): (r: string)
    ensures |r| == n
    ensures forall k :: 0 <= k < n ==> r[k] == c
  {
    if n == 0 then "" else [c] + Repeat(c, n - 1)
  }

  /** `s.padStart(width, c)` for a one-character pad. */
  function PadStart(s: string, width: nat, c: char): (r: string)
    ensures |r| == if |s| < width then width else |s|
    ensures r[|r| - |s|..] == s
    ensures forall k :: 0 <= k < |r| - |s| ==> r[k] == c
  {
    if |s| < width then Repeat(c, width - |s|) + s else s
  }

  // ---------------------------------------------------------------------
  // trim
  // ---------------------------------------------------------------------

  function TrimStart(s: string): (r: string)
    ensures |r| <= |s| && r == s[|s| - |r|..]
    ensures |r| > 0 ==> !IsJsWhitespace(r[0])
    ensures forall k :: 0 <= k < |s| - |r| ==> IsJsWhitespace(s[k])
  {
    if |s| > 0 && IsJsWhitespace(s[0]) then TrimStart(s[1..]) else s
  }

  function TrimEnd(s: string): (r: string)
    ensures |r| <= |s| && r == s[..|r|]
    ensures |r| > 0 ==> !IsJsWhitespace(r[|r| - 1])
    ensures forall k :: |r| <= k < |s| ==> IsJsWhitespace(s[k])
  {
    if |s| > 0 && IsJsWhitespace(s[|s| - 1]) then TrimEnd(s[..|s| - 1]) else s
  }

  /** `s.trim()`: the longest slice of `s` that neither starts nor ends with
      white space, once all leading and trailing white space is removed. */
  function Trim(s: string): (r: string)
    ensures LeadingSpace(s) + |r| <= |s|
    ensures r == s[LeadingSpace(s)..LeadingSpace(s) + |r|]
    ensures |r| > 0 ==> !IsJsWhitespace(r[0]) && !IsJsWhitespace(r[|r| - 1])
    ensures forall k :: 0 <= k < |s| && !IsJsWhitespace(s[k]) ==> |r| > 0
  {
    var a := TrimStart(s);
    var b := TrimEnd(a);
    assert b == s[|s| - |a|..][..|b|];
    TrimKeepsText(s, a, b);
    b
  }

  /** Whatever is not white space survives trimming both ends. */
  lemma TrimKeepsText(s: string, a: string, b: string)
    requires |a| <= |s| && a == s[|s| - |a|..] && forall k :: 0 <= k < |s| - |a| ==> IsJsWhitespace(s[k])
    requires |b| <= |a| && b == a[..|b|] && forall k :: |b| <= k < |a| ==> IsJsWhitespace(a[k])
    ensures forall k :: 0 <= k < |s| && !IsJsWhitespace(s[k]) ==> |b| > 0
  {
    forall k | 0 <= k < |s| && !IsJsWhitespace(s[k]) ensures |b| > 0 {
      if k >= |s| - |a| {
        assert s[k] == a[k - (|s| - |a|)];
        assert !IsJsWhitespace(a[k - (|s| - |a|)]);
      }
    }
  }

  /** How many white-space characters `s.trim()` removes from the front. */
  function LeadingSpace(s: string): (n: nat)
    ensures n <= |s|
    ensures forall k :: 0 <= k < n ==> IsJsWhitespace(s[k])
  {
    |s| - |TrimStart(s)|
  }

  /** A string without white space at either end is its own trim. */
  lemma TrimNoop(s: string)
    requires |s| > 0 ==> !IsJsWhitespace(s[0]) && !IsJsWhitespace(s[|s| - 1])
    ensures Trim(s) == s
  {
  }

  /** `s.trim()` is empty exactly when `s` is all white space. */
  predicate IsBlank(s: string) {
    Trim(s) == ""
  }

  lemma BlankIffAllWhitespace(s: string)
    ensures IsBlank(s) <==> forall k :: 0 <= k < |s| ==> IsJsWhitespace(s[k])
  {
    if forall k :: 0 <= k < |s| ==> IsJsWhitespace(s[k]) {
      AllWhitespaceTrimsEmpty(s);
    }
  }

  lemma {:induction false} AllWhitespaceTrimsEmpty(s: string)
    requires forall k :: 0 <= k < |s| ==> IsJsWhitespace(s[k])
    ensures TrimStart(s) == ""
    decreases |s|
  {
    if |s| > 0 {
      AllWhitespaceTrimsEmpty(s[1..]);
    }
  }

  // ---------------------------------------------------------------------
  // case mapping (ASCII letters only)
  // ---------------------------------------------------------------------

  function LowerChar(c: char): char {
    if 'A' <= c <= 'Z' then (c as int + 32) as char else c
  }

  function UpperChar(c: char): char {
    if 'a' <= c <= 'z' then (c as int - 32) as char else c
  }

  function ToLower(s: string): (r: string)
    ensures |r| == |s|
    ensures forall k :: 0 <= k < |s| ==> r[k] == LowerChar(s[k])
  {
    if |s| == 0 then "" else [LowerChar(s[0])] + ToLower(s[1..])
  }

  function ToUpper(s: string): (r: string)
    ensures |r| == |s|
    ensures forall k :: 0 <= k < |s| ==> r[k] == UpperChar(s[k])
  {
    if |s| == 0 then "" else [UpperChar(s[0])] + ToUpper(s[1..])
  }

  // ---------------------------------------------------------------------
  // decimal numbers
  // ---------------------------------------------------------------------

  function DigitChar(d: nat): char
    requires d < 10
  {
    ('0' as int + d) as char
  }

  /** `String(n)` for a natural number: its decimal digits, no leading zero. */
  function NatToString(n: nat): (r: string)
    ensures |r| >= 1
    ensures forall k :: 0 <= k < |r| ==> IsDigit(r[k])
    ensures |r| > 1 ==> r[0] != '0'
  {
    if n < 10 then [DigitChar(n)] else NatToString(n / 10) + [DigitChar(n % 10)]
  }

  function DigitValue(c: char): nat
    requires IsDigit(c)
  {
    c as int - '0' as int
  }

  /** The value of a string of decimal digits. */
  function DigitsValue(s: string): nat
    requires forall k :: 0 <= k < |s| ==> IsDigit(s[k])
  {
    if |s| == 0 then 0 else DigitsValue(s[..|s| - 1]) * 10 + DigitValue(s[|s| - 1])
  }

  /** Reading the decimal rendering of a number gives the number back. */
  lemma {:induction false} DigitsRoundTrip(n: nat)
    ensures DigitsValue(NatToString(n)) == n
  {
    if n >= 10 {
      var s := NatToString(n);
      DigitsRoundTrip(n / 10);
      assert s[..|s| - 1] == NatToString(n / 10);
    }
  }

  /** Distinct numbers have distinct decimal renderings. */
  lemma NatToStringInjective(a: nat, b: nat)
    requires NatToString(a) == NatToString(b)
    ensures a == b
  {
    DigitsRoundTrip(a);
    DigitsRoundTrip(b);
  }

  /** `String(n)` for any integer. */
  function IntToString(n: int): (r: string)
    ensures |r| >= 1
    ensures n >= 0 ==> r == NatToString(n)
    ensures n < 0 ==> r[0] == '-' && r[1..] == NatToString(-n)
  {
    if n >= 0 then NatToString(n) else "-" + NatToString(-n)
  }
}

=== FILE: wrappers.dfy ===
/** Failure-carrying values shared by every module: `Option` for values that
    may be missing (a JavaScript `undefined`, a header that is not there) and
    `Result` for operations that either produce a value or raise an error. */
module Wrappers {

  datatype Option<+T> = None | Some(value: T) {
    predicate IsFailure() { None? }

    function PropagateFailure<U>(): Option<U>
      requires None?
    {
      None
    }

    function Extract(): T
      requires Some?
    {
      value
    }

    function GetOr(default: T): T {
      if Some? then value else default
    }
  }

  datatype Result<+T, +E> = Ok(value: T) | Err(error: E) {
    predicate IsFailure() { Err? }

    function PropagateFailure<U>(): Result<U, E>
      requires Err?
    {
      Err(error)
    }

    function Extract(): T
      requires Ok?
    {
      value
    }
  }
}
